=== FILE: README.md ===
# A verified model of the Create driver portal

Create is a web portal for the drivers of a transport company. Drivers use it to log their working hours and see what they earn, keep track of the expiry dates of their documents and trainings, read messages from management, and see who is on shift or on dispatch duty today. A set of Netlify serverless functions backs it, over a PostgreSQL database. The project models in Dafny:

- **The server functions**, as pure functions from a request and the database tables to a reply and new tables:
  - `auth.js`: log in, register, verify a token.
  - `users.js`: administrators list and delete users.
  - `messages.js`: management messages, readable by any signed-in user and editable by administrators.
  - `time-entries.js`: each user's own working-time records.
  - `documents.js`: a driver's documents, grouped by type.

  JSON Web Tokens and bcrypt digests are idealised oracles (module `Crypto`). The database is a set of in-memory tables (module `Store`). That module also models how PostgreSQL coerces a JSON value bound to a query parameter.
- **The client services:**
  - `mockApi.js` is the in-memory backend used for local development. It is a class whose methods update its lists in place.
  - `realtime.js` is the live-update service: a listener registry, a connection flag, reconnection with exponential back-off, and a fallback to polling. It is also a class.
- **The client components**, each reduced to the logic that decides what it shows and what it hands on:
  - the route guard;
  - the user administration screen;
  - the driver's card of expiry dates;
  - the time-tracking overview tabs, the entry list (sorted in place in an array), the entry form and the edit dialog;
  - the shift and dispatcher cards read from spreadsheets;
  - the fuel-consumption calendar;
  - the message board;
  - the application state in `App.tsx`.

Module `Common` models the JavaScript built-ins the code relies on: `split`, `join`, `trim`, `padStart`, `replace`, `parseInt`, number-to-string and the default sort order. Its round-trip lemmas are helpers to the members below.

A duplicate registration is refused by the SELECT that runs before the INSERT; a uniqueness violation at the INSERT itself answers 500 (see "## Left out", auth.js register).

## Model

| member | source | states |
|---|---|---|
| Crypto.Verify | netlify/functions/auth.js:177 | a token verifies only when this secret issued it and its expiry instant has not been reached |
| Crypto.SignThenVerify | netlify/functions/auth.js:91-99 | a token signed at login verifies to exactly its claims for seven days and not after; other tokens are unaffected |
| Crypto.Hash | netlify/functions/auth.js:146-147 | registration hashes with cost factor 12 under the drawn salt; the digest keeps at most 72 bytes, a prefix of the password's UTF-8 encoding, and all of it when the password fits |
| Crypto.Key | netlify/functions/auth.js:146-147 | the key bcrypt hashes has at most 72 bytes |
| Crypto.HashMatches | netlify/functions/auth.js:81 | among passwords of at most 72 UTF-8 bytes, a bcrypt digest matches exactly the password it was made from, whatever the salt |
| Crypto.HashIgnoresTail | netlify/functions/auth.js:81 | once a password reaches 72 UTF-8 bytes, its digest also matches the password with anything appended: bcrypt never reads past byte 72 |
| Crypto.Utf8Injective | netlify/functions/auth.js:81 | two passwords with the same UTF-8 encoding are the same password, so comparing keys compares passwords |
| Crypto.Utf8CharInjective | netlify/functions/auth.js:81 | one character's UTF-8 bytes determine the character |
| Crypto.Utf8Append | netlify/functions/auth.js:81 | the encoding of a concatenation is the concatenation of the encodings |
| Gate.HeaderValue | netlify/functions/users.js:39 | the lower-case `authorization` header wins when present and non-empty, otherwise `Authorization` is used |
| Gate.BearerToken | netlify/functions/users.js:8-13 | a token is extracted exactly when the header exists and starts with 'Bearer ', and the header is that prefix followed by the token |
| Gate.BearerRoundTrip | netlify/functions/users.js:8-13 | the header the client builds, 'Bearer ' plus a token, yields that token back |
| Gate.BearerCaseSensitive | netlify/functions/users.js:9 | a lower-case 'bearer ' scheme is refused |
| Gate.Authenticate | netlify/functions/users.js:8-15 | a malformed header gives no claims; otherwise the claims are exactly those the token after 'Bearer ' verifies to |
| Gate.LoginTokenPasses | netlify/functions/users.js:8-15 | a login token sent back as 'Bearer ' + token passes with the login claims for seven days and is refused from then on |
| AuthHandler.View | netlify/functions/auth.js:102-108 | the user in a reply carries the stored id, username, email and role, and no password hash |
| AuthHandler.Login | netlify/functions/auth.js:61-127 | login never changes the database, answers 200, 401 or 500, and only a 200 issues a token |
| AuthHandler.Register | netlify/functions/auth.js:129-172 | registration issues no token, answers 201, 400 or 500, and leaves the database unchanged unless it answers 201 |
| AuthHandler.VerifySession | netlify/functions/auth.js:174-218 | verification changes nothing and answers 200 or 401 |
| AuthHandler.Handle | netlify/functions/auth.js:8-59 | the endpoint answers only 200, 201, 400, 401 or 500 |
| AuthHandler.OptionsFirst | netlify/functions/auth.js:17-23 | a preflight OPTIONS request is answered 200 with an empty body before the body is read |
| AuthHandler.UnknownAction | netlify/functions/auth.js:41-46 | an action other than login, register or verify is refused with 400 'Neplatná akce' and changes nothing |
| AuthHandler.LoginFailuresAlike | netlify/functions/auth.js:70-88 | an unknown username and a wrong password get the same 401 reply and neither signs a token |
| AuthHandler.LoginSigns | netlify/functions/auth.js:91-118 | a successful login signs the stored id, username and role, and the token verifies to them for seven days and then expires |
| AuthHandler.RegisterDuplicate | netlify/functions/auth.js:132-143 | a taken username or a taken email is refused with 400 and inserts nothing |
| AuthHandler.RegisterAppends | netlify/functions/auth.js:145-163 | a successful registration appends one user with the next id, role 'user' and a digest of the password, and keeps the database consistent |
| AuthHandler.RegisterThenLogin | netlify/functions/auth.js:129-163 | after registering, logging in with the same username and password succeeds and signs role 'user' |
| AuthHandler.VerifyOutcomes | netlify/functions/auth.js:174-218 | verify answers with the role stored now; a valid token of a deleted user gets 'Uživatel nebyl nalezen'; a bad or expired token gets 'Neplatný token' |
| AuthHandler.VerifyNeedsString | netlify/functions/auth.js:177 | a token that is not a string never verifies |
| Crypto.Utf8CharLength | netlify/functions/auth.js:81 | the first byte of a character's encoding fixes how many bytes it has |
| Store.FindUser | netlify/functions/auth.js:180-184 | the row found carries the requested id; no row means no user has that id |
| Store.FindUsername | netlify/functions/auth.js:64-68 | the row found carries the requested username; no row means no user has it |
| Store.FindUserUnique | netlify/functions/init-db.js:53 | with unique primary keys, looking up a stored user's id finds that very user |
| Store.FindMessage | netlify/functions/messages.js:194-196 | the message found carries the requested id; no row means no message has it |
| Store.FindOwnedEntry | netlify/functions/time-entries.js:122-124 | the entry found has the requested id and belongs to the caller; none means no such owned entry exists |
| Store.DeleteUser | netlify/functions/users.js:149-151 | deleting a user removes exactly the rows with that id and, by the ON DELETE CASCADE of init-db.js:18, exactly their time entries; the other tables and the sequences are untouched |
| Store.DeleteUserValid | netlify/functions/init-db.js:18 | deleting a user keeps every stored time entry attached to an existing user |
| Store.InsertUserValid | netlify/functions/auth.js:150-154 | inserting a user whose username and email are free keeps ids, usernames and emails unique |
| Store.PgInt | netlify/functions/users.js:134 | an integer parameter is read as PostgreSQL's int4 input reads text: blanks around, an optional sign, digits; a value outside the 32-bit range is refused |
| Store.PgIntRoundTrip | netlify/functions/users.js:134 | the decimal text of any number reads back as that number when it fits in int4, and is refused otherwise |
| Store.PgIntDigits | netlify/functions/users.js:134 | a string of digits within the int4 range reads as its decimal value |
| Store.PgTrimClean | netlify/functions/users.js:134 | text with no PostgreSQL whitespace at either end is left as it is by the input trimming |
| Store.IdOfStringified | netlify/functions/users.js:89 | an id within int4 that the listing stringifies with `toString()` reads back as the same id when sent as a parameter |
| Store.PgDecimal | netlify/functions/time-entries.js:97-99 | a DECIMAL parameter given as text reads as PostgreSQL's numeric input reads it; a string of digits reads as its value |
| Store.PgDecimalCents | netlify/functions/time-entries.js:97-99 | the two-decimal text of any amount of cents reads back as that amount |
| Store.PgDecimalUnsigned | netlify/functions/time-entries.js:97-99 | text starting and ending with a digit is read with no sign and no trimming |
| Store.BoolOf | netlify/functions/messages.js:229-231 | a value bound to a BOOLEAN column is NULL exactly when undefined or null; a boolean is stored as itself; a number is accepted exactly when it is 0 or 1; text goes through PostgreSQL's boolean input |
| Store.NumberFlag | netlify/functions/time-entries.js:99 | a number sent as boolean text is accepted exactly when it is 0 or 1, and 1 means true |
| Store.NumberText | netlify/functions/time-entries.js:99 | the boolean input reads the decimal text of 1 as true, of 0 as false, and refuses every other number |
| Store.TextOf | netlify/functions/messages.js:133-134 | a string is stored as itself; undefined and null are stored as NULL |
| Store.DateOf | netlify/functions/init-db.js:19 | a value stored in a DATE column is a valid calendar date; a non-string value is rejected |
| MessagesHandler.MemberGate | netlify/functions/messages.js:36-59 | the gate admits a caller exactly when the header's token verifies and that user's row still exists, whatever the role, and yields that row |
| MessagesHandler.NewestFirstOrders | netlify/functions/messages.js:77 | ordering by creation time, newest first, is a total preorder, so the listing is well defined |
| MessagesHandler.ListMessages | netlify/functions/messages.js:65-90 | the listing holds every stored message exactly as `View` formats it, nothing else, newest first |
| MessagesHandler.Create | netlify/functions/messages.js:118-160 | POST answers 201, 400 or 500 and changes the table only when it answers 201 |
| MessagesHandler.Pick | netlify/functions/messages.js:213-232 | a column is collected, once, exactly when its body key is not undefined |
| MessagesHandler.UpdateColumns | netlify/functions/messages.js:210-232 | the collected columns are exactly those whose body key is present, each once, in the fixed order title, content, type, author, is_read |
| MessagesHandler.Values | netlify/functions/messages.js:215 | the i-th collected value is the body's value under the i-th column's key |
| MessagesHandler.PushIfPresent | netlify/functions/messages.js:213-216 | one `if` step appends the column and its value exactly when the key is present, keeping the values in step with the fields |
| MessagesHandler.CollectUpdates | netlify/functions/messages.js:210-232 | the five push steps leave `updateFields` and `updateValues` equal to the present columns and their values, in the fixed order |
| MessagesHandler.Targets | netlify/functions/messages.js:245-246 | the statement's fields are the collected columns followed by 'updated_at' |
| MessagesHandler.BuildSetClause | netlify/functions/messages.js:248-250 | the loop builds the same SET clause as the map-and-join |
| MessagesHandler.NoColumnNamedStamp | netlify/functions/messages.js:248-250 | no updatable column is named 'updated_at', so only the pushed stamp is written `= NOW()` |
| MessagesHandler.PlaceholderNumbering | netlify/functions/messages.js:245-259 | with k updated columns, column i is bound to parameter $i+1, which holds that column's body value; 'updated_at' is set to NOW(); and the id is parameter $k+2 as the WHERE clause names it |
| MessagesHandler.StatementRefusedAsWritten | netlify/functions/messages.js:245-259 | the statement as written always carries the pushed 'NOW()' as a parameter that no placeholder names, so PostgreSQL refuses it |
| MessagesHandler.SetColumn | netlify/functions/messages.js:253-254 | storing a parameter in one column succeeds exactly when the column accepts it, stores it there and leaves every other column, the id, date and timestamps alone |
| MessagesHandler.ExecuteEffect | netlify/functions/messages.js:252-259 | with distinct fields the UPDATE stores each parameter in its column, leaves other columns alone, stamps `updated_at`, and fails exactly when a column rejects its parameter |
| MessagesHandler.StatementTargets | netlify/functions/messages.js:210-246 | the fields handed to the statement are distinct and include 'updated_at' |
| MessagesHandler.ReplaceMessage | netlify/functions/messages.js:253-255 | only the row with the updated id is replaced; all others stay in place |
| MessagesHandler.Amend | netlify/functions/messages.js:179-283 | whichever statement runs, PUT answers 200, 400, 404 or 500 and changes the table only when it answers 200 |
| MessagesHandler.Update | netlify/functions/messages.js:179-283 | PUT with the intended statement answers 200, 400, 404 or 500 and changes the table only when it answers 200 |
| MessagesHandler.UpdateAsWrittenNeverSaves | netlify/functions/messages.js:245-259 | PUT as written answers 500 with no change wherever the intended PUT would save, and agrees with it everywhere else |
| MessagesHandler.RemoveMessage | netlify/functions/messages.js:302-343 | DELETE answers 200, 400, 404 or 500 and changes the table only when it answers 200 |
| MessagesHandler.Respond | netlify/functions/messages.js:16-370 | whichever PUT statement runs, the endpoint answers only the statuses the code writes, and only 200 and 201 change the database |
| MessagesHandler.Handle | netlify/functions/messages.js:16-370 | the endpoint as written answers only the statuses the code writes, only 200 and 201 change the database, and a PUT never changes it |
| MessagesHandler.HandleCorrected | netlify/functions/messages.js:16-370 | with the intended PUT statement the endpoint answers only the statuses the code writes, and every method but PUT is answered as written |
| MessagesHandler.GateOutcomes | netlify/functions/messages.js:35-99 | a bad header, bad token or deleted user gets 401 on every method but OPTIONS; any admitted caller may GET |
| MessagesHandler.WritesNeedAdmin | netlify/functions/messages.js:101-116 | POST, PUT and DELETE by a caller whose stored role is not 'admin' get 403 and change nothing |
| MessagesHandler.CreateOutcomes | netlify/functions/messages.js:119-136 | a falsy title, content, type or author gives 400; otherwise one unread message dated today is appended with the next id and the given title and author |
| MessagesHandler.UpdateRefusals | netlify/functions/messages.js:182-243 | a missing id gives 400, an unknown id 404, and a body with no updatable field 400, each without a change |
| MessagesHandler.UpdateReplacesOne | netlify/functions/messages.js:259-283 | a successful PUT replaces only the row with that id by the statement's result and returns it |
| MessagesHandler.RunStatementAccepts | netlify/functions/messages.js:213-259 | the intended statement succeeds whenever the read flag, if present, is one the boolean column accepts |
| MessagesHandler.UpdateSaves | netlify/functions/messages.js:182-283 | the intended PUT of an existing message with at least one field and an acceptable read flag answers 200 |
| MessagesHandler.UpdateFailsAsWritten | netlify/functions/messages.js:245-259 | as written, that same PUT answers 500 and changes nothing |
| MessagesHandler.RunStatementEffect | netlify/functions/messages.js:213-259 | after PUT, every present field holds the body's value, every absent field keeps its content, the id, date and creation time stay, and `updatedAt` is the current time |
| MessagesHandler.RunStatementSets | netlify/functions/messages.js:213-232 | a column whose body key is present ends up holding the body's value |
| MessagesHandler.RunStatementLeaves | netlify/functions/messages.js:213-232 | a column whose body key is absent keeps its stored content |
| MessagesHandler.UpdateRejectsNonBoolean | netlify/functions/messages.js:229-232 | a present `isRead` that PostgreSQL's boolean input refuses makes the UPDATE fail with 500 and no change |
| MessagesHandler.RunStatementRejects | netlify/functions/messages.js:229-258 | a present `isRead` that PostgreSQL's boolean input refuses makes the statement fail |
| MessagesHandler.DeleteOutcomes | netlify/functions/messages.js:316-343 | an unknown id gives 404; otherwise exactly the message with that id is deleted |
| EntriesHandler.Cents | netlify/functions/init-db.js:20-22 | a DECIMAL(p,2) column stores the value rounded to the nearest hundredth, within half a hundredth |
| EntriesHandler.DecimalOf | netlify/functions/time-entries.js:97-99 | numbers bound to a NOT NULL DECIMAL column are stored as themselves and strings as PostgreSQL's numeric input reads them; undefined, null and booleans make the insert fail |
| EntriesHandler.FlagOf | netlify/functions/time-entries.js:99 | `flag \|\| false` stores false for every falsy value; a truthy value is stored as PostgreSQL's boolean input reads it: a boolean as itself, 1 as true, other numbers refused, text through the boolean words |
| EntriesHandler.WrittenOf | netlify/functions/time-entries.js:93-101 | a written row has a valid date, earnings equal to the rounded product of the request's hours and rate, values inside their DECIMAL bounds, and the two flags as `\|\| false` reads them |
| EntriesHandler.NewestFirstOrders | netlify/functions/time-entries.js:69 | `ORDER BY date DESC, created_at DESC` is a total preorder |
| EntriesHandler.OwnEntries | netlify/functions/time-entries.js:56-70 | the query returns exactly the caller's rows, by date newest first and, on equal dates, newest created first |
| EntriesHandler.ListEntries | netlify/functions/time-entries.js:56-89 | GET shows the formatted view of exactly the caller's entries, with dates never increasing |
| EntriesHandler.Create | netlify/functions/time-entries.js:91-113 | POST answers 201 or 500 and changes the table only when it answers 201 |
| EntriesHandler.Overwrite | netlify/functions/time-entries.js:137-148 | the UPDATE rewrites every column of the row with that id and owner and leaves every other row unchanged |
| EntriesHandler.Update | netlify/functions/time-entries.js:115-157 | PUT answers 200, 404 or 500 and changes the table only when it answers 200 |
| EntriesHandler.Remove | netlify/functions/time-entries.js:159-202 | DELETE answers 200, 400, 404 or 500 and changes the table only when it answers 200 |
| EntriesHandler.Handle | netlify/functions/time-entries.js:16-229 | the endpoint answers only the statuses the code writes, and only 200 and 201 change the database |
| EntriesHandler.TokenRequired | netlify/functions/time-entries.js:35-50 | without a usable bearer token every method but OPTIONS gets 401 and changes nothing |
| EntriesHandler.DeletedUserSeesNothing | netlify/functions/time-entries.js:37-41 | the gate checks only the token, so a deleted user still gets 200, but with an empty list because the cascade removed the entries |
| EntriesHandler.CreateStores | netlify/functions/time-entries.js:93-113 | POST appends one row for the caller with the next id, earnings rounded from hours times rate, flags false when absent, and returns the new id as text |
| EntriesHandler.CreateNeedsColumns | netlify/functions/time-entries.js:97-99 | a body without hours, rate or date creates nothing and gets 500 |
| EntriesHandler.UpdateOthersRefused | netlify/functions/time-entries.js:121-135 | a PUT naming another user's entry gets 404 and changes nothing |
| EntriesHandler.RemoveOthersRefused | netlify/functions/time-entries.js:174-188 | a DELETE naming another user's entry gets 404 and changes nothing |
| EntriesHandler.UpdateTouchesOwnOnly | netlify/functions/time-entries.js:137-148 | a successful PUT rewrites only the caller's entry with that id, stamping `updated_at`; all other rows, every other user's included, are unchanged |
| EntriesHandler.RemoveExactlyOne | netlify/functions/time-entries.js:190-193 | a successful DELETE removes exactly the caller's entry with that id |
| EntriesHandler.HandleKeepsValid | netlify/functions/init-db.js:16-27 | every call keeps ids unique and below their sequence and every entry owned by a stored user |
| EntriesHandler.CreateKeepsValid | netlify/functions/time-entries.js:97-101 | POST keeps the database consistent |
| EntriesHandler.UpdateKeepsValid | netlify/functions/time-entries.js:137-148 | PUT keeps the database consistent |
| EntriesHandler.SameKeysValid | netlify/functions/time-entries.js:137-148 | rewriting the non-key columns of entries keeps the database consistent |
| EntriesHandler.RemoveKeepsValid | netlify/functions/time-entries.js:190-193 | DELETE keeps the database consistent |
| EntriesHandler.NotOwned | netlify/functions/time-entries.js:122-124 | with unique ids, an entry stored for another user is never found as the caller's |
| UsersHandler.AdminGate | netlify/functions/users.js:36-71 | the gate passes exactly a caller whose token verifies and whose stored user has role 'admin'; a bad header or token and a deleted user each get 401, and a stored non-admin gets 403 |
| UsersHandler.NewestFirstOrders | netlify/functions/users.js:85 | `ORDER BY created_at DESC` is a total preorder |
| UsersHandler.ListUsers | netlify/functions/users.js:75-103 | GET lists every user exactly once as id text, username, email, role and creation time, newest first, and nothing else |
| UsersHandler.RemoveAccount | netlify/functions/users.js:105-160 | DELETE changes the database only when it answers 200 |
| UsersHandler.Delete | netlify/functions/users.js:120-130 | with the corrected self-delete test, the caller's own account is never deleted |
| UsersHandler.Route | netlify/functions/users.js:17-187 | whichever self-delete test DELETE applies, the endpoint answers only the statuses the code writes, and only a 200 changes the database |
| UsersHandler.Handle | netlify/functions/users.js:17-187 | the endpoint as written, DELETE with the strict-equality self-delete test, answers only the statuses the code writes, and only a 200 changes the database |
| UsersHandler.HandleCorrected | netlify/functions/users.js:17-187 | with the intended self-delete test, the account of the signed-in caller survives every request, and only a 200 changes the database |
| UsersHandler.HandlersAgreeBesideDelete | netlify/functions/users.js:17-187 | the handler as written and the corrected one answer every method but DELETE alike |
| UsersHandler.GateBeforeMethod | netlify/functions/users.js:36-74 | the gate runs before the method: no usable token gives 401, an existing non-admin 403, and only an admin reaches the 405 of an unsupported method |
| UsersHandler.MalformedHeaderRefused | netlify/functions/users.js:8-11 | a header missing or without the case-sensitive 'Bearer ' prefix gets 401 |
| UsersHandler.DeleteNeedsId | netlify/functions/users.js:109-118 | DELETE without a truthy `userId` gets 400 and changes nothing |
| UsersHandler.DeleteRemovesExactlyOne | netlify/functions/users.js:132-160 | deleting an unknown id gets 404; otherwise exactly that user and, by cascade, their entries go, and the database stays consistent |
| UsersHandler.SelfDeleteSlipsThrough | netlify/functions/users.js:121 | as written, an admin who sends their own id as the string the listing returns passes the self-delete test and their account is deleted |
| UsersHandler.RemoveNamedAccount | netlify/functions/users.js:132-151 | once past the self-delete test, an admin's request naming an existing user by the id's decimal text deletes that user with 200, after which no user has that id |
| UsersHandler.SelfDeleteRefused | netlify/functions/users.js:120-130 | with the intended test, the same request is refused with 400 'Cannot delete your own account' before any lookup |
| DocumentsHandler.View | netlify/functions/documents.js:44-52 | a listed document is never flagged as expiring soon; the client decides that |
| DocumentsHandler.Views | netlify/functions/documents.js:44-52 | each document is shown through the same view, in order |
| DocumentsHandler.ByTypeNameOrders | netlify/functions/documents.js:36 | `ORDER BY document_type, document_name` is a total preorder |
| DocumentsHandler.KeyIndex | netlify/functions/documents.js:41 | the group found has the document's type and is the first such; none found means no group has that type |
| DocumentsHandler.AddTo | netlify/functions/documents.js:41-44 | one reduce step adds at most one group |
| DocumentsHandler.GroupDocuments | netlify/functions/documents.js:40-54 | the reduce loop builds the same groups as the recursive grouping |
| DocumentsHandler.GroupOfCorrect | netlify/functions/documents.js:40-54 | the reduce yields one group per distinct type, each holding exactly the documents of that type in input order |
| DocumentsHandler.AddToCorrect | netlify/functions/documents.js:41-53 | one reduce step keeps the grouping correct |
| DocumentsHandler.FilterLast | netlify/functions/documents.js:44 | pushing a document extends exactly its own type's group |
| DocumentsHandler.AddToNew | netlify/functions/documents.js:41-43 | a document of a type not seen before opens a new group at the end |
| DocumentsHandler.AddToNewMatch | netlify/functions/documents.js:41-44 | after a new group opens, every group still holds exactly its type's documents |
| DocumentsHandler.AddToNewCovers | netlify/functions/documents.js:41-43 | after a new group opens, every seen type has a group |
| DocumentsHandler.AddToNewKeys | netlify/functions/documents.js:41-43 | after a new group opens, every group key is a seen type |
| DocumentsHandler.AddToExisting | netlify/functions/documents.js:44-52 | a document of a seen type is pushed onto that type's group |
| DocumentsHandler.AddToExistingMatch | netlify/functions/documents.js:44-52 | after the push, every group still holds exactly its type's documents |
| DocumentsHandler.AddToExistingCovers | netlify/functions/documents.js:44-52 | after the push, every seen type still has a group |
| DocumentsHandler.AddToExistingKeys | netlify/functions/documents.js:44-52 | after the push, every group key is still a seen type |
| DocumentsHandler.ListingCorrect | netlify/functions/documents.js:26-54 | GET groups a permutation of all rows by type, each group ordered by name, and flags none as expiring soon |
| DocumentsHandler.SortedGroupsByName | netlify/functions/documents.js:36-44 | grouping rows sorted by type and name leaves each group sorted by name |
| DocumentsHandler.FilterOrdered | netlify/functions/documents.js:36 | picking one type's rows out of a sorted listing keeps them sorted |
| DocumentsHandler.Redate | netlify/functions/documents.js:80-87 | the UPDATE sets the two dates and the time stamp of rows with that id and leaves every other row unchanged |
| DocumentsHandler.UpdateDocument | netlify/functions/documents.js:65-96 | PUT answers 200, 400 or 500 and changes the table only when it answers 200 |
| DocumentsHandler.Handle | netlify/functions/documents.js:3-123 | the endpoint answers 200, 400, 405 or 500, and only a successful PUT changes the database |
| DocumentsHandler.NoAuthorization | netlify/functions/documents.js:3-23 | no credential is checked: the answer is the same whatever headers the request has |
| DocumentsHandler.UpdateNeedsFields | netlify/functions/documents.js:67-78 | PUT without id, issue date or expiry date gets 400 and changes nothing |
| DocumentsHandler.UpdateUnknownIdSucceeds | netlify/functions/documents.js:80-96 | PUT naming an id no row has still answers 200, and changes nothing |
| DocumentsHandler.UpdateIdOutOfRange | netlify/functions/documents.js:80-87 | PUT with a numeric id outside the int4 range fails with 500 and changes nothing |
| DocumentsHandler.UpdateChangesDatesOnly | netlify/functions/documents.js:80-87 | a successful PUT changes only the dates of the rows with that id; ids, types and names stay |
| DocumentsHandler.OtherMethods | netlify/functions/documents.js:98-106 | a method other than OPTIONS, GET and PUT gets 405 |
| MockApi.LoginUser | src/services/mockApi.js:317-321 | a user is found exactly when the pair is one of the two demo pairs and some stored user has that username; the user found has it |
| MockApi.MockToken | src/services/mockApi.js:328 | every issued token starts with 'mock-jwt-token-' |
| MockApi.WordPart | src/services/mockApi.js:381-382 | a dash-free word followed by '-' is one whole part of `split('-')` |
| MockApi.PrefixParts | src/services/mockApi.js:376-382 | the token prefix contributes exactly the three parts 'mock', 'jwt', 'token' to `split('-')`, so the id is part 3 |
| MockApi.TokenUser | src/services/mockApi.js:373-399 | a missing, empty or unprefixed token is refused as invalid; a verified user is the first stored user whose id is the token's fourth part; the only errors are invalid token and user not found |
| MockApi.TokenIdRoundTrip | src/services/mockApi.js:328-382 | a token issued for a dash-free id yields that id back |
| MockApi.LoginThenVerify | src/services/mockApi.js:313-399 | the token a login returns verifies, to a user with the logged-in id, and to the logged-in user itself when ids are unique |
| MockApi.NewUser | src/services/mockApi.js:347-363 | registration fails with 'user exists' exactly when some user has the username or the email; otherwise the new user has role 'user' and id count + 1 |
| MockApi.UserIndex | src/services/mockApi.js:418-421 | the index found is the first holding a user with that id; 'not found' exactly when no user has it |
| MockApi.RegisterAfterDeleteReusesId | src/services/mockApi.js:344-426 | ids from count + 1 are not fresh: after a registration, deleting any earlier user and registering again gives a second, different user with the first one's id |
| MockApi.NewEntry | src/services/mockApi.js:276-280 | the new entry carries the given id and the data's fields, with earnings hours times rate |
| MockApi.MergeEntry | src/services/mockApi.js:291-295 | the merged entry keeps its id, takes the data's fields, recomputes earnings, and keeps the flags the data omits |
| MockApi.UpdatedEntries | src/services/mockApi.js:286-299 | the list keeps its length; the first entry with that id becomes its merge and every other entry is kept; an unknown id changes nothing |
| MockApi.RemainingEntries | src/services/mockApi.js:301-310 | the list is unchanged exactly when no entry has the id; otherwise one entry with that id is removed |
| MockApi.Patched | src/services/mockApi.js:475-479 | the fields the patch supplies replace the old ones, the rest are kept, id, date and createdAt never change, updatedAt is now |
| MockApi.MessageIndex | src/services/mockApi.js:470-473 | the index found holds a message with that id; 'not found' exactly when none has it |
| MockApi.MockApiService.constructor | src/services/mockApi.js:5-239 | the service starts with the seed users, entries and messages and nobody logged in |
| MockApi.MockApiService.Login | src/services/mockApi.js:313-342 | on a found user: returns token and user and remembers the user; otherwise throws and changes nothing |
| MockApi.MockApiService.Register | src/services/mockApi.js:344-371 | appends exactly the user NewUser gives, or throws leaving every list as it was |
| MockApi.MockApiService.VerifyToken | src/services/mockApi.js:373-399 | the outcome is TokenUser of the stored users; nothing changes |
| MockApi.MockApiService.GetUsers | src/services/mockApi.js:401-413 | returns the stored users, changing nothing |
| MockApi.MockApiService.DeleteUser | src/services/mockApi.js:415-426 | removes the user at UserIndex, or throws 'not found' and changes nothing; other lists unchanged |
| MockApi.MockApiService.GetTimeEntries | src/services/mockApi.js:268-271 | returns the stored entries, changing nothing |
| MockApi.MockApiService.AddTimeEntry | src/services/mockApi.js:273-284 | the new entry goes to the front of the list; nothing else changes |
| MockApi.MockApiService.UpdateTimeEntry | src/services/mockApi.js:286-299 | the list becomes UpdatedEntries; an entry is returned exactly when one had the id, and it is the merge of the first entry with that id, stored at its position |
| MockApi.MockApiService.DeleteTimeEntry | src/services/mockApi.js:301-310 | the list becomes RemainingEntries; nothing else changes |
| MockApi.MockApiService.GetMessages | src/services/mockApi.js:429-432 | returns the stored messages, changing nothing |
| MockApi.MockApiService.AddMessage | src/services/mockApi.js:434-460 | non-admins are refused with no change; for an admin an unread message goes to the front |
| MockApi.MockApiService.UpdateMessage | src/services/mockApi.js:462-485 | non-admins are refused; an unknown id throws 'not found'; otherwise that message is replaced by its patch |
| MockApi.MockApiService.DeleteMessage | src/services/mockApi.js:487-503 | non-admins are refused; an unknown id throws 'not found'; otherwise that message is removed |
| MockApi.SeedLogins | src/services/mockApi.js:183-321 | against the seed users exactly the two demo pairs log in |
| MockApi.DeleteUserRemovesOne | src/services/mockApi.js:418-423 | the deletion removes exactly one user, the one with that id, and keeps the rest in order |
| Realtime.Subscribed | src/services/realtime.js:123-128 | the type becomes a key of the registry; its listeners gain the callback at the end when it was absent and are unchanged when it was present; no other type's listeners and no connection field change |
| Realtime.Unsubscribed | src/services/realtime.js:130-138 | the type's listeners become the earlier ones without the callback, in the same order; the type stays a key exactly when some other callback remains; other types and the connection fields are untouched |
| Realtime.Without | src/services/realtime.js:133 | the Set after `delete` holds exactly the other callbacks; deleting an absent callback changes nothing |
| Realtime.SubscribeIdempotent | src/services/realtime.js:127 | subscribing the same callback twice is the same as once, since the Set stores it once |
| Realtime.RegistryKept | src/services/realtime.js:123-139 | subscribe and unsubscribe keep every stored Set non-empty and duplicate-free |
| Realtime.SubscribeThenUnsubscribe | src/services/realtime.js:123-139 | calling the returned unsubscribe after a fresh subscribe restores the registry exactly, the emptied key included |
| Realtime.WithoutLast | src/services/realtime.js:133 | deleting the callback added last gives back the earlier Set |
| Realtime.Disconnected | src/services/realtime.js:164-177 | no source, no polling, not connected, every listener cleared; attempts and polling mode kept |
| Realtime.PollingStarted | src/services/realtime.js:60-63 | connected with an interval running; listeners and attempts kept |
| Realtime.Connected | src/services/realtime.js:15-29 | an open source is disconnected first, clearing the listeners; then a source is opened if EventSource exists, otherwise polling starts |
| Realtime.Opened | src/services/realtime.js:36-41 | opening marks connected and resets the attempt counter, keeping the listeners |
| Realtime.Reconnected | src/services/realtime.js:102-121 | below five attempts: count one more and wait 1000·2^(attempt−1) ms; at five: switch to polling with no retry |
| Realtime.Errored | src/services/realtime.js:52-57 | an error keeps the listeners and then runs the reconnect step |
| Realtime.Backoff | src/services/realtime.js:102-121 | a run of n errors schedules the doubling delays while attempts remain, and ends in polling once they are used up |
| Realtime.PollingStays | src/services/realtime.js:116-120 | once in polling, further errors keep polling and schedule no retry |
| Realtime.FiveDelays | src/services/realtime.js:7-8 | from a fresh start six errors schedule 1000, 2000, 4000, 8000 and 16000 ms and end in polling |
| Realtime.ReconnectDropsListeners | src/services/realtime.js:109-115 | the retry after an error on an open source goes through `disconnect`, so no subscription survives |
| Realtime.Route | src/services/realtime.js:81-100 | the three update types go to 'documents', 'time_entries' and 'database', each exactly; every other type goes nowhere |
| Realtime.RealtimeService.constructor | src/services/realtime.js:2-13 | no listeners, not connected, no attempts, no source, no polling |
| Realtime.RealtimeService.NotifyListeners | src/services/realtime.js:141-152 | every callback of the type is called once, in Set order, a throwing callback's error being caught; other types are not called |
| Realtime.RealtimeService.Subscribe | src/services/realtime.js:123-128 | the new state is Subscribed of the old |
| Realtime.RealtimeService.Unsubscribe | src/services/realtime.js:130-138 | the new state is Unsubscribed of the old |
| Realtime.RealtimeService.Disconnect | src/services/realtime.js:164-177 | the new state is Disconnected of the old |
| Realtime.RealtimeService.StartPolling | src/services/realtime.js:60-79 | the new state is PollingStarted of the old; the 'connection' listeners are notified |
| Realtime.RealtimeService.Connect | src/services/realtime.js:15-29 | the new state is Connected of the old |
| Realtime.RealtimeService.Open | src/services/realtime.js:36-41 | the new state is Opened of the old; the 'connection' listeners are notified |
| Realtime.RealtimeService.HandleReconnect | src/services/realtime.js:102-121 | state and delay are those of Reconnected |
| Realtime.RealtimeService.Error | src/services/realtime.js:52-57 | state and delay are those of Errored |
| Realtime.RealtimeService.ReconnectTimerFired | src/services/realtime.js:109-115 | polling restarts in polling mode, otherwise the service connects again |
| Realtime.RealtimeService.HandleMessage | src/services/realtime.js:81-100 | exactly the listeners of the routed type are called; an unknown type calls none |
| ProtectedRoute.RequireAdmin | src/components/ProtectedRoute.tsx:15 | an omitted `requireAdmin` counts as false |
| ProtectedRoute.Render | src/components/ProtectedRoute.tsx:20-103 | loading always shows the spinner; the login prompt only appears signed out without a fallback; the permission notice only for a signed-in user on an admin page without a fallback |
| ProtectedRoute.ChildrenIff | src/components/ProtectedRoute.tsx:21-103 | the children render exactly when not loading, signed in, and either no admin is required or the role is 'admin' |
| ProtectedRoute.SignedOut | src/components/ProtectedRoute.tsx:38-66 | a signed-out visitor sees the fallback when one is given, else the login prompt |
| ProtectedRoute.DefaultAllowsUsers | src/components/ProtectedRoute.tsx:15-103 | without `requireAdmin` every signed-in user sees the children |
| UserManagementView.CheckNewUser | src/components/UserManagement.tsx:75-116 | a form is sent exactly when no field is blank after trimming, the passwords match and the password has at least six characters; it is sent with username and email trimmed and the password as typed; a refusal carries one of the three messages |
| UserManagementView.AstralPasswordLongEnough | src/components/UserManagement.tsx:86 | three characters outside the Basic Multilingual Plane count as six UTF-16 units, so such a password passes the six-character check |
| UserManagementView.CheckOrder | src/components/UserManagement.tsx:76-84 | a blank field is reported before a mismatch, and a mismatch before a short password |
| UserManagementView.BlankPasswordRefused | src/components/UserManagement.tsx:76-79 | a password of spaces only is refused as a missing field |
| UserManagementView.PasswordSentUntrimmed | src/components/UserManagement.tsx:98-115 | a password with a visible character is sent as typed, spaces included |
| UserManagementView.AfterCreated | src/components/UserManagement.tsx:125-127 | after a registration the form is emptied and the dialog closed |
| UserManagementView.OnCreate | src/components/UserManagement.tsx:75-92 | a refused form only sets its error line; a passing one clears it |
| UserManagementView.Delete | src/components/UserManagement.tsx:139-147 | pressing delete stops with the own-account error exactly on the signed-in user's row, whatever JSON type carried the id; otherwise it asks for confirmation |
| UserManagementView.OwnRowNotRecognised | src/components/UserManagement.tsx:140 | as written, an admin whose id arrives as a number sees a delete button on their own row and is asked to confirm deleting themselves |
| UserManagementView.OwnRowRecognised | src/components/UserManagement.tsx:361 | the corrected test hides the own row's button and refuses before confirmation, for a numeric or a string id |
| UserManagementView.OtherRowsDeletable | src/components/UserManagement.tsx:361 | every other row keeps its delete button and leads to the confirmation |
| UserManagementView.Screen | src/components/UserManagement.tsx:185-197 | the list is shown exactly to an admin |
| UserManagementView.LoadOnlyWhenShown | src/components/UserManagement.tsx:68-72 | the users are loaded exactly when the list is shown |
| DriverCard.Threshold | src/components/DriverCard.tsx:165-180 | 45 days for every document and for the health check, 21 for cybersecurity, compliance and PC passwords, 14 for other centres, 30 otherwise |
| DriverCard.BandOf | src/components/DriverCard.tsx:182-202 | expired exactly below 0 days, expiring soon exactly from 0 up to the threshold, valid exactly above it |
| DriverCard.OneBand | src/components/DriverCard.tsx:182-202 | the status text, the badge style and the day-count colour each show exactly the item's band |
| DriverCard.WithItems | src/components/DriverCard.tsx:140-152 | replacing one category's list leaves the other two unchanged |
| DriverCard.StartEditing | src/components/DriverCard.tsx:126-135 | an id present in the category enters edit mode with the form prefilled from that item's dates; an absent id changes nothing |
| DriverCard.Edited | src/components/DriverCard.tsx:144-149 | the saved item takes the form's dates and the new day count and keeps its id, name and both flags |
| DriverCard.SaveEdit | src/components/DriverCard.tsx:137-157 | without an item in edit it does nothing; otherwise it leaves edit mode with an empty form |
| DriverCard.CancelEdit | src/components/DriverCard.tsx:159-162 | leaves edit mode with an empty form and the data unchanged |
| DriverCard.SaveChangesOnlyEdited | src/components/DriverCard.tsx:140-152 | saving rewrites exactly the items with the edited id in the edited category; everything else is kept |
| DriverCard.StartThenSaveKeepsDates | src/components/DriverCard.tsx:126-157 | opening an item and saving the untouched form only refreshes its day count |
| TimeTrackingTabs.GroupEntries | src/components/TimeTrackingTabs.tsx:31-55 | the loop builds exactly the dictionary of pushing each entry onto its year group and then its month group |
| TimeTrackingTabs.GroupedLast | src/components/TimeTrackingTabs.tsx:41-51 | one more entry is pushed onto its year group and then onto its month group |
| TimeTrackingTabs.GroupedSpec | src/components/TimeTrackingTabs.tsx:31-55 | every group holds exactly the entries whose year key or month key it is, in input order |
| TimeTrackingTabs.GroupedStep | src/components/TimeTrackingTabs.tsx:41-51 | the last entry joins exactly the groups it belongs under, never the same one twice |
| TimeTrackingTabs.GroupedKeys | src/components/TimeTrackingTabs.tsx:42-49 | a key is present exactly when some entry belongs under it |
| TimeTrackingTabs.GroupsNonEmpty | src/components/TimeTrackingTabs.tsx:42-51 | no key is created without an entry pushed onto it |
| TimeTrackingTabs.EntryCount | src/components/TimeTrackingTabs.tsx:86-88 | an absent key counts 0 |
| TimeTrackingTabs.EntryCountSpec | src/components/TimeTrackingTabs.tsx:86-88 | the count shown for a key is the number of entries that belong under it |
| TimeTrackingTabs.YearsOf | src/components/TimeTrackingTabs.tsx:60-63 | a year is listed exactly when some entry's date falls in it |
| TimeTrackingTabs.MonthKeysOf | src/components/TimeTrackingTabs.tsx:69-74 | the month key of each entry, in entry order |
| TimeTrackingTabs.CollectYears | src/components/TimeTrackingTabs.tsx:58-63 | the Set the loop fills holds each entry year once, in first-seen order |
| TimeTrackingTabs.CollectMonths | src/components/TimeTrackingTabs.tsx:67-74 | the Set the loop fills holds each month key once, in first-seen order |
| TimeTrackingTabs.NewerOrders | src/components/TimeTrackingTabs.tsx:64 | the comparator `b - a` is a total preorder, newest first |
| TimeTrackingTabs.AvailableYearsSpec | src/components/TimeTrackingTabs.tsx:58-65 | the years listed are exactly the entries' years, each once, strictly descending |
| TimeTrackingTabs.AscendingTextOrders | src/components/TimeTrackingTabs.tsx:75 | the default string order of `sort()` is a total preorder |
| TimeTrackingTabs.AvailableMonthsSpec | src/components/TimeTrackingTabs.tsx:67-76 | the month keys listed are exactly the entries' keys, each once, in strictly descending string order |
| TimeTrackingTabs.MonthKeyChronological | src/components/TimeTrackingTabs.tsx:73-75 | with four-digit years, the string order of month keys is the calendar order |
| TimeTrackingTabs.AvailableMonthsNewestFirst | src/components/TimeTrackingTabs.tsx:67-76 | for dates with four-digit years, an earlier tab is a later calendar month |
| TimeTrackingTabs.KeysOrderMonths | src/components/TimeTrackingTabs.tsx:73-75 | a key after another in descending order is an earlier month |
| TimeTrackingTabs.ReverseOrder | src/components/TimeTrackingTabs.tsx:75 | reversing the sorted, duplicate-free keys gives a strictly descending list |
| TimeTrackingTabs.LexLeDigits | src/components/TimeTrackingTabs.tsx:39 | for decimal strings of one length, string order is numeric order |
| TimeTrackingTabs.YearTextOrder | src/components/TimeTrackingTabs.tsx:73 | distinct four-digit years have distinct texts, ordered as the numbers |
| TimeTrackingTabs.MonthTextOrder | src/components/TimeTrackingTabs.tsx:39 | the zero-padded month parts compare as the months |
| TimeTrackingTabs.TotalRealSalaryForYear | src/components/TimeTrackingTabs.tsx:90-102 | nothing without salaries; a total is shown only when positive and is the sum over the year's listed months; a positive sum is always shown |
| TimeTrackingTabs.YearPrefixSelects | src/components/TimeTrackingTabs.tsx:93-95 | with four-digit years, the prefix test picks exactly the months of that year |
| TimeTrackingTabs.SalarySumBound | src/components/TimeTrackingTabs.tsx:97-99 | with no negative salaries the sum is at least each month's salary |
| TimeTrackingTabs.SalarySumNonNegative | src/components/TimeTrackingTabs.tsx:97-99 | with no negative salaries the sum is not negative |
| TimeTrackingTabs.YearTotalShown | src/components/TimeTrackingTabs.tsx:90-102 | a year with a positive salary in a listed month shows a total at least that salary |
| TimeTrackingTabs.YearClicked | src/components/TimeTrackingTabs.tsx:115-121 | clicking a year expands it unless it is already expanded, in which case it collapses |
| TimeTrackingTabs.ClickTwice | src/components/TimeTrackingTabs.tsx:115-121 | two clicks on a year restore the previous state |
| TimeTrackingTabs.TabListSpec | src/components/TimeTrackingTabs.tsx:104-132 | the overview tab comes first with this month's entries, then one tab per available year in order, each with exactly that year's entries |
| Sorting.InsertBy | src/components/TimeTrackingTabs.tsx:64 | inserting keeps the list sorted and adds exactly the one element |
| Sorting.SortBy | src/components/TimeTrackingTabs.tsx:64 | `Array.prototype.sort` with a comparator: a sorted permutation of its input |
| Sorting.SortByMembers | src/components/TimeTrackingTabs.tsx:64 | sorting keeps the length and exactly the same members |
| Sorting.Unique | src/components/TimeTrackingTabs.tsx:59-64 | `Array.from(new Set(...))`: each value once, exactly the values of the input |
| Sorting.NoDuplicatesPermutation | src/components/TimeTrackingTabs.tsx:64 | sorting the values of a Set yields no duplicates |
| Sorting.Reverse | src/components/TimeTrackingTabs.tsx:75 | `reverse()`: same length, positions mirrored |
| App.Initial | src/App.tsx:31-36 | the application starts with no entries, no salaries and the rate 250 |
| App.NewEntry | src/App.tsx:143-147 | the new entry has the timestamp id, the form's fields and earnings hours times rate |
| App.AddEntry | src/App.tsx:142-164 | without the database, or when its call fails, the new entry goes to the front of the list; otherwise the list waits for the refresh; the default rate becomes the entry's rate either way |
| App.DeleteEntry | src/App.tsx:166-181 | unconfirmed, or left to the database, nothing changes; otherwise exactly the entries with other ids remain |
| App.AddThenDelete | src/App.tsx:142-181 | deleting a freshly added entry by its id restores the list |
| App.DeleteKeepsOrder | src/App.tsx:175-178 | deletion filters each part of the list separately, so the remaining entries keep their order |
| App.SaveEditedEntry | src/App.tsx:188-209 | the list keeps its length; locally, every entry with the edited id becomes the edited entry and the rest stay |
| App.SaveIdempotent | src/App.tsx:203-207 | saving the same edit twice equals saving it once |
| App.SaveUnknownId | src/App.tsx:203-207 | saving an entry whose id is not listed changes nothing |
| App.SetRealSalary | src/App.tsx:216-221 | the month's salary is set, other months and the entries are untouched |
| App.PadStart2 | src/App.tsx:228 | `padStart(2, '0')`: the text is kept as the tail, with zeros before it up to two characters and none when it is already that long |
| App.VacationEntry | src/App.tsx:226-233 | the vacation entry is dated the first of the key's month, at rate 250, flagged as vacation |
| App.AddVacationHours | src/App.tsx:223-236 | the vacation entry goes to the front of the list; nothing else changes |
| App.VacationDateOfKey | src/App.tsx:224-228 | the key of zero-based month m gives the ISO date of that month's first day |
| App.VacationRegroups | src/App.tsx:223-236 | vacation hours added for a month key land in that month's and that year's groups |
| App.Export | src/App.tsx:253-271 | the exported file holds the entries, the rate and the salaries |
| App.ImportData | src/App.tsx:274-297 | invalid JSON changes nothing; each present field replaces the state's, except a rate of 0, which is ignored |
| App.ExportImportRoundTrip | src/App.tsx:253-297 | importing an exported file restores the exported state when its rate is not 0 |
| App.ZeroRateNotRestored | src/App.tsx:284 | an exported rate of 0 is not restored, while the entries are |
| Entries.ParseFloatDigits | src/components/TimeEntryForm.tsx:46 | parseFloat reads a string of digits as its integer value |
| Entries.ParseFloatDecimal | src/components/TimeEntryForm.tsx:46 | parseFloat reads `a.b` as the decimal number it spells |
| Entries.ParseFloatComma | src/components/EditEntryDialog.tsx:42 | parseFloat stops at a ',' and keeps only the digits before it |
| Entries.UnsignedStop | src/components/EditEntryDialog.tsx:42 | digits followed by any character other than a digit or '.' read as their integer value |
| Entries.PrefixStopsAt | src/components/EditEntryDialog.tsx:42 | the digit run of digits followed by a non-digit is exactly those digits |
| Entries.YearMonth | src/components/TimeTrackingTabs.tsx:35-37 | a valid date gives a positive year and a zero-based month from 0 to 11 |
| Entries.YearKeyOf | src/components/TimeTrackingTabs.tsx:38 | every year key starts with 'year-' |
| Entries.MonthKeyOf | src/components/TimeTrackingTabs.tsx:39 | a valid date's key is its year, '-', and its zero-based month padded to two digits |
| Entries.YearAndMonthKeysDiffer | src/components/TimeTrackingTabs.tsx:38-39 | no year key equals a month key, so an entry lies in two distinct groups |
| Entries.YearMonthOfDateString | src/components/TimeTrackingTabs.tsx:35-39 | the ISO text of a date reads back as its year and zero-based month, and keys under them |
| TimeEntryForm.Initial | src/components/TimeEntryForm.tsx:34-41 | a fresh form has today's date, no hours, the default rate's text and no holiday |
| TimeEntryForm.ShownRate | src/components/TimeEntryForm.tsx:114 | the rate field shows '450' while the holiday box is ticked, else the typed rate |
| TimeEntryForm.RateOf | src/components/TimeEntryForm.tsx:47 | a holiday uses the rate 450; otherwise the typed rate is parsed |
| TimeEntryForm.Submit | src/components/TimeEntryForm.tsx:43-69 | an entry is handed on exactly when hours and rate parse to positive numbers, carrying them with the date and the holiday flag; the hours and the holiday box are then cleared; a refusal leaves the form as it was |
| TimeEntryForm.EmptyIsNaN | src/components/TimeEntryForm.tsx:37-46 | the empty hours field parses to NaN |
| TimeEntryForm.HolidayIgnoresTypedRate | src/components/TimeEntryForm.tsx:47 | with the holiday box ticked the typed rate makes no difference and the entry carries 450 |
| TimeEntryForm.NoDoubleSubmit | src/components/TimeEntryForm.tsx:66-68 | right after a successful submission a second one is refused |
| TimeEntryForm.TypedHoursRead | src/components/TimeEntryForm.tsx:46-64 | hours typed as digits with a '.' are taken at their decimal value |
| TimeEntryForm.HolidayEntryEarnings | src/components/TimeEntryForm.tsx:47-64 | the entry a holiday submission adds earns 450 for every hour and is flagged as holiday |
| EditEntryDialog.NormalizeHours | src/components/EditEntryDialog.tsx:40 | only the first ',' becomes '.'; text without a comma is unchanged |
| EditEntryDialog.Save | src/components/EditEntryDialog.tsx:36-58 | nothing happens without an entry; otherwise the entry is saved exactly when hours and rate parse positive, keeping its id and flags and taking the new date, hours, rate and their product |
| EditEntryDialog.SaveIdempotent | src/components/EditEntryDialog.tsx:49-55 | saving the saved entry again with the same fields gives the same entry |
| EditEntryDialog.CommaAt | src/components/EditEntryDialog.tsx:40 | the first ',' of digits, comma and digits is the one after the whole part |
| EditEntryDialog.CommaHoursRead | src/components/EditEntryDialog.tsx:39-41 | hours typed as '13,8' are read as 13.8, where parseFloat alone would stop at the comma |
| EditEntryDialog.CommaRateTruncated | src/components/EditEntryDialog.tsx:42 | a rate typed with a comma is not normalised and keeps only its whole part |
| TimeEntryList.Moment | src/components/TimeEntryList.tsx:79-80 | an Invalid Date ranks below every real date |
| TimeEntryList.MomentOrder | src/components/TimeEntryList.tsx:79-80 | the moments of two ISO dates compare exactly as the calendar dates |
| TimeEntryList.SortDescendingBy | src/components/TimeEntryList.tsx:79-80 | sorts the array in place by the key, largest first, as a permutation of its contents |
| TimeEntryList.InsertDescending | src/components/TimeEntryList.tsx:79-80 | one insertion step extends the sorted prefix by one cell, permuting the array |
| TimeEntryList.Swap | src/components/TimeEntryList.tsx:79-80 | exchanges two cells and nothing else |
| TimeEntryList.SortNewestFirst | src/components/TimeEntryList.tsx:79-80 | the caller's array is reordered in place, newest date first, as a permutation |
| TimeEntryList.DisplayEarnings | src/components/TimeEntryList.tsx:83-85 | a vacation entry stored with 0 earnings shows hours times 250; every other entry shows its stored earnings |
| TimeEntryList.VacationShownAsStored | src/components/TimeEntryList.tsx:83-85 | a vacation entry as the application stores it shows its stored earnings |
| TimeEntryList.FormatHours | src/components/TimeEntryList.tsx:36-38 | only the first '.' of the hours becomes ',' |
| TimeEntryList.ShownHoursReadBack | src/components/TimeEntryList.tsx:36-38 | the hours text the list shows, typed into the edit dialog, reads back as the original number text: the dialog undoes the list's '.' to ',' |
| TimeEntryList.RowOf | src/components/TimeEntryList.tsx:86-119 | a row shows the vacation label exactly for a vacation entry, else its rate; an edit button exactly when not vacation; a delete button always |
| TimeEntryList.Title | src/components/TimeEntryList.tsx:50-64 | an empty or missing title falls back to 'Záznamy', so the title is never empty |
| TimeEntryList.Render | src/components/TimeEntryList.tsx:46-119 | an empty list shows the placeholder; otherwise the array is sorted in place and each row is the row of the entry at that position |
| Sheet.CellString | src/components/ShiftsInfo.tsx:144 | a text cell renders as itself and a number as its decimal text |
| Sheet.CellAt | src/components/ShiftsInfo.tsx:140 | indexing inside the row gives the cell, past its end undefined |
| Sheet.NonBlankText | src/components/ShiftsInfo.tsx:158-159 | a cell passes `c && c.toString().trim() !== ''` exactly when it is truthy with a non-blank text, and then gives that text trimmed |
| Sheet.NonBlankTextClean | src/components/ShiftsInfo.tsx:158-159 | the text of a passing cell is non-empty with no whitespace at either end |
| ShiftsInfo.FindDayRow | src/components/ShiftsInfo.tsx:74-131 | the row found is the first whose column A names the target day; none is found exactly when no row does |
| ShiftsInfo.RowTest | src/components/ShiftsInfo.tsx:75-81 | empty rows and rows with a falsy column A never match; the others match as their column-A cell does |
| ShiftsInfo.CellMatches | src/components/ShiftsInfo.tsx:84-123 | a number matches as its serial day; a text matches only when it splits on '.' into exactly three parts reading as day, 1-based month and year |
| ShiftsInfo.HeaderKey | src/components/ShiftsInfo.tsx:143-150 | a column has a group key exactly when its header is non-blank |
| ShiftsInfo.HeaderKeyWord | src/components/ShiftsInfo.tsx:147 | the group key is a single non-empty word without spaces |
| ShiftsInfo.IndexOfName | src/components/ShiftsInfo.tsx:153 | the department found has that name; none is found exactly when no department has it |
| ShiftsInfo.ColumnOf | src/components/ShiftsInfo.tsx:139-160 | a column has a key exactly when its header is non-blank, and its value is the cell's trimmed non-blank text |
| ShiftsInfo.Columns | src/components/ShiftsInfo.tsx:138-140 | only columns 1 to the header row's length minus 1 are read, each with its header and its cell |
| ShiftsInfo.GroupDepartments | src/components/ShiftsInfo.tsx:133-174 | the loops give exactly the grouping of the matching row's columns |
| ShiftsInfo.GroupColumns | src/components/ShiftsInfo.tsx:138-164 | the loop over columns builds the grouping of the columns read so far |
| ShiftsInfo.PushColumn | src/components/ShiftsInfo.tsx:143-160 | one column creates its department if new and appends its value if it has one |
| ShiftsInfo.GroupingDistinct | src/components/ShiftsInfo.tsx:167-174 | no two departments share a name |
| ShiftsInfo.AddColumnNames | src/components/ShiftsInfo.tsx:153-155 | after a column the department names are the earlier ones plus its key |
| ShiftsInfo.GroupingKeys | src/components/ShiftsInfo.tsx:143-155 | there is a department exactly for each key some non-blank header gives, even with an empty cell |
| ShiftsInfo.GroupingNames | src/components/ShiftsInfo.tsx:158-160 | each department lists exactly the non-blank values of its columns, trimmed, in column order |
| ShiftsInfo.GroupingDistinctAbsent | src/components/ShiftsInfo.tsx:153-160 | a key without a department has collected no value |
| ShiftsInfo.Headers | src/components/ShiftsInfo.tsx:59 | the header row is row 0, or empty for an empty sheet |
| ShiftsInfo.LoadShifts | src/components/ShiftsInfo.tsx:40-208 | a failed download shows the error department and message; no matching row shows the 'Žádná data' department; otherwise the departments are the grouping of the first matching row |
| Common.ParseIntHex | src/components/ShiftsInfo.tsx:112-114 | `parseInt` without a radix reads '0x' followed by hexadecimal digits in base 16, and '0x' alone as NaN |
| DispatcherInfo.IsDateMatch | src/components/DispatcherInfo.tsx:176-228 | a falsy cell never matches; a text cell matches exactly when it trims to today as 'DD.MM.YYYY' or 'D.M.YYYY' |
| DispatcherInfo.NumberMatchesBySerialOnly | src/components/DispatcherInfo.tsx:182-224 | a number cell matches exactly when it is non-zero and its serial day is today, never through the text comparison |
| DispatcherInfo.TrimOfDotless | src/components/DispatcherInfo.tsx:202 | trimming a text without '.' gives a text without '.' |
| DispatcherInfo.DispatcherDateIsShiftDate | src/components/DispatcherInfo.tsx:206-224 | every text the dispatcher card accepts as today is also accepted by the shift overview's date test |
| DispatcherInfo.SpelledDate | src/components/DispatcherInfo.tsx:206-224 | three digit groups joined by '.' reading as today's day, month and year pass the shift overview's date test |
| DispatcherInfo.NamesOf | src/components/DispatcherInfo.tsx:128-135 | Bohemia is column B trimmed or 'Není určeno'; Moravia is column C trimmed or, when C is empty, the Bohemia name |
| DispatcherInfo.FindDateRow | src/components/DispatcherInfo.tsx:109-140 | the row found is the first with more than two cells and today's date; none is found exactly when no row qualifies |
| DispatcherInfo.FindNamedRow | src/components/DispatcherInfo.tsx:147-161 | the row found is the first with more than two cells and a name in B or C; none exactly when no row qualifies |
| DispatcherInfo.LoadFromSheet | src/components/DispatcherInfo.tsx:109-164 | today's first row gives the names; failing that the first named row; it fails exactly when no row is either |
| DispatcherInfo.Preset | src/components/DispatcherInfo.tsx:28-32 | the preset names are Jan Novák for Bohemia and Marie Svobodová for Moravia |
| DispatcherInfo.LoadDispatchers | src/components/DispatcherInfo.tsx:22-50 | the preset names stay when the download fails or the sheet has no usable row; otherwise the names of today's row, else of the first named row |
| ConsumptionCalendar.PreviousMonth | src/components/ConsumptionCalendar.tsx:42-46 | from January it goes to December of the year before, otherwise one month back in the same year |
| ConsumptionCalendar.NextMonth | src/components/ConsumptionCalendar.tsx:48-52 | from December it goes to January of the year after, otherwise one month on in the same year |
| ConsumptionCalendar.StepsInverse | src/components/ConsumptionCalendar.tsx:42-52 | the two arrows undo each other and keep a valid month |
| ConsumptionCalendar.Forward | src/components/ConsumptionCalendar.tsx:48-52 | any number of forward steps stays a valid month |
| ConsumptionCalendar.TwelveSteps | src/components/ConsumptionCalendar.tsx:48-52 | k forward steps, up to twelve, add k months and carry into the next year exactly past December |
| ConsumptionCalendar.LengthOf | src/components/ConsumptionCalendar.tsx:58-59 | a month has between 28 and 31 days |
| ConsumptionCalendar.DayCell | src/components/ConsumptionCalendar.tsx:70-80 | a day's cell carries its number, its zero-padded 'YYYY-MM-DD' text, and the first record with exactly that date when one exists, none exactly when none does |
| ConsumptionCalendar.DaysOfMonth | src/components/ConsumptionCalendar.tsx:54-84 | the grid is the weekday's count of blanks followed by the cells of days 1 to the month's length, in order |
| ConsumptionCalendar.Listed | src/components/ConsumptionCalendar.tsx:132 | filtering drops cells and never adds any |
| ConsumptionCalendar.ListedDays | src/components/ConsumptionCalendar.tsx:132 | the listed cells are exactly the month's days, the k-th being day k + 1 |
| ConsumptionCalendar.ListedBlanksFirst | src/components/ConsumptionCalendar.tsx:132 | leading blanks are dropped and the following cells kept in order |
| ConsumptionCalendar.DayStringsRead | src/components/ConsumptionCalendar.tsx:72 | every listed day's text is a real calendar date that reads back as that day |
| ManagementMessages.TypeLabel | src/components/ManagementMessages.tsx:184-203 | a type outside the seven known ones is labelled 'Informace' |
| ManagementMessages.TypeLabelsDistinct | src/components/ManagementMessages.tsx:184-203 | two different known types never share a label |
| ManagementMessages.BadgeColor | src/components/ManagementMessages.tsx:163-182 | the colour is one of the five badge colours, blue for an unknown type |
| ManagementMessages.BadgeColorMeaning | src/components/ManagementMessages.tsx:163-182 | a badge is blue exactly for 'question' and unknown types, red exactly for 'urgent' and 'issue' |
| ManagementMessages.ToggleExpansion | src/components/ManagementMessages.tsx:224-234 | the toggled message flips between expanded and collapsed and no other message changes |
| ManagementMessages.ToggleTwice | src/components/ManagementMessages.tsx:224-234 | toggling the same message twice restores the expanded set |
| ManagementMessages.ShouldTruncate | src/components/ManagementMessages.tsx:240-242 | a text longer than 150 characters is truncated |
| Common.Utf16Length | src/components/ManagementMessages.tsx:241 | `text.length` counts UTF-16 units: at least one and at most two per character |
| Common.Utf16LengthBmp | src/components/ManagementMessages.tsx:241 | text within the Basic Multilingual Plane has as many UTF-16 units as characters |
| ManagementMessages.ShouldTruncateLines | src/components/ManagementMessages.tsx:240-242 | a text is truncated exactly when it is longer than 150 characters or has more than three lines |
| ManagementMessages.ToggleFlipsClamp | src/components/ManagementMessages.tsx:236-242 | for a long text, the expand button flips that message's clamp and leaves other messages' clamps as they were |
| ManagementMessages.PreviousPhoto | src/components/ManagementMessages.tsx:216-218 | the left arrow steps back one photo, and from the first photo goes to the last |
| ManagementMessages.NextPhoto | src/components/ManagementMessages.tsx:220-222 | the right arrow steps on one photo, and from the last photo goes to the first |
| ManagementMessages.PhotoIndexInRange | src/components/ManagementMessages.tsx:216-222 | from a valid index both arrows stay in range and undo each other |
| ManagementMessages.Forward | src/components/ManagementMessages.tsx:220-222 | any number of right-arrow presses stays in range |
| ManagementMessages.ForwardStraight | src/components/ManagementMessages.tsx:220-222 | presses that do not pass the last photo add their count to the index |
| ManagementMessages.ForwardAdd | src/components/ManagementMessages.tsx:220-222 | a presses followed by b presses land where a + b presses do |
| ManagementMessages.ForwardFullCircle | src/components/ManagementMessages.tsx:220-222 | pressing past the last photo wraps to the first, and as many presses as there are photos return to the start |
| ManagementMessages.CurrentMessages | src/components/ManagementMessages.tsx:376 | the management tab shows the management messages and the drivers tab the driver messages |
| ManagementMessages.PanelOf | src/components/ManagementMessages.tsx:376-434 | the panel shows the first three messages (all when fewer), 'show all' exactly when more exist, and the empty card exactly when the tab has none |
| ManagementMessages.UnreadCountSpec | src/components/ManagementMessages.tsx:378 | the badge never exceeds the number of messages and is zero exactly when every message of the tab is read |
| ManagementMessages.MarkReadCounts | src/components/ManagementMessages.tsx:378 | a message turning read lowers the badge by exactly one |

## Left out

- The database driver, connection handling and SQL text. Tables are sequences of rows, and SERIAL ids are a counter per table. Ties in `ORDER BY` are broken by table order, and text columns are ordered by code point rather than by the database's collation.
- Date columns hold calendar dates in ISO form. Other spellings that PostgreSQL accepts are read as invalid dates.
- The client models read an entry's `date` as 'YYYY-MM-DD' text. The form in which the database driver hands a DATE column to the JSON reply (a full ISO time stamp, for instance) is not modelled.
- Store.PgInt: underscores between digits, the `0x`/`0o`/`0b` prefixes and other integer spellings of recent PostgreSQL versions are read as refused.
- Store.PgDecimal: exponents, `NaN`, `Infinity` and underscores are read as refused, and the value is not rounded to the column's scale.
- auth.js register: a uniqueness violation at INSERT answers 500 in the code. Only a concurrent writer can cause it, because the SELECT before the insert already refuses a duplicate, and concurrency is not modelled.
- Request bodies: a field whose value is a JSON object or array has no `Json` value in the model. In the source such a value is truthy, so it passes the handlers' presence tests (messages.js `if (!title || !content || ...)`, users.js `if (!userId)`) and is then bound as a statement parameter, which the driver serialises and the column type may refuse.
- Store.TextOf: a non-integer JSON number reads as NULL; PostgreSQL's decimal rendering of it is not modelled.
- JSON Web Tokens and bcrypt are idealised oracles. Signature algorithms, the Blowfish key schedule, the salt's effect and the token's expiry clock are not modelled; the current time is a parameter. A bcrypt digest keeps the key it hashed: the first 72 bytes of the password's UTF-8 encoding.
- Crypto.HashMatches: stated only for passwords of at most 72 UTF-8 bytes; for longer ones Crypto.HashIgnoresTail states that bytes past the 72nd are ignored. The NUL byte bcryptjs appends to the key and the cycling of a short key over 72 bytes are not modelled; they make passwords containing U+0000 collide ('a' and 'a', U+0000, 'a' give the same key stream).
- documents.js `daysRemaining` and `isExpired` depend on the clock and are not computed. The groups are a sequence in order of first appearance; this is the key order of the object the grouping `reduce` builds only because category names are not integer-like.
- DocumentsHandler.AddTo, DocumentsHandler.KeyIndex: the accumulator of the grouping `reduce` is a plain object in the source, so a document type naming an `Object.prototype` member (`constructor`, `toString` and the like) finds an inherited truthy value; `.push` then throws and the request answers 500. The model opens a fresh group for it.
- CORS headers and the OPTIONS preflight body are not modelled; only the status codes are.
- mockApi.js `getDocuments`, `updateDocument` and `initDatabase` are not part of this model: they serve a fixed catalogue and a no-op.
- mockApi.js network delays (`setTimeout`) are left out. `Date.now()` ids and ISO time stamps are parameters.
- mockApi.js: an `id` key inside the entry data, and message fields left undefined, are not modelled. The data records have fixed fields.
- realtime.js: the EventSource, the timers and the polling `fetch` are not modelled; their events are method calls.
- realtime.js `broadcast` (a POST with no effect on the service's state) and `getConnectionStatus` (a read of two fields) are not modelled.
- realtime.js: the polling interval that `startPolling` leaves running is not modelled.
- Floating point: hours, rates and earnings are real numbers, so rounding is not modelled.
- `parseFloat`: exponents, `Infinity` and hexadecimal forms are not modelled.
- Time zones are not modelled: `new Date(...)` of an ISO date is read in the calendar of the string, with no UTC shift.
- Number-to-text of hours is a parameter (`hoursText`).
- TimeEntryList.SortNewestFirst: an Invalid Date sorts last, and the source's sort stability is not stated.
- TimeEntryList.Title: states only that the title is never empty. It keeps the caller's title when it is non-empty and uses "Záznamy" otherwise.
- Locale formatting (`toLocaleDateString`, `Intl.NumberFormat` currency, weekday names) is not modelled.
- TimeTrackingTabs: years of entries with an Invalid Date are not listed among the year tabs.
- App.ImportData: an import whose `entries` is not an array is not modelled.
- Spreadsheets: reading the XLSX files and the `fetch` behind them is not modelled. A cell is text, an integer or empty; fractional cells are not modelled.
- Spreadsheets: converting an Excel serial day number to a date is a parameter (`serialMatch`).
- ShiftsInfo: the integer-key order of JavaScript `Object.entries` is not modelled; departments keep the order of first appearance.
- ShiftsInfo.AddColumn: the collected departments are a fresh table. In the source they are a plain object, so a group key naming an `Object.prototype` member (`constructor`, `toString`, `__proto__` and the like) finds an inherited truthy value. Such a column then creates no department, and a non-blank cell makes `.push` throw, which shows the error view. The model treats the key like any other.
- ShiftsInfo day navigation (`goToPreviousDay`, `goToNextDay`) relies on `Date` arithmetic and is not modelled.
- DispatcherInfo: the outer `catch` that sets an error message is not modelled. Preset names stand for every failure.
- ConsumptionCalendar: the weekday of the 1st is a parameter. The `isToday`/`isSelected` highlighting and the `onMonthChange` callback are not modelled.
- ManagementMessages: the open state of the photo dialog, the history dialog and the loading of the sample messages are not modelled.
- ManagementMessages.ShouldTruncate: its contract states only the length direction; the full condition is stated by ManagementMessages.ShouldTruncateLines.
- UserManagement: the `loadUsers` request, the success-message timeout, `confirm()` and `isLoading` are not modelled; their effect on the screen is.
- DriverCard.SaveEdit: the new day count is an integer parameter. An empty or unreadable expiry date makes `Math.ceil` give NaN in the source, and the item then shows as valid ('Platný'); that case is not modelled.
- React rendering is not modelled: each component is reduced to the values that decide what it shows.

## Findings

| source | as written | input that shows it | evidently intended | confidence | as-written member | corrected member |
|---|---|---|---|---|---|---|
| netlify/functions/users.js:121-130 | `userId === currentUser.userId` compares the id in the body with the token's numeric id by strict equality | an admin with id 1 sends `{"userId": "1"}`, the string the GET listing returns; the test fails and the admin's own account is deleted | an administrator cannot delete their own account whatever JSON type carries the id | not executed | UsersHandler.SelfDeleteSlipsThrough | UsersHandler.SelfDeleteRefused |
| src/components/UserManagement.tsx:140 | `userId === currentUser?.id` compares the listed id (a string) with the signed-in user's id (a number) | the signed-in admin with id 1 sees the row listed with id "1"; the delete button shows, and pressing it skips the own-account error | the own row has no delete button, and deleting it is refused before confirmation | not executed | UserManagementView.OwnRowNotRecognised | UserManagementView.OwnRowRecognised |
| netlify/functions/messages.js:245-259 | the string 'NOW()' is pushed as a statement parameter, but the SET clause writes `updated_at = NOW()` and no placeholder names that parameter | an administrator sends PUT `{"messageId": "1", "title": "x"}` for an existing message; PostgreSQL cannot determine the type of the unreferenced parameter $2, the statement fails and the reply is 500 | the message is updated and the reply is 200 with the new row | not executed | MessagesHandler.UpdateFailsAsWritten | MessagesHandler.UpdateSaves |

=== FILE: app.dfy ===
/** The time-tracking application's own state: the list of time entries, the default hourly
    rate, and the real salaries entered per month. Each handler is a pure update of that
    state, as the component applies it through its state setters. Whether the database is
    in use and whether a database call failed are parameters; with the database in use and
    the call succeeding, the list is left to the realtime refresh and does not change here. */
module App {
  import opened Common
  import opened Entries

  datatype AppState = AppState(
    entries: seq<TimeEntry>,
    defaultHourlyRate: real,
    realSalaries: map<string, real>,
    dbInitialized: bool)

  /** The state the application starts with. */
  function Initial(): (s: AppState)
    ensures s.entries == [] && s.realSalaries == map[] && s.defaultHourlyRate == 250.0
  {
    AppState([], 250.0, map[], false)
  }

  /** Whether a handler changes the local list: without the database, or when the database
      call failed and the handler falls back to the local list. */
  predicate Local(s: AppState, apiFailed: bool) {
    !s.dbInitialized || apiFailed
  }

  // ---------------------------------------------------------------------------------------
  // addEntry

  /** The record addEntry builds from the form's data and a fresh timestamp id. */
  function NewEntry(d: EntryData, stamp: string): (e: TimeEntry)
    ensures e.id == stamp && e.date == d.date && e.hours == d.hours && e.hourlyRate == d.hourlyRate
    ensures e.earnings == Earnings(d.hours, d.hourlyRate)
    ensures e.isHoliday == Some(d.isHoliday) && e.isVacation == None
  {
    TimeEntry(stamp, d.date, d.hours, d.hourlyRate, Earnings(d.hours, d.hourlyRate), Some(d.isHoliday), None)
  }

  function AddEntry(s: AppState, d: EntryData, stamp: string, apiFailed: bool): (r: AppState)
    ensures Local(s, apiFailed) ==>
      (|r.entries| == |s.entries| + 1 && r.entries[0] == NewEntry(d, stamp) && r.entries[1..] == s.entries)
    ensures !Local(s, apiFailed) ==> r.entries == s.entries
    ensures r.defaultHourlyRate == d.hourlyRate
    ensures r.realSalaries == s.realSalaries && r.dbInitialized == s.dbInitialized
  {
    var entries := if Local(s, apiFailed) then [NewEntry(d, stamp)] + s.entries else s.entries;
    s.(entries := entries, defaultHourlyRate := d.hourlyRate)
  }

  // ---------------------------------------------------------------------------------------
  // deleteEntry

  function DeleteEntry(s: AppState, id: string, confirmed: bool, apiFailed: bool): (r: AppState)
    ensures !confirmed || !Local(s, apiFailed) ==> r == s
    ensures confirmed && Local(s, apiFailed) ==>
      |r.entries| <= |s.entries| && forall e :: e in r.entries <==> e in s.entries && e.id != id
    ensures r.defaultHourlyRate == s.defaultHourlyRate && r.realSalaries == s.realSalaries
  {
    if confirmed && Local(s, apiFailed) then s.(entries := Filter(s.entries, (e: TimeEntry) => e.id != id))
    else s
  }

  /** Deleting right after adding, under the new entry's fresh id, restores the list. */
  lemma AddThenDelete(s: AppState, d: EntryData, stamp: string)
    requires !s.dbInitialized
    requires forall e :: e in s.entries ==> e.id != stamp
    ensures DeleteEntry(AddEntry(s, d, stamp, false), stamp, true, false).entries == s.entries
  {
    var p := (e: TimeEntry) => e.id != stamp;
    var added := AddEntry(s, d, stamp, false).entries;
    assert added == [NewEntry(d, stamp)] + s.entries;
    FilterAppend([NewEntry(d, stamp)], s.entries, p);
    FilterAll(s.entries, p);
    assert Filter([NewEntry(d, stamp)], p) == [];
  }

  /** Deletion keeps the order of the remaining entries: removing from a concatenation
      removes from each part. */
  lemma DeleteKeepsOrder(s: AppState, t: seq<TimeEntry>, u: seq<TimeEntry>, id: string)
    requires !s.dbInitialized && s.entries == t + u
    ensures DeleteEntry(s, id, true, false).entries
      == DeleteEntry(s.(entries := t), id, true, false).entries + DeleteEntry(s.(entries := u), id, true, false).entries
  {
    FilterAppend(t, u, (e: TimeEntry) => e.id != id);
  }

  // ---------------------------------------------------------------------------------------
  // saveEditedEntry

  function SaveEditedEntry(s: AppState, updated: TimeEntry, apiFailed: bool): (r: AppState)
    ensures |r.entries| == |s.entries|
    ensures Local(s, apiFailed) ==> forall i :: 0 <= i < |s.entries| ==>
      r.entries[i] == (if s.entries[i].id == updated.id then updated else s.entries[i])
    ensures !Local(s, apiFailed) ==> r == s
    ensures r.defaultHourlyRate == s.defaultHourlyRate && r.realSalaries == s.realSalaries
  {
    if Local(s, apiFailed) then
      s.(entries := seq(|s.entries|, i requires 0 <= i < |s.entries| =>
        if s.entries[i].id == updated.id then updated else s.entries[i]))
    else s
  }

  /** Saving the same edit twice is the same as saving it once. */
  lemma SaveIdempotent(s: AppState, updated: TimeEntry)
    requires !s.dbInitialized
    ensures SaveEditedEntry(SaveEditedEntry(s, updated, false), updated, false) == SaveEditedEntry(s, updated, false)
  {
  }

  /** Saving an entry whose id is not in the list changes nothing. */
  lemma SaveUnknownId(s: AppState, updated: TimeEntry)
    requires !s.dbInitialized
    requires forall e :: e in s.entries ==> e.id != updated.id
    ensures SaveEditedEntry(s, updated, false) == s
  {
    var r := SaveEditedEntry(s, updated, false);
    assert forall i :: 0 <= i < |s.entries| ==> s.entries[i] in s.entries;
    assert r.entries == s.entries;
  }

  // ---------------------------------------------------------------------------------------
  // setRealSalary

  function SetRealSalary(s: AppState, monthKey: string, amount: real): (r: AppState)
    ensures monthKey in r.realSalaries && r.realSalaries[monthKey] == amount
    ensures r.realSalaries.Keys == s.realSalaries.Keys + {monthKey}
    ensures forall k :: k in s.realSalaries && k != monthKey ==> r.realSalaries[k] == s.realSalaries[k]
    ensures r.entries == s.entries && r.defaultHourlyRate == s.defaultHourlyRate
  {
    s.(realSalaries := s.realSalaries[monthKey := amount])
  }

  // ---------------------------------------------------------------------------------------
  // addVacationHours

  /** `String(n).padStart(2, '0')` for the text of an integer. */
  function PadStart2(t: string): (r: string)
    ensures |r| == if |t| >= 2 then |t| else 2
    ensures r[|r| - |t|..] == t
    ensures forall i :: 0 <= i < |r| - |t| ==> r[i] == '0'
  {
    if |t| == 0 then "00" else if |t| == 1 then "0" + t else t
  }

  /** The date addVacationHours puts on its entry: the key's year, the key's zero-based
      month plus one, day 01. A month part that is not a number gives "NaN". */
  function VacationDate(monthKey: string): string {
    var parts := Split(monthKey, '-');
    var month := if |parts| >= 2 then ParseInt(parts[1]) else None;
    var monthText := match month
      case Some(m) => PadStart2(IntToString(m + 1))
      case None => "NaN";
    parts[0] + "-" + monthText + "-01"
  }

  /** The vacation record: hours at the vacation rate, flagged as vacation. */
  function VacationEntry(monthKey: string, hours: real, stamp: string): (e: TimeEntry)
    ensures e.id == stamp && e.date == VacationDate(monthKey) && e.hours == hours
    ensures e.hourlyRate == VacationRate && e.earnings == Earnings(hours, VacationRate)
    ensures e.isVacation == Some(true) && e.isHoliday == None
  {
    TimeEntry(stamp, VacationDate(monthKey), hours, VacationRate, Earnings(hours, VacationRate), None, Some(true))
  }

  function AddVacationHours(s: AppState, monthKey: string, hours: real, stamp: string): (r: AppState)
    ensures |r.entries| == |s.entries| + 1
    ensures r.entries[0] == VacationEntry(monthKey, hours, stamp) && r.entries[1..] == s.entries
    ensures r.defaultHourlyRate == s.defaultHourlyRate && r.realSalaries == s.realSalaries
  {
    s.(entries := [VacationEntry(monthKey, hours, stamp)] + s.entries)
  }

  /** The key of month `m` (counted from 0) of year `y` gives the ISO date of that month's
      first day. */
  lemma VacationDateOfKey(y: nat, m: nat)
    requires m <= 11
    ensures VacationDate(MonthKey(y, m)) == DateString(Date(y, m + 1, 1))
  {
    var yt := NatToString(y);
    MonthKeySplits(y, m);
    ParseIntPad2(m);
    VacationDateOfParts(MonthKey(y, m), yt, Pad2(m), m);
    assert IntToString(m + 1) == NatToString(m + 1);
    PadStartOfNat(m + 1);
    FirstDayString(y, m + 1);
  }

  /** VacationDate of a key whose month part reads as `m`. */
  lemma VacationDateOfParts(key: string, yt: string, mt: string, m: nat)
    requires Split(key, '-') == [yt, mt] && ParseInt(mt) == Some(m)
    ensures VacationDate(key) == yt + "-" + PadStart2(IntToString(m + 1)) + "-01"
  {
    var parts := Split(key, '-');
    assert |parts| >= 2 && parts[0] == yt && parts[1] == mt;
    var monthText := PadStart2(IntToString(m + 1));
    assert VacationDate(key) == parts[0] + "-" + monthText + "-01";
  }

  /** The ISO text of the first day of a month. */
  lemma FirstDayString(y: nat, month: nat)
    ensures DateString(Date(y, month, 1)) == NatToString(y) + "-" + Pad2(month) + "-01"
  {
    assert Pad2(1) == "01";
  }

  /** A month key splits at '-' into the year and the padded month. */
  lemma MonthKeySplits(y: nat, m: nat)
    ensures Split(MonthKey(y, m), '-') == [NatToString(y), Pad2(m)]
  {
    var yt, mt := NatToString(y), Pad2(m);
    DigitsFree(yt, '-');
    DigitsFree(mt, '-');
    SplitFree(yt, '-');
    SplitFree(mt, '-');
    SplitConcat(yt, '-', mt);
    assert MonthKey(y, m) == yt + ['-'] + mt;
  }

  /** padStart(2, '0') on a number's text is Pad2 of the number. */
  lemma PadStartOfNat(n: nat)
    ensures PadStart2(NatToString(n)) == Pad2(n)
  {
    if n >= 10 {
      assert |NatToString(n)| >= 2 by { assert |NatToString(n / 10)| >= 1; }
    }
  }


  /** The vacation hours added for a month key land in that month's group of the overview. */
  lemma VacationRegroups(y: nat, m: nat, hours: real, stamp: string)
    requires y >= 1 && m <= 11
    ensures MonthKeyOf(VacationEntry(MonthKey(y, m), hours, stamp).date) == MonthKey(y, m)
    ensures YearKeyOf(VacationEntry(MonthKey(y, m), hours, stamp).date) == "year-" + NatToString(y)
  {
    VacationDateOfKey(y, m);
    YearMonthOfDateString(Date(y, m + 1, 1));
  }

  // ---------------------------------------------------------------------------------------
  // exportData / importData

  /** The fields of an imported JSON file that are present and not null. */
  datatype ImportFile = ImportFile(
    entries: Option<seq<TimeEntry>>,
    defaultHourlyRate: Option<real>,
    realSalaries: Option<map<string, real>>)

  /** The file exportData writes: all three fields. */
  function Export(s: AppState): (f: ImportFile)
    ensures f.entries == Some(s.entries) && f.defaultHourlyRate == Some(s.defaultHourlyRate)
    ensures f.realSalaries == Some(s.realSalaries)
  {
    ImportFile(Some(s.entries), Some(s.defaultHourlyRate), Some(s.realSalaries))
  }

  /** importData: None is a file that is not valid JSON, which changes nothing. A list or an
      object is always truthy; a rate is truthy unless it is 0. */
  function ImportData(s: AppState, file: Option<ImportFile>): (r: AppState)
    ensures file.None? ==> r == s
    ensures file.Some? ==>
      && r.entries == (if file.value.entries.Some? then file.value.entries.value else s.entries)
      && r.realSalaries == (if file.value.realSalaries.Some? then file.value.realSalaries.value else s.realSalaries)
      && r.defaultHourlyRate == (if file.value.defaultHourlyRate.Some? && file.value.defaultHourlyRate.value != 0.0
                                 then file.value.defaultHourlyRate.value else s.defaultHourlyRate)
    ensures r.dbInitialized == s.dbInitialized
  {
    match file
    case None => s
    case Some(f) =>
      var entries := if f.entries.Some? then f.entries.value else s.entries;
      var rate := if f.defaultHourlyRate.Some? && f.defaultHourlyRate.value != 0.0 then f.defaultHourlyRate.value
                  else s.defaultHourlyRate;
      var salaries := if f.realSalaries.Some? then f.realSalaries.value else s.realSalaries;
      AppState(entries, rate, salaries, s.dbInitialized)
  }

  /** Importing an exported file restores the exported state when its rate is not 0. */
  lemma ExportImportRoundTrip(s: AppState, t: AppState)
    requires t.defaultHourlyRate != 0.0 && s.dbInitialized == t.dbInitialized
    ensures ImportData(s, Some(Export(t))) == t
  {
  }

  /** An exported rate of 0 is not restored: the import keeps the current rate. */
  lemma ZeroRateNotRestored(s: AppState, t: AppState)
    requires t.defaultHourlyRate == 0.0
    ensures ImportData(s, Some(Export(t))).defaultHourlyRate == s.defaultHourlyRate
    ensures ImportData(s, Some(Export(t))).entries == t.entries
  {
  }
}

=== FILE: auth.dfy ===
/** netlify/functions/auth.js: one POST endpoint whose body names an action ('login',
    'register' or 'verify'). Passwords are checked against bcrypt digests and sessions are
    JSON Web Tokens valid for seven days; both are the idealised oracles of module Crypto. */
module AuthHandler {
  import opened Common
  import opened Crypto
  import opened Store
  import opened Gate

  /** A call: its HTTP method (`verb`) and its body parsed as a JSON object. None stands for
      a body that `JSON.parse` rejects or reads as null, so that destructuring it throws;
      a body that parses to a number, string, boolean or array has none of the fields read from it, and
      stands as `Some(map[])`. */
  datatype Request = Request(verb: string, body: Option<map<string, Json>>)

  /** The user as replies show it: the stored row without its password hash. */
  datatype UserView = UserView(id: int, username: string, email: string, role: string, createdAt: int)

  datatype Body =
    | Empty
    | Note(message: string)
    | LoggedIn(message: string, token: string, user: UserView)
    | Registered(message: string, user: UserView)
    | Confirmed(message: string, user: UserView)

  /** What a call returns and what it leaves behind: the database and the issued tokens. */
  datatype Outcome = Outcome(reply: Reply<Body>, db: Db, signer: Signer)

  const InvalidCredentials: string := "Neplatné přihlašovací údaje"
  const LoginFailed: string := "Chyba při přihlašování"
  const UserExists: string := "Uživatel s tímto jménem nebo emailem již existuje"
  const RegisterFailed: string := "Chyba při registraci"
  const UserNotFound: string := "Uživatel nebyl nalezen"
  const InvalidToken: string := "Neplatný token"
  const InvalidAction: string := "Neplatná akce"
  const ServerError: string := "Chyba serveru"

  function View(u: UserRow): (v: UserView)
    ensures v.id == u.id && v.username == u.username && v.email == u.email && v.role == u.role
  {
    UserView(u.id, u.username, u.email, u.role, u.createdAt)
  }

  /** `handleLogin`: look the username up, compare the password with the stored digest and,
      when both succeed, sign `{userId, username, role}` for seven days. `token` is the string
      the signing library returns. A non-string password makes the comparison throw (500). */
  function Login(db: Db, k: Signer, username: Json, password: Json, now: int, token: string): (o: Outcome)
    ensures o.db == db
    ensures o.reply.status in {200, 401, 500}
    ensures o.reply.status != 200 ==> o.signer == k
  {
    var found := match TextOf(username) case None => None case Some(name) => FindUsername(db.users, name);
    match found
    case None => Outcome(Reply(401, Note(InvalidCredentials)), db, k)
    case Some(row) =>
      if !password.Str? then Outcome(Reply(500, Note(LoginFailed)), db, k)
      else if !Matches(password.s, row.passwordHash) then Outcome(Reply(401, Note(InvalidCredentials)), db, k)
      else
        var claims := Claims(row.id, row.username, row.role);
        Outcome(Reply(200, LoggedIn("Přihlášení úspěšné", token, View(row))), db, Sign(k, claims, now, token))
  }

  /** Whether a stored user has the given username OR the given email
      (`SELECT id FROM users WHERE username = $1 OR email = $2`). */
  predicate Taken(users: seq<UserRow>, username: Json, email: Json) {
    exists u :: u in users && (Some(u.username) == TextOf(username) || Some(u.email) == TextOf(email))
  }

  /** `handleRegister`: refuse a taken username or email, hash the password (a non-string
      password makes bcrypt throw) and insert the user with role 'user'. The insert fails on
      a missing (NULL) username or email and on values longer than their columns. */
  function Register(db: Db, k: Signer, username: Json, email: Json, password: Json, now: int, salt: string): (o: Outcome)
    ensures o.signer == k
    ensures o.reply.status in {201, 400, 500}
    ensures o.reply.status != 201 ==> o.db == db
  {
    if Taken(db.users, username, email) then Outcome(Reply(400, Note(UserExists)), db, k)
    else if !password.Str? then Outcome(Reply(500, Note(RegisterFailed)), db, k)
    else match (TextOf(username), TextOf(email))
      case (Some(name), Some(mail)) =>
        if |name| > UsernameLimit || |mail| > EmailLimit then Outcome(Reply(500, Note(RegisterFailed)), db, k)
        else
          var db' := InsertUser(db, name, mail, Hash(password.s, salt), "user", now);
          var row := db'.users[|db'.users| - 1];
          Outcome(Reply(201, Registered("Uživatel byl úspěšně vytvořen", View(row))), db', k)
      case _ => Outcome(Reply(500, Note(RegisterFailed)), db, k)
  }

  /** `handleVerify`: check the token, then answer with the user's CURRENT row. */
  function VerifySession(db: Db, k: Signer, token: Json, now: int): (o: Outcome)
    ensures o.db == db && o.signer == k
    ensures o.reply.status in {200, 401}
  {
    var claims := if token.Str? then Verify(k, token.s, now) else None;
    match claims
    case None => Outcome(Reply(401, Note(InvalidToken)), db, k)
    case Some(c) =>
      match FindUser(db.users, c.userId)
      case None => Outcome(Reply(401, Note(UserNotFound)), db, k)
      case Some(row) => Outcome(Reply(200, Confirmed("Token je platný", View(row))), db, k)
  }

  /** `exports.handler`: answer a preflight OPTIONS before touching the body, then dispatch
      on `action`. `now` is the clock in seconds, `token` the string signing would return
      and `salt` the salt bcrypt would draw. */
  function Handle(req: Request, db: Db, k: Signer, now: int, token: string, salt: string): (o: Outcome)
    ensures o.reply.status in {200, 201, 400, 401, 500}
  {
    if req.verb == "OPTIONS" then Outcome(Reply(200, Empty), db, k)
    else match req.body
      case None => Outcome(Reply(500, Note(ServerError)), db, k)
      case Some(b) =>
        var action := Field(b, "action");
        if action == Str("login") then Login(db, k, Field(b, "username"), Field(b, "password"), now, token)
        else if action == Str("register") then
          Register(db, k, Field(b, "username"), Field(b, "email"), Field(b, "password"), now, salt)
        else if action == Str("verify") then VerifySession(db, k, Field(b, "token"), now)
        else Outcome(Reply(400, Note(InvalidAction)), db, k)
  }

  // ---------------------------------------------------------------------------------------
  // Properties

  /** A preflight request is answered 200 with an empty body whatever it carries. */
  lemma OptionsFirst(req: Request, db: Db, k: Signer, now: int, token: string, salt: string)
    requires req.verb == "OPTIONS"
    ensures Handle(req, db, k, now, token, salt) == Outcome(Reply(200, Empty), db, k)
  {
  }

  /** Any action other than the three known ones is refused with 400 and changes nothing. */
  lemma UnknownAction(req: Request, db: Db, k: Signer, now: int, token: string, salt: string)
    requires req.verb != "OPTIONS" && req.body.Some?
    requires Field(req.body.value, "action") !in {Str("login"), Str("register"), Str("verify")}
    ensures Handle(req, db, k, now, token, salt) == Outcome(Reply(400, Note(InvalidAction)), db, k)
  {
  }

  /** An unknown username and a wrong password get the very same reply, and neither signs. */
  lemma LoginFailuresAlike(db: Db, k: Signer, username: Json, password: string, now: int, token: string)
    requires TextOf(username).None? || FindUsername(db.users, TextOf(username).value).None? ||
             !Matches(password, FindUsername(db.users, TextOf(username).value).value.passwordHash)
    ensures Login(db, k, username, Str(password), now, token) == Outcome(Reply(401, Note(InvalidCredentials)), db, k)
  {
  }

  /** A successful login signs exactly the stored id, username and role, and the token then
      verifies to those claims for seven days. */
  lemma LoginSigns(db: Db, k: Signer, row: UserRow, password: string, now: int, token: string, later: int)
    requires FindUsername(db.users, row.username) == Some(row)
    requires Matches(password, row.passwordHash)
    requires now <= later < now + TokenLifetime
    ensures var o := Login(db, k, Str(row.username), Str(password), now, token);
      o.reply == Reply(200, LoggedIn("Přihlášení úspěšné", token, View(row))) &&
      Verify(o.signer, token, later) == Some(Claims(row.id, row.username, row.role)) &&
      Verify(o.signer, token, now + TokenLifetime).None?
  {
    SignThenVerify(k, Claims(row.id, row.username, row.role), now, token, later, token + "x");
    SignThenVerify(k, Claims(row.id, row.username, row.role), now, token, now + TokenLifetime, token + "x");
  }

  /** Registering a taken username or email is refused with 400 and inserts nothing. */
  lemma RegisterDuplicate(db: Db, k: Signer, u: UserRow, username: Json, email: Json, password: Json, now: int, salt: string)
    requires u in db.users
    requires TextOf(username) == Some(u.username) || TextOf(email) == Some(u.email)
    ensures Register(db, k, username, email, password, now, salt) == Outcome(Reply(400, Note(UserExists)), db, k)
  {
  }

  /** A successful registration appends exactly one user, with role 'user', the next id and
      a digest of the given password, and keeps the database consistent. */
  lemma RegisterAppends(db: Db, k: Signer, username: Json, email: Json, password: Json, now: int, salt: string)
    requires Valid(db)
    requires Register(db, k, username, email, password, now, salt).reply.status == 201
    ensures var o := Register(db, k, username, email, password, now, salt);
      password.Str? && TextOf(username).Some? && TextOf(email).Some? &&
      var row := UserRow(db.nextUserId, TextOf(username).value, TextOf(email).value, Hash(password.s, salt), "user", now);
      o.db == db.(users := db.users + [row], nextUserId := db.nextUserId + 1) &&
      o.reply.body == Registered("Uživatel byl úspěšně vytvořen", View(row)) &&
      o.reply.body.user.role == "user" &&
      Valid(o.db)
  {
    var name := TextOf(username).value;
    var mail := TextOf(email).value;
    assert forall u :: u in db.users ==> u.username != name && u.email != mail;
    InsertUserValid(db, name, mail, Hash(password.s, salt), "user", now);
  }

  lemma FindUsernameAppend(users: seq<UserRow>, row: UserRow)
    requires forall u :: u in users ==> u.username != row.username
    ensures FindUsername(users + [row], row.username) == Some(row)
  {
    if users != [] {
      assert (users + [row])[1..] == users[1..] + [row];
      FindUsernameAppend(users[1..], row);
    }
  }

  /** After registering, logging in with the same username and password succeeds and the
      signed role is 'user'. */
  lemma RegisterThenLogin(db: Db, k: Signer, username: string, email: string, password: string,
                          now: int, salt: string, later: int, token: string)
    requires Register(db, k, Str(username), Str(email), Str(password), now, salt).reply.status == 201
    ensures var o := Register(db, k, Str(username), Str(email), Str(password), now, salt);
      var l := Login(o.db, k, Str(username), Str(password), later, token);
      l.reply.status == 200 && l.reply.body.user.role == "user" &&
      l.signer == Sign(k, Claims(db.nextUserId, username, "user"), later, token)
  {
    var row := UserRow(db.nextUserId, username, email, Hash(password, salt), "user", now);
    assert forall u :: u in db.users ==> u.username != username;
    FindUsernameAppend(db.users, row);
  }

  /** Verify answers with the role stored now, not the role in the token; a valid token of a
      deleted user gives 'Uživatel nebyl nalezen'; a bad or expired token gives 'Neplatný token'. */
  lemma VerifyOutcomes(db: Db, k: Signer, token: string, now: int)
    ensures var o := VerifySession(db, k, Str(token), now);
      match Verify(k, token, now)
      case None => o.reply == Reply(401, Note(InvalidToken))
      case Some(c) =>
        match FindUser(db.users, c.userId)
        case None => o.reply == Reply(401, Note(UserNotFound))
        case Some(row) => o.reply.status == 200 && o.reply.body.user.role == row.role
  {
  }

  /** A token that is not a string never verifies. */
  lemma VerifyNeedsString(db: Db, k: Signer, token: Json, now: int)
    requires !token.Str?
    ensures VerifySession(db, k, token, now).reply == Reply(401, Note(InvalidToken))
  {
  }
}

=== FILE: common.dfy ===
/** Values and string operations shared by the server handlers and the client components:
    an Option type, JSON request values with JavaScript truthiness, calendar dates as
    integers, decimal rendering and parsing of numbers, and the String methods the code
    relies on (startsWith, trim, split, join, replace, padStart, default sort order). */
module Common {

  datatype Option<T> = None | Some(value: T)

  /** A JSON value as a parsed request body holds it. `Num` is a number with an integral
      value and `Frac` one with a fractional part; both are exact (floating point is not
      modelled). */
  datatype Json = Undefined | Null | Bool(b: bool) | Num(n: int) | Frac(x: real) | Str(s: string)

  /** JavaScript truthiness: false, 0, "", null and undefined are falsy. */
  predicate Truthy(v: Json) {
    match v
    case Bool(b) => b
    case Num(n) => n != 0
    case Frac(x) => x != 0.0
    case Str(s) => s != ""
    case _ => false
  }

  /** A field of a parsed JSON object body; a missing key reads as undefined. */
  function Field(body: map<string, Json>, key: string): (v: Json)
    ensures key !in body ==> v == Undefined
  {
    if key in body then body[key] else Undefined
  }

  /** A calendar date; `month` is 1-based (January is 1). */
  datatype Date = Date(year: int, month: int, day: int)

  /** Whether `a` is strictly earlier than `b` in the calendar. */
  predicate DateLt(a: Date, b: Date) {
    a.year < b.year || (a.year == b.year && (a.month < b.month || (a.month == b.month && a.day < b.day)))
  }

  /** Whether `y` is a leap year of the Gregorian calendar. */
  predicate LeapYear(y: int) {
    (y % 4 == 0 && y % 100 != 0) || y % 400 == 0
  }

  function DaysInMonth(y: int, m: int): (n: int)
    requires 1 <= m <= 12
    ensures 28 <= n <= 31
  {
    if m == 2 then (if LeapYear(y) then 29 else 28)
    else if m == 4 || m == 6 || m == 9 || m == 11 then 30
    else 31
  }

  /** A date the calendar has (years from 1 on). */
  predicate ValidDate(d: Date) {
    d.year >= 1 && 1 <= d.month <= 12 && 1 <= d.day <= DaysInMonth(d.year, d.month)
  }

  /** `s.startsWith(prefix)`: case-sensitive, character by character. */
  predicate StartsWith(s: string, prefix: string) {
    |prefix| <= |s| && s[..|prefix|] == prefix
  }

  // ---------------------------------------------------------------------------------------
  // Filtering and counting

  /** The elements of `s` that satisfy `p`, in their original order (Array.prototype.filter). */
  function Filter<T>(s: seq<T>, p: T -> bool): (r: seq<T>)
    ensures |r| <= |s|
    ensures forall x :: x in r ==> x in s && p(x)
    ensures forall x :: x in s && p(x) ==> x in r
  {
    if s == [] then []
    else if p(s[0]) then [s[0]] + Filter(s[1..], p)
    else Filter(s[1..], p)
  }

  lemma {:induction false} FilterAll<T>(s: seq<T>, p: T -> bool)
    requires forall i :: 0 <= i < |s| ==> p(s[i])
    ensures Filter(s, p) == s
  {
    if s != [] {
      FilterAll(s[1..], p);
    }
  }

  lemma {:induction false} FilterNone<T>(s: seq<T>, p: T -> bool)
    requires forall i :: 0 <= i < |s| ==> !p(s[i])
    ensures Filter(s, p) == []
  {
    if s != [] {
      FilterNone(s[1..], p);
    }
  }

  lemma {:induction false} FilterAppend<T>(a: seq<T>, b: seq<T>, p: T -> bool)
    ensures Filter(a + b, p) == Filter(a, p) + Filter(b, p)
  {
    if a == [] {
      assert a + b == b;
    } else {
      assert (a + b)[1..] == a[1..] + b;
      FilterAppend(a[1..], b, p);
    }
  }

  // ---------------------------------------------------------------------------------------
  // Characters and whitespace

  predicate IsDigit(c: char) { '0' <= c <= '9' }

  predicate AllDigits(s: string) { forall i :: 0 <= i < |s| ==> IsDigit(s[i]) }

  /** The whitespace that String.prototype.trim, parseInt and parseFloat skip: ECMAScript's
      WhiteSpace (tab, vertical tab, form feed, the byte order mark and the space separators)
      and LineTerminator (line feed, carriage return, line and paragraph separators). */
  predicate IsSpace(c: char) {
    c == '\t' || c == '\n' || c == '\U{000B}' || c == '\U{000C}' || c == '\r' || c == ' ' ||
    c == '\U{00A0}' || c == '\U{1680}' || ('\U{2000}' <= c <= '\U{200A}') ||
    c == '\U{2028}' || c == '\U{2029}' || c == '\U{202F}' || c == '\U{205F}' || c == '\U{3000}' ||
    c == '\U{FEFF}'
  }

  function TrimStart(s: string): (r: string)
    ensures |r| <= |s| && r == s[|s| - |r|..]
    ensures r == [] || !IsSpace(r[0])
  {
    if s != [] && IsSpace(s[0]) then TrimStart(s[1..]) else s
  }

  /** What TrimStart drops is whitespace. */
  lemma {:induction false} TrimStartDropsSpace(s: string)
    ensures forall i :: 0 <= i < |s| - |TrimStart(s)| ==> IsSpace(s[i])
  {
    if s != [] && IsSpace(s[0]) {
      TrimStartDropsSpace(s[1..]);
    }
  }

  function TrimEnd(s: string): (r: string)
    ensures |r| <= |s| && r == s[..|r|]
    ensures r == [] || !IsSpace(r[|r| - 1])
  {
    if s != [] && IsSpace(s[|s| - 1]) then TrimEnd(s[..|s| - 1]) else s
  }

  /** What TrimEnd drops is whitespace. */
  lemma {:induction false} TrimEndDropsSpace(s: string)
    ensures forall i :: |TrimEnd(s)| <= i < |s| ==> IsSpace(s[i])
  {
    if s != [] && IsSpace(s[|s| - 1]) {
      TrimEndDropsSpace(s[..|s| - 1]);
    }
  }

  /** `s.trim()`: leading and trailing whitespace removed. */
  function Trim(s: string): string {
    TrimEnd(TrimStart(s))
  }

  /** A string trims to "" exactly when it is all whitespace (this is what `!x.trim()` tests). */
  lemma TrimEmptyIff(s: string)
    ensures Trim(s) == "" <==> forall i :: 0 <= i < |s| ==> IsSpace(s[i])
  {
    var t := TrimStart(s);
    if Trim(s) == "" {
      TrimStartDropsSpace(s);
      TrimEndDropsSpace(t);
      assert t == [];
    } else {
      assert t != [] && !IsSpace(t[0]);
      assert s[|s| - |t|] == t[0];
    }
  }

  /** Trimming leaves no whitespace at either end. */
  lemma TrimEnds(s: string)
    ensures var t := Trim(s); t == [] || (!IsSpace(t[0]) && !IsSpace(t[|t| - 1]))
  {
    var u := TrimStart(s);
    var t := TrimEnd(u);
    if t != [] {
      assert t[0] == u[0];
    }
  }

  /** A string without whitespace at either end trims to itself. */
  lemma TrimClean(s: string)
    requires s == [] || (!IsSpace(s[0]) && !IsSpace(s[|s| - 1]))
    ensures Trim(s) == s
  {
  }

  /** `s.length`: the number of UTF-16 code units; a character beyond the Basic Multilingual
      Plane takes two. */
  function Utf16Length(s: string): (n: nat)
    ensures |s| <= n <= 2 * |s|
  {
    if s == [] then 0 else Utf16Length(s[..|s| - 1]) + (if s[|s| - 1] as int > 0xFFFF then 2 else 1)
  }

  /** Text within the Basic Multilingual Plane has as many code units as characters. */
  lemma {:induction false} Utf16LengthBmp(s: string)
    requires forall i :: 0 <= i < |s| ==> s[i] as int <= 0xFFFF
    ensures Utf16Length(s) == |s|
  {
    if s != [] {
      Utf16LengthBmp(s[..|s| - 1]);
    }
  }

  /** `s.findIndex(p)`: the first position whose element satisfies `p`. */
  function FindIndex<T>(s: seq<T>, p: T -> bool): (r: Option<nat>)
    ensures r.Some? ==> r.value < |s| && p(s[r.value]) && forall j :: 0 <= j < r.value ==> !p(s[j])
    ensures r.None? ==> forall j :: 0 <= j < |s| ==> !p(s[j])
  {
    if s == [] then None
    else if p(s[0]) then Some(0)
    else match FindIndex(s[1..], p)
      case None => None
      case Some(i) => Some(i + 1)
  }

  /** `s.find(p)`: the first element satisfying `p`. */
  function Find<T>(s: seq<T>, p: T -> bool): (r: Option<T>)
    ensures r.Some? <==> exists x :: x in s && p(x)
    ensures r.Some? ==> r.value in s && p(r.value)
    ensures r.Some? ==> exists i :: 0 <= i < |s| && s[i] == r.value && p(s[i]) && forall j :: 0 <= j < i ==> !p(s[j])
  {
    match FindIndex(s, p)
    case None => None
    case Some(i) => Some(s[i])
  }

  /** `s.splice(i, 1)`: the sequence without its `i`-th element. */
  function RemoveAt<T>(s: seq<T>, i: nat): (r: seq<T>)
    requires i < |s|
    ensures |r| == |s| - 1
    ensures multiset(r) + multiset{s[i]} == multiset(s)
    ensures forall j :: 0 <= j < i ==> r[j] == s[j]
    ensures forall j :: i <= j < |r| ==> r[j] == s[j + 1]
  {
    assert s == s[..i] + [s[i]] + s[i + 1..];
    s[..i] + s[i + 1..]
  }

  // ---------------------------------------------------------------------------------------
  // split, join, replace

  /** The number of occurrences of `c` in `s`. */
  function Count(s: string, c: char): nat {
    if s == [] then 0 else (if s[0] == c then 1 else 0) + Count(s[1..], c)
  }

  /** `s.split(sep)` for a one-character separator. */
  function Split(s: string, sep: char): (parts: seq<string>)
    ensures |parts| >= 1
  {
    if s == [] then [""]
    else
      var rest := Split(s[1..], sep);
      if s[0] == sep then [""] + rest else [[s[0]] + rest[0]] + rest[1..]
  }

  /** `parts.join(sep)` for a one-character separator. */
  function Join(parts: seq<string>, sep: char): string
    requires |parts| >= 1
  {
    if |parts| == 1 then parts[0] else parts[0] + [sep] + Join(parts[1..], sep)
  }

  /** split yields one more part than there are separators. */
  lemma {:induction false} SplitLength(s: string, sep: char)
    ensures |Split(s, sep)| == Count(s, sep) + 1
  {
    if s != [] {
      SplitLength(s[1..], sep);
    }
  }

  /** No part of a split contains the separator. */
  lemma {:induction false} SplitPartsFree(s: string, sep: char)
    ensures forall k :: 0 <= k < |Split(s, sep)| ==> sep !in Split(s, sep)[k]
  {
    if s != [] {
      SplitPartsFree(s[1..], sep);
      var rest := Split(s[1..], sep);
      if s[0] != sep {
        assert sep !in rest[0];
        assert sep !in [s[0]] + rest[0];
      }
    }
  }

  /** Joining the parts of a split gives back the original string. */
  lemma {:induction false} JoinSplit(s: string, sep: char)
    ensures Join(Split(s, sep), sep) == s
  {
    if s != [] {
      JoinSplit(s[1..], sep);
      var rest := Split(s[1..], sep);
      if s[0] == sep {
        assert ([""] + rest)[1..] == rest;
        assert s == [s[0]] + s[1..];
      } else {
        var parts := [[s[0]] + rest[0]] + rest[1..];
        if |rest| == 1 {
          assert s == [s[0]] + s[1..];
        } else {
          assert parts[1..] == rest[1..];
          assert Join(rest, sep) == rest[0] + [sep] + Join(rest[1..], sep);
          assert s == [s[0]] + s[1..];
        }
      }
    }
  }

  /** A string without the separator splits into itself alone. */
  lemma {:induction false} SplitFree(s: string, sep: char)
    requires sep !in s
    ensures Split(s, sep) == [s]
  {
    if s != [] {
      assert sep !in s[1..];
      SplitFree(s[1..], sep);
      assert s[0] != sep;
      assert s == [s[0]] + s[1..];
    }
  }

  /** Splitting at a separator splits each side independently. */
  lemma {:induction false} SplitConcat(a: string, sep: char, b: string)
    ensures Split(a + [sep] + b, sep) == Split(a, sep) + Split(b, sep)
  {
    var s := a + [sep] + b;
    if a == [] {
      assert s[0] == sep && s[1..] == b;
    } else {
      assert s[0] == a[0] && s[1..] == a[1..] + [sep] + b;
      SplitConcat(a[1..], sep, b);
    }
  }

  /** `s.replace(from, to)` with a one-character pattern: only the FIRST occurrence changes. */
  function ReplaceFirst(s: string, from: char, to: char): (r: string)
    ensures |r| == |s|
  {
    if s == [] then []
    else if s[0] == from then [to] + s[1..]
    else [s[0]] + ReplaceFirst(s[1..], from, to)
  }

  /** The position of the first `c` in `s`, if any. */
  function IndexOf(s: string, c: char): (r: Option<nat>)
    ensures r.Some? ==> r.value < |s| && s[r.value] == c && c !in s[..r.value]
    ensures r.None? ==> c !in s
  {
    if s == [] then None
    else if s[0] == c then Some(0)
    else match IndexOf(s[1..], c)
      case None => None
      case Some(i) => assert s[1..][..i] == s[1..i + 1]; Some(i + 1)
  }

  /** replace changes exactly the first occurrence of the pattern and nothing else. */
  lemma {:induction false} ReplaceFirstSpec(s: string, from: char, to: char)
    ensures var r := ReplaceFirst(s, from, to);
      match IndexOf(s, from)
      case None => r == s
      case Some(i) => r == s[..i] + [to] + s[i + 1..]
  {
    if s != [] && s[0] != from {
      ReplaceFirstSpec(s[1..], from, to);
      match IndexOf(s[1..], from)
      case None =>
      case Some(i) =>
        assert s[..i + 1] == [s[0]] + s[1..][..i];
        assert s[i + 2..] == s[1..][i + 1..];
    }
  }

  // ---------------------------------------------------------------------------------------
  // Decimal numbers

  function DigitChar(d: nat): (c: char)
    requires d < 10
    ensures IsDigit(c)
  {
    "0123456789"[d]
  }

  function DigitValue(c: char): nat
    requires IsDigit(c)
  {
    (c as int) - ('0' as int)
  }

  /** `String(n)` / `n.toString()` for a non-negative integer. */
  function NatToString(n: nat): (s: string)
    ensures |s| >= 1 && AllDigits(s)
  {
    if n < 10 then [DigitChar(n)] else NatToString(n / 10) + [DigitChar(n % 10)]
  }

  /** `String(i)` for any integer. */
  function IntToString(i: int): string {
    if i < 0 then "-" + NatToString(-i) else NatToString(i)
  }

  /** `String(n).padStart(2, '0')`. */
  function Pad2(n: nat): (s: string)
    ensures |s| >= 2 && AllDigits(s)
  {
    if n < 10 then "0" + NatToString(n) else NatToString(n)
  }

  /** The value of a string of decimal digits. */
  function DigitsValue(s: string): nat
    requires AllDigits(s)
  {
    if s == [] then 0 else DigitsValue(s[..|s| - 1]) * 10 + DigitValue(s[|s| - 1])
  }

  /** A non-empty string of digits read as a number, or None. */
  function ParseNat(s: string): Option<nat> {
    if s != [] && AllDigits(s) then Some(DigitsValue(s)) else None
  }

  /** Rendering a number in decimal and reading it back gives the number. */
  lemma {:induction false} NatToStringValue(n: nat)
    ensures DigitsValue(NatToString(n)) == n
  {
    if n >= 10 {
      NatToStringValue(n / 10);
      var s := NatToString(n);
      assert s[..|s| - 1] == NatToString(n / 10);
      assert DigitValue(DigitChar(n % 10)) == n % 10;
    } else {
      assert DigitValue(DigitChar(n)) == n;
    }
  }

  lemma NatToStringRoundTrip(n: nat)
    ensures ParseNat(NatToString(n)) == Some(n)
  {
    NatToStringValue(n);
  }

  /** Distinct numbers render as distinct strings. */
  lemma NatToStringInjective(m: nat, n: nat)
    requires NatToString(m) == NatToString(n)
    ensures m == n
  {
    NatToStringValue(m);
    NatToStringValue(n);
  }

  lemma Pad2RoundTrip(n: nat)
    ensures ParseNat(Pad2(n)) == Some(n)
  {
    NatToStringValue(n);
    if n < 10 {
      var s := Pad2(n);
      assert s == ['0', DigitChar(n)];
      assert s[..1] == "0" && s[..1][..0] == "";
      assert DigitsValue(s[..1]) == 0;
      assert DigitValue(DigitChar(n)) == n;
      assert DigitsValue(s) == n;
    }
  }

  /** The longest prefix of `s` made of digits. */
  function DigitPrefix(s: string): (d: string)
    ensures |d| <= |s| && AllDigits(d) && d == s[..|d|]
    ensures |d| < |s| ==> !IsDigit(s[|d|])
  {
    if s != [] && IsDigit(s[0]) then [s[0]] + DigitPrefix(s[1..]) else []
  }

  predicate IsHexDigit(c: char) { IsDigit(c) || 'a' <= c <= 'f' || 'A' <= c <= 'F' }

  predicate AllHexDigits(s: string) { forall i :: 0 <= i < |s| ==> IsHexDigit(s[i]) }

  function HexDigitValue(c: char): (v: nat)
    requires IsHexDigit(c)
    ensures v < 16
    ensures IsDigit(c) ==> v == DigitValue(c)
  {
    if IsDigit(c) then DigitValue(c)
    else if 'a' <= c <= 'f' then (c as int) - ('a' as int) + 10
    else (c as int) - ('A' as int) + 10
  }

  /** A string of hexadecimal digits read as a number. */
  function HexValue(s: string): nat
    requires AllHexDigits(s)
  {
    if s == [] then 0 else HexValue(s[..|s| - 1]) * 16 + HexDigitValue(s[|s| - 1])
  }

  /** The longest prefix of `s` made of hexadecimal digits. */
  function HexPrefix(s: string): (d: string)
    ensures |d| <= |s| && AllHexDigits(d) && d == s[..|d|]
    ensures |d| < |s| ==> !IsHexDigit(s[|d|])
  {
    if s != [] && IsHexDigit(s[0]) then [s[0]] + HexPrefix(s[1..]) else []
  }

  /** Whether `u` opens with the `0x` or `0X` that parseInt without a radix reads as base 16. */
  predicate HexMarked(u: string) {
    |u| >= 2 && u[0] == '0' && (u[1] == 'x' || u[1] == 'X')
  }

  /** `parseInt(s)` with no radix: skips leading whitespace, takes an optional sign, then
      reads base 16 after a `0x`/`0X` marker and base 10 otherwise, taking the longest run
      of digits; None stands for NaN. */
  function ParseInt(s: string): Option<int> {
    var t := TrimStart(s);
    var signed := t != [] && (t[0] == '-' || t[0] == '+');
    var u := if signed then t[1..] else t;
    var hex := HexMarked(u);
    var d := if hex then HexPrefix(u[2..]) else DigitPrefix(u);
    var v: int := if d == [] then 0 else if hex then HexValue(d) else DigitsValue(d);
    if d == [] then None
    else if signed && t[0] == '-' then Some(-v)
    else Some(v)
  }

  lemma HexPrefixAll(s: string)
    requires AllHexDigits(s)
    ensures HexPrefix(s) == s
  {
    if s != [] {
      HexPrefixAll(s[1..]);
    }
  }

  /** parseInt reads `0x` followed by hexadecimal digits in base 16, and `0x` alone as NaN. */
  lemma ParseIntHex(s: string)
    requires AllHexDigits(s)
    ensures ParseInt("0x" + s) == if s == [] then None else Some(HexValue(s))
  {
    var t := "0x" + s;
    assert t[0] == '0' && t[1] == 'x' && t[2..] == s;
    assert TrimStart(t) == t;
    assert HexMarked(t);
    HexPrefixAll(s);
  }

  lemma DigitPrefixAll(s: string)
    requires AllDigits(s)
    ensures DigitPrefix(s) == s
  {
    if s != [] {
      DigitPrefixAll(s[1..]);
    }
  }

  /** parseInt reads back any string of digits (leading zeros included). */
  lemma ParseIntDigits(s: string)
    requires s != [] && AllDigits(s)
    ensures ParseInt(s) == Some(DigitsValue(s))
  {
    assert !IsSpace(s[0]);
    assert TrimStart(s) == s;
    assert !HexMarked(s) by {
      if |s| >= 2 {
        assert IsDigit(s[1]);
      }
    }
    DigitPrefixAll(s);
  }

  lemma ParseIntNat(n: nat)
    ensures ParseInt(NatToString(n)) == Some(n)
  {
    NatToStringValue(n);
    ParseIntDigits(NatToString(n));
  }

  lemma ParseIntPad2(n: nat)
    ensures ParseInt(Pad2(n)) == Some(n)
  {
    Pad2RoundTrip(n);
    ParseIntDigits(Pad2(n));
  }

  // ---------------------------------------------------------------------------------------
  // Default string order of Array.prototype.sort (character by character)

  predicate LexLe(a: string, b: string) {
    if a == [] then true
    else if b == [] then false
    else if a[0] != b[0] then a[0] < b[0]
    else LexLe(a[1..], b[1..])
  }

  predicate LexLt(a: string, b: string) { LexLe(a, b) && a != b }

  lemma {:induction false} LexLeReflexive(a: string)
    ensures LexLe(a, a)
  {
    if a != [] {
      LexLeReflexive(a[1..]);
    }
  }

  lemma {:induction false} LexLeTotal(a: string, b: string)
    ensures LexLe(a, b) || LexLe(b, a)
  {
    if a != [] && b != [] && a[0] == b[0] {
      LexLeTotal(a[1..], b[1..]);
    }
  }

  lemma {:induction false} LexLeAntisymmetric(a: string, b: string)
    requires LexLe(a, b) && LexLe(b, a)
    ensures a == b
  {
    if a != [] && b != [] {
      LexLeAntisymmetric(a[1..], b[1..]);
      assert a == [a[0]] + a[1..] && b == [b[0]] + b[1..];
    }
  }

  lemma {:induction false} LexLeTransitive(a: string, b: string, c: string)
    requires LexLe(a, b) && LexLe(b, c)
    ensures LexLe(a, c)
  {
    if a != [] && b != [] && c != [] && a[0] == b[0] && b[0] == c[0] {
      LexLeTransitive(a[1..], b[1..], c[1..]);
    }
  }

  // ---------------------------------------------------------------------------------------
  // ISO dates 'YYYY-MM-DD'

  /** `${year}-${pad2(month)}-${pad2(day)}`, the date format of the entries and the calendar. */
  function DateString(d: Date): string
    requires d.year >= 0 && d.month >= 0 && d.day >= 0
  {
    NatToString(d.year) + "-" + Pad2(d.month) + "-" + Pad2(d.day)
  }

  /** A 'Y-M-D' string of three digit groups read back as a date (other spellings give None). */
  function ParseDateString(s: string): Option<Date> {
    var parts := Split(s, '-');
    if |parts| != 3 then None
    else match (ParseNat(parts[0]), ParseNat(parts[1]), ParseNat(parts[2]))
      case (Some(y), Some(m), Some(d)) => Some(Date(y, m, d))
      case _ => None
  }

  lemma {:induction false} CountAppend(a: string, b: string, c: char)
    ensures Count(a + b, c) == Count(a, c) + Count(b, c)
  {
    if a == [] {
      assert a + b == b;
    } else {
      assert (a + b)[1..] == a[1..] + b;
      CountAppend(a[1..], b, c);
    }
  }

  lemma {:induction false} DigitsFree(s: string, c: char)
    requires AllDigits(s) && !IsDigit(c)
    ensures c !in s && Count(s, c) == 0
  {
    if s != [] {
      DigitsFree(s[1..], c);
    }
  }

  /** Three digit groups joined by a separator other than a digit split back into the three
      groups. */
  lemma SplitThree(a: string, b: string, c: string, sep: char)
    requires AllDigits(a) && AllDigits(b) && AllDigits(c) && !IsDigit(sep)
    ensures Split(a + [sep] + b + [sep] + c, sep) == [a, b, c]
  {
    var bc := b + [sep] + c;
    DigitsFree(b, sep);
    DigitsFree(c, sep);
    SplitFree(b, sep);
    SplitFree(c, sep);
    SplitConcat(b, sep, c);
    DigitsFree(a, sep);
    SplitFree(a, sep);
    SplitConcat(a, sep, bc);
    ConcatRegroup(a, b, c, sep);
  }

  lemma ConcatRegroup(a: string, b: string, c: string, sep: char)
    ensures a + [sep] + b + [sep] + c == a + [sep] + (b + [sep] + c)
  {
  }

  /** Every date with non-negative fields prints and parses back to itself. */
  lemma DateStringRoundTrip(d: Date)
    requires d.year >= 0 && d.month >= 0 && d.day >= 0
    ensures ParseDateString(DateString(d)) == Some(d)
  {
    SplitThree(NatToString(d.year), Pad2(d.month), Pad2(d.day), '-');
    assert DateString(d) == NatToString(d.year) + ['-'] + Pad2(d.month) + ['-'] + Pad2(d.day);
    NatToStringRoundTrip(d.year);
    Pad2RoundTrip(d.month);
    Pad2RoundTrip(d.day);
  }
}

=== FILE: consumption_calendar.dfy ===
/** The fuel-consumption calendar: a month is laid out as blank cells up to the weekday of
    its first day, then one cell per day with the consumption record logged for that date,
    and the arrows step to the neighbouring months across year ends. */
module ConsumptionCalendar {
  import opened Common

  /** A logged refuelling or consumption record for one day. */
  datatype ConsumptionEntry = ConsumptionEntry(
    id: string,
    date: string,
    fuelConsumption: Option<real>,
    kilometers: real,
    averageConsumption: real,
    notes: Option<string>)

  /** The month shown: a year and a month counted from 0 (the day is always the 1st). */
  datatype Month = Month(year: int, month0: int)

  predicate ValidMonth(m: Month) {
    m.year >= 1 && 0 <= m.month0 <= 11
  }

  /** goToPreviousMonth: December of the year before when leaving January. */
  function PreviousMonth(m: Month): (p: Month)
    requires ValidMonth(m)
    ensures m.month0 == 0 ==> p == Month(m.year - 1, 11)
    ensures m.month0 > 0 ==> p == Month(m.year, m.month0 - 1)
  {
    if m.month0 == 0 then Month(m.year - 1, 11) else Month(m.year, m.month0 - 1)
  }

  /** goToNextMonth: January of the year after when leaving December. */
  function NextMonth(m: Month): (n: Month)
    requires ValidMonth(m)
    ensures m.month0 == 11 ==> n == Month(m.year + 1, 0)
    ensures m.month0 < 11 ==> n == Month(m.year, m.month0 + 1)
  {
    if m.month0 == 11 then Month(m.year + 1, 0) else Month(m.year, m.month0 + 1)
  }

  /** The arrows undo each other, and stepping keeps a valid month (backwards from
      January of year 1 excepted). */
  lemma StepsInverse(m: Month)
    requires ValidMonth(m)
    ensures ValidMonth(NextMonth(m)) && PreviousMonth(NextMonth(m)) == m
    ensures m != Month(1, 0) ==> ValidMonth(PreviousMonth(m)) && NextMonth(PreviousMonth(m)) == m
  {
  }

  /** Twelve steps forward reach the same month a year later. */
  lemma {:induction false} TwelveSteps(m: Month, k: nat)
    requires ValidMonth(m) && k <= 12
    ensures ValidMonth(Forward(m, k))
    ensures Forward(m, k) == (if m.month0 + k <= 11 then Month(m.year, m.month0 + k) else Month(m.year + 1, m.month0 + k - 12))
  {
    if k > 0 {
      TwelveSteps(m, k - 1);
    }
  }

  /** k presses of the next-month arrow. */
  function Forward(m: Month, k: nat): (r: Month)
    requires ValidMonth(m)
    ensures ValidMonth(r)
  {
    if k == 0 then m else NextMonth(Forward(m, k - 1))
  }

  // ---------------------------------------------------------------------------------------
  // getDaysInMonth

  /** One day of the grid: its number, its 'YYYY-MM-DD' text and its record, if any. */
  datatype DayInfo = DayInfo(day: int, dateString: string, consumptionEntry: Option<ConsumptionEntry>)

  /** The number of days of a month. */
  function LengthOf(m: Month): (n: int)
    requires ValidMonth(m)
    ensures 28 <= n <= 31
  {
    DaysInMonth(m.year, m.month0 + 1)
  }

  /** The cell of day `day` of the month: the first record whose date is exactly the day's
      text. */
  function DayCell(m: Month, day: nat, entries: seq<ConsumptionEntry>): (c: DayInfo)
    requires ValidMonth(m)
    ensures c.day == day && c.dateString == DateString(Date(m.year, m.month0 + 1, day))
    ensures c.consumptionEntry.Some? ==>
      (c.consumptionEntry.value in entries && c.consumptionEntry.value.date == c.dateString)
    ensures c.consumptionEntry.None? ==> forall e :: e in entries ==> e.date != c.dateString
    ensures c.consumptionEntry.Some? ==>
      (exists i :: 0 <= i < |entries| && entries[i] == c.consumptionEntry.value &&
         forall j :: 0 <= j < i ==> entries[j].date != c.dateString)
  {
    var dateString := DateString(Date(m.year, m.month0 + 1, day));
    DayInfo(day, dateString, Find(entries, (e: ConsumptionEntry) => e.date == dateString))
  }

  /** getDaysInMonth: `startingDayOfWeek` blanks (the weekday of the 1st, Sunday being 0),
      then the days 1 .. n in order. */
  method DaysOfMonth(m: Month, startingDayOfWeek: nat, entries: seq<ConsumptionEntry>)
    returns (days: seq<Option<DayInfo>>)
    requires ValidMonth(m) && startingDayOfWeek < 7
    ensures |days| == startingDayOfWeek + LengthOf(m)
    ensures forall i :: 0 <= i < startingDayOfWeek ==> days[i].None?
    ensures forall d :: 1 <= d <= LengthOf(m) ==> days[startingDayOfWeek + d - 1] == Some(DayCell(m, d, entries))
  {
    days := [];
    for i := 0 to startingDayOfWeek
      invariant |days| == i && forall k :: 0 <= k < i ==> days[k].None?
    {
      days := days + [None];
    }
    var daysInMonth := LengthOf(m);
    for day := 1 to daysInMonth + 1
      invariant |days| == startingDayOfWeek + day - 1
      invariant forall k :: 0 <= k < startingDayOfWeek ==> days[k].None?
      invariant forall d :: 1 <= d < day ==> days[startingDayOfWeek + d - 1] == Some(DayCell(m, d, entries))
    {
      days := days + [Some(DayCell(m, day, entries))];
    }
  }

  /** The cells the calendar lists: `days.filter(dayInfo => dayInfo)`. */
  function Listed<T>(days: seq<Option<T>>): (r: seq<T>)
    ensures |r| <= |days|
  {
    if days == [] then []
    else Listed(days[..|days| - 1]) + (if days[|days| - 1].Some? then [days[|days| - 1].value] else [])
  }

  /** The calendar lists exactly the month's days, the k-th cell being day k + 1. */
  lemma ListedDays(m: Month, startingDayOfWeek: nat, entries: seq<ConsumptionEntry>, days: seq<Option<DayInfo>>)
    requires ValidMonth(m) && startingDayOfWeek < 7
    requires |days| == startingDayOfWeek + LengthOf(m)
    requires forall i :: 0 <= i < startingDayOfWeek ==> days[i].None?
    requires forall d :: 1 <= d <= LengthOf(m) ==> days[startingDayOfWeek + d - 1] == Some(DayCell(m, d, entries))
    ensures |Listed(days)| == LengthOf(m)
    ensures forall k :: 0 <= k < LengthOf(m) ==> Listed(days)[k] == DayCell(m, k + 1, entries)
  {
    var w := startingDayOfWeek;
    forall i | w <= i < |days|
      ensures days[i].Some?
    {
      assert days[w + (i - w + 1) - 1] == Some(DayCell(m, i - w + 1, entries));
    }
    ListedBlanksFirst(days, w, |days|);
    assert days[..|days|] == days;
    forall k | 0 <= k < LengthOf(m)
      ensures Listed(days)[k] == DayCell(m, k + 1, entries)
    {
      assert days[w + (k + 1) - 1] == Some(DayCell(m, k + 1, entries));
    }
  }

  /** Leading blanks are dropped and the other cells kept in order. */
  lemma {:induction false} ListedBlanksFirst<T>(days: seq<Option<T>>, w: nat, n: nat)
    requires n <= |days| && w <= |days|
    requires forall i :: 0 <= i < w ==> days[i].None?
    requires forall i :: w <= i < |days| ==> days[i].Some?
    ensures |Listed(days[..n])| == if n <= w then 0 else n - w
    ensures forall k :: 0 <= k < |Listed(days[..n])| ==> Listed(days[..n])[k] == days[w + k].value
  {
    if n > 0 {
      ListedBlanksFirst(days, w, n - 1);
      assert days[..n][..n - 1] == days[..n - 1];
    }
  }

  /** Every listed day's text is a real calendar date that reads back as that day. */
  lemma DayStringsRead(m: Month, day: nat, entries: seq<ConsumptionEntry>)
    requires ValidMonth(m) && 1 <= day <= LengthOf(m)
    ensures ValidDate(Date(m.year, m.month0 + 1, day))
    ensures ParseDateString(DayCell(m, day, entries).dateString) == Some(Date(m.year, m.month0 + 1, day))
  {
    DateStringRoundTrip(Date(m.year, m.month0 + 1, day));
  }
}

=== FILE: crypto.dfy ===
/** Idealised token signing (JSON Web Tokens, RFC 7519, as the jsonwebtoken library issues
    them) and password hashing (bcrypt, as the bcryptjs library runs it). Neither algorithm is
    modelled: a signer is the table of tokens it has issued, and a digest remembers the key it
    was made from, the first 72 bytes of the password's UTF-8 encoding. */
module Crypto {
  import opened Common

  /** The payload the server signs at login. */
  datatype Claims = Claims(userId: int, username: string, role: string)

  /** What a token stands for: its claims and the instant (in seconds) it stops being valid. */
  datatype Grant = Grant(claims: Claims, expiresAt: int)

  /** `expiresIn: '7d'`, in seconds. */
  const TokenLifetime: int := 7 * 24 * 60 * 60

  /** Every token signed so far with the server's secret. A token string determines its
      payload, so signing the same payload at the same instant twice yields the same entry. */
  datatype Signer = Signer(issued: map<string, Grant>)

  /** `jwt.sign(claims, secret, { expiresIn: '7d' })`; `token` is the string the library returns. */
  function Sign(k: Signer, c: Claims, now: int, token: string): Signer {
    Signer(k.issued[token := Grant(c, now + TokenLifetime)])
  }

  /** `jwt.verify(token, secret)`: the claims of a token this secret signed, until it expires
      (the library rejects a token once the clock reaches its `exp`). None stands for the
      exception the library throws. */
  function Verify(k: Signer, token: string, now: int): (r: Option<Claims>)
    ensures r.Some? ==> token in k.issued && now < k.issued[token].expiresAt
  {
    if token in k.issued && now < k.issued[token].expiresAt then Some(k.issued[token].claims) else None
  }

  /** A freshly signed token verifies to exactly its claims for seven days and not after;
      every other token verifies as before. */
  lemma SignThenVerify(k: Signer, c: Claims, now: int, token: string, later: int, other: string)
    requires other != token
    ensures Verify(Sign(k, c, now, token), token, later) == (if later < now + TokenLifetime then Some(c) else None)
    ensures Verify(Sign(k, c, now, token), other, later) == Verify(k, other, later)
  {
  }

  /** The UTF-8 encoding of one character: one byte below U+0080, then two, three or four,
      the first marking the length. */
  function Utf8Char(c: char): (b: seq<int>)
    ensures 1 <= |b| <= 4
  {
    var n := c as int;
    if n < 0x80 then [n]
    else if n < 0x800 then [0xC0 + n / 64, 0x80 + n % 64]
    else if n < 0x1_0000 then [0xE0 + n / 4096, 0x80 + n / 64 % 64, 0x80 + n % 64]
    else [0xF0 + n / 262144, 0x80 + n / 4096 % 64, 0x80 + n / 64 % 64, 0x80 + n % 64]
  }

  /** The UTF-8 encoding of a string. */
  function Utf8(s: string): seq<int> {
    if s == [] then [] else Utf8Char(s[0]) + Utf8(s[1..])
  }

  /** bcrypt reads at most 72 bytes of key. */
  const KeyLimit: nat := 72

  /** The key bcrypt hashes: the password's UTF-8 bytes, cut after 72. */
  function Key(password: string): (k: seq<int>)
    ensures |k| <= KeyLimit
  {
    var b := Utf8(password);
    if |b| <= KeyLimit then b else b[..KeyLimit]
  }

  /** `bcrypt.hash(password, saltRounds)` with the random salt it draws. */
  datatype Digest = Digest(rounds: nat, salt: string, key: seq<int>)

  /** The cost factor register uses (netlify/functions/auth.js). */
  const SaltRounds: nat := 12

  function Hash(password: string, salt: string): (d: Digest)
    ensures d.rounds == SaltRounds && d.salt == salt
    ensures |d.key| <= KeyLimit && d.key <= Utf8(password)
    ensures |Utf8(password)| <= KeyLimit ==> d.key == Utf8(password)
  {
    Digest(SaltRounds, salt, Key(password))
  }

  /** `bcrypt.compare(password, digest)`. */
  predicate Matches(password: string, d: Digest) {
    Key(password) == d.key
  }

  /** Among passwords of at most 72 bytes, a hash matches exactly the password it was made
      from, whatever the salt. */
  lemma HashMatches(password: string, attempt: string, salt: string)
    requires |Utf8(password)| <= KeyLimit && |Utf8(attempt)| <= KeyLimit
    ensures Matches(attempt, Hash(password, salt)) <==> attempt == password
  {
    if Utf8(attempt) == Utf8(password) {
      Utf8Injective(attempt, password);
    }
  }

  /** Past 72 bytes the password is not read: anything appended to a password that long
      matches its hash. */
  lemma HashIgnoresTail(password: string, tail: string, salt: string)
    requires |Utf8(password)| >= KeyLimit
    ensures Matches(password + tail, Hash(password, salt))
  {
    Utf8Append(password, tail);
    assert (Utf8(password) + Utf8(tail))[..KeyLimit] == Utf8(password)[..KeyLimit];
  }

  /** The encoding of a concatenation is the concatenation of the encodings. */
  lemma {:induction false} Utf8Append(s: string, t: string)
    ensures Utf8(s + t) == Utf8(s) + Utf8(t)
  {
    if s != [] {
      assert (s + t)[0] == s[0] && (s + t)[1..] == s[1..] + t;
      Utf8Append(s[1..], t);
      assert Utf8(s + t) == Utf8Char(s[0]) + (Utf8(s[1..]) + Utf8(t));
    } else {
      assert s + t == t;
    }
  }

  /** Distinct strings have distinct encodings. */
  lemma {:induction false} Utf8Injective(s: string, t: string)
    requires Utf8(s) == Utf8(t)
    ensures s == t
  {
    if s != [] && t != [] {
      var a := Utf8Char(s[0]);
      var b := Utf8Char(t[0]);
      assert a[0] == Utf8(s)[0] && b[0] == Utf8(t)[0];
      Utf8CharLength(s[0], t[0]);
      assert Utf8(s)[..|a|] == a && Utf8(t)[..|b|] == b;
      Utf8CharInjective(s[0], t[0]);
      assert Utf8(s)[|a|..] == Utf8(s[1..]) && Utf8(t)[|b|..] == Utf8(t[1..]);
      Utf8Injective(s[1..], t[1..]);
    } else {
      assert s == [] && t == [];
    }
  }

  /** The first byte of a character's encoding tells its length. */
  lemma Utf8CharLength(a: char, b: char)
    requires Utf8Char(a)[0] == Utf8Char(b)[0]
    ensures |Utf8Char(a)| == |Utf8Char(b)|
  {
    assert Utf8Char(a)[0] < 0x80 <==> |Utf8Char(a)| == 1;
    assert 0xC0 <= Utf8Char(a)[0] < 0xE0 <==> |Utf8Char(a)| == 2;
    assert 0xE0 <= Utf8Char(a)[0] < 0xF0 <==> |Utf8Char(a)| == 3;
    assert Utf8Char(b)[0] < 0x80 <==> |Utf8Char(b)| == 1;
    assert 0xC0 <= Utf8Char(b)[0] < 0xE0 <==> |Utf8Char(b)| == 2;
    assert 0xE0 <= Utf8Char(b)[0] < 0xF0 <==> |Utf8Char(b)| == 3;
  }

  /** A character's encoding determines the character. */
  lemma Utf8CharInjective(a: char, b: char)
    requires Utf8Char(a) == Utf8Char(b)
    ensures a == b
  {
    var m := a as int;
    var n := b as int;
    var e := Utf8Char(a);
    if |e| == 2 {
      Base64Digits(m, n);
    } else if |e| == 3 {
      assert m / 64 / 64 == m / 4096 && n / 64 / 64 == n / 4096;
      Base64Digits(m / 64, n / 64);
      Base64Digits(m, n);
    } else if |e| == 4 {
      assert m / 4096 / 64 == m / 262144 && n / 4096 / 64 == n / 262144;
      Base64Digits(m / 4096, n / 4096);
      assert m / 64 / 64 == m / 4096 && n / 64 / 64 == n / 4096;
      Base64Digits(m / 64, n / 64);
      Base64Digits(m, n);
    }
  }

  /** Two numbers with the same quotient and remainder by 64 are equal. */
  lemma Base64Digits(m: int, n: int)
    requires m / 64 == n / 64 && m % 64 == n % 64
    ensures m == n
  {
  }
}

=== FILE: dispatcher_info.dfy ===
/** The dispatcher card: the names on duty for Bohemia (column B) and Moravia (column C) are
    read from the row of the dispatch sheet whose column A is today's date, falling back to
    the first row that has any name, and to preset names when the sheet cannot be used. */
module DispatcherInfo {
  import opened Common
  import opened Sheet
  import ShiftsInfo

  /** Today written 'DD.MM.YYYY', day and month padded to two digits. */
  function PaddedDate(today: Date): string
    requires ValidDate(today)
  {
    Pad2(today.day) + "." + Pad2(today.month) + "." + IntToString(today.year)
  }

  /** Today written 'D.M.YYYY', without padding. */
  function PlainDate(today: Date): string
    requires ValidDate(today)
  {
    NatToString(today.day) + "." + NatToString(today.month) + "." + IntToString(today.year)
  }

  /** isDateMatch: a falsy cell never matches; a serial day number matches when `serialMatch`
      puts it on today; otherwise the cell's trimmed text must be one of today's two
      spellings. */
  function IsDateMatch(cell: Cell, today: Date, serialMatch: int -> bool): (r: bool)
    requires ValidDate(today)
    ensures !TruthyCell(cell) ==> !r
    ensures cell.Text? ==> (r <==> cell.s != "" && Trim(cell.s) in {PaddedDate(today), PlainDate(today)})
  {
    if !TruthyCell(cell) then false
    else if cell.Number? && serialMatch(cell.n) then true
    else
      var text := Trim(CellString(cell));
      text == PaddedDate(today) || text == PlainDate(today)
  }

  /** A number cell matches only through its serial day: its decimal text has no '.', so it
      is never one of the date spellings. */
  lemma NumberMatchesBySerialOnly(n: int, today: Date, serialMatch: int -> bool)
    requires ValidDate(today)
    ensures IsDateMatch(Number(n), today, serialMatch) <==> n != 0 && serialMatch(n)
  {
    IntToStringDotless(n);
    TrimOfDotless(IntToString(n));
    DotlessNotDate(Trim(IntToString(n)), today);
  }

  /** The decimal text of an integer has no '.'. */
  lemma IntToStringDotless(n: int)
    ensures '.' !in IntToString(n)
  {
    DigitsFree(NatToString(if n < 0 then -n else n), '.');
  }

  /** A text without '.' is neither spelling of a date. */
  lemma DotlessNotDate(t: string, today: Date)
    requires ValidDate(today) && '.' !in t
    ensures t != PaddedDate(today) && t != PlainDate(today)
  {
    assert PaddedDate(today)[|Pad2(today.day)|] == '.';
    assert PlainDate(today)[|NatToString(today.day)|] == '.';
  }

  /** Trimming never brings in a '.'. */
  lemma TrimOfDotless(s: string)
    requires '.' !in s
    ensures '.' !in Trim(s)
  {
    var t := TrimStart(s);
    assert forall i :: 0 <= i < |t| ==> t[i] == s[|s| - |t| + i];
    var u := TrimEnd(t);
    assert forall i :: 0 <= i < |u| ==> u[i] == t[i];
  }

  /** A text cell isDateMatch accepts names today for the shift overview too: both spellings
      split on '.' into the day, the month and the year. */
  lemma DispatcherDateIsShiftDate(s: string, today: Date, serialMatch: int -> bool)
    requires ValidDate(today) && IsDateMatch(Text(s), today, serialMatch)
    ensures ShiftsInfo.RowMatches([Text(s)], today, serialMatch)
  {
    assert IntToString(today.year) == NatToString(today.year);
    ParseIntNat(today.year);
    if Trim(s) == PaddedDate(today) {
      ParseIntPad2(today.day);
      ParseIntPad2(today.month);
      SpelledDate(s, Pad2(today.day), Pad2(today.month), NatToString(today.year), today);
    } else {
      ParseIntNat(today.day);
      ParseIntNat(today.month);
      SpelledDate(s, NatToString(today.day), NatToString(today.month), NatToString(today.year), today);
    }
  }

  /** A text that trims to three digit groups joined by '.', reading as today's day, month
      and year, is a date the shift overview accepts. */
  lemma SpelledDate(s: string, d: string, m: string, y: string, today: Date)
    requires AllDigits(d) && AllDigits(m) && AllDigits(y) && Trim(s) == d + "." + m + "." + y
    requires ParseInt(d) == Some(today.day) && ParseInt(m) == Some(today.month) && ParseInt(y) == Some(today.year)
    ensures ShiftsInfo.DateTextMatches(s, today)
  {
    SplitThree(d, m, y, '.');
    assert d + "." + m + "." + y == d + ['.'] + m + ['.'] + y;
  }

  // ---------------------------------------------------------------------------------------
  // Choosing the row

  /** The names the card shows, and the date text it shows them for. */
  datatype Dispatchers = Dispatchers(cechy: string, morava: string, date: string)

  /** The names of a row: trimmed column B or 'Není určeno', and trimmed column C or, when C
      is empty, the Bohemia name. */
  function NamesOf(row: Row, date: string): (d: Dispatchers)
    requires |row| > 2
    ensures TruthyCell(row[1]) ==> d.cechy == Trim(CellString(row[1]))
    ensures !TruthyCell(row[1]) ==> d.cechy == "Není určeno"
    ensures TruthyCell(row[2]) ==> d.morava == Trim(CellString(row[2]))
    ensures !TruthyCell(row[2]) ==> d.morava == d.cechy
    ensures d.date == date
  {
    var cechy := if TruthyCell(row[1]) then Trim(CellString(row[1])) else "Není určeno";
    var morava := if TruthyCell(row[2]) then Trim(CellString(row[2])) else cechy;
    Dispatchers(cechy, morava, date)
  }

  /** A row the first pass takes: more than two cells, today's date in column A. */
  predicate DateRow(row: Row, today: Date, serialMatch: int -> bool)
    requires ValidDate(today)
  {
    |row| > 2 && IsDateMatch(row[0], today, serialMatch)
  }

  /** A row the fallback pass takes: more than two cells, a name in column B or C. */
  predicate NamedRow(row: Row) {
    |row| > 2 && (TruthyCell(row[1]) || TruthyCell(row[2]))
  }

  /** The first pass: the first row of today. */
  method FindDateRow(rows: seq<Row>, today: Date, serialMatch: int -> bool) returns (found: Option<nat>)
    requires ValidDate(today)
    ensures found.Some? ==> (found.value < |rows| && DateRow(rows[found.value], today, serialMatch)
      && forall k :: 0 <= k < found.value ==> !DateRow(rows[k], today, serialMatch))
    ensures found.None? ==> forall k :: 0 <= k < |rows| ==> !DateRow(rows[k], today, serialMatch)
  {
    for i := 0 to |rows|
      invariant forall k :: 0 <= k < i ==> !DateRow(rows[k], today, serialMatch)
    {
      var row := rows[i];
      if |row| > 2 {
        if IsDateMatch(row[0], today, serialMatch) {
          return Some(i);
        }
      }
    }
    return None;
  }

  /** The fallback pass: the first row that names anybody. */
  method FindNamedRow(rows: seq<Row>) returns (found: Option<nat>)
    ensures found.Some? ==> (found.value < |rows| && NamedRow(rows[found.value])
      && forall k :: 0 <= k < found.value ==> !NamedRow(rows[k]))
    ensures found.None? ==> forall k :: 0 <= k < |rows| ==> !NamedRow(rows[k])
  {
    for i := 0 to |rows|
      invariant forall k :: 0 <= k < i ==> !NamedRow(rows[k])
    {
      var row := rows[i];
      if |row| > 2 && (TruthyCell(row[1]) || TruthyCell(row[2])) {
        return Some(i);
      }
    }
    return None;
  }

  /** loadDispatcherDataFromExcel after the download: the names of today's row, else of the
      first row naming anybody, else None (the error it throws). `date` is today's date as
      the card prints it. */
  method LoadFromSheet(rows: seq<Row>, today: Date, date: string, serialMatch: int -> bool)
    returns (r: Option<Dispatchers>)
    requires ValidDate(today)
    ensures forall i ::
      (0 <= i < |rows| && DateRow(rows[i], today, serialMatch)
        && (forall k :: 0 <= k < i ==> !DateRow(rows[k], today, serialMatch)))
        ==> r == Some(NamesOf(rows[i], date))
    ensures forall i ::
      ((forall k :: 0 <= k < |rows| ==> !DateRow(rows[k], today, serialMatch))
        && 0 <= i < |rows| && NamedRow(rows[i]) && (forall k :: 0 <= k < i ==> !NamedRow(rows[k])))
        ==> r == Some(NamesOf(rows[i], date))
    ensures r.None? <==> forall k :: 0 <= k < |rows| ==> !DateRow(rows[k], today, serialMatch) && !NamedRow(rows[k])
  {
    var found := FindDateRow(rows, today, serialMatch);
    if found.Some? {
      r := Some(NamesOf(rows[found.value], date));
      forall i | 0 <= i < |rows| && DateRow(rows[i], today, serialMatch)
          && (forall k :: 0 <= k < i ==> !DateRow(rows[k], today, serialMatch))
        ensures r == Some(NamesOf(rows[i], date))
      {
        FirstDateRowUnique(rows, today, serialMatch, found.value, i);
      }
      return;
    }
    var fallback := FindNamedRow(rows);
    if fallback.Some? {
      r := Some(NamesOf(rows[fallback.value], date));
      forall i | 0 <= i < |rows| && NamedRow(rows[i]) && (forall k :: 0 <= k < i ==> !NamedRow(rows[k]))
        ensures r == Some(NamesOf(rows[i], date))
      {
        FirstNamedRowUnique(rows, fallback.value, i);
      }
      return;
    }
    return None;
  }

  /** Two first rows of today are the same row. */
  lemma FirstDateRowUnique(rows: seq<Row>, today: Date, serialMatch: int -> bool, i: nat, j: nat)
    requires ValidDate(today) && i < |rows| && j < |rows|
    requires DateRow(rows[i], today, serialMatch) && forall k :: 0 <= k < i ==> !DateRow(rows[k], today, serialMatch)
    requires DateRow(rows[j], today, serialMatch) && forall k :: 0 <= k < j ==> !DateRow(rows[k], today, serialMatch)
    ensures i == j
  {
  }

  /** Two first rows naming anybody are the same row. */
  lemma FirstNamedRowUnique(rows: seq<Row>, i: nat, j: nat)
    requires i < |rows| && j < |rows|
    requires NamedRow(rows[i]) && forall k :: 0 <= k < i ==> !NamedRow(rows[k])
    requires NamedRow(rows[j]) && forall k :: 0 <= k < j ==> !NamedRow(rows[k])
    ensures i == j
  {
  }

  /** The names shown before (and unless) the sheet provides others. */
  function Preset(date: string): (d: Dispatchers)
    ensures d.cechy == "Jan Novák" && d.morava == "Marie Svobodová" && d.date == date
  {
    Dispatchers("Jan Novák", "Marie Svobodová", date)
  }

  /** loadDispatcherData: the preset names are shown first and replaced only by names the
      sheet provides; `sheet` is None when the download or the reading failed. */
  method LoadDispatchers(sheet: Option<seq<Row>>, today: Date, date: string, serialMatch: int -> bool)
    returns (shown: Dispatchers)
    requires ValidDate(today)
    ensures sheet.None? ==> shown == Preset(date)
    ensures
      (sheet.Some? && forall k :: 0 <= k < |sheet.value| ==>
        !DateRow(sheet.value[k], today, serialMatch) && !NamedRow(sheet.value[k]))
        ==> shown == Preset(date)
    ensures forall i ::
      (sheet.Some? && 0 <= i < |sheet.value| && DateRow(sheet.value[i], today, serialMatch)
        && (forall k :: 0 <= k < i ==> !DateRow(sheet.value[k], today, serialMatch)))
        ==> shown == NamesOf(sheet.value[i], date)
    ensures forall i ::
      (sheet.Some? && (forall k :: 0 <= k < |sheet.value| ==> !DateRow(sheet.value[k], today, serialMatch))
        && 0 <= i < |sheet.value| && NamedRow(sheet.value[i])
        && (forall k :: 0 <= k < i ==> !NamedRow(sheet.value[k])))
        ==> shown == NamesOf(sheet.value[i], date)
  {
    shown := Preset(date);
    if sheet.Some? {
      var loaded := LoadFromSheet(sheet.value, today, date, serialMatch);
      if loaded.Some? {
        shown := loaded.value;
      }
    }
  }
}

=== FILE: documents.dfy ===
/** netlify/functions/documents.js: the driver's documents. No method checks any credential.
    GET returns the rows grouped by document type; PUT rewrites one document's dates. */
module DocumentsHandler {
  import opened Common
  import opened Store
  import opened Gate
  import opened Sorting

  /** A call: method, headers (never inspected) and the parsed JSON body. None stands for a
      body that `JSON.parse` rejects or reads as null; a body that parses to a number, string, boolean or array has none of the fields read from it, and
      stands as `Some(map[])`. */
  datatype Request = Request(verb: string, headers: Headers, body: Option<map<string, Json>>)

  /** A document as GET shows it. The clock-dependent `daysRemaining` and `isExpired` are not
      modelled; `isExpiringSoon` is always false. */
  datatype DocView = DocView(id: int, name: string, issueDate: Date, expiryDate: Date, isExpiringSoon: bool)

  /** The grouped listing: (document type, its documents) in first-appearance order. */
  type Groups = seq<(string, seq<DocView>)>

  datatype Body =
    | Empty
    | Grouped(groups: Groups)
    | Failure(error: string)
    | Note(message: string)

  datatype Outcome = Outcome(reply: Reply<Body>, db: Db)

  const ServerError: Reply<Body> := Reply(500, Failure("Internal server error"))

  function View(d: DocumentRow): (v: DocView)
    ensures !v.isExpiringSoon
  {
    DocView(d.id, d.name, d.issueDate, d.expiryDate, false)
  }

  function Views(docs: seq<DocumentRow>): (r: seq<DocView>)
    ensures |r| == |docs| && forall i :: 0 <= i < |docs| ==> r[i] == View(docs[i])
  {
    seq(|docs|, i requires 0 <= i < |docs| => View(docs[i]))
  }

  function OfType(t: string): DocumentRow -> bool {
    (d: DocumentRow) => d.docType == t
  }

  // ---------------------------------------------------------------------------------------
  // GET: order and grouping

  /** `ORDER BY document_type, document_name`, comparing strings character by character. */
  function ByTypeName(): (DocumentRow, DocumentRow) -> bool {
    (a: DocumentRow, b: DocumentRow) =>
      LexLt(a.docType, b.docType) || (a.docType == b.docType && LexLe(a.name, b.name))
  }

  lemma ByTypeNameOrders()
    ensures TotalPreorder(ByTypeName())
  {
    var le := ByTypeName();
    forall a: DocumentRow, b: DocumentRow ensures le(a, b) || le(b, a) {
      LexLeTotal(a.docType, b.docType);
      LexLeTotal(a.name, b.name);
    }
    forall a: DocumentRow, b: DocumentRow, c: DocumentRow | le(a, b) && le(b, c) ensures le(a, c) {
      LexLeReflexive(a.docType);
      LexLeReflexive(b.docType);
      if a.docType == c.docType {
        LexLeAntisymmetric(a.docType, b.docType);
        LexLeTransitive(a.name, b.name, c.name);
      } else {
        LexLeTransitive(a.docType, b.docType, c.docType);
      }
    }
  }

  /** The position of the group with key `key`, the first one if several. */
  function KeyIndex(groups: Groups, key: string): (r: Option<nat>)
    ensures r.Some? ==> r.value < |groups| && groups[r.value].0 == key &&
                        forall j :: 0 <= j < r.value ==> groups[j].0 != key
    ensures r.None? ==> forall j :: 0 <= j < |groups| ==> groups[j].0 != key
    decreases |groups|
  {
    if groups == [] then None
    else if groups[0].0 == key then Some(0)
    else match KeyIndex(groups[1..], key)
      case None => None
      case Some(i) => Some(i + 1)
  }

  /** One step of the `reduce`: create the document's group if absent, then push its view. */
  function AddTo(groups: Groups, d: DocumentRow): (r: Groups)
    ensures |r| == |groups| || |r| == |groups| + 1
  {
    match KeyIndex(groups, d.docType)
    case None => groups + [(d.docType, [View(d)])]
    case Some(i) => groups[i := (d.docType, groups[i].1 + [View(d)])]
  }

  /** `documents.reduce(...)` over the rows in query order. */
  function GroupOf(docs: seq<DocumentRow>): Groups
    decreases |docs|
  {
    if docs == [] then [] else AddTo(GroupOf(docs[..|docs| - 1]), docs[|docs| - 1])
  }

  /** The `reduce` as the loop it is: look the key up, create the group if needed, push. */
  method GroupDocuments(docs: seq<DocumentRow>) returns (groups: Groups)
    ensures groups == GroupOf(docs)
  {
    groups := [];
    for n := 0 to |docs|
      invariant groups == GroupOf(docs[..n])
    {
      var d := docs[n];
      var i := 0;
      while i < |groups| && groups[i].0 != d.docType
        invariant 0 <= i <= |groups|
        invariant forall j :: 0 <= j < i ==> groups[j].0 != d.docType
      {
        i := i + 1;
      }
      if i == |groups| {
        groups := groups + [(d.docType, [View(d)])];
      } else {
        groups := groups[i := (d.docType, groups[i].1 + [View(d)])];
      }
      assert docs[..n + 1][..n] == docs[..n];
    }
    assert docs[..|docs|] == docs;
  }

  ghost predicate DistinctKeys(g: Groups) {
    forall i, j :: 0 <= i < j < |g| ==> g[i].0 != g[j].0
  }

  /** Each group holds the views of exactly the rows of its type, in input order. */
  ghost predicate GroupsMatch(docs: seq<DocumentRow>, g: Groups) {
    forall i :: 0 <= i < |g| ==> g[i].1 == Views(Filter(docs, OfType(g[i].0)))
  }

  /** Every row's type has a group. */
  ghost predicate Covers(docs: seq<DocumentRow>, g: Groups) {
    forall d :: d in docs ==> exists i :: 0 <= i < |g| && g[i].0 == d.docType
  }

  /** Every group's key is the type of some row. */
  ghost predicate KeysFrom(docs: seq<DocumentRow>, g: Groups) {
    forall i :: 0 <= i < |g| ==> exists d :: d in docs && d.docType == g[i].0
  }

  ghost predicate Grouping(docs: seq<DocumentRow>, g: Groups) {
    DistinctKeys(g) && GroupsMatch(docs, g) && Covers(docs, g) && KeysFrom(docs, g)
  }

  /** The grouping is correct: one group per distinct type, holding exactly the rows of that
      type in input order. */
  lemma {:induction false} GroupOfCorrect(docs: seq<DocumentRow>)
    ensures Grouping(docs, GroupOf(docs))
    decreases |docs|
  {
    if docs != [] {
      var p := docs[..|docs| - 1];
      var d := docs[|docs| - 1];
      assert docs == p + [d];
      GroupOfCorrect(p);
      AddToCorrect(p, d, GroupOf(p));
    }
  }

  lemma AddToCorrect(p: seq<DocumentRow>, d: DocumentRow, g: Groups)
    requires Grouping(p, g)
    ensures Grouping(p + [d], AddTo(g, d))
  {
    match KeyIndex(g, d.docType)
    case None => AddToNew(p, d, g);
    case Some(k) => AddToExisting(p, d, g, k);
  }

  lemma FilterLast(p: seq<DocumentRow>, d: DocumentRow, t: string)
    ensures Filter(p + [d], OfType(t)) == if d.docType == t then Filter(p, OfType(t)) + [d] else Filter(p, OfType(t))
  {
    FilterAppend(p, [d], OfType(t));
  }

  /** A row of a type not seen before opens a new group at the end. */
  lemma AddToNew(p: seq<DocumentRow>, d: DocumentRow, g: Groups)
    requires Grouping(p, g)
    requires forall j :: 0 <= j < |g| ==> g[j].0 != d.docType
    ensures Grouping(p + [d], g + [(d.docType, [View(d)])])
  {
    var r := g + [(d.docType, [View(d)])];
    assert DistinctKeys(r);
    AddToNewMatch(p, d, g);
    AddToNewCovers(p, d, g);
    AddToNewKeys(p, d, g);
  }

  lemma AddToNewMatch(p: seq<DocumentRow>, d: DocumentRow, g: Groups)
    requires GroupsMatch(p, g) && Covers(p, g)
    requires forall j :: 0 <= j < |g| ==> g[j].0 != d.docType
    ensures GroupsMatch(p + [d], g + [(d.docType, [View(d)])])
  {
    var r := g + [(d.docType, [View(d)])];
    forall i | 0 <= i < |r| ensures r[i].1 == Views(Filter(p + [d], OfType(r[i].0))) {
      FilterLast(p, d, r[i].0);
      if i == |g| {
        forall j | 0 <= j < |p| ensures !OfType(d.docType)(p[j]) {
          assert p[j] in p;
        }
        FilterNone(p, OfType(d.docType));
      }
    }
  }

  lemma AddToNewCovers(p: seq<DocumentRow>, d: DocumentRow, g: Groups)
    requires Covers(p, g)
    ensures Covers(p + [d], g + [(d.docType, [View(d)])])
  {
    var r := g + [(d.docType, [View(d)])];
    forall x | x in p + [d] ensures exists i :: 0 <= i < |r| && r[i].0 == x.docType {
      if x == d {
        assert r[|g|].0 == x.docType;
      } else {
        assert x in p;
        var i :| 0 <= i < |g| && g[i].0 == x.docType;
        assert r[i].0 == x.docType;
      }
    }
  }

  lemma AddToNewKeys(p: seq<DocumentRow>, d: DocumentRow, g: Groups)
    requires KeysFrom(p, g)
    ensures KeysFrom(p + [d], g + [(d.docType, [View(d)])])
  {
    var r := g + [(d.docType, [View(d)])];
    forall i | 0 <= i < |r| ensures exists x :: x in p + [d] && x.docType == r[i].0 {
      if i == |g| {
        assert d in p + [d];
      } else {
        var x :| x in p && x.docType == g[i].0;
        assert x in p + [d];
      }
    }
  }

  /** A row of a type already seen is pushed onto that type's group. */
  lemma AddToExisting(p: seq<DocumentRow>, d: DocumentRow, g: Groups, k: nat)
    requires Grouping(p, g)
    requires k < |g| && g[k].0 == d.docType
    ensures Grouping(p + [d], g[k := (d.docType, g[k].1 + [View(d)])])
  {
    var r := g[k := (d.docType, g[k].1 + [View(d)])];
    assert DistinctKeys(r) by {
      forall i, j | 0 <= i < j < |r| ensures r[i].0 != r[j].0 {
        assert r[i].0 == g[i].0 && r[j].0 == g[j].0;
      }
    }
    AddToExistingMatch(p, d, g, k);
    AddToExistingCovers(p, d, g, k);
    AddToExistingKeys(p, d, g, k);
  }

  lemma AddToExistingMatch(p: seq<DocumentRow>, d: DocumentRow, g: Groups, k: nat)
    requires GroupsMatch(p, g) && DistinctKeys(g)
    requires k < |g| && g[k].0 == d.docType
    ensures GroupsMatch(p + [d], g[k := (d.docType, g[k].1 + [View(d)])])
  {
    var r := g[k := (d.docType, g[k].1 + [View(d)])];
    forall i | 0 <= i < |r| ensures r[i].1 == Views(Filter(p + [d], OfType(r[i].0))) {
      FilterLast(p, d, r[i].0);
      if i == k {
        var f := Filter(p, OfType(d.docType));
        assert Views(f + [d]) == Views(f) + [View(d)];
      } else {
        assert r[i] == g[i] && g[i].0 != d.docType;
      }
    }
  }

  lemma AddToExistingCovers(p: seq<DocumentRow>, d: DocumentRow, g: Groups, k: nat)
    requires Covers(p, g)
    requires k < |g| && g[k].0 == d.docType
    ensures Covers(p + [d], g[k := (d.docType, g[k].1 + [View(d)])])
  {
    var r := g[k := (d.docType, g[k].1 + [View(d)])];
    forall x | x in p + [d] ensures exists i :: 0 <= i < |r| && r[i].0 == x.docType {
      if x == d {
        assert r[k].0 == x.docType;
      } else {
        assert x in p;
        var i :| 0 <= i < |g| && g[i].0 == x.docType;
        assert r[i].0 == x.docType;
      }
    }
  }

  lemma AddToExistingKeys(p: seq<DocumentRow>, d: DocumentRow, g: Groups, k: nat)
    requires KeysFrom(p, g)
    requires k < |g| && g[k].0 == d.docType
    ensures KeysFrom(p + [d], g[k := (d.docType, g[k].1 + [View(d)])])
  {
    var r := g[k := (d.docType, g[k].1 + [View(d)])];
    forall i | 0 <= i < |r| ensures exists x :: x in p + [d] && x.docType == r[i].0 {
      var x :| x in p && x.docType == g[i].0;
      assert x in p + [d] && r[i].0 == g[i].0;
    }
  }

  /** GET: all rows, ordered by type and name, grouped by type. */
  function Listing(docs: seq<DocumentRow>): Groups {
    ByTypeNameOrders();
    GroupOf(SortBy(docs, ByTypeName()))
  }

  /** Every row lands in the group of its type, each group holds exactly the rows of its
      type ordered by name, and no view is flagged as expiring soon. */
  lemma ListingCorrect(docs: seq<DocumentRow>)
    ensures TotalPreorder(ByTypeName())
    ensures var sorted := SortBy(docs, ByTypeName());
      Grouping(sorted, Listing(docs)) && multiset(sorted) == multiset(docs)
    ensures NamesAscending(Listing(docs))
    ensures forall i, a :: 0 <= i < |Listing(docs)| && 0 <= a < |Listing(docs)[i].1| ==>
      !Listing(docs)[i].1[a].isExpiringSoon
  {
    ByTypeNameOrders();
    var sorted := SortBy(docs, ByTypeName());
    GroupOfCorrect(sorted);
    SortedGroupsByName(sorted, Listing(docs));
  }

  ghost predicate NamesAscending(g: Groups) {
    forall i, a, b :: 0 <= i < |g| && 0 <= a < b < |g[i].1| ==> LexLe(g[i].1[a].name, g[i].1[b].name)
  }

  lemma SortedGroupsByName(sorted: seq<DocumentRow>, g: Groups)
    requires SortedBy(sorted, ByTypeName()) && GroupsMatch(sorted, g)
    ensures NamesAscending(g)
  {
    forall i, a, b | 0 <= i < |g| && 0 <= a < b < |g[i].1| ensures LexLe(g[i].1[a].name, g[i].1[b].name) {
      var f := Filter(sorted, OfType(g[i].0));
      FilterOrdered(sorted, OfType(g[i].0), ByTypeName());
      assert ByTypeName()(f[a], f[b]);
      assert f[a] in f && f[b] in f;
    }
  }

  /** Filtering keeps a sorted sequence sorted. */
  lemma {:induction false} FilterOrdered<T(!new)>(s: seq<T>, p: T -> bool, le: (T, T) -> bool)
    requires SortedBy(s, le)
    ensures SortedBy(Filter(s, p), le)
  {
    if s != [] {
      FilterOrdered(s[1..], p, le);
      if p(s[0]) {
        var f := Filter(s, p);
        forall i, j | 0 <= i < j < |f| ensures le(f[i], f[j]) {
          if i == 0 {
            assert f[j] in Filter(s[1..], p);
            var k :| 0 <= k < |s[1..]| && s[1..][k] == f[j];
            assert s[k + 1] == f[j];
          }
        }
      }
    }
  }

  // ---------------------------------------------------------------------------------------
  // PUT

  /** `UPDATE driver_documents SET issue_date, expiry_date, updated_at WHERE id = $id`. */
  function Redate(docs: seq<DocumentRow>, id: int, issue: Date, expiry: Date, now: int): (r: seq<DocumentRow>)
    ensures |r| == |docs|
    ensures forall i :: 0 <= i < |r| ==>
      r[i] == if docs[i].id == id then docs[i].(issueDate := issue, expiryDate := expiry, updatedAt := now) else docs[i]
  {
    seq(|docs|, i requires 0 <= i < |docs| =>
      if docs[i].id == id then docs[i].(issueDate := issue, expiryDate := expiry, updatedAt := now) else docs[i])
  }

  /** PUT: all three fields must be truthy (400); values the database rejects give 500;
      otherwise 200, whether or not a row has that id. */
  function UpdateDocument(db: Db, body: Option<map<string, Json>>, now: int): (o: Outcome)
    ensures o.reply.status in {200, 400, 500}
    ensures o.reply.status != 200 ==> o.db == db
  {
    match body
    case None => Outcome(ServerError, db)
    case Some(b) =>
      var id := Field(b, "id");
      var issue := Field(b, "issueDate");
      var expiry := Field(b, "expiryDate");
      if !Truthy(id) || !Truthy(issue) || !Truthy(expiry) then
        Outcome(Reply(400, Failure("Missing required fields")), db)
      else if IdOf(id).BadParam? || DateOf(issue).None? || DateOf(expiry).None? then Outcome(ServerError, db)
      else
        var docs := if IdOf(id).IdValue? then Redate(db.documents, IdOf(id).id, DateOf(issue).value, DateOf(expiry).value, now)
                    else db.documents;
        Outcome(Reply(200, Note("Document updated successfully")), db.(documents := docs))
  }

  /** `handler`: preflight, GET, PUT, else 405. */
  function Handle(req: Request, db: Db, now: int): (o: Outcome)
    ensures o.reply.status in {200, 400, 405, 500}
    ensures o.reply.status != 200 || req.verb != "PUT" ==> o.db == db
  {
    if req.verb == "OPTIONS" then Outcome(Reply(200, Empty), db)
    else if req.verb == "GET" then Outcome(Reply(200, Grouped(Listing(db.documents))), db)
    else if req.verb == "PUT" then UpdateDocument(db, req.body, now)
    else Outcome(Reply(405, Failure("Method not allowed")), db)
  }

  // ---------------------------------------------------------------------------------------
  // Properties

  /** No credential is checked: the outcome is the same whatever headers the request has. */
  lemma NoAuthorization(req: Request, h: Headers, db: Db, now: int)
    ensures Handle(req.(headers := h), db, now) == Handle(req, db, now)
  {
  }

  /** PUT without one of the three fields is a 400 and changes nothing. */
  lemma UpdateNeedsFields(db: Db, b: map<string, Json>, now: int)
    requires "id" !in b || "issueDate" !in b || "expiryDate" !in b
    ensures UpdateDocument(db, Some(b), now) == Outcome(Reply(400, Failure("Missing required fields")), db)
  {
  }

  /** PUT naming an id no row has still answers 200, and changes nothing. */
  lemma UpdateUnknownIdSucceeds(db: Db, b: map<string, Json>, now: int, id: int)
    requires Field(b, "id") == Num(id) && id != 0 && IsInt4(id) && forall d :: d in db.documents ==> d.id != id
    requires DateOf(Field(b, "issueDate")).Some? && DateOf(Field(b, "expiryDate")).Some?
    ensures UpdateDocument(db, Some(b), now) == Outcome(Reply(200, Note("Document updated successfully")), db)
  {
    var r := Redate(db.documents, id, DateOf(Field(b, "issueDate")).value, DateOf(Field(b, "expiryDate")).value, now);
    assert r == db.documents;
  }

  /** PUT naming an id outside the range of the integer id column fails with 500. */
  lemma UpdateIdOutOfRange(db: Db, b: map<string, Json>, now: int, id: int)
    requires Field(b, "id") == Num(id) && !IsInt4(id)
    requires Truthy(Field(b, "issueDate")) && Truthy(Field(b, "expiryDate"))
    ensures UpdateDocument(db, Some(b), now) == Outcome(ServerError, db)
  {
  }

  /** A successful PUT changes only the dates and time stamp of rows with that id. */
  lemma UpdateChangesDatesOnly(db: Db, b: map<string, Json>, now: int, id: int)
    requires Field(b, "id") == Num(id) && UpdateDocument(db, Some(b), now).reply.status == 200
    ensures var r := UpdateDocument(db, Some(b), now).db.documents;
      |r| == |db.documents| &&
      forall i :: 0 <= i < |r| ==>
        r[i].id == db.documents[i].id && r[i].docType == db.documents[i].docType && r[i].name == db.documents[i].name &&
        (db.documents[i].id != id ==> r[i] == db.documents[i]) &&
        (db.documents[i].id == id ==> r[i].issueDate == DateOf(Field(b, "issueDate")).value &&
                                      r[i].expiryDate == DateOf(Field(b, "expiryDate")).value)
  {
  }

  /** Other methods are refused with 405. */
  lemma OtherMethods(req: Request, db: Db, now: int)
    requires req.verb !in {"OPTIONS", "GET", "PUT"}
    ensures Handle(req, db, now) == Outcome(Reply(405, Failure("Method not allowed")), db)
  {
  }
}

=== FILE: driver_card.dfy ===
/** src/components/DriverCard.tsx: the driver's card of documents, internal trainings and
    distribution centres, each item with an expiry date. Which warning band an item is in,
    and the in-place date editor. The day count is computed from the clock in the source;
    here it is a parameter. */
module DriverCard {
  import opened Common

  datatype Item = Item(
    id: string, name: string, issueDate: string, expiryDate: string,
    daysRemaining: int, isExpired: bool, isExpiringSoon: bool)

  /** The three keys of the card's data. */
  datatype Category = Documents | Internal | Centers

  function Key(c: Category): (k: string)
    ensures k in {"documents", "internal", "centers"}
  {
    match c
    case Documents => "documents"
    case Internal => "internal"
    case Centers => "centers"
  }

  datatype CardData = CardData(documents: seq<Item>, internal: seq<Item>, centers: seq<Item>)

  function Items(d: CardData, c: Category): seq<Item> {
    match c
    case Documents => d.documents
    case Internal => d.internal
    case Centers => d.centers
  }

  function WithItems(d: CardData, c: Category, items: seq<Item>): (r: CardData)
    ensures Items(r, c) == items
    ensures forall o :: o != c ==> Items(r, o) == Items(d, o)
  {
    match c
    case Documents => d.(documents := items)
    case Internal => d.(internal := items)
    case Centers => d.(centers := items)
  }

  // ---------------------------------------------------------------------------------------
  // Warning bands

  /** `getWarningThreshold`: days before expiry from which an item is flagged. */
  function Threshold(item: Item, c: Category): (t: int)
    ensures c == Documents || item.id == "health-check" ==> t == 45
    ensures c != Documents && item.id != "health-check" && item.id in {"cybersecurity", "compliance", "pc-passwords"} ==> t == 21
    ensures c == Centers && item.id !in {"health-check", "cybersecurity", "compliance", "pc-passwords"} ==> t == 14
    ensures c == Internal && item.id !in {"health-check", "cybersecurity", "compliance", "pc-passwords"} ==> t == 30
    ensures t in {14, 21, 30, 45}
  {
    if Key(c) == "documents" || item.id == "health-check" then 45
    else if item.id == "cybersecurity" || item.id == "compliance" || item.id == "pc-passwords" then 21
    else if Key(c) == "centers" then 14
    else 30
  }

  datatype Band = Expired | ExpiringSoon | Valid

  /** The band shared by the status text, the badge style and the day-count colour. */
  function BandOf(item: Item, c: Category): (b: Band)
    ensures b == Expired <==> item.daysRemaining < 0
    ensures b == ExpiringSoon <==> 0 <= item.daysRemaining <= Threshold(item, c)
    ensures b == Valid <==> item.daysRemaining > Threshold(item, c)
  {
    if item.daysRemaining < 0 then Expired
    else if item.daysRemaining <= Threshold(item, c) then ExpiringSoon
    else Valid
  }

  /** `getStatusText`. */
  function StatusText(item: Item, c: Category): string {
    var t := Threshold(item, c);
    if item.daysRemaining < 0 then "Vypršel"
    else if item.daysRemaining <= t then "Brzy vyprší"
    else "Platný"
  }

  /** `getStatusStyle`: background and text colour of the badge. */
  function StatusStyle(item: Item, c: Category): (string, string) {
    var t := Threshold(item, c);
    if item.daysRemaining < 0 then ("#fee2e2", "#991b1b")
    else if item.daysRemaining <= t then ("#fed7aa", "#9a3412")
    else ("#dcfce7", "#166534")
  }

  /** The colour of the 'Zbývá dnů' figure. */
  function DayColor(item: Item, c: Category): string {
    if item.daysRemaining < 0 then "#dc2626"
    else if item.daysRemaining <= Threshold(item, c) then "#ea580c"
    else "#16a34a"
  }

  /** Exactly one status holds, and the text, the style and the colour all show the same
      band. */
  lemma OneBand(item: Item, c: Category)
    ensures var b := BandOf(item, c);
      (StatusText(item, c) == "Vypršel" <==> b == Expired) &&
      (StatusText(item, c) == "Brzy vyprší" <==> b == ExpiringSoon) &&
      (StatusText(item, c) == "Platný" <==> b == Valid) &&
      (StatusStyle(item, c) == ("#fee2e2", "#991b1b") <==> b == Expired) &&
      (StatusStyle(item, c) == ("#fed7aa", "#9a3412") <==> b == ExpiringSoon) &&
      (StatusStyle(item, c) == ("#dcfce7", "#166534") <==> b == Valid) &&
      (DayColor(item, c) == "#dc2626" <==> b == Expired) &&
      (DayColor(item, c) == "#ea580c" <==> b == ExpiringSoon) &&
      (DayColor(item, c) == "#16a34a" <==> b == Valid)
  {
  }

  // ---------------------------------------------------------------------------------------
  // Editing

  datatype DateForm = DateForm(issueDate: string, expiryDate: string)

  const EmptyForm: DateForm := DateForm("", "")

  /** The component's state: the data, the item being edited (category and id) and the form. */
  datatype Editor = Editor(data: CardData, editing: Option<(Category, string)>, form: DateForm)

  /** `startEditing`: only an id present in that category enters edit mode, with the form
      prefilled from the item's dates. */
  function StartEditing(e: Editor, c: Category, id: string): (r: Editor)
    ensures r.data == e.data
    ensures (exists it :: it in Items(e.data, c) && it.id == id) ==> r.editing == Some((c, id))
    ensures (exists it :: it in Items(e.data, c) && it.id == id) ==>
      exists it :: it in Items(e.data, c) && it.id == id && r.form == DateForm(it.issueDate, it.expiryDate)
    ensures !(exists it :: it in Items(e.data, c) && it.id == id) ==> r == e
  {
    match Find(Items(e.data, c), (it: Item) => it.id == id)
    case None => e
    case Some(it) => Editor(e.data, Some((c, id)), DateForm(it.issueDate, it.expiryDate))
  }

  /** The item after saving: the form's dates and the new day count; both flags are kept. */
  function Edited(it: Item, f: DateForm, days: int): (r: Item)
    ensures r.id == it.id && r.name == it.name && r.isExpired == it.isExpired && r.isExpiringSoon == it.isExpiringSoon
    ensures r.issueDate == f.issueDate && r.expiryDate == f.expiryDate && r.daysRemaining == days
  {
    it.(issueDate := f.issueDate, expiryDate := f.expiryDate, daysRemaining := days)
  }

  /** `saveEdit`, where `days` is the day count the clock gives for the new expiry date:
      rewrite every item of the edited category with the edited id, then leave edit mode. */
  function SaveEdit(e: Editor, days: int): (r: Editor)
    ensures e.editing.None? ==> r == e
    ensures e.editing.Some? ==> r.editing.None? && r.form == EmptyForm
  {
    match e.editing
    case None => e
    case Some((c, id)) =>
      var items := Items(e.data, c);
      var updated := seq(|items|, i requires 0 <= i < |items| =>
        if items[i].id == id then Edited(items[i], e.form, days) else items[i]);
      Editor(WithItems(e.data, c, updated), None, EmptyForm)
  }

  /** `cancelEdit`: leave edit mode and clear the form; the data stays. */
  function CancelEdit(e: Editor): (r: Editor)
    ensures r.data == e.data && r.editing.None? && r.form == EmptyForm
  {
    Editor(e.data, None, EmptyForm)
  }

  /** Saving changes only the edited item of the edited category, and in it only the dates and
      the day count. */
  lemma SaveChangesOnlyEdited(e: Editor, days: int)
    requires e.editing.Some?
    ensures var (c, id) := e.editing.value;
      var before := Items(e.data, c);
      var after := Items(SaveEdit(e, days).data, c);
      (forall o :: o != c ==> Items(SaveEdit(e, days).data, o) == Items(e.data, o)) &&
      |after| == |before| &&
      forall i :: 0 <= i < |before| ==>
        (before[i].id != id ==> after[i] == before[i]) &&
        (before[i].id == id ==> after[i] == Edited(before[i], e.form, days))
  {
  }

  /** Editing an item and saving the untouched form keeps its dates and flags: only the day
      count is refreshed. */
  lemma StartThenSaveKeepsDates(e: Editor, c: Category, id: string, days: int)
    requires forall i, j :: 0 <= i < j < |Items(e.data, c)| ==> Items(e.data, c)[i].id != Items(e.data, c)[j].id
    requires exists it :: it in Items(e.data, c) && it.id == id
    ensures var after := Items(SaveEdit(StartEditing(e, c, id), days).data, c);
      var before := Items(e.data, c);
      |after| == |before| &&
      forall i :: 0 <= i < |before| ==>
        after[i] == if before[i].id == id then before[i].(daysRemaining := days) else before[i]
  {
    var s := StartEditing(e, c, id);
    var before := Items(e.data, c);
    var it :| it in before && it.id == id && s.form == DateForm(it.issueDate, it.expiryDate);
    forall i | 0 <= i < |before| && before[i].id == id ensures before[i] == it {
      var k :| 0 <= k < |before| && before[k] == it;
    }
  }
}

=== FILE: edit_entry_dialog.dfy ===
/** The dialog that edits a time entry: the hours may be typed with a decimal comma, and a
    valid save hands on the entry with its new date, hours, rate and earnings. */
module EditEntryDialog {
  import opened Common
  import opened Entries

  /** What pressing save does: nothing (no entry is open), the alert, or the updated entry
      handed to the save callback before the dialog closes. */
  datatype Outcome = Nothing | Rejected | Saved(entry: TimeEntry)

  /** `hours.replace(',', '.')`: the first decimal comma becomes a point. */
  function NormalizeHours(text: string): (r: string)
    ensures IndexOf(text, ',').None? ==> r == text
    ensures IndexOf(text, ',').Some? ==>
      var i := IndexOf(text, ',').value; r == text[..i] + ['.'] + text[i + 1..]
  {
    ReplaceFirstSpec(text, ',', '.');
    ReplaceFirst(text, ',', '.')
  }

  /** handleSave over the dialog's typed date, hours and rate. */
  function Save(entry: Option<TimeEntry>, date: string, hours: string, rate: string): (o: Outcome)
    ensures entry.None? <==> o.Nothing?
    ensures entry.Some? ==>
      (o.Saved? <==> Positive(ParseFloat(NormalizeHours(hours))) && Positive(ParseFloat(rate)))
    ensures o.Saved? ==> (o.entry.id == entry.value.id && o.entry.isHoliday == entry.value.isHoliday
      && o.entry.isVacation == entry.value.isVacation)
    ensures o.Saved? ==> (o.entry.date == date
      && Some(o.entry.hours) == ParseFloat(NormalizeHours(hours))
      && Some(o.entry.hourlyRate) == ParseFloat(rate)
      && o.entry.earnings == Earnings(o.entry.hours, o.entry.hourlyRate))
  {
    if entry.None? then Nothing
    else
      var h := ParseFloat(NormalizeHours(hours));
      var r := ParseFloat(rate);
      if !Positive(h) || !Positive(r) then Rejected
      else Saved(entry.value.(date := date, hours := h.value, hourlyRate := r.value, earnings := Earnings(h.value, r.value)))
  }

  /** Saving the saved entry again with the same fields changes nothing more. */
  lemma SaveIdempotent(e: TimeEntry, date: string, hours: string, rate: string)
    requires Save(Some(e), date, hours, rate).Saved?
    ensures Save(Some(Save(Some(e), date, hours, rate).entry), date, hours, rate)
         == Save(Some(e), date, hours, rate)
  {
  }

  /** The first ',' of digits, a comma and digits is the one after the whole part. */
  lemma CommaAt(a: string, b: string)
    requires AllDigits(a)
    ensures IndexOf(a + "," + b, ',') == Some(|a|)
  {
    var s := a + "," + b;
    assert s[|a|] == ',';
    assert forall k :: 0 <= k < |a| ==> s[k] == a[k];
    assert IndexOf(s, ',').Some?;
    var i := IndexOf(s, ',').value;
    assert i <= |a|;
  }

  /** Hours typed with a decimal comma, as in "13,8", are saved at their decimal value, while
      without the normalisation parseFloat would stop at the comma and keep the whole part. */
  lemma CommaHoursRead(a: string, b: string)
    requires a != [] && AllDigits(a) && AllDigits(b)
    ensures ParseFloat(NormalizeHours(a + "," + b)) == Some(DecimalValue(a, b))
    ensures ParseFloat(a + "," + b) == Some(DigitsValue(a) as real)
  {
    CommaAt(a, b);
    var s := a + "," + b;
    assert s[..|a|] == a && s[|a| + 1..] == b;
    assert NormalizeHours(s) == a + "." + b;
    ParseFloatDecimal(a, b);
    ParseFloatComma(a, b);
  }

  /** The rate is not normalised: a rate typed with a decimal comma keeps only its whole
      part. */
  lemma CommaRateTruncated(e: TimeEntry, date: string, hours: string, a: string, b: string)
    requires a != [] && AllDigits(a) && DigitsValue(a) > 0
    requires Positive(ParseFloat(NormalizeHours(hours)))
    ensures Save(Some(e), date, hours, a + "," + b).Saved?
    ensures Save(Some(e), date, hours, a + "," + b).entry.hourlyRate == DigitsValue(a) as real
  {
    ParseFloatComma(a, b);
  }
}

=== FILE: entries.dfy ===
/** The client's time-entry record and the number and date readings the client components
    share: `parseFloat` of a decimal string, and the (year, zero-based month) a date string
    reads as, with the 'year-YYYY' and 'YYYY-MM' keys the overview groups entries under. */
module Entries {
  import opened Common

  /** One logged shift: hours worked at an hourly rate, with the earnings they give.
      `isHoliday` and `isVacation` are optional flags (None when the record has no key). */
  datatype TimeEntry = TimeEntry(
    id: string,
    date: string,
    hours: real,
    hourlyRate: real,
    earnings: real,
    isHoliday: Option<bool>,
    isVacation: Option<bool>)

  /** What the entry form hands to the application: an entry without id and earnings. */
  datatype EntryData = EntryData(date: string, hours: real, hourlyRate: real, isHoliday: bool)

  /** The earnings the client stores for a number of hours at a rate. */
  function Earnings(hours: real, rate: real): real {
    hours * rate
  }

  /** The hourly rate of vacation hours. */
  const VacationRate: real := 250.0

  // ---------------------------------------------------------------------------------------
  // parseFloat

  function Pow10(n: nat): (p: nat)
    ensures p >= 1
  {
    if n == 0 then 1 else 10 * Pow10(n - 1)
  }

  /** The value of the decimal `whole.frac`. */
  function DecimalValue(whole: string, frac: string): real
    requires AllDigits(whole) && AllDigits(frac)
  {
    DigitsValue(whole) as real + DigitsValue(frac) as real / Pow10(|frac|) as real
  }

  /** The number an unsigned decimal `digits[.digits]` at the start of `u` spells, or None
      when `u` starts with neither a digit nor a '.' and a digit. */
  function UnsignedPrefix(u: string): Option<real> {
    var whole := DigitPrefix(u);
    var rest := u[|whole|..];
    var frac := if rest != [] && rest[0] == '.' then DigitPrefix(rest[1..]) else [];
    if whole == [] && frac == [] then None else Some(DecimalValue(whole, frac))
  }

  /** `parseFloat(s)`: skips leading whitespace, takes an optional sign, digits, and a '.'
      followed by more digits, and ignores whatever follows; None stands for NaN. */
  function ParseFloat(s: string): Option<real> {
    var t := TrimStart(s);
    if t != [] && (t[0] == '-' || t[0] == '+') then
      match UnsignedPrefix(t[1..])
      case Some(v) => Some(if t[0] == '-' then -v else v)
      case None => None
    else UnsignedPrefix(t)
  }

  /** The test `!x || x <= 0` rejects: NaN, zero and negatives. */
  predicate Positive(x: Option<real>) {
    x.Some? && x.value > 0.0
  }

  /** parseFloat reads a string of digits as its integer value. */
  lemma ParseFloatDigits(a: string)
    requires a != [] && AllDigits(a)
    ensures ParseFloat(a) == Some(DigitsValue(a) as real)
  {
    assert !IsSpace(a[0]) && a[0] != '-' && a[0] != '+';
    assert TrimStart(a) == a;
    UnsignedDigits(a);
  }

  /** A string of digits read as an unsigned decimal is its integer value. */
  lemma UnsignedDigits(a: string)
    requires a != [] && AllDigits(a)
    ensures UnsignedPrefix(a) == Some(DigitsValue(a) as real)
  {
    DigitPrefixAll(a);
    assert a[|a|..] == [];
    assert DecimalValue(a, []) == DigitsValue(a) as real;
  }

  /** parseFloat reads `a.b` as the decimal number it spells. */
  lemma ParseFloatDecimal(a: string, b: string)
    requires a != [] && AllDigits(a) && AllDigits(b)
    ensures ParseFloat(a + "." + b) == Some(DecimalValue(a, b))
  {
    var s := a + "." + b;
    assert s[0] == a[0];
    assert !IsSpace(s[0]) && s[0] != '-' && s[0] != '+';
    assert TrimStart(s) == s;
    UnsignedDecimal(a, b);
  }

  /** Digits, a '.' and digits read as an unsigned decimal give the number they spell. */
  lemma UnsignedDecimal(a: string, b: string)
    requires AllDigits(a) && AllDigits(b)
    ensures UnsignedPrefix(a + "." + b) == if a == [] && b == [] then None else Some(DecimalValue(a, b))
  {
    var s := a + "." + b;
    assert s == a + ['.'] + b;
    PrefixStopsAt(a, '.', b);
    assert s[|a|..] == "." + b;
    assert ("." + b)[1..] == b;
    DigitPrefixAll(b);
  }

  /** parseFloat stops at a ',' and keeps only the digits before it. */
  lemma ParseFloatComma(a: string, b: string)
    requires a != [] && AllDigits(a)
    ensures ParseFloat(a + "," + b) == Some(DigitsValue(a) as real)
  {
    var s := a + "," + b;
    assert s == a + [','] + b;
    assert s[0] == a[0] && !IsSpace(s[0]);
    assert TrimStart(s) == s;
    UnsignedStop(a, ',', b);
  }

  /** Digits followed by a character other than a digit or '.' read as their integer value. */
  lemma UnsignedStop(a: string, c: char, b: string)
    requires a != [] && AllDigits(a) && !IsDigit(c) && c != '.'
    ensures UnsignedPrefix(a + [c] + b) == Some(DigitsValue(a) as real)
  {
    var s := a + [c] + b;
    PrefixStopsAt(a, c, b);
    assert s[|a|..][0] == c;
    assert DecimalValue(a, []) == DigitsValue(a) as real;
  }

  /** The digit prefix of digits followed by a non-digit is those digits. */
  lemma {:induction false} PrefixStopsAt(a: string, c: char, b: string)
    requires AllDigits(a) && !IsDigit(c)
    ensures DigitPrefix(a + [c] + b) == a
  {
    if a != [] {
      assert (a + [c] + b)[1..] == a[1..] + [c] + b;
      PrefixStopsAt(a[1..], c, b);
    } else {
      assert (a + [c] + b)[0] == c;
    }
  }

  // ---------------------------------------------------------------------------------------
  // Dates of entries and the overview keys

  /** `new Date(date)` read as (getFullYear, getMonth), the month counted from 0; None is an
      Invalid Date. */
  function YearMonth(date: string): (r: Option<(int, int)>)
    ensures r.Some? ==> r.value.0 >= 1 && 0 <= r.value.1 <= 11
  {
    match ParseDateString(date)
    case Some(d) => if ValidDate(d) then Some((d.year, d.month - 1)) else None
    case None => None
  }

  /** `${date.getFullYear()}`: the year as text, or "NaN". */
  function YearText(date: string): string {
    match YearMonth(date)
    case Some((y, _)) => NatToString(y)
    case None => "NaN"
  }

  /** The key of a calendar month, its month counted from 0 and padded to two digits. */
  function MonthKey(year: nat, month0: nat): string {
    NatToString(year) + "-" + Pad2(month0)
  }

  /** The 'year-YYYY' key an entry with this date is grouped under. */
  function YearKeyOf(date: string): (k: string)
    ensures StartsWith(k, "year-")
  {
    "year-" + YearText(date)
  }

  /** The 'YYYY-MM' key an entry with this date is grouped under ("NaN-NaN" for an Invalid
      Date). */
  function MonthKeyOf(date: string): (k: string)
    ensures YearMonth(date).Some? ==> k == MonthKey(YearMonth(date).value.0, YearMonth(date).value.1)
  {
    match YearMonth(date)
    case Some((y, m)) => MonthKey(y, m)
    case None => "NaN-NaN"
  }

  /** A year key and a month key never coincide, so every entry lies in two distinct
      groups. */
  lemma YearAndMonthKeysDiffer(a: string, b: string)
    ensures YearKeyOf(a) != MonthKeyOf(b)
  {
    var k := MonthKeyOf(b);
    assert YearKeyOf(a)[0] == 'y';
    match YearMonth(b)
    case Some((y, m)) =>
      assert k[0] == NatToString(y)[0];
      assert IsDigit(k[0]);
    case None =>
      assert k[0] == 'N';
  }

  /** The ISO text of a calendar date reads back as that date's year and month. */
  lemma YearMonthOfDateString(d: Date)
    requires ValidDate(d)
    ensures YearMonth(DateString(d)) == Some((d.year, d.month - 1))
    ensures MonthKeyOf(DateString(d)) == MonthKey(d.year, d.month - 1)
    ensures YearKeyOf(DateString(d)) == "year-" + NatToString(d.year)
  {
    DateStringRoundTrip(d);
  }
}

=== FILE: gate.dfy ===
/** The bearer-token check shared by the users, messages and time-entries functions
    (`verifyToken` and the header lookup before it), and the shape of a function's reply. */
module Gate {
  import opened Common
  import opened Crypto

  /** A reply: HTTP status code and a body. CORS headers are not modelled. */
  datatype Reply<B> = Reply(status: int, body: B)

  /** The two spellings of the header a request may carry; None when absent. */
  datatype Headers = Headers(lower: Option<string>, upper: Option<string>)

  /** `event.headers.authorization || event.headers.Authorization`. */
  function HeaderValue(h: Headers): (r: Option<string>)
    ensures h.lower.Some? && h.lower.value != "" ==> r == h.lower
    ensures (h.lower.None? || h.lower.value == "") ==> r == h.upper
  {
    if h.lower.Some? && h.lower.value != "" then h.lower else h.upper
  }

  /** The authentication scheme prefix of section 2.1 of RFC 6750, matched case-sensitively. */
  const BearerPrefix: string := "Bearer "

  /** `verifyToken`'s header parse: absent, empty or not starting with 'Bearer ' is refused;
      otherwise the token is everything after the first seven characters. */
  function BearerToken(header: Option<string>): (t: Option<string>)
    ensures t.Some? <==> header.Some? && StartsWith(header.value, BearerPrefix)
    ensures t.Some? ==> header.value == BearerPrefix + t.value
  {
    match header
    case None => None
    case Some(s) =>
      if StartsWith(s, BearerPrefix) then
        assert s == s[..7] + s[7..];
        Some(s[7..])
      else None
  }

  /** The header built by the client, 'Bearer ' followed by the token, yields that token. */
  lemma BearerRoundTrip(token: string)
    ensures BearerToken(Some(BearerPrefix + token)) == Some(token)
  {
    assert (BearerPrefix + token)[..7] == BearerPrefix;
  }

  /** The scheme is matched case-sensitively: a lower-case 'bearer ' header is refused. */
  lemma BearerCaseSensitive(token: string)
    ensures BearerToken(Some("bearer " + token)) == None
  {
    assert ("bearer " + token)[0] == 'b';
  }

  /** `verifyToken(authHeader)`: the token's claims, or None where the source throws. */
  function Authenticate(h: Headers, k: Signer, now: int): (r: Option<Claims>)
    ensures r.Some? ==> exists t :: HeaderValue(h) == Some(BearerPrefix + t) && Verify(k, t, now) == r
    ensures BearerToken(HeaderValue(h)).None? ==> r.None?
    ensures BearerToken(HeaderValue(h)).Some? ==> r == Verify(k, BearerToken(HeaderValue(h)).value, now)
  {
    match BearerToken(HeaderValue(h))
    case None => None
    case Some(t) => Verify(k, t, now)
  }

  /** A login token sent back as 'Bearer ' + token passes the gate with the login claims
      for seven days, and is refused from then on. */
  lemma LoginTokenPasses(k: Signer, c: Claims, signedAt: int, token: string, upper: Option<string>, later: int)
    ensures Authenticate(Headers(Some(BearerPrefix + token), upper), Sign(k, c, signedAt, token), later) ==
      (if later < signedAt + TokenLifetime then Some(c) else None)
  {
    var h := Headers(Some(BearerPrefix + token), upper);
    assert HeaderValue(h) == Some(BearerPrefix + token);
    BearerRoundTrip(token);
    SignThenVerify(k, c, signedAt, token, later, token + "-");
  }
}

=== FILE: management_messages.dfy ===
/** The message board of the dashboard: two tabs (management and drivers), the first three
    messages of the active tab with an unread badge and a 'show all' button, long texts
    clamped until expanded, message types shown as coloured labels, and a photo viewer whose
    arrows wrap around. */
module ManagementMessages {
  import opened Common

  /** A message of either tab; `kind` is its type ('info', 'warning', ... for management,
      'question', 'issue', ... for drivers). Only driver messages carry photos. */
  datatype Message = Message(
    id: string,
    title: string,
    content: string,
    kind: string,
    date: string,
    author: string,
    isRead: bool,
    photos: seq<string>)

  datatype Tab = Management | Drivers

  // ---------------------------------------------------------------------------------------
  // Type labels and badge colours

  /** The types with a label of their own. */
  const KnownTypes: set<string> := {"warning", "urgent", "success", "issue", "question", "suggestion", "feedback"}

  /** getMessageTypeText. */
  function TypeLabel(kind: string): (text: string)
    ensures kind !in KnownTypes ==> text == "Informace"
  {
    if kind == "warning" then "Upozornění"
    else if kind == "urgent" then "Naléhavé"
    else if kind == "success" then "Úspěch"
    else if kind == "issue" then "Problém"
    else if kind == "question" then "Dotaz"
    else if kind == "suggestion" then "Návrh"
    else if kind == "feedback" then "Zpětná vazba"
    else "Informace"
  }

  /** Every known type has its own label, different from the others and from the default. */
  lemma TypeLabelsDistinct(a: string, b: string)
    requires a in KnownTypes && TypeLabel(a) == TypeLabel(b)
    ensures a == b
  {
  }

  /** The badge colours. */
  const Orange := "bg-orange-100 text-orange-800 border-orange-200"
  const Red := "bg-red-100 text-red-800 border-red-200"
  const Green := "bg-green-100 text-green-800 border-green-200"
  const Blue := "bg-blue-100 text-blue-800 border-blue-200"
  const Purple := "bg-purple-100 text-purple-800 border-purple-200"

  /** getMessageBadgeColor. */
  function BadgeColor(kind: string): (c: string)
    ensures c in {Orange, Red, Green, Blue, Purple}
    ensures kind !in KnownTypes ==> c == Blue
  {
    if kind == "warning" then Orange
    else if kind == "urgent" || kind == "issue" then Red
    else if kind == "success" || kind == "suggestion" then Green
    else if kind == "feedback" then Purple
    else Blue
  }

  /** A badge is blue exactly for questions and for types without a label of their own;
      red marks urgent messages and reported issues. */
  lemma BadgeColorMeaning(kind: string)
    ensures BadgeColor(kind) == Blue <==> kind == "question" || kind !in KnownTypes
    ensures BadgeColor(kind) == Red <==> kind == "urgent" || kind == "issue"
  {
  }

  // ---------------------------------------------------------------------------------------
  // Expanding long messages

  /** toggleMessageExpansion: a copy of the set with `id` added or removed. */
  function ToggleExpansion(expanded: set<string>, id: string): (r: set<string>)
    ensures id in r <==> id !in expanded
    ensures forall x :: x != id ==> (x in r <==> x in expanded)
  {
    if id in expanded then expanded - {id} else expanded + {id}
  }

  /** Toggling twice restores the set. */
  lemma ToggleTwice(expanded: set<string>, id: string)
    ensures ToggleExpansion(ToggleExpansion(expanded, id), id) == expanded
  {
    var once := ToggleExpansion(expanded, id);
    var twice := ToggleExpansion(once, id);
    assert forall x :: x in twice <==> x in expanded;
  }

  /** shouldTruncateText: over 150 characters, or over three lines. */
  function ShouldTruncate(text: string): (b: bool)
    ensures |text| > 150 ==> b
  {
    Utf16Length(text) > 150 || |Split(text, '\n')| > 3
  }

  /** Over three lines means at least three line breaks. */
  lemma ShouldTruncateLines(text: string)
    ensures ShouldTruncate(text) <==> Utf16Length(text) > 150 || Count(text, '\n') >= 3
  {
    SplitLength(text, '\n');
  }

  /** Whether a message's text is clamped to three lines: a long text not expanded. */
  predicate Clamped(m: Message, expanded: set<string>) {
    m.id !in expanded && ShouldTruncate(m.content)
  }

  /** The 'more'/'less' button of a long text flips its clamping and leaves every other
      message as it was. */
  lemma ToggleFlipsClamp(m: Message, other: Message, expanded: set<string>)
    requires ShouldTruncate(m.content) && other.id != m.id
    ensures Clamped(m, ToggleExpansion(expanded, m.id)) <==> !Clamped(m, expanded)
    ensures Clamped(other, ToggleExpansion(expanded, m.id)) <==> Clamped(other, expanded)
  {
  }

  // ---------------------------------------------------------------------------------------
  // Photo viewer

  /** handlePreviousPhoto: from the first photo to the last. */
  function PreviousPhoto(index: int, count: int): (r: int)
    ensures index > 0 ==> r == index - 1
    ensures index <= 0 ==> r == count - 1
  {
    if index > 0 then index - 1 else count - 1
  }

  /** handleNextPhoto: from the last photo to the first. */
  function NextPhoto(index: int, count: int): (r: int)
    ensures index < count - 1 ==> r == index + 1
    ensures index >= count - 1 ==> r == 0
  {
    if index < count - 1 then index + 1 else 0
  }

  /** With at least one photo the index stays on a photo, and the arrows undo each other. */
  lemma PhotoIndexInRange(index: int, count: int)
    requires 1 <= count && 0 <= index < count
    ensures 0 <= PreviousPhoto(index, count) < count && 0 <= NextPhoto(index, count) < count
    ensures NextPhoto(PreviousPhoto(index, count), count) == index
    ensures PreviousPhoto(NextPhoto(index, count), count) == index
  {
  }

  /** k presses of the next arrow. */
  function Forward(index: int, count: int, k: nat): (r: int)
    requires 1 <= count && 0 <= index < count
    ensures 0 <= r < count
  {
    if k == 0 then index else NextPhoto(Forward(index, count, k - 1), count)
  }

  /** Fewer presses than photos remain after `index` move straight on. */
  lemma {:induction false} ForwardStraight(index: int, count: int, k: nat)
    requires 1 <= count && 0 <= index && index + k < count
    ensures Forward(index, count, k) == index + k
  {
    if k > 0 {
      ForwardStraight(index, count, k - 1);
    }
  }

  /** Presses compose: a presses and then b presses are a + b presses. */
  lemma {:induction false} ForwardAdd(index: int, count: int, a: nat, b: nat)
    requires 1 <= count && 0 <= index < count
    ensures Forward(Forward(index, count, a), count, b) == Forward(index, count, a + b)
  {
    if b > 0 {
      ForwardAdd(index, count, a, b - 1);
    }
  }

  /** Pressing next as many times as there are photos comes back to the same photo, having
      passed through the first one after the last. */
  lemma ForwardFullCircle(index: int, count: int)
    requires 1 <= count && 0 <= index < count
    ensures Forward(index, count, count - index) == 0
    ensures Forward(index, count, count) == index
  {
    ForwardStraight(index, count, count - index - 1);
    assert Forward(index, count, count - index) == NextPhoto(count - 1, count);
    ForwardAdd(index, count, count - index, index);
    ForwardStraight(0, count, index);
  }

  // ---------------------------------------------------------------------------------------
  // The panel

  /** The messages of the active tab. */
  function CurrentMessages(tab: Tab, management: seq<Message>, drivers: seq<Message>): (ms: seq<Message>)
    ensures tab == Management ==> ms == management
    ensures tab == Drivers ==> ms == drivers
  {
    if tab == Management then management else drivers
  }

  /** What the panel shows of the active tab. */
  datatype Panel = Panel(displayed: seq<Message>, unreadCount: nat, hasMore: bool, total: nat)

  /** The panel: the first three messages, the number of unread ones (all of the tab, not
      only the shown ones) and whether 'show all' appears. */
  function PanelOf(messages: seq<Message>): (p: Panel)
    ensures |p.displayed| == if |messages| < 3 then |messages| else 3
    ensures p.displayed == messages[..|p.displayed|]
    ensures p.hasMore <==> |p.displayed| < |messages|
    ensures p.displayed == [] <==> messages == []
    ensures p.total == |messages|
  {
    var shown := if |messages| < 3 then messages else messages[..3];
    Panel(shown, |Filter(messages, (m: Message) => !m.isRead)|, |messages| > 3, |messages|)
  }

  /** The badge counts the unread messages: none exactly when every message is read. */
  lemma UnreadCountSpec(messages: seq<Message>)
    ensures PanelOf(messages).unreadCount <= |messages|
    ensures PanelOf(messages).unreadCount == 0 <==> forall i :: 0 <= i < |messages| ==> messages[i].isRead
  {
    var unread := Filter(messages, (m: Message) => !m.isRead);
    if unread == [] {
      forall i | 0 <= i < |messages|
        ensures messages[i].isRead
      {
        assert messages[i] in messages;
      }
    } else {
      assert unread[0] in unread;
    }
  }

  /** Reading an unread message lowers the badge by one. */
  lemma {:induction false} MarkReadCounts(messages: seq<Message>, i: nat)
    requires i < |messages| && !messages[i].isRead
    ensures |Filter(messages[i := messages[i].(isRead := true)], (m: Message) => !m.isRead)|
         == |Filter(messages, (m: Message) => !m.isRead)| - 1
  {
    var p := (m: Message) => !m.isRead;
    var after := messages[i := messages[i].(isRead := true)];
    assert messages == messages[..i] + [messages[i]] + messages[i + 1..];
    assert after == messages[..i] + [after[i]] + messages[i + 1..];
    FilterAppend(messages[..i] + [messages[i]], messages[i + 1..], p);
    FilterAppend(messages[..i], [messages[i]], p);
    FilterAppend(messages[..i] + [after[i]], messages[i + 1..], p);
    FilterAppend(messages[..i], [after[i]], p);
  }
}

=== FILE: messages.dfy ===
/** netlify/functions/messages.js: management messages. Any signed-in user whose row still
    exists may read them; creating, editing and deleting re-read the caller's role and need
    'admin'. PUT builds its UPDATE statement's SET clause and placeholder numbering from the
    fields present in the body. */
module MessagesHandler {
  import opened Common
  import opened Crypto
  import opened Store
  import opened Gate
  import opened Sorting

  /** A call: HTTP method, headers, and the body parsed as a JSON object. None stands for a
      body that `JSON.parse` rejects or reads as null; a body that parses to a number, string, boolean or array has none of the fields read from it, and
      stands as `Some(map[])`. */
  datatype Request = Request(verb: string, headers: Headers, body: Option<map<string, Json>>)

  /** A message as replies show it: id stringified, `is_read` renamed to `isRead`. */
  datatype Listed = Listed(
    id: string, title: Option<string>, content: Option<string>, kind: Option<string>, date: Date,
    author: Option<string>, isRead: Option<bool>, createdAt: int, updatedAt: int)

  datatype Body =
    | Empty
    | Problem(error: string, message: string)
    | Failure(error: string)
    | Messages(messages: seq<Listed>)
    | Saved(message: string, data: Listed)
    | Note(message: string)

  datatype Outcome = Outcome(reply: Reply<Body>, db: Db)

  const Unauthorized: Reply<Body> := Reply(401, Problem("Unauthorized", "Invalid or missing token"))
  const Forbidden: Reply<Body> := Reply(403, Problem("Forbidden", "Admin privileges required"))
  const ServerError: Reply<Body> := Reply(500, Failure("Internal server error"))
  const NotFound: Reply<Body> := Reply(404, Failure("Message not found"))
  const MissingId: Reply<Body> := Reply(400, Failure("Missing messageId"))

  function View(m: MessageRow): Listed {
    Listed(IntToString(m.id), m.title, m.content, m.kind, m.date, m.author, m.isRead, m.createdAt, m.updatedAt)
  }

  /** The gate: a verifying token whose user row still exists, of any role. */
  function MemberGate(h: Headers, db: Db, k: Signer, now: int): (r: Option<UserRow>)
    ensures r.Some? <==> Authenticate(h, k, now).Some? && FindUser(db.users, Authenticate(h, k, now).value.userId).Some?
    ensures r.Some? ==> r == FindUser(db.users, Authenticate(h, k, now).value.userId)
  {
    match Authenticate(h, k, now)
    case None => None
    case Some(c) => FindUser(db.users, c.userId)
  }

  // ---------------------------------------------------------------------------------------
  // GET

  function NewestFirst(): (MessageRow, MessageRow) -> bool {
    (a: MessageRow, b: MessageRow) => a.createdAt >= b.createdAt
  }

  lemma NewestFirstOrders()
    ensures TotalPreorder(NewestFirst())
  {
  }

  /** `ORDER BY created_at DESC`, each row shown through `View`. */
  function ListMessages(messages: seq<MessageRow>): (r: seq<Listed>)
    ensures |r| == |messages|
    ensures forall i, j :: 0 <= i < j < |r| ==> r[i].createdAt >= r[j].createdAt
    ensures forall m :: m in messages ==> View(m) in r
    ensures forall x :: x in r ==> exists m :: m in messages && x == View(m)
  {
    NewestFirstOrders();
    var sorted := SortBy(messages, NewestFirst());
    SortByMembers(messages, NewestFirst());
    var r := seq(|sorted|, i requires 0 <= i < |sorted| => View(sorted[i]));
    ListedViews(messages, sorted, r);
    r
  }

  /** The views of the sorted rows keep the order and stand for exactly the stored messages. */
  lemma ListedViews(messages: seq<MessageRow>, sorted: seq<MessageRow>, r: seq<Listed>)
    requires SortedBy(sorted, NewestFirst()) && forall m :: m in sorted <==> m in messages
    requires |r| == |sorted| && forall i :: 0 <= i < |sorted| ==> r[i] == View(sorted[i])
    ensures forall i, j :: 0 <= i < j < |r| ==> r[i].createdAt >= r[j].createdAt
    ensures forall m :: m in messages ==> View(m) in r
    ensures forall x :: x in r ==> exists m :: m in messages && x == View(m)
  {
    forall i, j | 0 <= i < j < |r| ensures r[i].createdAt >= r[j].createdAt {
      assert NewestFirst()(sorted[i], sorted[j]);
    }
    forall m | m in messages ensures View(m) in r {
      var i :| 0 <= i < |sorted| && sorted[i] == m;
      assert r[i] == View(m);
    }
    forall x | x in r ensures exists m :: m in messages && x == View(m) {
      var i :| 0 <= i < |r| && r[i] == x;
      assert sorted[i] in messages;
    }
  }

  // ---------------------------------------------------------------------------------------
  // POST

  /** POST after the role check: all four fields must be truthy; the new row is unread and
      dated `today`. */
  function Create(db: Db, body: Option<map<string, Json>>, today: Date, now: int): (o: Outcome)
    ensures o.reply.status in {201, 400, 500}
    ensures o.reply.status != 201 ==> o.db == db
  {
    match body
    case None => Outcome(ServerError, db)
    case Some(b) =>
      var title := Field(b, "title");
      var content := Field(b, "content");
      var kind := Field(b, "type");
      var author := Field(b, "author");
      if !Truthy(title) || !Truthy(content) || !Truthy(kind) || !Truthy(author) then
        Outcome(Reply(400, Failure("Missing required fields")), db)
      else
        var row := MessageRow(db.nextMessageId, TextOf(title), TextOf(content), TextOf(kind), today,
                              TextOf(author), Some(false), now, now);
        Outcome(Reply(201, Saved("Zpráva byla úspěšně vytvořena", View(row))),
                db.(messages := db.messages + [row], nextMessageId := db.nextMessageId + 1))
  }

  // ---------------------------------------------------------------------------------------
  // PUT: the SET-clause builder

  /** The updatable columns, in the order the code tests them. */
  datatype Column = Title | Content | Kind | Author | IsRead

  /** The body key that updates a column (`updateData.<key>`). */
  function Key(c: Column): string {
    match c
    case Title => "title"
    case Content => "content"
    case Kind => "type"
    case Author => "author"
    case IsRead => "isRead"
  }

  /** The column's name in the statement. */
  function Name(c: Column): string {
    match c
    case Title => "title"
    case Content => "content"
    case Kind => "type"
    case Author => "author"
    case IsRead => "is_read"
  }

  /** `updateData.<key> !== undefined`. */
  predicate Present(b: map<string, Json>, c: Column) {
    Field(b, Key(c)) != Undefined
  }

  /** One `if` step: the column, when its key is present. */
  function Pick(b: map<string, Json>, c: Column): (r: seq<Column>)
    ensures r == [] || r == [c]
    ensures r == [c] <==> Present(b, c)
  {
    if Present(b, c) then [c] else []
  }

  /** The columns the body updates (`updateFields` before 'updated_at' is pushed): each
      column whose key is present, once, in the fixed order title, content, type, author,
      is_read. */
  function UpdateColumns(b: map<string, Json>): (r: seq<Column>)
    ensures forall c :: c in r <==> Present(b, c)
    ensures Increasing(r)
  {
    ShapesIncreasing(Pick(b, Title), Pick(b, Content), Pick(b, Kind), Pick(b, Author), Pick(b, IsRead));
    Pick(b, Title) + Pick(b, Content) + Pick(b, Kind) + Pick(b, Author) + Pick(b, IsRead)
  }

  /** The position of a column in the fixed order. */
  function Rank(c: Column): nat {
    match c
    case Title => 0
    case Content => 1
    case Kind => 2
    case Author => 3
    case IsRead => 4
  }

  /** Columns in strictly increasing rank, hence distinct. */
  predicate Increasing(r: seq<Column>) {
    forall i, j :: 0 <= i < j < |r| ==> Rank(r[i]) < Rank(r[j])
  }

  predicate Below(r: seq<Column>, n: nat) {
    forall k :: 0 <= k < |r| ==> Rank(r[k]) < n
  }

  lemma StepIncreasing(a: seq<Column>, p: seq<Column>, c: Column)
    requires Increasing(a) && Below(a, Rank(c)) && (p == [] || p == [c])
    ensures Increasing(a + p) && Below(a + p, Rank(c) + 1)
  {
  }

  /** Five optional columns in the fixed order come out in increasing rank. */
  lemma ShapesIncreasing(p1: seq<Column>, p2: seq<Column>, p3: seq<Column>, p4: seq<Column>, p5: seq<Column>)
    requires p1 == [] || p1 == [Title]
    requires p2 == [] || p2 == [Content]
    requires p3 == [] || p3 == [Kind]
    requires p4 == [] || p4 == [Author]
    requires p5 == [] || p5 == [IsRead]
    ensures Increasing(p1 + p2 + p3 + p4 + p5)
  {
    StepIncreasing([], p1, Title);
    assert [] + p1 == p1;
    StepIncreasing(p1, p2, Content);
    StepIncreasing(p1 + p2, p3, Kind);
    StepIncreasing(p1 + p2 + p3, p4, Author);
    StepIncreasing(p1 + p2 + p3 + p4, p5, IsRead);
  }

  /** The values of some columns: the body's value under each column's key. */
  function Values(b: map<string, Json>, cs: seq<Column>): (r: seq<Json>)
    ensures |r| == |cs| && forall i :: 0 <= i < |cs| ==> r[i] == Field(b, Key(cs[i]))
  {
    seq(|cs|, i requires 0 <= i < |cs| => Field(b, Key(cs[i])))
  }

  /** Their values (`updateValues` before 'NOW()' is pushed). */
  function UpdateValues(b: map<string, Json>): seq<Json> {
    Values(b, UpdateColumns(b))
  }

  /** One `if (updateData.<key> !== undefined)` step: push the column and its value. */
  method PushIfPresent(b: map<string, Json>, c: Column, fields: seq<Column>, values: seq<Json>)
    returns (fields': seq<Column>, values': seq<Json>)
    requires values == Values(b, fields)
    ensures fields' == fields + Pick(b, c) && values' == Values(b, fields')
  {
    fields', values' := fields, values;
    if Field(b, Key(c)) != Undefined {
      fields' := fields + [c];
      values' := values + [Field(b, Key(c))];
    }
  }

  /** The five push steps, in the code's order. */
  method CollectUpdates(b: map<string, Json>) returns (fields: seq<Column>, values: seq<Json>)
    ensures fields == UpdateColumns(b) && values == UpdateValues(b)
  {
    fields, values := [], [];
    fields, values := PushIfPresent(b, Title, fields, values);
    fields, values := PushIfPresent(b, Content, fields, values);
    fields, values := PushIfPresent(b, Kind, fields, values);
    fields, values := PushIfPresent(b, Author, fields, values);
    fields, values := PushIfPresent(b, IsRead, fields, values);
    assert fields == UpdateColumns(b);
  }

  /** An item of the statement's SET list: an updated column, or 'updated_at'. */
  datatype Target = Set(column: Column) | Stamp

  function TargetName(t: Target): string {
    match t
    case Set(c) => Name(c)
    case Stamp => "updated_at"
  }

  /** `updateFields` once 'updated_at' is pushed. */
  function Targets(b: map<string, Json>): (ts: seq<Target>)
    ensures |ts| == |UpdateColumns(b)| + 1 && ts[|ts| - 1] == Stamp
    ensures forall i :: 0 <= i < |ts| - 1 ==> ts[i] == Set(UpdateColumns(b)[i])
  {
    var cs := UpdateColumns(b);
    seq(|cs|, i requires 0 <= i < |cs| => Set(cs[i])) + [Stamp]
  }

  /** The field names the statement text is built from. */
  function Names(ts: seq<Target>): (r: seq<string>)
    ensures |r| == |ts| && forall i :: 0 <= i < |ts| ==> r[i] == TargetName(ts[i])
  {
    seq(|ts|, i requires 0 <= i < |ts| => TargetName(ts[i]))
  }

  /** One item of the SET clause: `updated_at = NOW()`, or `<field> = $<index + 1>`. */
  function Assignment(field: string, index: nat): string {
    if field == "updated_at" then field + " = NOW()" else field + " = $" + NatToString(index + 1)
  }

  /** `items.join(', ')`. */
  function JoinComma(items: seq<string>): string {
    if |items| == 0 then ""
    else if |items| == 1 then items[0]
    else JoinComma(items[..|items| - 1]) + ", " + items[|items| - 1]
  }

  /** `updateFields.map((field, index) => ...).join(', ')`. */
  function SetClause(fields: seq<string>): string {
    JoinComma(seq(|fields|, i requires 0 <= i < |fields| => Assignment(fields[i], i)))
  }

  /** The placeholder of the WHERE clause: `id = $${updateFields.length + 1}`. */
  function WhereClause(fields: seq<string>): string {
    "id = $" + NatToString(|fields| + 1)
  }

  /** The map-and-join of the SET clause as a loop over the fields. */
  method BuildSetClause(fields: seq<string>) returns (clause: string)
    ensures clause == SetClause(fields)
  {
    var items := seq(|fields|, i requires 0 <= i < |fields| => Assignment(fields[i], i));
    clause := "";
    var i := 0;
    while i < |fields|
      invariant 0 <= i <= |fields|
      invariant clause == JoinComma(items[..i])
    {
      assert items[..i + 1][..i] == items[..i];
      if i == 0 {
        clause := items[0];
      } else {
        clause := clause + ", " + items[i];
      }
      i := i + 1;
    }
    assert items[..|fields|] == items;
  }

  /** No column is named 'updated_at'. */
  lemma NoColumnNamedStamp(c: Column)
    ensures Name(c) != "updated_at"
  {
    assert Name(c)[0] != 'u';
  }

  /** The numbering the statement relies on. With k updated columns, the fields are those k
      columns and 'updated_at', the parameters their k values, 'NOW()' and the id: the i-th
      column (1-based) reads `$i`, which is the value of that column's body key; 'updated_at'
      reads no parameter; and the WHERE placeholder `$(k+2)` is the id's position. */
  lemma PlaceholderNumbering(b: map<string, Json>, messageId: Json)
    ensures var cs := UpdateColumns(b);
      var fields := Names(Targets(b));
      var params := UpdateValues(b) + [Str("NOW()"), messageId];
      var k := |cs|;
      |params| == k + 2 && |fields| == k + 1 &&
      (forall i :: 0 <= i < k ==>
        Assignment(fields[i], i) == Name(cs[i]) + " = $" + NatToString(i + 1) && params[i] == Field(b, Key(cs[i]))) &&
      Assignment(fields[k], k) == "updated_at = NOW()" &&
      WhereClause(fields) == "id = $" + NatToString(k + 2) && params[k + 1] == messageId
  {
    var cs := UpdateColumns(b);
    var fields := Names(Targets(b));
    forall i | 0 <= i < |cs| ensures Assignment(fields[i], i) == Name(cs[i]) + " = $" + NatToString(i + 1) {
      assert fields[i] == Name(cs[i]);
      ColumnAssignment(cs[i], i);
    }
    assert fields[|cs|] == "updated_at";
    StampAssignment(|cs|);
  }

  lemma ColumnAssignment(c: Column, i: nat)
    ensures Assignment(Name(c), i) == Name(c) + " = $" + NatToString(i + 1)
  {
    NoColumnNamedStamp(c);
  }

  lemma StampAssignment(i: nat)
    ensures Assignment("updated_at", i) == "updated_at = NOW()"
  {
  }

  // ---------------------------------------------------------------------------------------
  // PUT: what the statement does

  /** A column's content: a text column or the boolean `is_read`. */
  datatype Cell = Text(text: Option<string>) | Flag(flag: Option<bool>)

  function Get(m: MessageRow, c: Column): Cell {
    match c
    case Title => Text(m.title)
    case Content => Text(m.content)
    case Kind => Text(m.kind)
    case Author => Text(m.author)
    case IsRead => Flag(m.isRead)
  }

  /** How the database stores a parameter in a column; None where it rejects the value. */
  function Coerce(c: Column, v: Json): Option<Cell> {
    if c == IsRead then
      match BoolOf(v) case Some(x) => Some(Flag(x)) case None => None
    else Some(Text(TextOf(v)))
  }

  /** Storing one parameter into one column. */
  function SetColumn(m: MessageRow, c: Column, v: Json): (r: Option<MessageRow>)
    ensures r.Some? <==> Coerce(c, v).Some?
    ensures r.Some? ==> Some(Get(r.value, c)) == Coerce(c, v)
    ensures r.Some? ==> forall d :: d != c ==> Get(r.value, d) == Get(m, d)
    ensures r.Some? ==>
      (r.value.id == m.id && r.value.date == m.date && r.value.createdAt == m.createdAt && r.value.updatedAt == m.updatedAt)
  {
    match c
    case IsRead => (match BoolOf(v) case Some(x) => Some(m.(isRead := x)) case None => None)
    case Title => Some(m.(title := TextOf(v)))
    case Content => Some(m.(content := TextOf(v)))
    case Kind => Some(m.(kind := TextOf(v)))
    case Author => Some(m.(author := TextOf(v)))
  }

  /** Executes `SET <name(ts[i]) = $(i+1)>, ...` on one row with the parameter list `params`;
      None when the database rejects a value. */
  function Execute(m: MessageRow, ts: seq<Target>, params: seq<Json>, now: int): Option<MessageRow>
    requires |params| >= |ts|
    decreases |ts|
  {
    if ts == [] then Some(m)
    else
      var last := |ts| - 1;
      match Execute(m, ts[..last], params, now)
      case None => None
      case Some(m') =>
        match ts[last]
        case Stamp => Some(m'.(updatedAt := now))
        case Set(c) => SetColumn(m', c, params[last])
  }

  /** With distinct targets, the statement stores each column's parameter in it, leaves
      every other column alone, stamps `updated_at`, and fails exactly when some parameter is
      rejected by its column. */
  lemma ExecuteEffect(m: MessageRow, ts: seq<Target>, params: seq<Json>, now: int)
    requires |params| >= |ts|
    requires forall i, j :: 0 <= i < j < |ts| ==> ts[i] != ts[j]
    ensures var r := Execute(m, ts, params, now);
      (r.Some? <==> forall i :: 0 <= i < |ts| && ts[i].Set? ==> Coerce(ts[i].column, params[i]).Some?) &&
      (r.Some? ==>
        (forall i :: 0 <= i < |ts| && ts[i].Set? ==> Coerce(ts[i].column, params[i]) == Some(Get(r.value, ts[i].column))) &&
        (forall c :: Set(c) !in ts ==> Get(r.value, c) == Get(m, c)) &&
        r.value.id == m.id && r.value.date == m.date && r.value.createdAt == m.createdAt &&
        r.value.updatedAt == (if Stamp in ts then now else m.updatedAt))
  {
    ExecuteSucceeds(m, ts, params, now);
    ExecuteStores(m, ts, params, now);
    ExecuteLeaves(m, ts, params, now);
    ExecuteKeeps(m, ts, params, now);
  }

  /** The statement fails exactly when some parameter is rejected by its column. */
  lemma {:induction false} ExecuteSucceeds(m: MessageRow, ts: seq<Target>, params: seq<Json>, now: int)
    requires |params| >= |ts|
    ensures Execute(m, ts, params, now).Some? <==>
      forall i :: 0 <= i < |ts| && ts[i].Set? ==> Coerce(ts[i].column, params[i]).Some?
    decreases |ts|
  {
    if ts != [] {
      var last := |ts| - 1;
      var prefix := ts[..last];
      ExecuteSucceeds(m, prefix, params, now);
      assert forall i :: 0 <= i < last ==> prefix[i] == ts[i];
    }
  }

  /** With distinct targets, each column ends up holding the coerced value of its parameter. */
  lemma {:induction false} ExecuteStores(m: MessageRow, ts: seq<Target>, params: seq<Json>, now: int)
    requires |params| >= |ts|
    requires forall i, j :: 0 <= i < j < |ts| ==> ts[i] != ts[j]
    ensures var r := Execute(m, ts, params, now);
      r.Some? ==> forall i :: 0 <= i < |ts| && ts[i].Set? ==> Coerce(ts[i].column, params[i]) == Some(Get(r.value, ts[i].column))
    decreases |ts|
  {
    if ts != [] {
      var last := |ts| - 1;
      var prefix := ts[..last];
      ExecuteStores(m, prefix, params, now);
      var r := Execute(m, ts, params, now);
      var before := Execute(m, prefix, params, now);
      if r.Some? {
        assert before.Some?;
        var m' := before.value;
        StepStores(m', ts[last], params[last], now, r.value);
        forall i | 0 <= i < |ts| && ts[i].Set?
          ensures Coerce(ts[i].column, params[i]) == Some(Get(r.value, ts[i].column))
        {
          if i < last {
            assert prefix[i] == ts[i] && ts[i] != ts[last];
          }
        }
      }
    }
  }

  /** One target's step stores its parameter in its column and leaves the other columns. */
  lemma StepStores(m: MessageRow, t: Target, v: Json, now: int, r: MessageRow)
    requires (match t case Stamp => Some(m.(updatedAt := now)) case Set(c) => SetColumn(m, c, v)) == Some(r)
    ensures t.Set? ==> Coerce(t.column, v) == Some(Get(r, t.column))
    ensures forall d :: Set(d) != t ==> Get(r, d) == Get(m, d)
  {
  }

  /** A column that is not a target keeps its content. */
  lemma {:induction false} ExecuteLeaves(m: MessageRow, ts: seq<Target>, params: seq<Json>, now: int)
    requires |params| >= |ts|
    ensures var r := Execute(m, ts, params, now);
      r.Some? ==> forall c :: Set(c) !in ts ==> Get(r.value, c) == Get(m, c)
    decreases |ts|
  {
    if ts != [] {
      var last := |ts| - 1;
      var prefix := ts[..last];
      ExecuteLeaves(m, prefix, params, now);
      assert forall t :: t in prefix ==> t in ts;
    }
  }

  /** The id, date and creation time stay; `updatedAt` is the current time when stamped. */
  lemma {:induction false} ExecuteKeeps(m: MessageRow, ts: seq<Target>, params: seq<Json>, now: int)
    requires |params| >= |ts|
    ensures var r := Execute(m, ts, params, now);
      r.Some? ==>
        (r.value.id == m.id && r.value.date == m.date && r.value.createdAt == m.createdAt &&
         r.value.updatedAt == (if Stamp in ts then now else m.updatedAt))
    decreases |ts|
  {
    if ts != [] {
      var last := |ts| - 1;
      var prefix := ts[..last];
      ExecuteKeeps(m, prefix, params, now);
      assert ts == prefix + [ts[last]];
      assert Stamp in ts <==> Stamp in prefix || ts[last] == Stamp;
    }
  }

  /** The targets PUT hands to the statement are distinct, with 'updated_at' last. */
  lemma StatementTargets(b: map<string, Json>)
    ensures var ts := Targets(b);
      (forall i, j :: 0 <= i < j < |ts| ==> ts[i] != ts[j]) && Stamp in ts
  {
    var ts := Targets(b);
    var cs := UpdateColumns(b);
    assert ts[|ts| - 1] == Stamp;
    forall i, j | 0 <= i < j < |ts| ensures ts[i] != ts[j] {
      if j < |ts| - 1 {
        assert Rank(cs[i]) < Rank(cs[j]);
      }
    }
  }

  /** The statement PUT runs on the row: SET over the updated columns and 'updated_at', with
      their values, 'NOW()' and the id as parameters. */
  function RunStatement(m: MessageRow, b: map<string, Json>, messageId: Json, now: int): Option<MessageRow> {
    Execute(m, Targets(b), UpdateValues(b) + [Str("NOW()"), messageId], now)
  }

  /** Whether every parameter sent with the statement is named by a placeholder. By
      PlaceholderNumbering the i-th SET item names `$(i+1)` exactly when its target is a
      column, and the WHERE clause names the last parameter. */
  predicate EveryParameterNamed(ts: seq<Target>) {
    forall i :: 0 <= i < |ts| ==> ts[i].Set?
  }

  /** The statement as written. PostgreSQL prepares a statement only when it can settle the
      type of every parameter sent with it; a parameter no placeholder names has none, and the
      statement is refused ('could not determine data type of parameter'). */
  function RunStatementAsWritten(m: MessageRow, b: map<string, Json>, messageId: Json, now: int): Option<MessageRow> {
    if EveryParameterNamed(Targets(b)) then RunStatement(m, b, messageId, now) else None
  }

  /** The 'NOW()' pushed for 'updated_at' is such a parameter, so the statement as written is
      refused whatever the body and the row. */
  lemma StatementRefusedAsWritten(m: MessageRow, b: map<string, Json>, messageId: Json, now: int)
    ensures RunStatementAsWritten(m, b, messageId, now).None?
  {
    var ts := Targets(b);
    assert !ts[|ts| - 1].Set?;
  }

  /** Replaces the row with the same id. */
  function ReplaceMessage(messages: seq<MessageRow>, m: MessageRow): (r: seq<MessageRow>)
    ensures |r| == |messages|
    ensures forall i :: 0 <= i < |r| ==> r[i] == (if messages[i].id == m.id then m else messages[i])
  {
    seq(|messages|, i requires 0 <= i < |messages| => if messages[i].id == m.id then m else messages[i])
  }

  /** PUT after the role check; `intended` picks the statement that runs (false: the one the
      code writes). */
  function Amend(db: Db, body: Option<map<string, Json>>, now: int, intended: bool): (o: Outcome)
    ensures o.reply.status in {200, 400, 404, 500}
    ensures o.reply.status != 200 ==> o.db == db
  {
    match body
    case None => Outcome(ServerError, db)
    case Some(b) =>
      var messageId := Field(b, "messageId");
      if !Truthy(messageId) then Outcome(MissingId, db)
      else match IdOf(messageId)
        case BadParam => Outcome(ServerError, db)
        case NullParam => Outcome(NotFound, db)
        case IdValue(id) =>
          match FindMessage(db.messages, id)
          case None => Outcome(NotFound, db)
          case Some(m) =>
            var cols := UpdateColumns(b);
            if cols == [] then Outcome(Reply(400, Failure("No fields to update")), db)
            else
              var run := if intended then RunStatement(m, b, messageId, now)
                         else RunStatementAsWritten(m, b, messageId, now);
              match run
              case None => Outcome(ServerError, db)
              case Some(m') =>
                Outcome(Reply(200, Saved("Zpráva byla úspěšně aktualizována", View(m'))),
                        db.(messages := ReplaceMessage(db.messages, m')))
  }

  /** PUT with the intended statement. */
  function Update(db: Db, body: Option<map<string, Json>>, now: int): (o: Outcome)
    ensures o.reply.status in {200, 400, 404, 500}
    ensures o.reply.status != 200 ==> o.db == db
  {
    Amend(db, body, now, true)
  }

  /** PUT with the statement the code writes. */
  function UpdateAsWritten(db: Db, body: Option<map<string, Json>>, now: int): Outcome {
    Amend(db, body, now, false)
  }

  /** Wherever the intended PUT saves, PUT as written answers 500 and changes nothing;
      everywhere else the two agree. */
  lemma UpdateAsWrittenNeverSaves(db: Db, body: Option<map<string, Json>>, now: int)
    ensures UpdateAsWritten(db, body, now) ==
      if Update(db, body, now).reply.status == 200 then Outcome(ServerError, db) else Update(db, body, now)
  {
    if body.Some? && Truthy(Field(body.value, "messageId")) && IdOf(Field(body.value, "messageId")).IdValue? {
      var b := body.value;
      var messageId := Field(b, "messageId");
      var m := FindMessage(db.messages, IdOf(messageId).id);
      if m.Some? {
        StatementRefusedAsWritten(m.value, b, messageId, now);
      }
    }
  }

  // ---------------------------------------------------------------------------------------
  // DELETE

  function RemoveMessage(db: Db, body: Option<map<string, Json>>): (o: Outcome)
    ensures o.reply.status in {200, 400, 404, 500}
    ensures o.reply.status != 200 ==> o.db == db
  {
    match body
    case None => Outcome(ServerError, db)
    case Some(b) =>
      var messageId := Field(b, "messageId");
      if !Truthy(messageId) then Outcome(MissingId, db)
      else match IdOf(messageId)
        case BadParam => Outcome(ServerError, db)
        case NullParam => Outcome(NotFound, db)
        case IdValue(id) =>
          if FindMessage(db.messages, id).None? then Outcome(NotFound, db)
          else Outcome(Reply(200, Note("Zpráva byla úspěšně smazána")),
                       db.(messages := Filter(db.messages, (m: MessageRow) => m.id != id)))
  }

  // ---------------------------------------------------------------------------------------
  // The handler

  /** `exports.handler`: preflight, the member gate, then the method; POST, PUT and DELETE
      check the caller's stored role before reading the body. `today` and `now` are the
      server's date and clock; `intended` picks the PUT statement (false: the one the code
      writes). */
  function Respond(req: Request, db: Db, k: Signer, now: int, today: Date, intended: bool): (o: Outcome)
    ensures o.reply.status in {200, 201, 400, 401, 403, 404, 405, 500}
    ensures o.reply.status !in {200, 201} ==> o.db == db
  {
    if req.verb == "OPTIONS" then Outcome(Reply(200, Empty), db)
    else match MemberGate(req.headers, db, k, now)
      case None => Outcome(Unauthorized, db)
      case Some(caller) =>
        if req.verb == "GET" then Outcome(Reply(200, Messages(ListMessages(db.messages))), db)
        else if req.verb in {"POST", "PUT", "DELETE"} then
          if caller.role != "admin" then Outcome(Forbidden, db)
          else if req.verb == "POST" then Create(db, req.body, today, now)
          else if req.verb == "PUT" then (if intended then Update(db, req.body, now) else UpdateAsWritten(db, req.body, now))
          else RemoveMessage(db, req.body)
        else Outcome(Reply(405, Failure("Method not allowed")), db)
  }

  /** The handler as written: a PUT never saves. */
  function Handle(req: Request, db: Db, k: Signer, now: int, today: Date): (o: Outcome)
    ensures o.reply.status in {200, 201, 400, 401, 403, 404, 405, 500}
    ensures o.reply.status !in {200, 201} ==> o.db == db
    ensures req.verb == "PUT" ==> o.db == db
  {
    Respond(req, db, k, now, today, false)
  }

  /** The handler with the intended PUT statement; every other method is answered alike. */
  function HandleCorrected(req: Request, db: Db, k: Signer, now: int, today: Date): (o: Outcome)
    ensures o.reply.status in {200, 201, 400, 401, 403, 404, 405, 500}
    ensures o.reply.status !in {200, 201} ==> o.db == db
    ensures req.verb != "PUT" ==> o == Handle(req, db, k, now, today)
  {
    Respond(req, db, k, now, today, true)
  }

  // ---------------------------------------------------------------------------------------
  // Properties

  /** Any signed-in user whose row exists passes the gate; a bad header or token, or a deleted
      user, gets 401 on every method but OPTIONS. */
  lemma GateOutcomes(req: Request, db: Db, k: Signer, now: int, today: Date)
    requires req.verb != "OPTIONS"
    ensures MemberGate(req.headers, db, k, now).None? ==> Handle(req, db, k, now, today) == Outcome(Unauthorized, db)
    ensures MemberGate(req.headers, db, k, now).Some? && req.verb == "GET" ==>
      Handle(req, db, k, now, today).reply.status == 200
  {
  }

  /** Writes by a non-admin are refused with 403 whatever the body holds. */
  lemma WritesNeedAdmin(req: Request, db: Db, k: Signer, now: int, today: Date)
    requires req.verb in {"POST", "PUT", "DELETE"}
    requires MemberGate(req.headers, db, k, now).Some? && MemberGate(req.headers, db, k, now).value.role != "admin"
    ensures Handle(req, db, k, now, today) == Outcome(Forbidden, db)
  {
  }

  /** POST with a falsy required field is a 400; otherwise exactly one unread message dated
      today is appended with the next id. */
  lemma CreateOutcomes(db: Db, b: map<string, Json>, today: Date, now: int)
    ensures var o := Create(db, Some(b), today, now);
      (!Truthy(Field(b, "title")) || !Truthy(Field(b, "content")) || !Truthy(Field(b, "type")) || !Truthy(Field(b, "author")))
        ==> o == Outcome(Reply(400, Failure("Missing required fields")), db)
    ensures var o := Create(db, Some(b), today, now);
      o.reply.status == 201 ==>
        |o.db.messages| == |db.messages| + 1 && o.db.messages[..|db.messages|] == db.messages &&
        var m := o.db.messages[|db.messages|];
        m.id == db.nextMessageId && m.isRead == Some(false) && m.date == today &&
        m.title == TextOf(Field(b, "title")) && m.author == TextOf(Field(b, "author"))
  {
  }

  /** PUT refusals change nothing: missing id (400), unknown id (404), no updatable field (400). */
  lemma UpdateRefusals(db: Db, b: map<string, Json>, now: int)
    ensures !Truthy(Field(b, "messageId")) ==> Update(db, Some(b), now) == Outcome(MissingId, db)
    ensures (Truthy(Field(b, "messageId")) && IdOf(Field(b, "messageId")).IdValue? &&
             FindMessage(db.messages, IdOf(Field(b, "messageId")).id).None?) ==>
      Update(db, Some(b), now) == Outcome(NotFound, db)
    ensures (Truthy(Field(b, "messageId")) && IdOf(Field(b, "messageId")).IdValue? &&
             FindMessage(db.messages, IdOf(Field(b, "messageId")).id).Some? && UpdateColumns(b) == []) ==>
      Update(db, Some(b), now) == Outcome(Reply(400, Failure("No fields to update")), db)
  {
  }

  /** A successful PUT replaces only the row with that id by the statement's result. */
  lemma UpdateReplacesOne(db: Db, b: map<string, Json>, now: int)
    requires Update(db, Some(b), now).reply.status == 200
    ensures IdOf(Field(b, "messageId")).IdValue?
    ensures var m := FindMessage(db.messages, IdOf(Field(b, "messageId")).id);
      m.Some? && RunStatement(m.value, b, Field(b, "messageId"), now).Some? &&
      var m' := RunStatement(m.value, b, Field(b, "messageId"), now).value;
      Update(db, Some(b), now).db.messages == ReplaceMessage(db.messages, m') &&
      Update(db, Some(b), now).reply.body == Saved("Zpráva byla úspěšně aktualizována", View(m'))
  {
  }

  /** What the statement does to the row: each column whose body key is present holds the
      body's value, every other column keeps its content, the id, date and creation time stay,
      and `updatedAt` becomes the current time. */
  lemma RunStatementEffect(m: MessageRow, b: map<string, Json>, messageId: Json, now: int)
    requires RunStatement(m, b, messageId, now).Some?
    ensures var m' := RunStatement(m, b, messageId, now).value;
      m'.id == m.id && m'.date == m.date && m'.createdAt == m.createdAt && m'.updatedAt == now &&
      (forall c :: Present(b, c) ==> Coerce(c, Field(b, Key(c))) == Some(Get(m', c))) &&
      (forall c :: !Present(b, c) ==> Get(m', c) == Get(m, c))
  {
    StatementTargets(b);
    ExecuteEffect(m, Targets(b), UpdateValues(b) + [Str("NOW()"), messageId], now);
    forall c | Present(b, c)
      ensures Coerce(c, Field(b, Key(c))) == Some(Get(RunStatement(m, b, messageId, now).value, c))
    {
      RunStatementSets(m, b, messageId, now, c);
    }
    forall c | !Present(b, c)
      ensures Get(RunStatement(m, b, messageId, now).value, c) == Get(m, c)
    {
      RunStatementLeaves(m, b, messageId, now, c);
    }
  }

  /** A column whose key is present ends up holding the body's value. */
  lemma RunStatementSets(m: MessageRow, b: map<string, Json>, messageId: Json, now: int, c: Column)
    requires RunStatement(m, b, messageId, now).Some? && Present(b, c)
    ensures Coerce(c, Field(b, Key(c))) == Some(Get(RunStatement(m, b, messageId, now).value, c))
  {
    var cs := UpdateColumns(b);
    var ts := Targets(b);
    var params := UpdateValues(b) + [Str("NOW()"), messageId];
    StatementTargets(b);
    ExecuteEffect(m, ts, params, now);
    var i :| 0 <= i < |cs| && cs[i] == c;
    assert ts[i] == Set(c) && params[i] == Field(b, Key(c));
  }

  /** A column whose key is absent keeps its stored content. */
  lemma RunStatementLeaves(m: MessageRow, b: map<string, Json>, messageId: Json, now: int, c: Column)
    requires RunStatement(m, b, messageId, now).Some? && !Present(b, c)
    ensures Get(RunStatement(m, b, messageId, now).value, c) == Get(m, c)
  {
    var ts := Targets(b);
    forall i | 0 <= i < |ts| ensures ts[i] != Set(c) {
      if i < |ts| - 1 {
        assert UpdateColumns(b)[i] in UpdateColumns(b);
      }
    }
    StatementTargets(b);
    ExecuteEffect(m, ts, UpdateValues(b) + [Str("NOW()"), messageId], now);
  }

  /** The statement succeeds when the read flag, if given, is one the column accepts. */
  lemma RunStatementAccepts(m: MessageRow, b: map<string, Json>, messageId: Json, now: int)
    requires !Present(b, IsRead) || BoolOf(Field(b, "isRead")).Some?
    ensures RunStatement(m, b, messageId, now).Some?
  {
    var cs := UpdateColumns(b);
    var ts := Targets(b);
    var params := UpdateValues(b) + [Str("NOW()"), messageId];
    forall i | 0 <= i < |ts| && ts[i].Set?
      ensures Coerce(ts[i].column, params[i]).Some?
    {
      assert i < |cs| && ts[i] == Set(cs[i]) && params[i] == Field(b, Key(cs[i]));
      assert cs[i] in cs;
    }
    ExecuteSucceeds(m, ts, params, now);
  }

  /** The intended PUT saves: an existing message, at least one field to update and a read
      flag the column accepts give 200, and the row is replaced by the statement's result. */
  lemma UpdateSaves(db: Db, b: map<string, Json>, now: int)
    requires Truthy(Field(b, "messageId")) && IdOf(Field(b, "messageId")).IdValue?
    requires FindMessage(db.messages, IdOf(Field(b, "messageId")).id).Some?
    requires UpdateColumns(b) != []
    requires !Present(b, IsRead) || BoolOf(Field(b, "isRead")).Some?
    ensures Update(db, Some(b), now).reply.status == 200
  {
    var messageId := Field(b, "messageId");
    var m := FindMessage(db.messages, IdOf(messageId).id).value;
    RunStatementAccepts(m, b, messageId, now);
  }

  /** As written, the same PUT answers 500 and changes nothing. */
  lemma UpdateFailsAsWritten(db: Db, b: map<string, Json>, now: int)
    requires Truthy(Field(b, "messageId")) && IdOf(Field(b, "messageId")).IdValue?
    requires FindMessage(db.messages, IdOf(Field(b, "messageId")).id).Some?
    requires UpdateColumns(b) != []
    requires !Present(b, IsRead) || BoolOf(Field(b, "isRead")).Some?
    ensures UpdateAsWritten(db, Some(b), now) == Outcome(ServerError, db)
  {
    UpdateSaves(db, b, now);
    UpdateAsWrittenNeverSaves(db, Some(b), now);
  }

  /** A present `isRead` that is not a boolean (or null) makes the statement fail: 500 and no
      change. */
  lemma UpdateRejectsNonBoolean(db: Db, b: map<string, Json>, now: int)
    requires Truthy(Field(b, "messageId")) && IdOf(Field(b, "messageId")).IdValue?
    requires FindMessage(db.messages, IdOf(Field(b, "messageId")).id).Some?
    requires Present(b, IsRead) && BoolOf(Field(b, "isRead")).None?
    ensures Update(db, Some(b), now) == Outcome(ServerError, db)
  {
    var messageId := Field(b, "messageId");
    var m := FindMessage(db.messages, IdOf(messageId).id).value;
    RunStatementRejects(m, b, messageId, now);
  }

  /** The statement fails when the read flag it is given is not a boolean. */
  lemma RunStatementRejects(m: MessageRow, b: map<string, Json>, messageId: Json, now: int)
    requires Present(b, IsRead) && BoolOf(Field(b, "isRead")).None?
    ensures RunStatement(m, b, messageId, now).None?
  {
    var cs := UpdateColumns(b);
    var ts := Targets(b);
    var params := UpdateValues(b) + [Str("NOW()"), messageId];
    ExecuteSucceeds(m, ts, params, now);
    var i :| 0 <= i < |cs| && cs[i] == IsRead;
    assert ts[i] == Set(IsRead) && params[i] == Field(b, "isRead");
  }

  /** DELETE: missing id is a 400, unknown id a 404, otherwise exactly that message goes. */
  lemma DeleteOutcomes(db: Db, b: map<string, Json>, id: int)
    requires Truthy(Field(b, "messageId")) && IdOf(Field(b, "messageId")) == IdValue(id)
    ensures var o := RemoveMessage(db, Some(b));
      (FindMessage(db.messages, id).None? ==> o == Outcome(NotFound, db)) &&
      (FindMessage(db.messages, id).Some? ==>
        (o.reply.status == 200 && forall m :: m in o.db.messages <==> m in db.messages && m.id != id))
  {
  }
}

=== FILE: mock_api.dfy ===
/** src/services/mockApi.js: the in-memory backend used for local development. One object
    holds the user, time-entry and message lists and the logged-in user, and its methods
    change them in place. Network delays, `Date.now()` ids and ISO time stamps are
    parameters; the document catalogue is not part of this model. */
module MockApi {
  import opened Common

  datatype MockUser = MockUser(id: string, username: string, email: string, role: string, createdAt: string)

  /** A time entry. `isHoliday`/`isVacation` are None when the object has no such key. */
  datatype MockEntry = MockEntry(
    id: string, date: string, hours: real, hourlyRate: real, earnings: real,
    isHoliday: Option<bool>, isVacation: Option<bool>)

  /** The `entryData` object a caller passes; an absent key is None. */
  datatype EntryData = EntryData(date: string, hours: real, hourlyRate: real, isHoliday: Option<bool>, isVacation: Option<bool>)

  datatype MockMessage = MockMessage(
    id: string, title: string, content: string, kind: string, date: string, author: string,
    isRead: bool, createdAt: string, updatedAt: string)

  /** The fields `addMessage` copies from its argument. */
  datatype MessageData = MessageData(title: string, content: string, kind: string, author: string)

  /** The `messageData` spread over a message by `updateMessage`; an absent key is None. */
  datatype MessagePatch = MessagePatch(
    title: Option<string>, content: Option<string>, kind: Option<string>, author: Option<string>, isRead: Option<bool>)

  /** A method's result: its value, or the message of the Error it throws. */
  datatype Outcome<T> = Done(value: T) | Thrown(error: string)

  const BadCredentials: string := "Neplatné přihlašovací údaje"
  const UserExists: string := "Uživatel s tímto jménem nebo emailem již existuje"
  const BadToken: string := "Neplatný token"
  const NoSuchUser: string := "Uživatel nebyl nalezen"
  const NoSuchMessage: string := "Zpráva nebyla nalezena"
  const CannotAdd: string := "Nedostatečná oprávnění. Pouze administrátoři mohou přidávat zprávy."
  const CannotEdit: string := "Nedostatečná oprávnění. Pouze administrátoři mohou upravovat zprávy."
  const CannotDelete: string := "Nedostatečná oprávnění. Pouze administrátoři mohou mazat zprávy."

  const SeedUsers: seq<MockUser> := [
    MockUser("1", "admin", "admin@company.com", "admin", "2024-01-01T00:00:00Z"),
    MockUser("2", "user", "user@company.com", "user", "2024-01-02T00:00:00Z")
  ]

  const SeedEntries: seq<MockEntry> := [
    MockEntry("1", "2024-01-15", 8.0, 250.0, 2000.0, Some(false), Some(false)),
    MockEntry("2", "2024-01-14", 7.5, 250.0, 1875.0, Some(false), Some(false))
  ]

  const SeedMessages: seq<MockMessage> := [
    MockMessage("1", "Důležité upozornění",
      "Od příštího týdne se mění rozvrh směn. Více informací najdete v emailu.",
      "warning", "2024-01-15", "Vedení", false, "2024-01-15T10:00:00Z", "2024-01-15T10:00:00Z"),
    MockMessage("2", "Nové bezpečnostní předpisy",
      "Prosíme o dodržování nových bezpečnostních předpisů při práci s vozidly.",
      "info", "2024-01-14", "Bezpečnostní oddělení", true, "2024-01-14T14:30:00Z", "2024-01-14T14:30:00Z"),
    MockMessage("3", "Úspěšné dokončení projektu",
      "Děkujeme všem za úspěšné dokončení projektu modernizace vozového parku.",
      "success", "2024-01-13", "Vedení", true, "2024-01-13T09:15:00Z", "2024-01-13T09:15:00Z")
  ]

  // ---------------------------------------------------------------------------------------
  // Authentication

  /** The only accepted username/password pairs. */
  predicate DemoCredentials(username: string, password: string) {
    (username == "admin" && password == "admin123") || (username == "user" && password == "user123")
  }

  /** `login`'s lookup: the first user with that username, provided the pair is a demo pair. */
  function LoginUser(users: seq<MockUser>, username: string, password: string): (r: Option<MockUser>)
    ensures r.Some? <==> DemoCredentials(username, password) && exists u :: u in users && u.username == username
    ensures r.Some? ==> r.value in users && r.value.username == username
  {
    Find(users, (u: MockUser) => u.username == username && DemoCredentials(username, password))
  }

  const TokenPrefix: string := "mock-jwt-token-"

  /** `mock-jwt-token-<id>-<timestamp>`. */
  function MockToken(id: string, stamp: nat): (t: string)
    ensures StartsWith(t, TokenPrefix)
  {
    assert (TokenPrefix + (id + "-" + NatToString(stamp)))[..15] == TokenPrefix;
    TokenPrefix + (id + "-" + NatToString(stamp))
  }

  /** A dash-free word followed by '-' is one part of `split('-')`. */
  lemma WordPart(w: string, s: string)
    requires '-' !in w
    ensures Split(w + ['-'] + s, '-') == [w] + Split(s, '-')
  {
    SplitConcat(w, '-', s);
    SplitFree(w, '-');
  }

  /** The prefix contributes exactly three parts to `token.split('-')`. */
  lemma PrefixParts(rest: string)
    ensures Split(TokenPrefix + rest, '-') == ["mock", "jwt", "token"] + Split(rest, '-')
  {
    var c := "token" + ['-'] + rest;
    var b := "jwt" + ['-'] + c;
    PrefixSpelled(rest);
    PrefixWords();
    WordPart("token", rest);
    WordPart("jwt", c);
    WordPart("mock", b);
    assert ["mock"] + (["jwt"] + (["token"] + Split(rest, '-'))) == ["mock", "jwt", "token"] + Split(rest, '-');
  }

  lemma PrefixSpelled(rest: string)
    ensures TokenPrefix + rest == "mock" + ['-'] + ("jwt" + ['-'] + ("token" + ['-'] + rest))
  {
  }

  lemma PrefixWords()
    ensures '-' !in "mock" && '-' !in "jwt" && '-' !in "token"
  {
  }

  /** `token.split('-')[3]` of a token with the prefix: the fourth dash-separated part. */
  function TokenId(token: string): (id: string)
    requires StartsWith(token, TokenPrefix)
  {
    var rest := token[15..];
    assert token == TokenPrefix + rest;
    PrefixParts(rest);
    Split(token, '-')[3]
  }

  /** `verifyToken`: a missing or empty token, or one without the prefix, is refused; otherwise
      the first user whose id is the token's fourth dash-separated part, if any. */
  function TokenUser(users: seq<MockUser>, token: Option<string>): (r: Outcome<MockUser>)
    ensures r.Done? ==> r.value in users && token.Some? && StartsWith(token.value, TokenPrefix) &&
                        r.value.id == TokenId(token.value)
    ensures r.Done? ==>
      (exists i :: 0 <= i < |users| && users[i] == r.value && forall j :: 0 <= j < i ==> users[j].id != r.value.id)
    ensures r.Thrown? ==> r.error in {BadToken, NoSuchUser}
    ensures token.None? || !StartsWith(token.value, TokenPrefix) ==> r == Thrown(BadToken)
  {
    match token
    case None => Thrown(BadToken)
    case Some(t) =>
      if t == "" || !StartsWith(t, TokenPrefix) then Thrown(BadToken)
      else
        var id := TokenId(t);
        match Find(users, (u: MockUser) => u.id == id)
        case None => Thrown(NoSuchUser)
        case Some(u) => Done(u)
  }

  /** A token issued for an id without '-' carries that id back. */
  lemma TokenIdRoundTrip(id: string, stamp: nat)
    requires '-' !in id
    ensures TokenId(MockToken(id, stamp)) == id
  {
    var digits := NatToString(stamp);
    DigitsFree(digits, '-');
    PrefixParts(id + "-" + digits);
    SplitConcat(id, '-', digits);
    SplitFree(id, '-');
    SplitFree(digits, '-');
    assert MockToken(id, stamp)[15..] == id + "-" + digits;
  }

  /** The token returned by a login verifies to the first user with that id, which is the
      logged-in user when ids are unique. */
  lemma LoginThenVerify(users: seq<MockUser>, username: string, password: string, stamp: nat)
    requires LoginUser(users, username, password).Some?
    requires '-' !in LoginUser(users, username, password).value.id
    ensures var u := LoginUser(users, username, password).value;
      TokenUser(users, Some(MockToken(u.id, stamp))).Done? &&
      TokenUser(users, Some(MockToken(u.id, stamp))).value.id == u.id &&
      ((forall v :: v in users && v.id == u.id ==> v == u) ==> TokenUser(users, Some(MockToken(u.id, stamp))) == Done(u))
  {
    var u := LoginUser(users, username, password).value;
    TokenIdRoundTrip(u.id, stamp);
    assert MockToken(u.id, stamp) != "";
  }

  /** `register`: refuse when any user has the username or the email; otherwise a new user with
      role 'user' and id (old count + 1). */
  function NewUser(users: seq<MockUser>, username: string, email: string, now: string): (r: Outcome<MockUser>)
    ensures r.Thrown? <==> exists u :: u in users && (u.username == username || u.email == email)
    ensures r.Thrown? ==> r.error == UserExists
    ensures r.Done? ==> r.value == MockUser(NatToString(|users| + 1), username, email, "user", now)
  {
    match Find(users, (u: MockUser) => u.username == username || u.email == email)
    case Some(_) => Thrown(UserExists)
    case None => Done(MockUser(NatToString(|users| + 1), username, email, "user", now))
  }

  /** `deleteUser`: the position of the first user with that id, or the 'not found' error. */
  function UserIndex(users: seq<MockUser>, id: string): (r: Outcome<nat>)
    ensures r.Done? ==> r.value < |users| && users[r.value].id == id
    ensures r.Done? ==> forall j :: 0 <= j < r.value ==> users[j].id != id
    ensures r.Thrown? <==> forall u :: u in users ==> u.id != id
    ensures r.Thrown? ==> r.error == NoSuchUser
  {
    match FindIndex(users, (u: MockUser) => u.id == id)
    case None => Thrown(NoSuchUser)
    case Some(i) => Done(i)
  }

  /** Ids are not fresh: after a registration, deleting any earlier user and registering
      again hands out the id of the user registered first, who is still there. */
  lemma RegisterAfterDeleteReusesId(users: seq<MockUser>, i: nat, name1: string, email1: string, now1: string,
                                    name2: string, email2: string, now2: string)
    requires i < |users| && NewUser(users, name1, email1, now1).Done?
    requires var a := NewUser(users, name1, email1, now1).value;
      NewUser(RemoveAt(users + [a], i), name2, email2, now2).Done?
    ensures var a := NewUser(users, name1, email1, now1).value;
      var afterDelete := RemoveAt(users + [a], i);
      var b := NewUser(afterDelete, name2, email2, now2).value;
      a in afterDelete && b.id == a.id && b != a
  {
    var a := NewUser(users, name1, email1, now1).value;
    var all := users + [a];
    var afterDelete := RemoveAt(all, i);
    assert afterDelete[|afterDelete| - 1] == all[|all| - 1] == a;
  }

  // ---------------------------------------------------------------------------------------
  // Time entries and messages

  /** `hours * hourlyRate`. */
  function Product(hours: real, rate: real): real {
    hours * rate
  }

  /** `{ id, ...entryData, earnings: hours * hourlyRate }`. */
  function NewEntry(data: EntryData, id: string): (e: MockEntry)
    ensures e.id == id && e.date == data.date && e.hours == data.hours && e.hourlyRate == data.hourlyRate
    ensures e.earnings == Product(data.hours, data.hourlyRate)
    ensures e.isHoliday == data.isHoliday && e.isVacation == data.isVacation
  {
    MockEntry(id, data.date, data.hours, data.hourlyRate, Product(data.hours, data.hourlyRate), data.isHoliday, data.isVacation)
  }

  /** `{ ...entry, ...entryData, earnings }`: keys absent from the data keep their value. */
  function MergeEntry(e: MockEntry, data: EntryData): (r: MockEntry)
    ensures r.id == e.id && r.date == data.date && r.hours == data.hours && r.hourlyRate == data.hourlyRate
    ensures r.earnings == Product(data.hours, data.hourlyRate)
    ensures r.isHoliday == (if data.isHoliday.Some? then data.isHoliday else e.isHoliday)
    ensures r.isVacation == (if data.isVacation.Some? then data.isVacation else e.isVacation)
  {
    MockEntry(e.id, data.date, data.hours, data.hourlyRate, Product(data.hours, data.hourlyRate),
              if data.isHoliday.Some? then data.isHoliday else e.isHoliday,
              if data.isVacation.Some? then data.isVacation else e.isVacation)
  }

  function EntryIndex(entries: seq<MockEntry>, id: string): Option<nat> {
    FindIndex(entries, (e: MockEntry) => e.id == id)
  }

  /** `updateTimeEntry`'s new list: the first entry with that id merged, all others kept. */
  function UpdatedEntries(entries: seq<MockEntry>, id: string, data: EntryData): (r: seq<MockEntry>)
    ensures |r| == |entries|
    ensures forall i :: 0 <= i < |r| && r[i] != entries[i] ==> entries[i].id == id && r[i] == MergeEntry(entries[i], data)
    ensures (forall e :: e in entries ==> e.id != id) ==> r == entries
    ensures (exists i :: 0 <= i < |entries| && entries[i].id == id) ==>
      exists i :: 0 <= i < |entries| && entries[i].id == id && (forall j :: 0 <= j < i ==> entries[j].id != id) &&
        r == entries[i := MergeEntry(entries[i], data)]
  {
    match EntryIndex(entries, id)
    case None => entries
    case Some(i) => entries[i := MergeEntry(entries[i], data)]
  }

  /** `deleteTimeEntry`'s new list: the first entry with that id removed, if there is one. */
  function RemainingEntries(entries: seq<MockEntry>, id: string): (r: seq<MockEntry>)
    ensures (forall e :: e in entries ==> e.id != id) <==> r == entries
    ensures r != entries ==> |r| == |entries| - 1 && exists i :: 0 <= i < |entries| && entries[i].id == id && r == RemoveAt(entries, i)
  {
    match EntryIndex(entries, id)
    case None => entries
    case Some(i) => RemoveAt(entries, i)
  }

  predicate IsAdmin(current: Option<MockUser>) {
    current.Some? && current.value.role == "admin"
  }

  /** `{ ...message, ...messageData, updatedAt }`. */
  function Patched(m: MockMessage, p: MessagePatch, now: string): (r: MockMessage)
    ensures r.id == m.id && r.date == m.date && r.createdAt == m.createdAt && r.updatedAt == now
    ensures r.title == (if p.title.Some? then p.title.value else m.title)
    ensures r.content == (if p.content.Some? then p.content.value else m.content)
    ensures r.kind == (if p.kind.Some? then p.kind.value else m.kind)
    ensures r.author == (if p.author.Some? then p.author.value else m.author)
    ensures r.isRead == (if p.isRead.Some? then p.isRead.value else m.isRead)
  {
    m.(title := if p.title.Some? then p.title.value else m.title,
       content := if p.content.Some? then p.content.value else m.content,
       kind := if p.kind.Some? then p.kind.value else m.kind,
       author := if p.author.Some? then p.author.value else m.author,
       isRead := if p.isRead.Some? then p.isRead.value else m.isRead,
       updatedAt := now)
  }

  function MessageIndex(messages: seq<MockMessage>, id: string): (r: Outcome<nat>)
    ensures r.Done? ==> r.value < |messages| && messages[r.value].id == id
    ensures r.Thrown? <==> forall m :: m in messages ==> m.id != id
    ensures r.Thrown? ==> r.error == NoSuchMessage
  {
    match FindIndex(messages, (m: MockMessage) => m.id == id)
    case None => Thrown(NoSuchMessage)
    case Some(i) => Done(i)
  }

  // ---------------------------------------------------------------------------------------
  // The service object

  class MockApiService {
    var users: seq<MockUser>
    var entries: seq<MockEntry>
    var messages: seq<MockMessage>
    var current: Option<MockUser>

    constructor()
      ensures users == SeedUsers && entries == SeedEntries && messages == SeedMessages && current == None
    {
      users := SeedUsers;
      entries := SeedEntries;
      messages := SeedMessages;
      current := None;
    }

    /** `login`: on a demo pair of an existing user, remember the user and return the token. */
    method Login(username: string, password: string, stamp: nat) returns (r: Outcome<(string, MockUser)>)
      modifies this
      ensures users == old(users) && entries == old(entries) && messages == old(messages)
      ensures match LoginUser(old(users), username, password)
        case None => r == Thrown(BadCredentials) && current == old(current)
        case Some(u) => r == Done((MockToken(u.id, stamp), u)) && current == Some(u)
    {
      var found := LoginUser(users, username, password);
      if found.None? {
        return Thrown(BadCredentials);
      }
      var u := found.value;
      current := Some(u);
      r := Done((MockToken(u.id, stamp), u));
    }

    /** `register`: append the new user, or throw leaving the list as it was. */
    method Register(username: string, email: string, now: string) returns (r: Outcome<MockUser>)
      modifies this
      ensures r == NewUser(old(users), username, email, now)
      ensures users == if r.Done? then old(users) + [r.value] else old(users)
      ensures entries == old(entries) && messages == old(messages) && current == old(current)
    {
      r := NewUser(users, username, email, now);
      if r.Done? {
        users := users + [r.value];
      }
    }

    /** `verifyToken`: changes nothing. */
    method VerifyToken(token: Option<string>) returns (r: Outcome<MockUser>)
      ensures r == TokenUser(users, token)
    {
      r := TokenUser(users, token);
    }

    /** `getUsers`: the list as it is (the stored users carry no password). */
    method GetUsers() returns (r: seq<MockUser>)
      ensures r == users
    {
      r := users;
    }

    /** `deleteUser`: splice out the first user with that id, or throw. */
    method DeleteUser(id: string) returns (r: Outcome<()>)
      modifies this
      ensures match UserIndex(old(users), id)
        case Thrown(e) => r == Thrown(e) && users == old(users)
        case Done(i) => r == Done(()) && users == RemoveAt(old(users), i)
      ensures entries == old(entries) && messages == old(messages) && current == old(current)
    {
      var i := UserIndex(users, id);
      match i
      case Thrown(e) => r := Thrown(e);
      case Done(k) =>
        users := users[..k] + users[k + 1..];
        r := Done(());
    }

    /** `getTimeEntries`: the list itself, newest additions first. */
    method GetTimeEntries() returns (r: seq<MockEntry>)
      ensures r == entries
    {
      r := entries;
    }

    /** `addTimeEntry`: prepend the new entry. */
    method AddTimeEntry(data: EntryData, stamp: nat) returns (e: MockEntry)
      modifies this
      ensures e == NewEntry(data, NatToString(stamp)) && entries == [e] + old(entries)
      ensures users == old(users) && messages == old(messages) && current == old(current)
    {
      e := NewEntry(data, NatToString(stamp));
      entries := [e] + entries;
    }

    /** `updateTimeEntry`: merge into the first entry with that id, if any; the result is
        that entry, or undefined (None). */
    method UpdateTimeEntry(id: string, data: EntryData) returns (r: Option<MockEntry>)
      modifies this
      ensures entries == UpdatedEntries(old(entries), id, data)
      ensures r.Some? <==> exists e :: e in old(entries) && e.id == id
      ensures r.Some? ==> r.value in entries && r.value.id == id
      ensures r.Some? ==>
        (exists i :: 0 <= i < |old(entries)| && old(entries)[i].id == id &&
           (forall j :: 0 <= j < i ==> old(entries)[j].id != id) &&
           r.value == MergeEntry(old(entries)[i], data) && entries == old(entries)[i := r.value])
      ensures users == old(users) && messages == old(messages) && current == old(current)
    {
      var index := EntryIndex(entries, id);
      if index.Some? {
        var i := index.value;
        entries := entries[i := MergeEntry(entries[i], data)];
        r := Some(entries[i]);
      } else {
        r := None;
      }
    }

    /** `deleteTimeEntry`: splice out the first entry with that id; unknown ids do nothing. */
    method DeleteTimeEntry(id: string)
      modifies this
      ensures entries == RemainingEntries(old(entries), id)
      ensures users == old(users) && messages == old(messages) && current == old(current)
    {
      var index := EntryIndex(entries, id);
      if index.Some? {
        entries := RemoveAt(entries, index.value);
      }
    }

    /** `getMessages`: the list itself, open to every caller. */
    method GetMessages() returns (r: seq<MockMessage>)
      ensures r == messages
    {
      r := messages;
    }

    /** `addMessage`: admins only; prepends an unread message. */
    method AddMessage(data: MessageData, stamp: nat, today: string, now: string) returns (r: Outcome<MockMessage>)
      modifies this
      ensures !IsAdmin(old(current)) ==> r == Thrown(CannotAdd) && messages == old(messages)
      ensures IsAdmin(old(current)) ==>
        r == Done(MockMessage(NatToString(stamp), data.title, data.content, data.kind, today, data.author, false, now, now)) &&
        messages == [r.value] + old(messages)
      ensures users == old(users) && entries == old(entries) && current == old(current)
    {
      if current.None? || current.value.role != "admin" {
        return Thrown(CannotAdd);
      }
      var m := MockMessage(NatToString(stamp), data.title, data.content, data.kind, today, data.author, false, now, now);
      messages := [m] + messages;
      r := Done(m);
    }

    /** `updateMessage`: admins only; spread the patch over the first message with that id. */
    method UpdateMessage(id: string, patch: MessagePatch, now: string) returns (r: Outcome<MockMessage>)
      modifies this
      ensures !IsAdmin(old(current)) ==> r == Thrown(CannotEdit) && messages == old(messages)
      ensures IsAdmin(old(current)) ==> match MessageIndex(old(messages), id)
        case Thrown(e) => r == Thrown(e) && messages == old(messages)
        case Done(i) => r == Done(Patched(old(messages)[i], patch, now)) && messages == old(messages)[i := r.value]
      ensures users == old(users) && entries == old(entries) && current == old(current)
    {
      if current.None? || current.value.role != "admin" {
        return Thrown(CannotEdit);
      }
      var index := MessageIndex(messages, id);
      match index
      case Thrown(e) => r := Thrown(e);
      case Done(i) =>
        var m := Patched(messages[i], patch, now);
        messages := messages[i := m];
        r := Done(m);
    }

    /** `deleteMessage`: admins only; splice out the first message with that id. */
    method DeleteMessage(id: string) returns (r: Outcome<()>)
      modifies this
      ensures !IsAdmin(old(current)) ==> r == Thrown(CannotDelete) && messages == old(messages)
      ensures IsAdmin(old(current)) ==> match MessageIndex(old(messages), id)
        case Thrown(e) => r == Thrown(e) && messages == old(messages)
        case Done(i) => r == Done(()) && messages == RemoveAt(old(messages), i)
      ensures users == old(users) && entries == old(entries) && current == old(current)
    {
      if current.None? || current.value.role != "admin" {
        return Thrown(CannotDelete);
      }
      var index := MessageIndex(messages, id);
      match index
      case Thrown(e) => r := Thrown(e);
      case Done(i) =>
        messages := RemoveAt(messages, i);
        r := Done(());
    }
  }

  // ---------------------------------------------------------------------------------------
  // Properties

  /** The seed admin and user can log in with their demo passwords, and nobody else can. */
  lemma SeedLogins(username: string, password: string)
    ensures LoginUser(SeedUsers, username, password).Some? <==> DemoCredentials(username, password)
  {
    if DemoCredentials(username, password) {
      if username == "admin" {
        assert SeedUsers[0] in SeedUsers;
      } else {
        assert SeedUsers[1] in SeedUsers;
      }
    }
  }

  /** Deleting a user removes exactly one user with that id and keeps the rest in order. */
  lemma DeleteUserRemovesOne(users: seq<MockUser>, id: string)
    requires UserIndex(users, id).Done?
    ensures var i := UserIndex(users, id).value;
      var r := RemoveAt(users, i);
      multiset(r) + multiset{users[i]} == multiset(users) && users[i].id == id &&
      r == users[..i] + users[i + 1..]
  {
  }
}

=== FILE: protected_route.dfy ===
/** src/components/ProtectedRoute.tsx: what a protected page shows, decided from the
    authentication state. A React node is reduced to the screen it stands for. */
module ProtectedRoute {
  import opened Common

  datatype Screen = Spinner | Fallback | LoginPrompt | NoPermission | Children

  /** The route's inputs: the auth context's `isLoading`, `isAuthenticated` and the user's role
      (None without a user), the `requireAdmin` prop (None when omitted) and whether a
      truthy `fallbackComponent` was given. */
  datatype Props = Props(isLoading: bool, isAuthenticated: bool, role: Option<string>,
                         requireAdmin: Option<bool>, hasFallback: bool)

  /** `requireAdmin = false` as the default of the destructured prop. */
  function RequireAdmin(p: Props): (r: bool)
    ensures p.requireAdmin.None? ==> !r
  {
    if p.requireAdmin.Some? then p.requireAdmin.value else false
  }

  /** The chain of early returns: loading, then not authenticated, then the admin check. */
  function Render(p: Props): (s: Screen)
    ensures p.isLoading ==> s == Spinner
    ensures s == LoginPrompt ==> !p.hasFallback && !p.isAuthenticated
    ensures s == NoPermission ==> !p.hasFallback && p.isAuthenticated && RequireAdmin(p)
  {
    if p.isLoading then Spinner
    else if !p.isAuthenticated then (if p.hasFallback then Fallback else LoginPrompt)
    else if RequireAdmin(p) && p.role != Some("admin") then (if p.hasFallback then Fallback else NoPermission)
    else Children
  }

  /** The children are rendered exactly when not loading, authenticated, and either no admin
      role is required or the user's role is 'admin'. */
  lemma ChildrenIff(p: Props)
    ensures Render(p) == Children <==>
      !p.isLoading && p.isAuthenticated && (!RequireAdmin(p) || p.role == Some("admin"))
  {
  }

  /** A signed-out visitor never sees the children: the fallback if one is given, else the
      login prompt. */
  lemma SignedOut(p: Props)
    requires !p.isLoading && !p.isAuthenticated
    ensures Render(p) == if p.hasFallback then Fallback else LoginPrompt
  {
  }

  /** Omitting `requireAdmin` lets any authenticated user through. */
  lemma DefaultAllowsUsers(p: Props)
    requires !p.isLoading && p.isAuthenticated && p.requireAdmin.None?
    ensures Render(p) == Children
  {
  }
}

=== FILE: realtime.dfy ===
/** src/services/realtime.js: the client's live-update service. It keeps a registry of
    listeners per event type, a connection flag, a reconnect counter with exponential
    back-off, and a fallback to polling. The EventSource, the timers and the polling fetch
    are not modelled; what they trigger is a method call here (`Open`, `Error`,
    `ReconnectTimerFired`, `HandleMessage`). A callback is identified by a number. */
module Realtime {
  import opened Common

  type Callback = nat

  /** The service's fields: `listeners` (event type to the callbacks of its Set, in insertion
      order), `isConnected`, `reconnectAttempts`, `usePolling`, whether an event source is
      open and whether a polling interval is running. */
  datatype Status = Status(
    listeners: map<string, seq<Callback>>,
    isConnected: bool,
    attempts: nat,
    usePolling: bool,
    hasSource: bool,
    polling: bool)

  const MaxReconnectAttempts: nat := 5
  const ReconnectDelay: nat := 1000

  const Initial: Status := Status(map[], false, 0, false, false, false)

  /** A Set's sequence holds each callback once. */
  ghost predicate Distinct(cbs: seq<Callback>) {
    forall i, j :: 0 <= i < j < |cbs| ==> cbs[i] != cbs[j]
  }

  /** The registry's shape: no empty Set is kept and a Set holds a callback once. */
  ghost predicate RegistryValid(s: Status) {
    forall t :: t in s.listeners ==> |s.listeners[t]| > 0 && Distinct(s.listeners[t])
  }

  /** The callbacks registered for a type, in the order they were added. */
  function Listeners(s: Status, t: string): (r: seq<Callback>)
    ensures t !in s.listeners ==> r == []
  {
    if t in s.listeners then s.listeners[t] else []
  }

  /** `subscribe`: create the type's Set when missing, then add the callback to it. */
  function Subscribed(s: Status, t: string, cb: Callback): (r: Status)
    ensures r.listeners.Keys == s.listeners.Keys + {t}
    ensures cb in Listeners(r, t)
    ensures cb !in Listeners(s, t) ==> Listeners(r, t) == Listeners(s, t) + [cb]
    ensures cb in Listeners(s, t) ==> Listeners(r, t) == Listeners(s, t)
    ensures forall u :: u != t ==> Listeners(r, u) == Listeners(s, u)
    ensures r == s.(listeners := r.listeners)
  {
    var old_ := Listeners(s, t);
    s.(listeners := s.listeners[t := if cb in old_ then old_ else old_ + [cb]])
  }

  /** The function `subscribe` returns: delete the callback and drop the Set once empty. */
  function Unsubscribed(s: Status, t: string, cb: Callback): (r: Status)
    ensures cb !in Listeners(r, t) || (t in s.listeners && cb !in s.listeners[t] && r == s)
    ensures Listeners(r, t) == Without(Listeners(s, t), cb)
    ensures t in r.listeners <==> t in s.listeners && Without(s.listeners[t], cb) != []
    ensures forall u :: u != t ==> Listeners(r, u) == Listeners(s, u)
    ensures r == s.(listeners := r.listeners)
  {
    if t !in s.listeners then s
    else
      var rest := Without(s.listeners[t], cb);
      if |rest| == 0 then s.(listeners := s.listeners - {t})
      else s.(listeners := s.listeners[t := rest])
  }

  /** `Set.prototype.delete` on the insertion-ordered Set. */
  function Without(cbs: seq<Callback>, cb: Callback): (r: seq<Callback>)
    ensures cb !in r
    ensures forall x :: x in r <==> x in cbs && x != cb
    ensures cb !in cbs ==> r == cbs
  {
    if cbs == [] then []
    else if cbs[0] == cb then Without(cbs[1..], cb)
    else [cbs[0]] + Without(cbs[1..], cb)
  }

  /** Subscribing twice stores the callback once. */
  lemma SubscribeIdempotent(s: Status, t: string, cb: Callback)
    ensures Subscribed(Subscribed(s, t, cb), t, cb) == Subscribed(s, t, cb)
  {
  }

  lemma {:induction false} WithoutDistinct(cbs: seq<Callback>, cb: Callback)
    requires Distinct(cbs)
    ensures |Without(cbs, cb)| <= |cbs| && Distinct(Without(cbs, cb))
  {
    if cbs != [] {
      WithoutDistinct(cbs[1..], cb);
      var rest := Without(cbs[1..], cb);
      if cbs[0] != cb {
        assert cbs[0] !in cbs[1..];
        var r := [cbs[0]] + rest;
        forall i, j | 0 <= i < j < |r| ensures r[i] != r[j] {
          if i == 0 {
            assert r[j] in rest;
          }
        }
      }
    }
  }

  /** Removing a callback that was appended last restores the earlier Set. */
  lemma {:induction false} WithoutLast(cbs: seq<Callback>, cb: Callback)
    requires cb !in cbs
    ensures Without(cbs + [cb], cb) == cbs
  {
    if cbs != [] {
      assert (cbs + [cb])[1..] == cbs[1..] + [cb];
      WithoutLast(cbs[1..], cb);
    }
  }

  /** Subscribe and unsubscribe keep the registry's shape. */
  lemma RegistryKept(s: Status, t: string, cb: Callback)
    requires RegistryValid(s)
    ensures RegistryValid(Subscribed(s, t, cb)) && RegistryValid(Unsubscribed(s, t, cb))
  {
    SubscribeKeeps(s, t, cb);
    UnsubscribeKeeps(s, t, cb);
  }

  lemma SubscribeKeeps(s: Status, t: string, cb: Callback)
    requires RegistryValid(s)
    ensures RegistryValid(Subscribed(s, t, cb))
  {
    var old_ := Listeners(s, t);
    if cb !in old_ {
      AppendDistinct(old_, cb);
    }
  }

  lemma UnsubscribeKeeps(s: Status, t: string, cb: Callback)
    requires RegistryValid(s)
    ensures RegistryValid(Unsubscribed(s, t, cb))
  {
    if t in s.listeners {
      WithoutDistinct(s.listeners[t], cb);
    }
  }

  /** Appending a callback not yet in a Set keeps it duplicate-free. */
  lemma AppendDistinct(cbs: seq<Callback>, cb: Callback)
    requires Distinct(cbs) && cb !in cbs
    ensures Distinct(cbs + [cb])
  {
    var r := cbs + [cb];
    forall i, j | 0 <= i < j < |r| ensures r[i] != r[j] {
      if j == |cbs| {
        assert r[i] in cbs;
      }
    }
  }

  /** Unsubscribing a fresh subscription gives back the registry exactly as it was, the
      type's key included. */
  lemma SubscribeThenUnsubscribe(s: Status, t: string, cb: Callback)
    requires RegistryValid(s) && cb !in Listeners(s, t)
    ensures Unsubscribed(Subscribed(s, t, cb), t, cb) == s
  {
    WithoutLast(Listeners(s, t), cb);
    if t !in s.listeners {
      assert Subscribed(s, t, cb).listeners - {t} == s.listeners;
    } else {
      assert Subscribed(s, t, cb).listeners[t := s.listeners[t]] == s.listeners;
    }
  }

  // ---------------------------------------------------------------------------------------
  // Connection state

  /** `disconnect`: close the source, stop polling, mark disconnected, clear every listener. */
  function Disconnected(s: Status): (r: Status)
    ensures r.listeners == map[] && !r.isConnected && !r.hasSource && !r.polling
    ensures r.attempts == s.attempts && r.usePolling == s.usePolling
  {
    s.(listeners := map[], isConnected := false, hasSource := false, polling := false)
  }

  /** `startPolling`: connected, with an interval running. */
  function PollingStarted(s: Status): (r: Status)
    ensures r.isConnected && r.polling && r.listeners == s.listeners && r.attempts == s.attempts
  {
    s.(isConnected := true, polling := true)
  }

  /** `connect`: disconnect an existing source first; then open a source when the browser has
      EventSource (`supported`), else fall back to polling. */
  function Connected(s: Status, supported: bool): (r: Status)
    ensures s.hasSource ==> r.listeners == map[]
    ensures !s.hasSource ==> r.listeners == s.listeners
    ensures r.usePolling == !supported && (supported ==> r.hasSource) && (!supported ==> r.isConnected && r.polling)
  {
    var t := if s.hasSource then Disconnected(s) else s;
    if supported then t.(usePolling := false, hasSource := true)
    else PollingStarted(t.(usePolling := true))
  }

  /** The source's `onopen`. */
  function Opened(s: Status): (r: Status)
    ensures r.isConnected && r.attempts == 0 && r.listeners == s.listeners && r.usePolling == s.usePolling
  {
    s.(isConnected := true, attempts := 0)
  }

  function Pow2(n: nat): (p: nat)
    ensures p >= 1
  {
    if n == 0 then 1 else 2 * Pow2(n - 1)
  }

  /** `handleReconnect`: below the limit, count the attempt and wait 1000·2^(attempt−1) ms;
      at the limit, switch to polling for good. Returns the new state and the delay. */
  function Reconnected(s: Status): (r: (Status, Option<nat>))
    ensures s.attempts < MaxReconnectAttempts ==>
      r.0 == s.(attempts := s.attempts + 1) && r.1 == Some(ReconnectDelay * Pow2(s.attempts))
    ensures s.attempts >= MaxReconnectAttempts ==>
      r.1 == None && r.0.usePolling && r.0.isConnected && r.0.polling && r.0.attempts == s.attempts
  {
    var delay: nat := ReconnectDelay * Pow2(s.attempts);
    if s.attempts < MaxReconnectAttempts then (s.(attempts := s.attempts + 1), Some(delay))
    else (PollingStarted(s.(usePolling := true)), None)
  }

  /** The source's `onerror`: disconnected, then `handleReconnect`. */
  function Errored(s: Status): (r: (Status, Option<nat>))
    ensures r.0.listeners == s.listeners
  {
    Reconnected(s.(isConnected := false))
  }

  /** The back-off timer firing: restart polling, or connect again. */
  function Retried(s: Status, supported: bool): Status {
    if s.usePolling then PollingStarted(s) else Connected(s, supported)
  }

  /** `n` errors in a row, with no successful open between them: the final state and the
      delays scheduled. */
  function Errors(s: Status, n: nat): (Status, seq<nat>)
    decreases n
  {
    if n == 0 then (s, [])
    else
      var (t, d) := Errored(s);
      var (u, ds) := Errors(t, n - 1);
      (u, (if d.Some? then [d.value] else []) + ds)
  }

  /** From a fresh start, the first five errors schedule retries after 1, 2, 4, 8 and 16
      seconds; any error after that switches to polling and schedules nothing. */
  lemma Backoff(s: Status, n: nat)
    requires s.attempts <= MaxReconnectAttempts && !s.usePolling
    ensures var (u, ds) := Errors(s, n);
      var k := MaxReconnectAttempts - s.attempts;
      (n <= k ==> (u.attempts == s.attempts + n && !u.usePolling && ds == Delays(s.attempts, n))) &&
      (n > k ==> (u.usePolling && u.polling && u.isConnected && ds == Delays(s.attempts, k)))
  {
    if n <= MaxReconnectAttempts - s.attempts {
      BackoffWithin(s, n);
    } else {
      BackoffBeyond(s, n);
    }
  }

  /** While attempts remain, each error counts one and schedules the next doubled delay. */
  lemma {:induction false} BackoffWithin(s: Status, n: nat)
    requires s.attempts + n <= MaxReconnectAttempts && !s.usePolling
    ensures Errors(s, n).0.attempts == s.attempts + n && !Errors(s, n).0.usePolling
    ensures Errors(s, n).1 == Delays(s.attempts, n)
    decreases n
  {
    if n > 0 {
      var (t, d) := Errored(s);
      BackoffWithin(t, n - 1);
      assert Errors(s, n).1 == [d.value] + Errors(t, n - 1).1;
    }
  }

  /** One error more than the attempts left ends in polling, after the remaining delays. */
  lemma {:induction false} BackoffBeyond(s: Status, n: nat)
    requires s.attempts <= MaxReconnectAttempts && s.attempts + n > MaxReconnectAttempts && !s.usePolling
    ensures var u := Errors(s, n).0; u.usePolling && u.polling && u.isConnected
    ensures Errors(s, n).1 == Delays(s.attempts, MaxReconnectAttempts - s.attempts)
    decreases n
  {
    var (t, d) := Errored(s);
    if s.attempts < MaxReconnectAttempts {
      BackoffBeyond(t, n - 1);
      assert Errors(s, n).1 == [d.value] + Errors(t, n - 1).1;
    } else {
      PollingStays(t, n - 1);
    }
  }

  /** The delays of `n` retries starting at attempt `from`: 1000·2^from, 1000·2^(from+1), .... */
  function Delays(from: nat, n: nat): (ds: seq<nat>)
    ensures |ds| == n && forall i :: 0 <= i < n ==> ds[i] == ReconnectDelay * Pow2(from + i)
    decreases n
  {
    if n == 0 then [] else [Delay(from)] + Delays(from + 1, n - 1)
  }

  /** The delay before retry number `attempt` + 1. */
  function Delay(attempt: nat): (d: nat)
    ensures d == ReconnectDelay * Pow2(attempt)
  {
    ReconnectDelay * Pow2(attempt)
  }

  /** Once polling, further errors keep polling and schedule nothing. */
  lemma {:induction false} PollingStays(s: Status, n: nat)
    requires s.usePolling && s.polling && s.isConnected && s.attempts >= MaxReconnectAttempts
    ensures Errors(s, n).0.usePolling && Errors(s, n).0.polling && Errors(s, n).0.isConnected
    ensures Errors(s, n).1 == []
    decreases n
  {
    if n > 0 {
      PollingStays(Errored(s).0, n - 1);
    }
  }

  lemma FiveDelays()
    ensures Errors(Initial, 6).1 == [1000, 2000, 4000, 8000, 16000]
    ensures Errors(Initial, 6).0.usePolling
  {
    Backoff(Initial, 6);
    assert Pow2(0) == 1 && Pow2(1) == 2 && Pow2(2) == 4 && Pow2(3) == 8 && Pow2(4) == 16;
  }

  /** Subscriptions do not survive a reconnect: after an error on an open source, the retry
      disconnects first and so clears every listener. */
  lemma ReconnectDropsListeners(s: Status, supported: bool)
    requires s.hasSource && !s.usePolling && s.attempts < MaxReconnectAttempts
    ensures Retried(Errored(s).0, supported).listeners == map[]
  {
  }

  // ---------------------------------------------------------------------------------------
  // Messages

  /** `handleMessage`: the listener type a server message type is forwarded to, if any. */
  function Route(messageType: string): (r: Option<string>)
    ensures r == Some("documents") <==> messageType == "documents_updated"
    ensures r == Some("time_entries") <==> messageType == "time_entries_updated"
    ensures r == Some("database") <==> messageType == "database_initialized"
    ensures r.None? <==> messageType !in {"documents_updated", "time_entries_updated", "database_initialized"}
  {
    if messageType == "documents_updated" then Some("documents")
    else if messageType == "time_entries_updated" then Some("time_entries")
    else if messageType == "database_initialized" then Some("database")
    else None
  }

  // ---------------------------------------------------------------------------------------
  // The service object

  class RealtimeService {
    var listeners: map<string, seq<Callback>>
    var isConnected: bool
    var reconnectAttempts: nat
    var usePolling: bool
    var hasSource: bool
    var polling: bool

    function State(): Status
      reads this
    {
      Status(listeners, isConnected, reconnectAttempts, usePolling, hasSource, polling)
    }

    constructor()
      ensures State() == Initial
    {
      listeners := map[];
      isConnected := false;
      reconnectAttempts := 0;
      usePolling := false;
      hasSource := false;
      polling := false;
    }

    /** `notifyListeners`: call every callback of the type once, in Set order; the error of
        a throwing callback is caught and logged, so it does not stop the others. Returns the
        calls made. */
    method NotifyListeners(t: string) returns (called: seq<Callback>)
      ensures called == Listeners(State(), t)
    {
      called := [];
      if t in listeners {
        var cbs := listeners[t];
        for i := 0 to |cbs|
          invariant called == cbs[..i]
        {
          called := called + [cbs[i]];
        }
        assert cbs[..|cbs|] == cbs;
      }
    }

    method Subscribe(t: string, cb: Callback)
      modifies this
      ensures State() == Subscribed(old(State()), t, cb)
    {
      var current := if t in listeners then listeners[t] else [];
      if cb !in current {
        current := current + [cb];
      }
      listeners := listeners[t := current];
    }

    method Unsubscribe(t: string, cb: Callback)
      modifies this
      ensures State() == Unsubscribed(old(State()), t, cb)
    {
      if t in listeners {
        var rest := Without(listeners[t], cb);
        if |rest| == 0 {
          listeners := listeners - {t};
        } else {
          listeners := listeners[t := rest];
        }
      }
    }

    method Disconnect()
      modifies this
      ensures State() == Disconnected(old(State()))
    {
      hasSource := false;
      polling := false;
      isConnected := false;
      listeners := map[];
    }

    /** `startPolling`; returns the 'connection' listeners it notifies. */
    method StartPolling() returns (called: seq<Callback>)
      modifies this
      ensures State() == PollingStarted(old(State()))
      ensures called == Listeners(old(State()), "connection")
    {
      isConnected := true;
      called := NotifyListeners("connection");
      polling := true;
    }

    method Connect(supported: bool)
      modifies this
      ensures State() == Connected(old(State()), supported)
    {
      if hasSource {
        Disconnect();
      }
      if supported {
        usePolling := false;
        hasSource := true;
      } else {
        usePolling := true;
        var _ := StartPolling();
      }
    }

    /** The source's `onopen`; returns the 'connection' listeners notified. */
    method Open() returns (called: seq<Callback>)
      modifies this
      ensures State() == Opened(old(State()))
      ensures called == Listeners(old(State()), "connection")
    {
      isConnected := true;
      reconnectAttempts := 0;
      called := NotifyListeners("connection");
    }

    method HandleReconnect() returns (delay: Option<nat>)
      modifies this
      ensures (State(), delay) == Reconnected(old(State()))
    {
      if reconnectAttempts < MaxReconnectAttempts {
        reconnectAttempts := reconnectAttempts + 1;
        delay := Some(ReconnectDelay * Pow2(reconnectAttempts - 1));
      } else {
        usePolling := true;
        var _ := StartPolling();
        delay := None;
      }
    }

    /** The source's `onerror`; returns the delay of the retry it schedules, if any. */
    method Error() returns (delay: Option<nat>)
      modifies this
      ensures (State(), delay) == Errored(old(State()))
    {
      isConnected := false;
      var _ := NotifyListeners("connection");
      delay := HandleReconnect();
    }

    method ReconnectTimerFired(supported: bool)
      modifies this
      ensures State() == Retried(old(State()), supported)
    {
      if usePolling {
        var _ := StartPolling();
      } else {
        Connect(supported);
      }
    }

    /** `handleMessage`: forward to the routed type's listeners; returns the calls made. */
    method HandleMessage(messageType: string) returns (called: seq<Callback>)
      ensures called == match Route(messageType) case None => [] case Some(t) => Listeners(State(), t)
    {
      var route := Route(messageType);
      if route.Some? {
        called := NotifyListeners(route.value);
      } else {
        called := [];
      }
    }
  }
}

=== FILE: sheet.dfy ===
/** The cells of a spreadsheet as the reader hands them over (raw values, one array per row,
    empty cells as ""), with the JavaScript truthiness and `String(...)` rendering the
    components apply to them. */
module Sheet {
  import opened Common

  /** A raw cell. `Blank` is what indexing past the end of a row gives (undefined); an empty
      cell inside a row is `Text("")`. Numbers are whole (a date cell holds a day count). */
  datatype Cell = Blank | Number(n: int) | Text(s: string) | Flag(b: bool)

  type Row = seq<Cell>

  /** JavaScript truthiness of a cell. */
  predicate TruthyCell(c: Cell) {
    match c
    case Blank => false
    case Number(n) => n != 0
    case Text(s) => s != ""
    case Flag(b) => b
  }

  /** `String(c)` (and `c.toString()` on a defined cell). */
  function CellString(c: Cell): (s: string)
    ensures c.Text? ==> s == c.s
    ensures c.Number? ==> s == IntToString(c.n)
  {
    match c
    case Blank => "undefined"
    case Number(n) => IntToString(n)
    case Text(s) => s
    case Flag(b) => if b then "true" else "false"
  }

  /** `row[i]`: past the end of the row it is undefined. */
  function CellAt(row: Row, i: nat): (c: Cell)
    ensures i < |row| ==> c == row[i]
    ensures i >= |row| ==> c == Blank
  {
    if i < |row| then row[i] else Blank
  }

  /** The trimmed text of a cell that passes `c && c.toString().trim() !== ''`, or None. */
  function NonBlankText(c: Cell): (t: Option<string>)
    ensures t.Some? <==> TruthyCell(c) && Trim(CellString(c)) != ""
    ensures t.Some? ==> t.value == Trim(CellString(c))
  {
    if TruthyCell(c) && Trim(CellString(c)) != "" then Some(Trim(CellString(c))) else None
  }

  /** The text of a non-blank cell is never empty and has no whitespace at either end. */
  lemma NonBlankTextClean(c: Cell)
    requires NonBlankText(c).Some?
    ensures var t := NonBlankText(c).value; t != [] && !IsSpace(t[0]) && !IsSpace(t[|t| - 1])
  {
    TrimEnds(CellString(c));
  }
}

=== FILE: shifts_info.dfy ===
/** The shift overview: the row of the chosen day is looked up in the shift sheet by its
    first column, and the names in that row are grouped by department, a department being
    the first word of its column's header. */
module ShiftsInfo {
  import opened Common
  import opened Sheet

  // ---------------------------------------------------------------------------------------
  // Finding the day's row

  /** A 'D.M.YYYY' text (padded or not, with blanks around the numbers allowed) naming the
      target day: it splits on '.' into exactly three parts read by parseInt. */
  predicate DateTextMatches(text: string, target: Date) {
    var t := Trim(text);
    t != "" &&
    PartsNameDay(Split(t, '.'), target)
  }

  /** Exactly three parts, read by parseInt as the target's day, month and year. */
  predicate PartsNameDay(parts: seq<string>, target: Date) {
    |parts| == 3 && ParseInt(parts[0]) == Some(target.day) && ParseInt(parts[1]) == Some(target.month)
      && ParseInt(parts[2]) == Some(target.year)
  }

  /** Whether a column-A cell names the target day: a serial day number `serialMatch`
      accepts, or a text naming the day. */
  predicate DateCellMatches(c: Cell, target: Date, serialMatch: int -> bool) {
    match c
    case Number(n) => serialMatch(n)
    case Text(s) => DateTextMatches(s, target)
    case _ => false
  }

  /** Whether a row is the target day's: a non-empty row with a truthy column A naming it. */
  predicate RowMatches(row: Row, target: Date, serialMatch: int -> bool) {
    |row| > 0 && TruthyCell(row[0]) && DateCellMatches(row[0], target, serialMatch)
  }

  /** The search loop of loadShiftData: the index of the first row of the target day.
      `serialMatch` says whether a serial day number falls on the target day. */
  method FindDayRow(rows: seq<Row>, target: Date, serialMatch: int -> bool) returns (found: Option<nat>)
    ensures found.Some? ==> found.value < |rows| && RowMatches(rows[found.value], target, serialMatch)
    ensures found.Some? ==> forall k :: 0 <= k < found.value ==> !RowMatches(rows[k], target, serialMatch)
    ensures found.None? ==> forall k :: 0 <= k < |rows| ==> !RowMatches(rows[k], target, serialMatch)
  {
    for i := 0 to |rows|
      invariant forall k :: 0 <= k < i ==> !RowMatches(rows[k], target, serialMatch)
    {
      var isDateMatch := RowTest(rows[i], target, serialMatch);
      if isDateMatch {
        return Some(i);
      }
    }
    return None;
  }

  /** The body of the search loop for one row: empty rows and rows with a falsy column A are
      skipped, the others checked against column A. */
  method RowTest(row: Row, target: Date, serialMatch: int -> bool) returns (isDateMatch: bool)
    ensures isDateMatch == RowMatches(row, target, serialMatch)
  {
    if |row| == 0 {
      return false;
    }
    var dateCell := row[0];
    if !TruthyCell(dateCell) {
      return false;
    }
    isDateMatch := CellMatches(dateCell, target, serialMatch);
  }

  /** The test of one column-A cell inside the search loop. */
  method CellMatches(dateCell: Cell, target: Date, serialMatch: int -> bool) returns (isDateMatch: bool)
    ensures isDateMatch == DateCellMatches(dateCell, target, serialMatch)
  {
    isDateMatch := false;
    if dateCell.Number? {
      isDateMatch := serialMatch(dateCell.n);
    } else if dateCell.Text? && Trim(dateCell.s) != "" {
      var dateStr := Trim(dateCell.s);
      assert DateCellMatches(dateCell, target, serialMatch) == PartsNameDay(Split(dateStr, '.'), target);
      if '.' !in dateStr {
        SplitFree(dateStr, '.');
      } else {
        var parts := Split(dateStr, '.');
        if |parts| == 3 {
          var day := ParseInt(parts[0]);
          var month := ParseInt(parts[1]);
          var year := ParseInt(parts[2]);
          isDateMatch := day == Some(target.day) && month == Some(target.month) && year == Some(target.year);
          assert isDateMatch == PartsNameDay(parts, target);
        }
      }
    }
  }

  // ---------------------------------------------------------------------------------------
  // Grouping the row by department

  /** A department and the names on shift in it. */
  datatype Department = Department(name: string, names: seq<string>)

  /** The group key of a column: the first space-separated word of its non-blank header. */
  function HeaderKey(header: Cell): (k: Option<string>)
    ensures k.Some? <==> NonBlankText(header).Some?
  {
    match NonBlankText(header)
    case Some(t) => Some(Split(t, ' ')[0])
    case None => None
  }

  /** A group key is a single non-empty word. */
  lemma HeaderKeyWord(header: Cell)
    requires HeaderKey(header).Some?
    ensures HeaderKey(header).value != "" && ' ' !in HeaderKey(header).value
  {
    var t := NonBlankText(header).value;
    NonBlankTextClean(header);
    assert t[0] != ' ';
    assert Split(t, ' ')[0] == [t[0]] + Split(t[1..], ' ')[0];
    SplitPartsFree(t, ' ');
  }

  /** The position of the department with this name. */
  function IndexOfName(deps: seq<Department>, key: string): (r: Option<nat>)
    ensures r.Some? ==> r.value < |deps| && deps[r.value].name == key
    ensures r.None? ==> forall j :: 0 <= j < |deps| ==> deps[j].name != key
  {
    if deps == [] then None
    else if deps[|deps| - 1].name == key then Some(|deps| - 1)
    else IndexOfName(deps[..|deps| - 1], key)
  }

  /** What one column contributes: its group key (None for a blank header) and its trimmed
      value (None for a blank cell). */
  datatype Column = Column(key: Option<string>, value: Option<string>)

  /** A column, from its header and its cell in the matching row. */
  function ColumnOf(header: Cell, cell: Cell): (c: Column)
    ensures c.key.Some? <==> NonBlankText(header).Some?
    ensures c.value == NonBlankText(cell)
  {
    Column(HeaderKey(header), NonBlankText(cell))
  }

  /** Columns 1 .. |headers| - 1 of the header row and the matching row, each read by
      `read` (the header test of the loop, `ColumnOf`). */
  function Columns(headers: Row, row: Row, read: (Cell, Cell) -> Column): (cs: seq<Column>)
    ensures |cs| == if |headers| <= 1 then 0 else |headers| - 1
    ensures forall i :: 0 <= i < |cs| ==> cs[i] == read(headers[i + 1], CellAt(row, i + 1))
  {
    if |headers| <= 1 then []
    else
      seq(|headers| - 1, i requires 0 <= i < |headers| - 1 => read(headers[i + 1], CellAt(row, i + 1)))
  }

  /** One column's contribution: its department is created if new, and its value, if any,
      appended to the department's names. */
  function AddColumn(deps: seq<Department>, c: Column): seq<Department> {
    match c.key
    case None => deps
    case Some(k) =>
      match IndexOfName(deps, k)
      case Some(j) =>
        if c.value.Some? then deps[j := deps[j].(names := deps[j].names + [c.value.value])] else deps
      case None => deps + [Department(k, if c.value.Some? then [c.value.value] else [])]
  }

  /** The departments the columns give, in the order their keys first appear. */
  function Grouping(cs: seq<Column>): seq<Department> {
    if cs == [] then [] else AddColumn(Grouping(cs[..|cs| - 1]), cs[|cs| - 1])
  }

  /** The grouping loop of loadShiftData over the matching row. */
  method GroupDepartments(headers: Row, row: Row) returns (deps: seq<Department>)
    ensures deps == Grouping(Columns(headers, row, ColumnOf))
  {
    deps := GroupColumns(headers, row, ColumnOf);
  }

  /** The loop, with the header test given as `read`: the first pass of loadShiftData. */
  method GroupColumns(headers: Row, row: Row, read: (Cell, Cell) -> Column) returns (deps: seq<Department>)
    ensures deps == Grouping(Columns(headers, row, read))
  {
    deps := [];
    if |headers| <= 1 {
      return;
    }
    ghost var cs := Columns(headers, row, read);
    for i := 1 to |headers|
      invariant deps == Grouping(cs[..i - 1])
    {
      var column := read(headers[i], CellAt(row, i));
      assert cs[..i] == cs[..i - 1] + [column];
      deps := PushColumn(deps, column);
    }
    assert cs[..|headers| - 1] == cs;
  }

  /** The grouping step: creates the column's department if it is new, then appends the
      column's value to it. */
  method PushColumn(deps0: seq<Department>, column: Column) returns (deps: seq<Department>)
    ensures deps == AddColumn(deps0, column)
  {
    deps := deps0;
    if column.key.Some? {
      var key := column.key.value;
      var j := IndexOfName(deps, key);
      if j.None? {
        deps := deps + [Department(key, [])];
        j := Some(|deps| - 1);
      }
      if column.value.Some? {
        deps := deps[j.value := deps[j.value].(names := deps[j.value].names + [column.value.value])];
        assert [] + [column.value.value] == [column.value.value];
      }
    }
  }

  /** No two departments share a name. */
  predicate DistinctNames(deps: seq<Department>) {
    forall p, q :: 0 <= p < q < |deps| ==> deps[p].name != deps[q].name
  }

  /** The non-blank values of the columns whose key is `key`, in column order. */
  function CellsOf(cs: seq<Column>, key: string): seq<string> {
    if cs == [] then []
    else
      var c := cs[|cs| - 1];
      CellsOf(cs[..|cs| - 1], key) + (if c.key == Some(key) && c.value.Some? then [c.value.value] else [])
  }

  /** One department per key: the names are distinct. */
  lemma {:induction false} GroupingDistinct(cs: seq<Column>)
    ensures DistinctNames(Grouping(cs))
  {
    if cs != [] {
      GroupingDistinct(cs[..|cs| - 1]);
    }
  }

  /** The names the departments carry after one more column. */
  lemma AddColumnNames(deps: seq<Department>, c: Column, key: string)
    ensures (exists j :: 0 <= j < |AddColumn(deps, c)| && AddColumn(deps, c)[j].name == key)
        <==> (exists j :: 0 <= j < |deps| && deps[j].name == key) || c.key == Some(key)
  {
    var r := AddColumn(deps, c);
    if exists j :: 0 <= j < |deps| && deps[j].name == key {
      var j :| 0 <= j < |deps| && deps[j].name == key;
      assert r[j].name == key;
    }
    if c.key == Some(key) {
      match IndexOfName(deps, key)
      case Some(j) => assert r[j].name == key;
      case None => assert r[|deps|].name == key;
    }
    if exists j :: 0 <= j < |r| && r[j].name == key {
      var j :| 0 <= j < |r| && r[j].name == key;
      if j < |deps| {
        assert deps[j].name == r[j].name;
      }
    }
  }

  /** A department exists exactly for each key some column has. */
  lemma {:induction false} GroupingKeys(cs: seq<Column>, key: string)
    ensures (exists j :: 0 <= j < |Grouping(cs)| && Grouping(cs)[j].name == key)
        <==> (exists i :: 0 <= i < |cs| && cs[i].key == Some(key))
  {
    if cs != [] {
      var init := cs[..|cs| - 1];
      GroupingKeys(init, key);
      assert Grouping(cs) == AddColumn(Grouping(init), cs[|cs| - 1]);
      AddColumnNames(Grouping(init), cs[|cs| - 1], key);
      if exists i :: 0 <= i < |init| && init[i].key == Some(key) {
        var i :| 0 <= i < |init| && init[i].key == Some(key);
        assert cs[i].key == Some(key);
      }
      if exists i :: 0 <= i < |cs| && cs[i].key == Some(key) {
        var i :| 0 <= i < |cs| && cs[i].key == Some(key);
        if i < |init| {
          assert init[i].key == Some(key);
        }
      }
      if cs[|cs| - 1].key == Some(key) {
        assert exists i :: 0 <= i < |cs| && cs[i].key == Some(key);
      }
    }
  }

  /** Each department lists exactly the non-blank values of its columns, in column order. */
  lemma {:induction false} GroupingNames(cs: seq<Column>, j: nat)
    requires j < |Grouping(cs)|
    ensures Grouping(cs)[j].names == CellsOf(cs, Grouping(cs)[j].name)
  {
    var init := cs[..|cs| - 1];
    var deps := Grouping(init);
    var c := cs[|cs| - 1];
    var r := Grouping(cs);
    assert r == AddColumn(deps, c);
    var key := r[j].name;
    var extra := if c.key == Some(key) && c.value.Some? then [c.value.value] else [];
    assert CellsOf(cs, key) == CellsOf(init, key) + extra;
    GroupingDistinct(init);
    match c.key
    case None =>
      GroupingNames(init, j);
    case Some(k) =>
      match IndexOfName(deps, k)
      case Some(m) =>
        GroupingNames(init, j);
        if m != j {
          assert deps[j].name != k;
        }
      case None =>
        if j < |deps| {
          GroupingNames(init, j);
          assert deps[j].name != k;
        } else {
          GroupingDistinctAbsent(init, k);
        }
  }

  /** A key that has no department yet has collected no values. */
  lemma {:induction false} GroupingDistinctAbsent(cs: seq<Column>, key: string)
    requires forall j :: 0 <= j < |Grouping(cs)| ==> Grouping(cs)[j].name != key
    ensures CellsOf(cs, key) == []
  {
    if cs != [] {
      var init := cs[..|cs| - 1];
      var c := cs[|cs| - 1];
      assert Grouping(cs) == AddColumn(Grouping(init), c);
      AddColumnNames(Grouping(init), c, key);
      assert c.key != Some(key);
      GroupingDistinctAbsent(init, key);
    }
  }

  // ---------------------------------------------------------------------------------------
  // loadShiftData

  /** What the overview shows: the departments, and the error text if loading failed. */
  datatype ShiftView = ShiftView(departments: seq<Department>, error: Option<string>)

  /** The single department shown when no row is the target day's. */
  const NoData: seq<Department> := [Department("Žádná data", ["Žádná data pro vybraný den"])]

  /** The view shown when the sheet cannot be fetched or read. */
  const Failed: ShiftView :=
    ShiftView([Department("Chyba", ["Chyba při načítání dat"])], Some("Chyba při načítání dat o směnách"))

  /** The header row: row 0, or none in an empty sheet. */
  function Headers(rows: seq<Row>): (h: Row)
    ensures |rows| > 0 ==> h == rows[0]
    ensures |rows| == 0 ==> h == []
  {
    if |rows| > 0 then rows[0] else []
  }

  /** loadShiftData after the download: `sheet` is the sheet's rows, or None when fetching or
      reading it failed. */
  method LoadShifts(sheet: Option<seq<Row>>, target: Date, serialMatch: int -> bool) returns (v: ShiftView)
    ensures sheet.None? ==> v == Failed
    ensures sheet.Some? ==> v.error.None?
    ensures sheet.Some? && (forall k :: 0 <= k < |sheet.value| ==> !RowMatches(sheet.value[k], target, serialMatch))
      ==> v.departments == NoData
    ensures forall i ::
      (sheet.Some? && 0 <= i < |sheet.value| && RowMatches(sheet.value[i], target, serialMatch)
        && (forall k :: 0 <= k < i ==> !RowMatches(sheet.value[k], target, serialMatch)))
        ==> v.departments == Grouping(Columns(Headers(sheet.value), sheet.value[i], ColumnOf))
  {
    if sheet.None? {
      return Failed;
    }
    var rows := sheet.value;
    var headers := Headers(rows);
    var found := FindDayRow(rows, target, serialMatch);
    if found.None? {
      return ShiftView(NoData, None);
    }
    var deps := GroupDepartments(headers, rows[found.value]);
    return ShiftView(deps, None);
  }
}

=== FILE: sorting.dfy ===
/** Ordering of query results and client lists: an insertion sort by a comparator, proved
    to return a sorted permutation of its input. */
module Sorting {

  /** `le` is total and transitive, as an ORDER BY key or a sort comparator is. */
  ghost predicate TotalPreorder<T(!new)>(le: (T, T) -> bool) {
    (forall a, b :: le(a, b) || le(b, a)) &&
    (forall a, b, c :: le(a, b) && le(b, c) ==> le(a, c))
  }

  ghost predicate SortedBy<T>(s: seq<T>, le: (T, T) -> bool) {
    forall i, j :: 0 <= i < j < |s| ==> le(s[i], s[j])
  }

  /** Puts `x` in front of the first element it is not after. */
  function InsertBy<T(!new)>(x: T, s: seq<T>, le: (T, T) -> bool): (r: seq<T>)
    requires TotalPreorder(le) && SortedBy(s, le)
    ensures multiset(r) == multiset(s) + multiset{x}
    ensures SortedBy(r, le)
  {
    if s == [] then [x]
    else if le(x, s[0]) then [x] + s
    else
      var rest := InsertBy(x, s[1..], le);
      assert s == [s[0]] + s[1..];
      HeadBeforeRest(x, s, rest, le);
      [s[0]] + rest
  }

  /** The head of a sorted list, not after `x`, comes before everything of the tail with `x`. */
  lemma HeadBeforeRest<T(!new)>(x: T, s: seq<T>, rest: seq<T>, le: (T, T) -> bool)
    requires TotalPreorder(le) && SortedBy(s, le) && s != [] && !le(x, s[0])
    requires multiset(rest) == multiset(s[1..]) + multiset{x}
    ensures forall k :: 0 <= k < |rest| ==> le(s[0], rest[k])
  {
    forall k | 0 <= k < |rest| ensures le(s[0], rest[k]) {
      assert rest[k] in multiset(rest);
      if rest[k] != x {
        assert rest[k] in multiset(s[1..]);
        var j :| 0 <= j < |s[1..]| && s[1..][j] == rest[k];
        assert s[j + 1] == rest[k];
      }
    }
  }

  /** The elements of `s` ordered by `le`. */
  function SortBy<T(!new)>(s: seq<T>, le: (T, T) -> bool): (r: seq<T>)
    requires TotalPreorder(le)
    ensures multiset(r) == multiset(s)
    ensures SortedBy(r, le)
  {
    if s == [] then []
    else
      assert s == [s[0]] + s[1..];
      InsertBy(s[0], SortBy(s[1..], le), le)
  }

  lemma SortByMembers<T(!new)>(s: seq<T>, le: (T, T) -> bool)
    requires TotalPreorder(le)
    ensures |SortBy(s, le)| == |s|
    ensures forall x :: x in SortBy(s, le) <==> x in s
  {
    var r := SortBy(s, le);
    assert |r| == |multiset(r)| == |multiset(s)| == |s|;
    forall x ensures x in r <==> x in s {
      assert x in r <==> x in multiset(r);
      assert x in s <==> x in multiset(s);
    }
  }

  // ---------------------------------------------------------------------------------------
  // Distinct values (a JavaScript Set read back with Array.from)

  predicate NoDuplicates<T(==)>(s: seq<T>) {
    forall i, j :: 0 <= i < j < |s| ==> s[i] != s[j]
  }

  /** The distinct values of `s` in order of first appearance, as a Set keeps them. */
  function Unique<T(==,!new)>(s: seq<T>): (r: seq<T>)
    ensures NoDuplicates(r)
    ensures forall x :: x in r <==> x in s
  {
    if s == [] then []
    else
      var u := Unique(s[..|s| - 1]);
      assert forall x :: x in s <==> x in s[..|s| - 1] || x == s[|s| - 1];
      if s[|s| - 1] in u then u else u + [s[|s| - 1]]
  }

  /** Adding a value to a Set appends it unless it is already there. */
  lemma UniqueAppend<T(!new)>(s: seq<T>, x: T)
    ensures Unique(s + [x]) == if x in Unique(s) then Unique(s) else Unique(s) + [x]
  {
    assert (s + [x])[..|s|] == s;
  }

  /** Each value occurs at most once in a sequence without duplicates. */
  lemma {:induction false} NoDuplicatesCount<T>(s: seq<T>)
    requires NoDuplicates(s)
    ensures forall x :: multiset(s)[x] <= 1
  {
    if s != [] {
      var init := s[..|s| - 1];
      NoDuplicatesCount(init);
      assert s == init + [s[|s| - 1]];
      assert s[|s| - 1] !in init;
    }
  }

  /** A permutation of a sequence without duplicates has none either. */
  lemma NoDuplicatesPermutation<T>(s: seq<T>, r: seq<T>)
    requires NoDuplicates(s) && multiset(r) == multiset(s)
    ensures NoDuplicates(r)
  {
    NoDuplicatesCount(s);
    forall i, j | 0 <= i < j < |r| ensures r[i] != r[j] {
      var x := r[i];
      assert r == r[..j] + r[j..];
      assert multiset(r)[x] == multiset(r[..j])[x] + multiset(r[j..])[x];
      assert r[..j][i] == x;
      assert multiset(r[..j])[x] >= 1;
      assert multiset(r[j..])[x] == 0;
      assert r[j..][0] == r[j];
    }
  }

  /** `s.reverse()`. */
  function Reverse<T>(s: seq<T>): (r: seq<T>)
    ensures |r| == |s| && forall i :: 0 <= i < |s| ==> r[i] == s[|s| - 1 - i]
  {
    seq(|s|, i requires 0 <= i < |s| => s[|s| - 1 - i])
  }
}

=== FILE: store.dfy ===
/** The PostgreSQL tables the serverless functions read and write, as in-memory sequences of
    rows, and the way the database coerces a JSON request value bound to a query parameter.
    Column sets follow netlify/functions/init-db.js and the columns the handlers select. */
module Store {
  import opened Common
  import opened Crypto

  /** A row of `users`. */
  datatype UserRow = UserRow(id: int, username: string, email: string, passwordHash: Digest, role: string, createdAt: int)

  /** A row of `time_entries`; `userId` references `users(id)` with ON DELETE CASCADE. */
  datatype EntryRow = EntryRow(
    id: int, userId: int, date: Date, hours: real, hourlyRate: real, earnings: real,
    isHoliday: bool, isVacation: bool, createdAt: int, updatedAt: int)

  /** A row of `management_messages`; text and boolean columns may hold NULL. */
  datatype MessageRow = MessageRow(
    id: int, title: Option<string>, content: Option<string>, kind: Option<string>, date: Date,
    author: Option<string>, isRead: Option<bool>, createdAt: int, updatedAt: int)

  /** A row of `driver_documents`. */
  datatype DocumentRow = DocumentRow(id: int, docType: string, name: string, issueDate: Date, expiryDate: Date, updatedAt: int)

  /** The database: four tables and the next value of each SERIAL id sequence. */
  datatype Db = Db(
    users: seq<UserRow>, entries: seq<EntryRow>, messages: seq<MessageRow>, documents: seq<DocumentRow>,
    nextUserId: int, nextEntryId: int, nextMessageId: int)

  /** Length limits of the `users` columns (VARCHAR(50) and VARCHAR(100)). */
  const UsernameLimit: nat := 50
  const EmailLimit: nat := 100

  // ---------------------------------------------------------------------------------------
  // Integrity

  ghost predicate UsersValid(db: Db) {
    db.nextUserId > 0 &&
    (forall u, v :: u in db.users && v in db.users && (u.id == v.id || u.username == v.username || u.email == v.email) ==> u == v) &&
    (forall u :: u in db.users ==> 0 < u.id < db.nextUserId)
  }

  ghost predicate EntriesValid(db: Db) {
    db.nextEntryId > 0 &&
    (forall e, f :: e in db.entries && f in db.entries && e.id == f.id ==> e == f) &&
    (forall e :: e in db.entries ==> 0 < e.id < db.nextEntryId) &&
    (forall e :: e in db.entries ==> FindUser(db.users, e.userId).Some?)
  }

  ghost predicate MessagesValid(db: Db) {
    db.nextMessageId > 0 &&
    (forall m, n :: m in db.messages && n in db.messages && m.id == n.id ==> m == n) &&
    (forall m :: m in db.messages ==> 0 < m.id < db.nextMessageId)
  }

  /** Primary keys are unique and below their sequence, usernames and emails are unique,
      and every time entry belongs to a stored user. */
  ghost predicate Valid(db: Db) {
    UsersValid(db) && EntriesValid(db) && MessagesValid(db)
  }

  // ---------------------------------------------------------------------------------------
  // Reads

  /** `SELECT ... FROM users WHERE id = $1`. */
  function FindUser(users: seq<UserRow>, id: int): (r: Option<UserRow>)
    ensures r.Some? ==> r.value in users && r.value.id == id
    ensures r.None? ==> forall u :: u in users ==> u.id != id
  {
    if users == [] then None
    else if users[0].id == id then Some(users[0])
    else FindUser(users[1..], id)
  }

  /** `SELECT ... FROM users WHERE username = $1`. */
  function FindUsername(users: seq<UserRow>, name: string): (r: Option<UserRow>)
    ensures r.Some? ==> r.value in users && r.value.username == name
    ensures r.None? ==> forall u :: u in users ==> u.username != name
  {
    if users == [] then None
    else if users[0].username == name then Some(users[0])
    else FindUsername(users[1..], name)
  }

  /** With unique ids, the row found is the one row carrying that id. */
  lemma FindUserUnique(db: Db, u: UserRow)
    requires Valid(db) && u in db.users
    ensures FindUser(db.users, u.id) == Some(u)
  {
  }

  function FindMessage(messages: seq<MessageRow>, id: int): (r: Option<MessageRow>)
    ensures r.Some? ==> r.value in messages && r.value.id == id
    ensures r.None? ==> forall m :: m in messages ==> m.id != id
  {
    if messages == [] then None
    else if messages[0].id == id then Some(messages[0])
    else FindMessage(messages[1..], id)
  }

  /** `SELECT id FROM time_entries WHERE id = $1 AND user_id = $2`. */
  function FindOwnedEntry(entries: seq<EntryRow>, id: int, owner: int): (r: Option<EntryRow>)
    ensures r.Some? ==> r.value in entries && r.value.id == id && r.value.userId == owner
    ensures r.None? ==> forall e :: e in entries ==> !(e.id == id && e.userId == owner)
  {
    if entries == [] then None
    else if entries[0].id == id && entries[0].userId == owner then Some(entries[0])
    else FindOwnedEntry(entries[1..], id, owner)
  }

  // ---------------------------------------------------------------------------------------
  // Writes

  /** `DELETE FROM users WHERE id = $1`, with the cascade to the user's time entries. */
  function DeleteUser(db: Db, id: int): (r: Db)
    ensures r.messages == db.messages && r.documents == db.documents
    ensures r.nextUserId == db.nextUserId && r.nextEntryId == db.nextEntryId && r.nextMessageId == db.nextMessageId
    ensures forall u :: u in r.users <==> u in db.users && u.id != id
    ensures forall e :: e in r.entries <==> e in db.entries && e.userId != id
  {
    db.(users := Filter(db.users, (u: UserRow) => u.id != id),
        entries := Filter(db.entries, (e: EntryRow) => e.userId != id))
  }

  /** Deleting a user keeps the database consistent: the cascade takes their entries along. */
  lemma DeleteUserValid(db: Db, id: int)
    requires Valid(db)
    ensures Valid(DeleteUser(db, id))
  {
    var r := DeleteUser(db, id);
    forall e | e in r.entries ensures FindUser(r.users, e.userId).Some? {
      var u := FindUser(db.users, e.userId).value;
      assert u in r.users;
    }
  }

  /** Appends a row to `users` with the next SERIAL id. */
  function InsertUser(db: Db, username: string, email: string, hash: Digest, role: string, now: int): (r: Db)
  {
    db.(users := db.users + [UserRow(db.nextUserId, username, email, hash, role, now)],
        nextUserId := db.nextUserId + 1)
  }

  /** Inserting a user whose username and email are not taken keeps the database consistent. */
  lemma InsertUserValid(db: Db, username: string, email: string, hash: Digest, role: string, now: int)
    requires Valid(db)
    requires forall u :: u in db.users ==> u.username != username && u.email != email
    ensures Valid(InsertUser(db, username, email, hash, role, now))
  {
    var r := InsertUser(db, username, email, hash, role, now);
    forall e | e in r.entries ensures FindUser(r.users, e.userId).Some? {
      var u := FindUser(db.users, e.userId).value;
      assert u in r.users;
    }
  }

  // ---------------------------------------------------------------------------------------
  // Query parameters

  /** How the database reads a request value bound to an integer column: a query error,
      SQL NULL (which `id = NULL` never matches), or an integer. */
  datatype IdParam = BadParam | NullParam | IdValue(id: int)

  /** The whitespace PostgreSQL's input functions skip (the C `isspace` set). */
  predicate IsPgSpace(c: char) {
    c == ' ' || c == '\t' || c == '\n' || c == '\r' || c == '\U{000B}' || c == '\U{000C}'
  }

  /** The text an input function reads once the leading whitespace is skipped; all it skips
      is whitespace. */
  function PgTrimStart(s: string): (r: string)
    ensures |r| <= |s| && r == s[|s| - |r|..]
    ensures r == [] || !IsPgSpace(r[0])
    ensures forall i :: 0 <= i < |s| - |r| ==> IsPgSpace(s[i])
  {
    if s != [] && IsPgSpace(s[0]) then PgTrimStart(s[1..]) else s
  }

  /** The same at the end. */
  function PgTrimEnd(s: string): (r: string)
    ensures |r| <= |s| && r == s[..|r|]
    ensures r == [] || !IsPgSpace(r[|r| - 1])
    ensures forall i :: |r| <= i < |s| ==> IsPgSpace(s[i])
  {
    if s != [] && IsPgSpace(s[|s| - 1]) then PgTrimEnd(s[..|s| - 1]) else s
  }

  /** The text an input function reads once the surrounding whitespace is skipped. */
  function PgTrim(s: string): string {
    PgTrimEnd(PgTrimStart(s))
  }

  /** Text with no whitespace at either end is read as it stands. */
  lemma PgTrimClean(s: string)
    requires s == [] || (!IsPgSpace(s[0]) && !IsPgSpace(s[|s| - 1]))
    ensures PgTrim(s) == s
  {
  }

  /** The range of `integer` (int4), the type of every id column and SERIAL sequence. */
  const Int4Min: int := -0x8000_0000
  const Int4Max: int := 0x7fff_ffff

  predicate IsInt4(n: int) { Int4Min <= n <= Int4Max }

  /** The sign and the rest of trimmed input text: whether it is negative, and what follows
      an optional '-' or '+'. */
  function Unsigned(t: string): (bool, string) {
    if t != [] && (t[0] == '-' || t[0] == '+') then (t[0] == '-', t[1..]) else (false, t)
  }

  /** The int4 input syntax: optional surrounding whitespace, an optional sign, decimal
      digits, and a value in range ('out of range for type integer' otherwise). */
  function PgInt(s: string): (r: Option<int>)
    ensures r.Some? ==> IsInt4(r.value)
  {
    var (neg, u) := Unsigned(PgTrim(s));
    match ParseNat(u)
    case Some(n) => var v: int := if neg then -(n as int) else n as int; if IsInt4(v) then Some(v) else None
    case None => None
  }

  /** A string of digits whose value is in range reads as that value. */
  lemma PgIntDigits(s: string)
    requires s != [] && AllDigits(s) && DigitsValue(s) <= Int4Max
    ensures PgInt(s) == Some(DigitsValue(s))
  {
    assert IsDigit(s[0]) && IsDigit(s[|s| - 1]);
    PgTrimClean(s);
    assert Unsigned(s) == (false, s);
  }

  /** Every int4 value, rendered in decimal as `String(n)` does, reads back as itself; and
      text for a value outside int4 is refused. */
  lemma PgIntRoundTrip(n: int)
    ensures PgInt(IntToString(n)) == if IsInt4(n) then Some(n) else None
  {
    var m: nat := if n < 0 then -n else n;
    NatToStringRoundTrip(m);
    IntTextClean(n);
    IntTextSign(n);
  }

  /** The decimal text of a number has no whitespace to trim. */
  lemma IntTextClean(n: int)
    ensures PgTrim(IntToString(n)) == IntToString(n)
  {
    var s := IntToString(n);
    var d := NatToString(if n < 0 then -n else n);
    assert s[|s| - 1] == d[|d| - 1] && IsDigit(d[|d| - 1]);
    assert s[0] == '-' || s[0] == d[0];
    PgTrimClean(s);
  }

  /** Its sign is a leading '-' on a negative number, and its digits are the magnitude's. */
  lemma IntTextSign(n: int)
    ensures Unsigned(IntToString(n)) == (n < 0, NatToString(if n < 0 then -n else n))
  {
    var d := NatToString(if n < 0 then -n else n);
    assert d[0] != '-' && d[0] != '+' by {
      assert IsDigit(d[0]);
    }
  }

  function IdOf(v: Json): IdParam {
    match v
    case Undefined => NullParam
    case Null => NullParam
    case Num(n) => if IsInt4(n) then IdValue(n) else BadParam
    case Frac(_) => BadParam
    case Str(s) => (match PgInt(s) case Some(n) => IdValue(n) case None => BadParam)
    case Bool(_) => BadParam
  }

  /** An id the listings stringify with `toString()` is read back as the same id. */
  lemma IdOfStringified(id: nat)
    requires IsInt4(id)
    ensures PgInt(NatToString(id)) == Some(id)
    ensures IdOf(Str(NatToString(id))) == IdValue(id)
  {
    PgIntRoundTrip(id);
    assert IntToString(id) == NatToString(id);
  }

  /** The numeric input syntax without exponent: optional surrounding whitespace, an
      optional sign, then digits with at most one decimal point and at least one digit. */
  function PgDecimal(s: string): (r: Option<real>)
    ensures AllDigits(s) && s != [] ==> r == Some(DigitsValue(s) as real)
  {
    var (neg, u) := Unsigned(PgTrim(s));
    match DecimalText(u)
    case Some(x) => Some(if neg then -x else x)
    case None => None
  }

  /** `10^n`. */
  function Pow10(n: nat): (p: nat)
    ensures p >= 1
  {
    if n == 0 then 1 else 10 * Pow10(n - 1)
  }

  /** Unsigned decimal text: whole digits, then optionally '.' and fraction digits. */
  function DecimalText(u: string): Option<real> {
    match IndexOf(u, '.')
    case None => if u != [] && AllDigits(u) then Some(DigitsValue(u) as real) else None
    case Some(i) => DecimalParts(u[..i], u[i + 1..])
  }

  /** The digits either side of the point, at least one of them: the whole part plus the
      fraction. */
  function DecimalParts(w: string, f: string): (r: Option<real>)
    ensures r.Some? ==> r.value >= 0.0
  {
    if (w != [] || f != []) && AllDigits(w) && AllDigits(f) then
      Some(DigitsValue(w) as real + DigitsValue(f) as real / Pow10(|f|) as real)
    else None
  }

  /** The text of a DECIMAL(p,2) value, whole part, '.', two fraction digits, reads back as
      that value: `cents` hundredths. */
  lemma PgDecimalCents(cents: nat)
    ensures PgDecimal(NatToString(cents / 100) + "." + Pad2(cents % 100)) == Some(cents as real / 100.0)
  {
    var w := NatToString(cents / 100);
    var f := Pad2(cents % 100);
    var s := w + "." + f;
    assert s[0] == w[0] && s[|s| - 1] == f[|f| - 1];
    PgDecimalUnsigned(s);
    DecimalTextParts(w, f);
    CentsParts(cents);
  }

  /** Text that starts and ends with a digit is read without trimming or sign. */
  lemma PgDecimalUnsigned(s: string)
    requires s != [] && IsDigit(s[0]) && IsDigit(s[|s| - 1])
    ensures PgDecimal(s) == DecimalText(s)
  {
    PgTrimClean(s);
    assert Unsigned(s) == (false, s);
  }

  /** The parts of the rendering of `cents` hundredths add up to it. */
  lemma CentsParts(cents: nat)
    ensures DecimalParts(NatToString(cents / 100), Pad2(cents % 100)) == Some(cents as real / 100.0)
  {
    NatToStringValue(cents / 100);
    Pad2Value(cents % 100);
    CentsSplit(cents);
  }

  /** Whole digits, '.', fraction digits: the whole part plus the fraction. */
  lemma DecimalTextParts(w: string, f: string)
    requires AllDigits(w)
    ensures DecimalText(w + "." + f) == DecimalParts(w, f)
  {
    var s := w + "." + f;
    DotAfterDigits(w, f);
    assert s[..|w|] == w;
    assert s[|w| + 1..] == f;
  }

  lemma CentsSplit(cents: nat)
    ensures (cents / 100) as real + (cents % 100) as real / Pow10(2) as real == cents as real / 100.0
  {
    assert Pow10(2) == 100;
    assert cents == 100 * (cents / 100) + cents % 100;
  }

  /** The first '.' after a run of digits is the one right after it. */
  lemma {:induction false} DotAfterDigits(w: string, f: string)
    requires AllDigits(w)
    ensures IndexOf(w + "." + f, '.') == Some(|w|)
    decreases |w|
  {
    if w != [] {
      assert (w + "." + f)[1..] == w[1..] + "." + f;
      DotAfterDigits(w[1..], f);
    }
  }

  lemma Pad2Value(n: nat)
    requires n < 100
    ensures DigitsValue(Pad2(n)) == n && |Pad2(n)| == 2
  {
    Pad2RoundTrip(n);
    if n < 10 {
      assert Pad2(n) == ['0', DigitChar(n)];
    } else {
      assert NatToString(n) == NatToString(n / 10) + [DigitChar(n % 10)];
    }
  }

  /** How a request value bound to a text column is stored: None is SQL NULL. A fractional
      number's decimal rendering is not modelled; it reads as NULL here. */
  function TextOf(v: Json): (r: Option<string>)
    ensures v.Str? ==> r == Some(v.s)
    ensures r.None? <==> v.Undefined? || v.Null? || v.Frac?
  {
    match v
    case Undefined => None
    case Null => None
    case Str(s) => Some(s)
    case Num(n) => Some(IntToString(n))
    case Frac(_) => None
    case Bool(b) => Some(if b then "true" else "false")
  }

  /** ASCII letters folded to lower case, as PostgreSQL compares the boolean words. */
  function LowerAscii(s: string): (r: string)
    ensures |r| == |s|
  {
    seq(|s|, i requires 0 <= i < |s| => if 'A' <= s[i] <= 'Z' then (s[i] as int + 32) as char else s[i])
  }

  /** A non-empty prefix of `word`. */
  predicate IsWordPrefix(t: string, word: string) {
    0 < |t| <= |word| && t == word[..|t|]
  }

  /** The boolean input syntax: surrounding whitespace skipped, then, ignoring ASCII case, a
      non-empty prefix of 'true', 'yes', 'false' or 'no', one of 'on', 'of' and 'off' (a lone
      'o' is ambiguous), or a single '1' or '0'. */
  function BoolText(s: string): Option<bool> {
    var t := LowerAscii(PgTrim(s));
    if IsWordPrefix(t, "true") || IsWordPrefix(t, "yes") || t == "on" || t == "1" then Some(true)
    else if IsWordPrefix(t, "false") || IsWordPrefix(t, "no") || t == "of" || t == "off" || t == "0" then Some(false)
    else None
  }

  /** How a request value bound to a boolean column is read: a query error (None), SQL NULL
      (Some(None)) or a truth value. The driver sends a JSON boolean as 'true' or 'false', a
      number and a string as their text; a fractional number's text is never a boolean. */
  function BoolOf(v: Json): (r: Option<Option<bool>>)
    ensures r == Some(None) <==> v.Undefined? || v.Null?
    ensures v.Bool? ==> r == Some(Some(v.b))
    ensures v.Num? ==> (r.Some? <==> v.n == 0 || v.n == 1)
  {
    match v
    case Undefined => Some(None)
    case Null => Some(None)
    case Bool(b) => Some(Some(b))
    case Num(n) => NumberFlag(n)
    case Frac(_) => None
    case Str(s) => (match BoolText(s) case Some(b) => Some(Some(b)) case None => None)
  }

  /** A whole number's decimal text read as a boolean: only 1 and 0 are accepted. */
  function NumberFlag(n: int): (r: Option<Option<bool>>)
    ensures r.Some? <==> n == 0 || n == 1
    ensures r.Some? ==> r == Some(Some(n == 1))
  {
    NumberText(n);
    match BoolText(IntToString(n)) case Some(b) => Some(Some(b)) case None => None
  }

  /** The decimal text of a number reads as true for 1, false for 0, and is refused otherwise. */
  lemma NumberText(n: int)
    ensures BoolText(IntToString(n)) == if n == 1 then Some(true) else if n == 0 then Some(false) else None
  {
    var s := IntToString(n);
    IntTextRead(n);
    NotWord(s);
    if s == "1" {
      NatToStringInjective(n, 1);
    } else if s == "0" {
      NatToStringInjective(n, 0);
    }
  }

  /** The decimal text of a number starts with a digit or '-', ends with a digit, and is read
      by the boolean input as it stands. */
  lemma IntTextRead(n: int)
    ensures var s := IntToString(n);
      s != [] && (IsDigit(s[0]) || s[0] == '-') && LowerAscii(PgTrim(s)) == s &&
      (s == "1" || s == "0" ==> n >= 0)
  {
    var s := IntToString(n);
    var d := NatToString(if n < 0 then -n else n);
    assert s[|s| - 1] == d[|d| - 1];
    PgTrimClean(s);
    assert forall i :: 0 <= i < |s| ==> !('A' <= s[i] <= 'Z') by {
      assert forall i :: 0 <= i < |d| ==> IsDigit(d[i]);
      assert n < 0 ==> forall i :: 1 <= i < |s| ==> s[i] == d[i - 1];
    }
    assert LowerAscii(s) == s;
  }

  /** Text starting with a digit or '-' is none of the boolean words. */
  lemma NotWord(t: string)
    requires t != [] && (IsDigit(t[0]) || t[0] == '-')
    ensures !IsWordPrefix(t, "true") && !IsWordPrefix(t, "yes") && t != "on"
    ensures !IsWordPrefix(t, "false") && !IsWordPrefix(t, "no") && t != "of" && t != "off"
  {
    assert t[0] != 't' && t[0] != 'y' && t[0] != 'f' && t[0] != 'n' && t[0] != 'o';
  }

  /** A request value bound to a NOT NULL DATE column: a 'YYYY-MM-DD' string naming a
      calendar date; None where the statement fails. */
  function DateOf(v: Json): (r: Option<Date>)
    ensures r.Some? ==> ValidDate(r.value)
    ensures !v.Str? ==> r.None?
  {
    match v
    case Str(s) =>
      (match ParseDateString(s) case Some(d) => if ValidDate(d) then Some(d) else None case None => None)
    case _ => None
  }
}

=== FILE: time_entries.dfy ===
/** netlify/functions/time-entries.js: a signed-in user's own working-time records. The
    token alone identifies the caller (no user lookup); every read and write is restricted to
    rows whose `user_id` is the token's user id. */
module EntriesHandler {
  import opened Common
  import opened Crypto
  import opened Store
  import opened Gate
  import opened Sorting

  /** A call: method, headers, the parsed JSON body, and the `id` query-string parameter.
      None stands for a body that `JSON.parse` rejects or reads as null; a body that parses to a number, string, boolean or array has none of the fields read from it, and
      stands as `Some(map[])`. */
  datatype Request = Request(verb: string, headers: Headers, body: Option<map<string, Json>>, queryId: Option<string>)

  /** An entry as GET shows it: id stringified, numbers read back from their decimal text. */
  datatype EntryView = EntryView(
    id: string, date: Date, hours: real, hourlyRate: real, earnings: real, isHoliday: bool, isVacation: bool)

  datatype Body =
    | Empty
    | Problem(error: string, message: string)
    | Failure(error: string)
    | Entries(entries: seq<EntryView>)
    | Created(message: string, id: string)
    | Note(message: string)

  datatype Outcome = Outcome(reply: Reply<Body>, db: Db)

  const Unauthorized: Reply<Body> := Reply(401, Problem("Unauthorized", "Invalid or missing token"))
  const ServerError: Reply<Body> := Reply(500, Failure("Internal server error"))
  const NotFound: Reply<Body> := Reply(404, Failure("Time entry not found or access denied"))

  // ---------------------------------------------------------------------------------------
  // Column coercion

  /** The value in hundredths, rounded half away from zero, as a DECIMAL(p,2) column stores
      it. */
  function Cents(x: real): (c: int)
    ensures x - 0.005 <= c as real / 100.0 <= x + 0.005
  {
    if x >= 0.0 then (x * 100.0 + 0.5).Floor else -((-x) * 100.0 + 0.5).Floor
  }

  /** Rounding to two decimals. */
  function Round2(x: real): real {
    Cents(x) as real / 100.0
  }

  /** Whether a DECIMAL column whose values stay below `limit` in magnitude holds `x` once
      rounded; otherwise the database raises a numeric field overflow. */
  predicate Fits(x: real, limit: real) {
    -limit < Round2(x) < limit
  }

  /** The bounds of `hours` DECIMAL(5,2), `hourly_rate` DECIMAL(8,2) and `earnings`
      DECIMAL(10,2). */
  const HoursLimit: real := 1000.0
  const RateLimit: real := 1000000.0
  const EarningsLimit: real := 100000000.0

  /** A request value bound to a NOT NULL DECIMAL column: its number, or None where the
      statement fails (NULL, a boolean, or text that is not a decimal number). */
  function DecimalOf(v: Json): (r: Option<real>)
    ensures v.Num? ==> r == Some(v.n as real)
    ensures v.Frac? ==> r == Some(v.x)
    ensures v.Str? ==> r == PgDecimal(v.s)
    ensures v.Undefined? || v.Null? || v.Bool? ==> r.None?
  {
    match v
    case Num(n) => Some(n as real)
    case Frac(x) => Some(x)
    case Str(s) => PgDecimal(s)
    case _ => None
  }

  /** `v || false` bound to a boolean column: falsy values give false; a truthy value is sent
      as its text and read by the boolean input, which refuses anything but a boolean word. */
  function FlagOf(v: Json): (r: Option<bool>)
    ensures !Truthy(v) ==> r == Some(false)
    ensures v.Bool? ==> r == Some(v.b)
    ensures v.Num? ==> (r.Some? <==> v.n == 0 || v.n == 1) && (r.Some? ==> r.value == (v.n == 1))
    ensures v.Str? && v.s != "" ==> r == BoolText(v.s)
  {
    if !Truthy(v) then Some(false)
    else match BoolOf(v) case Some(Some(b)) => Some(b) case _ => None
  }

  /** The columns a POST or PUT writes. */
  datatype Written = Written(date: Date, hours: real, hourlyRate: real, earnings: real, isHoliday: bool, isVacation: bool)

  /** `hours * hourlyRate`, exact. */
  function Earnings(hours: real, rate: real): real {
    hours * rate
  }

  /** The columns written from a body; None where the statement fails. The stored earnings
      are the product of the request's hours and rate, computed before the database rounds
      either, and rounded in turn. */
  function WrittenOf(b: map<string, Json>): (r: Option<Written>)
    ensures r.Some? ==>
      DateOf(Field(b, "date")).Some? && DecimalOf(Field(b, "hours")).Some? && DecimalOf(Field(b, "hourlyRate")).Some? &&
      r.value.date == DateOf(Field(b, "date")).value && ValidDate(r.value.date) &&
      r.value.earnings == Round2(Earnings(DecimalOf(Field(b, "hours")).value, DecimalOf(Field(b, "hourlyRate")).value)) &&
      -HoursLimit < r.value.hours < HoursLimit && -RateLimit < r.value.hourlyRate < RateLimit &&
      -EarningsLimit < r.value.earnings < EarningsLimit
    ensures r.Some? ==> FlagOf(Field(b, "isHoliday")) == Some(r.value.isHoliday)
    ensures r.Some? ==> FlagOf(Field(b, "isVacation")) == Some(r.value.isVacation)
  {
    var date := DateOf(Field(b, "date"));
    var hours := DecimalOf(Field(b, "hours"));
    var rate := DecimalOf(Field(b, "hourlyRate"));
    var holiday := FlagOf(Field(b, "isHoliday"));
    var vacation := FlagOf(Field(b, "isVacation"));
    if date.None? || hours.None? || rate.None? || holiday.None? || vacation.None? then None
    else
      var earnings := Earnings(hours.value, rate.value);
      if Fits(hours.value, HoursLimit) && Fits(rate.value, RateLimit) && Fits(earnings, EarningsLimit) then
        Some(Written(date.value, Round2(hours.value), Round2(rate.value), Round2(earnings), holiday.value, vacation.value))
      else None
  }

  // ---------------------------------------------------------------------------------------
  // GET

  /** `ORDER BY date DESC, created_at DESC`. */
  function NewestFirst(): (EntryRow, EntryRow) -> bool {
    (a: EntryRow, b: EntryRow) => DateLt(b.date, a.date) || (a.date == b.date && a.createdAt >= b.createdAt)
  }

  lemma NewestFirstOrders()
    ensures TotalPreorder(NewestFirst())
  {
  }

  function View(e: EntryRow): EntryView {
    EntryView(IntToString(e.id), e.date, e.hours, e.hourlyRate, e.earnings, e.isHoliday, e.isVacation)
  }

  function OwnedBy(uid: int): EntryRow -> bool {
    (e: EntryRow) => e.userId == uid
  }

  /** `WHERE user_id = $1 ORDER BY date DESC, created_at DESC`: the caller's rows, newest
      first, and nobody else's. */
  function OwnEntries(entries: seq<EntryRow>, uid: int): (r: seq<EntryRow>)
    ensures forall e :: e in r <==> e in entries && e.userId == uid
    ensures |r| == |Filter(entries, OwnedBy(uid))|
    ensures forall i, j :: 0 <= i < j < |r| ==>
      DateLt(r[j].date, r[i].date) || (r[i].date == r[j].date && r[i].createdAt >= r[j].createdAt)
  {
    var own := Filter(entries, OwnedBy(uid));
    NewestFirstOrders();
    SortByMembers(own, NewestFirst());
    var r := SortBy(own, NewestFirst());
    assert forall i, j :: 0 <= i < j < |r| ==> NewestFirst()(r[i], r[j]);
    r
  }

  /** GET: the caller's entries as views, with the dates never increasing. */
  function ListEntries(entries: seq<EntryRow>, uid: int): (r: seq<EntryView>)
    ensures forall x :: x in r <==> exists e :: e in entries && e.userId == uid && x == View(e)
    ensures forall i, j :: 0 <= i < j < |r| ==> !DateLt(r[i].date, r[j].date)
    ensures |r| == |OwnEntries(entries, uid)|
  {
    var own := OwnEntries(entries, uid);
    var r := seq(|own|, i requires 0 <= i < |own| => View(own[i]));
    ViewsOf(entries, uid, own, r);
    r
  }

  /** The views of the caller's rows are the views of exactly the caller's entries. */
  lemma ViewsOf(entries: seq<EntryRow>, uid: int, own: seq<EntryRow>, r: seq<EntryView>)
    requires forall e :: e in own <==> e in entries && e.userId == uid
    requires |r| == |own| && forall i :: 0 <= i < |own| ==> r[i] == View(own[i])
    ensures forall x :: x in r <==> exists e :: e in entries && e.userId == uid && x == View(e)
  {
    forall x | x in r ensures exists e :: e in entries && e.userId == uid && x == View(e) {
      var i :| 0 <= i < |r| && r[i] == x;
      assert own[i] in own;
    }
    forall e | e in entries && e.userId == uid ensures View(e) in r {
      var i :| 0 <= i < |own| && own[i] == e;
      assert r[i] == View(e);
    }
  }

  // ---------------------------------------------------------------------------------------
  // POST, PUT, DELETE

  /** POST: insert a row for the caller. A row the database refuses, or a caller whose user
      row is gone (the foreign key), is a 500. */
  function Create(db: Db, uid: int, body: Option<map<string, Json>>, now: int): (o: Outcome)
    ensures o.reply.status in {201, 500}
    ensures o.reply.status != 201 ==> o.db == db
  {
    match body
    case None => Outcome(ServerError, db)
    case Some(b) =>
      match WrittenOf(b)
      case None => Outcome(ServerError, db)
      case Some(w) =>
        if FindUser(db.users, uid).None? then Outcome(ServerError, db)
        else
          var row := EntryRow(db.nextEntryId, uid, w.date, w.hours, w.hourlyRate, w.earnings,
                              w.isHoliday, w.isVacation, now, now);
          Outcome(Reply(201, Created("Time entry created successfully", IntToString(row.id))),
                  db.(entries := db.entries + [row], nextEntryId := db.nextEntryId + 1))
  }

  /** `UPDATE time_entries SET ... WHERE id = $id AND user_id = $uid`. */
  function Overwrite(entries: seq<EntryRow>, id: int, uid: int, w: Written, now: int): (r: seq<EntryRow>)
    ensures |r| == |entries|
    ensures forall i :: 0 <= i < |r| ==>
      r[i] == if entries[i].id == id && entries[i].userId == uid then
                entries[i].(date := w.date, hours := w.hours, hourlyRate := w.hourlyRate, earnings := w.earnings,
                             isHoliday := w.isHoliday, isVacation := w.isVacation, updatedAt := now)
              else entries[i]
  {
    seq(|entries|, i requires 0 <= i < |entries| =>
      var e := entries[i];
      if e.id == id && e.userId == uid then
        e.(date := w.date, hours := w.hours, hourlyRate := w.hourlyRate, earnings := w.earnings,
           isHoliday := w.isHoliday, isVacation := w.isVacation, updatedAt := now)
      else e)
  }

  /** PUT: the entry must exist and be the caller's (404 otherwise); then all its columns are
      rewritten from the body. */
  function Update(db: Db, uid: int, body: Option<map<string, Json>>, now: int): (o: Outcome)
    ensures o.reply.status in {200, 404, 500}
    ensures o.reply.status != 200 ==> o.db == db
  {
    match body
    case None => Outcome(ServerError, db)
    case Some(b) =>
      match IdOf(Field(b, "id"))
      case BadParam => Outcome(ServerError, db)
      case NullParam => Outcome(NotFound, db)
      case IdValue(id) =>
        if FindOwnedEntry(db.entries, id, uid).None? then Outcome(NotFound, db)
        else match WrittenOf(b)
          case None => Outcome(ServerError, db)
          case Some(w) =>
            Outcome(Reply(200, Note("Time entry updated successfully")),
                    db.(entries := Overwrite(db.entries, id, uid, w, now)))
  }

  /** DELETE `?id=`: missing or empty is a 400, text the database cannot read as an integer a
      500, an entry that is not the caller's a 404. */
  function Remove(db: Db, uid: int, queryId: Option<string>): (o: Outcome)
    ensures o.reply.status in {200, 400, 404, 500}
    ensures o.reply.status != 200 ==> o.db == db
  {
    match queryId
    case None => Outcome(Reply(400, Failure("Missing id parameter")), db)
    case Some(s) =>
      if s == "" then Outcome(Reply(400, Failure("Missing id parameter")), db)
      else match PgInt(s)
        case None => Outcome(ServerError, db)
        case Some(id) =>
          if FindOwnedEntry(db.entries, id, uid).None? then Outcome(NotFound, db)
          else Outcome(Reply(200, Note("Time entry deleted successfully")),
                       db.(entries := Filter(db.entries, (e: EntryRow) => !(e.id == id && e.userId == uid))))
  }

  /** `exports.handler`. */
  function Handle(req: Request, db: Db, k: Signer, now: int): (o: Outcome)
    ensures o.reply.status in {200, 201, 400, 401, 404, 405, 500}
    ensures o.reply.status !in {200, 201} ==> o.db == db
  {
    if req.verb == "OPTIONS" then Outcome(Reply(200, Empty), db)
    else match Authenticate(req.headers, k, now)
      case None => Outcome(Unauthorized, db)
      case Some(c) =>
        if req.verb == "GET" then Outcome(Reply(200, Entries(ListEntries(db.entries, c.userId))), db)
        else if req.verb == "POST" then Create(db, c.userId, req.body, now)
        else if req.verb == "PUT" then Update(db, c.userId, req.body, now)
        else if req.verb == "DELETE" then Remove(db, c.userId, req.queryId)
        else Outcome(Reply(405, Failure("Method not allowed")), db)
  }

  // ---------------------------------------------------------------------------------------
  // Properties

  /** Without a usable token every method but OPTIONS is a 401. */
  lemma TokenRequired(req: Request, db: Db, k: Signer, now: int)
    requires req.verb != "OPTIONS" && Authenticate(req.headers, k, now).None?
    ensures Handle(req, db, k, now) == Outcome(Unauthorized, db)
  {
  }

  /** The gate checks the token only: a user deleted after signing in still passes it, and
      in a consistent database GET then lists nothing, the cascade having removed the rows. */
  lemma DeletedUserSeesNothing(req: Request, db: Db, k: Signer, now: int)
    requires Valid(db) && req.verb == "GET"
    requires Authenticate(req.headers, k, now).Some?
    requires FindUser(db.users, Authenticate(req.headers, k, now).value.userId).None?
    ensures Handle(req, db, k, now) == Outcome(Reply(200, Entries([])), db)
  {
    var uid := Authenticate(req.headers, k, now).value.userId;
    assert forall i :: 0 <= i < |db.entries| ==> !OwnedBy(uid)(db.entries[i]) by {
      forall i | 0 <= i < |db.entries| ensures !OwnedBy(uid)(db.entries[i]) {
        assert db.entries[i] in db.entries;
      }
    }
    FilterNone(db.entries, OwnedBy(uid));
  }

  /** POST stores the caller's row with earnings rounded from the product of the request's
      hours and rate, and flags that default to false. */
  lemma CreateStores(db: Db, uid: int, b: map<string, Json>, now: int)
    requires Create(db, uid, Some(b), now).reply.status == 201
    ensures var o := Create(db, uid, Some(b), now);
      var h := DecimalOf(Field(b, "hours")).value;
      var rate := DecimalOf(Field(b, "hourlyRate")).value;
      |o.db.entries| == |db.entries| + 1 && o.db.entries[..|db.entries|] == db.entries &&
      var e := o.db.entries[|db.entries|];
      e.id == db.nextEntryId && e.userId == uid && e.earnings == Round2(h * rate) &&
      o.reply.body == Created("Time entry created successfully", IntToString(db.nextEntryId)) &&
      ("isHoliday" !in b ==> !e.isHoliday) && ("isVacation" !in b ==> !e.isVacation)
  {
  }

  /** A body without hours, rate or date never creates a row. */
  lemma CreateNeedsColumns(db: Db, uid: int, b: map<string, Json>, now: int)
    requires "hours" !in b || "hourlyRate" !in b || "date" !in b
    ensures Create(db, uid, Some(b), now) == Outcome(ServerError, db)
  {
  }

  /** Isolation: a PUT naming another user's entry is a 404 and changes nothing. */
  lemma UpdateOthersRefused(db: Db, uid: int, b: map<string, Json>, now: int, e: EntryRow)
    requires Valid(db) && e in db.entries && e.userId != uid && IsInt4(e.id)
    requires Field(b, "id") == Num(e.id)
    ensures Update(db, uid, Some(b), now) == Outcome(NotFound, db)
  {
  }

  /** Isolation: a DELETE naming another user's entry is a 404 and changes nothing. */
  lemma RemoveOthersRefused(db: Db, uid: int, e: EntryRow)
    requires Valid(db) && e in db.entries && e.userId != uid && IsInt4(e.id)
    ensures Remove(db, uid, Some(NatToString(e.id))) == Outcome(NotFound, db)
  {
    IdOfStringified(e.id);
    NotOwned(db, uid, e);
  }

  /** With unique ids, no entry of the caller carries the id of another user's entry. */
  lemma NotOwned(db: Db, uid: int, e: EntryRow)
    requires Valid(db) && e in db.entries && e.userId != uid
    ensures FindOwnedEntry(db.entries, e.id, uid).None?
  {
    assert forall f :: f in db.entries && f.id == e.id ==> f == e;
  }

  /** A successful PUT rewrites exactly the named entry of the caller; every other row,
      in particular every other user's, is unchanged. */
  lemma UpdateTouchesOwnOnly(db: Db, uid: int, b: map<string, Json>, now: int)
    requires Valid(db) && Update(db, uid, Some(b), now).reply.status == 200
    ensures IdOf(Field(b, "id")).IdValue? && WrittenOf(b).Some?
    ensures var o := Update(db, uid, Some(b), now);
      var id := IdOf(Field(b, "id")).id;
      |o.db.entries| == |db.entries| &&
      (forall i :: 0 <= i < |db.entries| && db.entries[i].id != id ==> o.db.entries[i] == db.entries[i]) &&
      (forall i :: 0 <= i < |db.entries| && db.entries[i].userId != uid ==> o.db.entries[i] == db.entries[i]) &&
      exists i :: 0 <= i < |db.entries| && db.entries[i].id == id && db.entries[i].userId == uid &&
        o.db.entries[i].date == WrittenOf(b).value.date && o.db.entries[i].updatedAt == now
  {
    var id := IdOf(Field(b, "id")).id;
    var e := FindOwnedEntry(db.entries, id, uid).value;
    var i :| 0 <= i < |db.entries| && db.entries[i] == e;
  }

  /** A successful DELETE removes exactly the caller's entry with that id. */
  lemma RemoveExactlyOne(db: Db, uid: int, s: string)
    requires Remove(db, uid, Some(s)).reply.status == 200
    ensures PgInt(s).Some?
    ensures var o := Remove(db, uid, Some(s));
      FindOwnedEntry(db.entries, PgInt(s).value, uid).Some? &&
      forall e :: e in o.db.entries <==> e in db.entries && !(e.id == PgInt(s).value && e.userId == uid)
  {
  }

  /** Every call keeps the database consistent: ids unique and below their sequence, and
      every entry owned by a stored user. */
  lemma HandleKeepsValid(req: Request, db: Db, k: Signer, now: int)
    requires Valid(db)
    ensures Valid(Handle(req, db, k, now).db)
  {
    if req.verb != "OPTIONS" && Authenticate(req.headers, k, now).Some? {
      var uid := Authenticate(req.headers, k, now).value.userId;
      if req.verb == "POST" {
        CreateKeepsValid(db, uid, req.body, now);
      } else if req.verb == "PUT" {
        UpdateKeepsValid(db, uid, req.body, now);
      } else if req.verb == "DELETE" {
        RemoveKeepsValid(db, uid, req.queryId);
      }
    }
  }

  lemma CreateKeepsValid(db: Db, uid: int, body: Option<map<string, Json>>, now: int)
    requires Valid(db)
    ensures Valid(Create(db, uid, body, now).db)
  {
    var o := Create(db, uid, body, now);
    if o.db != db {
      var row := o.db.entries[|db.entries|];
      assert o.db == db.(entries := db.entries + [row], nextEntryId := db.nextEntryId + 1);
      AppendEntryValid(db, row);
    }
  }

  /** Appending a row that takes the next id and belongs to a stored user keeps the database
      consistent. */
  lemma AppendEntryValid(db: Db, row: EntryRow)
    requires Valid(db) && row.id == db.nextEntryId && FindUser(db.users, row.userId).Some?
    ensures Valid(db.(entries := db.entries + [row], nextEntryId := db.nextEntryId + 1))
  {
    var db' := db.(entries := db.entries + [row], nextEntryId := db.nextEntryId + 1);
    assert UsersValid(db') && MessagesValid(db');
    forall e | e in db'.entries ensures e == row || e in db.entries {
    }
  }

  /** Keeping only some of the entries keeps the database consistent. */
  lemma SubsetEntriesValid(db: Db, entries: seq<EntryRow>)
    requires Valid(db) && forall e :: e in entries ==> e in db.entries
    ensures Valid(db.(entries := entries))
  {
    var db' := db.(entries := entries);
    assert UsersValid(db') && MessagesValid(db');
  }

  lemma UpdateKeepsValid(db: Db, uid: int, body: Option<map<string, Json>>, now: int)
    requires Valid(db)
    ensures Valid(Update(db, uid, body, now).db)
  {
    var o := Update(db, uid, body, now);
    if o.db != db {
      SameKeysValid(db, o.db);
    }
  }

  /** Rewriting the non-key columns of entries keeps the database consistent. */
  lemma SameKeysValid(db: Db, db': Db)
    requires Valid(db)
    requires db'.users == db.users && db'.messages == db.messages
    requires db'.nextUserId == db.nextUserId && db'.nextEntryId == db.nextEntryId && db'.nextMessageId == db.nextMessageId
    requires |db'.entries| == |db.entries|
    requires forall i :: 0 <= i < |db.entries| ==> db'.entries[i].id == db.entries[i].id && db'.entries[i].userId == db.entries[i].userId
    requires forall i, j :: 0 <= i < |db.entries| && 0 <= j < |db.entries| && db.entries[i] == db.entries[j] ==> db'.entries[i] == db'.entries[j]
    ensures Valid(db')
  {
    forall e | e in db'.entries ensures 0 < e.id < db'.nextEntryId && FindUser(db'.users, e.userId).Some? {
      var i :| 0 <= i < |db'.entries| && db'.entries[i] == e;
      assert db.entries[i] in db.entries;
    }
    forall e, f | e in db'.entries && f in db'.entries && e.id == f.id ensures e == f {
      var i :| 0 <= i < |db'.entries| && db'.entries[i] == e;
      var j :| 0 <= j < |db'.entries| && db'.entries[j] == f;
      assert db.entries[i] in db.entries && db.entries[j] in db.entries;
    }
  }

  lemma RemoveKeepsValid(db: Db, uid: int, queryId: Option<string>)
    requires Valid(db)
    ensures Valid(Remove(db, uid, queryId).db)
  {
    var o := Remove(db, uid, queryId);
    if o.db != db {
      var id := PgInt(queryId.value).value;
      SubsetEntriesValid(db, Filter(db.entries, (e: EntryRow) => !(e.id == id && e.userId == uid)));
    }
  }
}

=== FILE: time_entry_form.dfy ===
/** The form that adds a time entry: the typed hours and rate are parsed, a holiday overrides
    the rate with the holiday rate, and a valid submission hands the application an entry and
    clears the hours and the holiday box. */
module TimeEntryForm {
  import opened Common
  import opened Entries
  import App

  /** The form's fields, as typed. */
  datatype Form = Form(date: string, hours: string, hourlyRate: string, isHoliday: bool)

  /** The rate of work on a public holiday. */
  const HolidayRate: real := 450.0

  /** A fresh form: today's date, no hours, the default rate's text and no holiday. The date
      and the rate's text are given, as the browser renders them. */
  function Initial(today: string, defaultRateText: string): (f: Form)
    ensures f.hours == "" && !f.isHoliday
    ensures f.date == today && f.hourlyRate == defaultRateText
  {
    Form(today, "", defaultRateText, false)
  }

  /** The text the rate field shows: the holiday rate while the holiday box is ticked. */
  function ShownRate(f: Form): (t: string)
    ensures f.isHoliday ==> t == "450"
    ensures !f.isHoliday ==> t == f.hourlyRate
  {
    if f.isHoliday then "450" else f.hourlyRate
  }

  /** The rate a submission uses; None is NaN. */
  function RateOf(f: Form): (r: Option<real>)
    ensures f.isHoliday ==> r == Some(HolidayRate)
    ensures !f.isHoliday ==> r == ParseFloat(f.hourlyRate)
  {
    if f.isHoliday then Some(HolidayRate) else ParseFloat(f.hourlyRate)
  }

  /** The outcome of a submission: the form afterwards, and the entry handed on, if any (None
      is the alert that asks for valid values). */
  datatype Submitted = Submitted(form: Form, entry: Option<EntryData>)

  /** handleSubmit. */
  function Submit(f: Form): (r: Submitted)
    ensures r.entry.Some? <==> Positive(ParseFloat(f.hours)) && Positive(RateOf(f))
    ensures r.entry.Some? ==>
      r.entry.value == EntryData(f.date, ParseFloat(f.hours).value, RateOf(f).value, f.isHoliday)
    ensures r.entry.Some? ==> r.form == Form(f.date, "", f.hourlyRate, false)
    ensures r.entry.None? ==> r.form == f
  {
    var hours := ParseFloat(f.hours);
    var rate := RateOf(f);
    if !Positive(hours) || !Positive(rate) then Submitted(f, None)
    else Submitted(f.(hours := "", isHoliday := false), Some(EntryData(f.date, hours.value, rate.value, f.isHoliday)))
  }

  /** parseFloat of an empty field is NaN. */
  lemma EmptyIsNaN()
    ensures ParseFloat("") == None
  {
    assert TrimStart("") == "";
    assert DigitPrefix("") == "";
  }

  /** With the holiday box ticked, what is typed in the rate field makes no difference: the
      entry carries the holiday rate. */
  lemma HolidayIgnoresTypedRate(f: Form, typed: string)
    requires f.isHoliday
    ensures Submit(f.(hourlyRate := typed)).entry == Submit(f).entry
    ensures Submit(f).entry.Some? ==> Submit(f).entry.value.hourlyRate == HolidayRate
  {
  }

  /** After a successful submission the hours are cleared, so submitting again at once is
      refused: one click adds one entry. */
  lemma {:induction false} NoDoubleSubmit(f: Form)
    requires Submit(f).entry.Some?
    ensures Submit(Submit(f).form).entry.None?
  {
    EmptyIsNaN();
  }

  /** Whole and decimal hours typed with a '.' are taken at their value. */
  lemma TypedHoursRead(f: Form, a: string, b: string)
    requires a != [] && AllDigits(a) && AllDigits(b) && f.hours == a + "." + b
    requires DecimalValue(a, b) > 0.0 && Positive(RateOf(f))
    ensures Submit(f).entry.Some? && Submit(f).entry.value.hours == DecimalValue(a, b)
  {
    ParseFloatDecimal(a, b);
  }

  /** The entry a holiday submission adds earns the holiday rate for every hour. */
  lemma HolidayEntryEarnings(s: App.AppState, f: Form, stamp: string)
    requires f.isHoliday && Positive(ParseFloat(f.hours)) && App.Local(s, false)
    ensures var e := App.AddEntry(s, Submit(f).entry.value, stamp, false).entries[0];
      e.earnings == Earnings(ParseFloat(f.hours).value, HolidayRate) && e.isHoliday == Some(true)
  {
  }
}

=== FILE: time_entry_list.dfy ===
/** The table of time entries: the list is sorted in place, newest date first, and each row
    shows the hours with a decimal comma, the rate (or the vacation label), the earnings
    (recomputed for a vacation entry stored with none) and its edit and delete buttons. An
    empty list shows a placeholder instead. */
module TimeEntryList {
  import opened Common
  import opened Entries
  import App
  import EditEntryDialog

  /** `new Date(date).getTime()` up to scale: a number that grows with the calendar date.
      An Invalid Date is given -1, below every real date. */
  function Moment(date: string): (t: int)
    ensures t >= -1
  {
    match ParseDateString(date)
    case Some(d) => if ValidDate(d) then d.year * 372 + (d.month - 1) * 31 + (d.day - 1) else -1
    case None => -1
  }

  /** The moments of two ISO dates compare as the dates do in the calendar. */
  lemma MomentOrder(d1: Date, d2: Date)
    requires ValidDate(d1) && ValidDate(d2)
    ensures Moment(DateString(d1)) < Moment(DateString(d2)) <==> DateLt(d1, d2)
    ensures Moment(DateString(d1)) == Moment(DateString(d2)) <==> d1 == d2
  {
    DateStringRoundTrip(d1);
    DateStringRoundTrip(d2);
  }

  /** Sorted by `key`, largest first. */
  predicate DescendingBy<T>(s: seq<T>, key: T -> int) {
    forall p, q :: 0 <= p < q < |s| ==> key(s[p]) >= key(s[q])
  }

  /** Rows in non-increasing date order. */
  predicate NewestFirst(s: seq<TimeEntry>) {
    forall p, q :: 0 <= p < q < |s| ==> Moment(s[p].date) >= Moment(s[q].date)
  }

  /** An insertion sort of `a` by `key`, largest first, in place. */
  method SortDescendingBy<T>(a: array<T>, key: T -> int)
    modifies a
    ensures DescendingBy(a[..], key)
    ensures multiset(a[..]) == multiset(old(a[..]))
  {
    for i := 0 to a.Length
      invariant DescendingBy(a[..i], key)
      invariant multiset(a[..]) == multiset(old(a[..]))
    {
      InsertDescending(a, i, key);
    }
  }

  /** Moves `a[i]` down past the smaller keys before it, so that `a[..i + 1]` is sorted. */
  method InsertDescending<T>(a: array<T>, i: nat, key: T -> int)
    requires i < a.Length && DescendingBy(a[..i], key)
    modifies a
    ensures DescendingBy(a[..i + 1], key)
    ensures multiset(a[..]) == multiset(old(a[..]))
  {
    var j := i;
    while j > 0 && key(a[j - 1]) < key(a[j])
      invariant 0 <= j <= i
      invariant multiset(a[..]) == multiset(old(a[..]))
      invariant forall p, q :: 0 <= p < q <= i && p != j && q != j ==> key(a[p]) >= key(a[q])
      invariant forall q :: j < q <= i ==> key(a[j]) > key(a[q])
    {
      Swap(a, j - 1, j);
      j := j - 1;
    }
  }

  /** Exchanges two cells of `a`. */
  method Swap<T>(a: array<T>, i: nat, j: nat)
    requires i < a.Length && j < a.Length
    modifies a
    ensures a[..] == old(a[..])[i := old(a[j])][j := old(a[i])]
    ensures multiset(a[..]) == multiset(old(a[..]))
  {
    a[i], a[j] := a[j], a[i];
  }

  /** `entries.sort((a, b) => new Date(b.date).getTime() - new Date(a.date).getTime())`,
      which reorders the caller's array itself. */
  method SortNewestFirst(a: array<TimeEntry>)
    modifies a
    ensures NewestFirst(a[..])
    ensures multiset(a[..]) == multiset(old(a[..]))
  {
    var key := (e: TimeEntry) => Moment(e.date);
    SortDescendingBy(a, key);
    assert forall p, q :: 0 <= p < q < a.Length ==> key(a[p]) >= key(a[q]);
  }

  // ---------------------------------------------------------------------------------------
  // Rows

  /** The earnings a row shows: a vacation entry stored with 0 earnings is shown at the
      vacation rate. */
  function DisplayEarnings(e: TimeEntry): (x: real)
    ensures e.isVacation == Some(true) && e.earnings == 0.0 ==> x == Earnings(e.hours, VacationRate)
    ensures !(e.isVacation == Some(true) && e.earnings == 0.0) ==> x == e.earnings
  {
    if e.isVacation == Some(true) && e.earnings == 0.0 then Earnings(e.hours, VacationRate) else e.earnings
  }

  /** A vacation entry as addVacationHours stores it shows its stored earnings. */
  lemma VacationShownAsStored(monthKey: string, hours: real, stamp: string)
    ensures var e := App.VacationEntry(monthKey, hours, stamp); DisplayEarnings(e) == e.earnings
  {
  }

  /** `hours.toString().replace('.', ',')`, given the number's text: only the first '.'
      becomes ','. */
  function FormatHours(text: string): (r: string)
    ensures IndexOf(text, '.').None? ==> r == text
    ensures IndexOf(text, '.').Some? ==>
      var i := IndexOf(text, '.').value; r == text[..i] + [','] + text[i + 1..]
  {
    ReplaceFirstSpec(text, '.', ',');
    ReplaceFirst(text, '.', ',')
  }

  /** The hours as the list shows them, typed into the edit dialog, read back as the number's
      own text: the dialog turns the comma back into a point. */
  lemma ShownHoursReadBack(text: string)
    requires ',' !in text
    ensures EditEntryDialog.NormalizeHours(FormatHours(text)) == text
  {
    var r := FormatHours(text);
    match IndexOf(text, '.')
    case None =>
    case Some(i) =>
      assert r[i] == ',';
      assert r[..i] == text[..i];
      assert r[i] in r[..i + 1];
      assert r[..i] + ['.'] + r[i + 1..] == text;
  }

  /** The rate column: the vacation label, or the hourly rate. */
  datatype RateCell = VacationLabel | PerHour(rate: real)

  /** One table row; the delete button is on every row, the edit button only on rows that
      are not vacation. */
  datatype Row = Row(id: string, date: string, hoursText: string, rate: RateCell, earnings: real,
                     canEdit: bool, canDelete: bool)

  /** The row of an entry, given the text of its hours. */
  function RowOf(e: TimeEntry, hoursText: string): (r: Row)
    ensures r.id == e.id && r.date == e.date && r.earnings == DisplayEarnings(e)
    ensures r.hoursText == FormatHours(hoursText)
    ensures r.rate == VacationLabel <==> e.isVacation == Some(true)
    ensures r.rate.PerHour? ==> r.rate.rate == e.hourlyRate
    ensures r.canEdit <==> e.isVacation != Some(true)
    ensures r.canDelete
  {
    var vacation := e.isVacation == Some(true);
    Row(e.id, e.date, FormatHours(hoursText), if vacation then VacationLabel else PerHour(e.hourlyRate),
        DisplayEarnings(e), !vacation, true)
  }

  /** `title || 'Záznamy'`. */
  function Title(title: Option<string>): (t: string)
    ensures t != ""
  {
    if title.Some? && title.value != "" then title.value else "Záznamy"
  }

  /** What the list renders: a placeholder card, or the table of rows. */
  datatype View = Placeholder(title: string) | Table(title: string, rows: seq<Row>)

  /** Renders the list; `hoursText` gives the text of each entry's hours. The passed-in array
      is sorted in place on the way. */
  method Render(a: array<TimeEntry>, title: Option<string>, hoursText: TimeEntry -> string) returns (v: View)
    modifies a
    ensures a.Length == 0 <==> v.Placeholder?
    ensures v.title == Title(title)
    ensures NewestFirst(a[..]) && multiset(a[..]) == multiset(old(a[..]))
    ensures v.Table? ==> (|v.rows| == a.Length
      && forall k :: 0 <= k < a.Length ==> v.rows[k] == RowOf(a[k], hoursText(a[k])))
  {
    if a.Length == 0 {
      return Placeholder(Title(title));
    }
    SortNewestFirst(a);
    var rows := seq(a.Length, k requires 0 <= k < a.Length reads a => RowOf(a[k], hoursText(a[k])));
    return Table(Title(title), rows);
  }
}

=== FILE: time_tracking_tabs.dfy ===
/** The overview tabs of the time-tracking view: entries grouped under 'year-YYYY' and
    'YYYY-MM' keys, the distinct years (newest first) and month keys (in descending string
    order) they cover, the entry count and real-salary total shown per group, the expanded
    year, and the tab list (the current month first, then one tab per year). */
module TimeTrackingTabs {
  import opened Common
  import opened Sorting
  import opened Entries

  /** The dictionary of groups; an absent key is an empty group. */
  type Groups = map<string, seq<TimeEntry>>

  function Lookup(g: Groups, key: string): (r: seq<TimeEntry>)
    ensures key !in g ==> r == []
  {
    if key in g then g[key] else []
  }

  /** `groups[key].push(e)`, creating the group first when it is missing. */
  function Push(g: Groups, key: string, e: TimeEntry): Groups {
    g[key := Lookup(g, key) + [e]]
  }

  /** The dictionary the forEach loop builds: each entry pushed onto its year group and then
      onto its month group. */
  function Grouped(entries: seq<TimeEntry>): Groups {
    if entries == [] then map[]
    else
      var e := entries[|entries| - 1];
      Push(Push(Grouped(entries[..|entries| - 1]), YearKeyOf(e.date), e), MonthKeyOf(e.date), e)
  }

  /** Whether an entry belongs under `key`. */
  function InGroup(key: string): TimeEntry -> bool {
    (e: TimeEntry) => YearKeyOf(e.date) == key || MonthKeyOf(e.date) == key
  }

  /** groupedEntries. */
  method GroupEntries(entries: seq<TimeEntry>) returns (groups: Groups)
    ensures groups == Grouped(entries)
  {
    groups := map[];
    for i := 0 to |entries|
      invariant groups == Grouped(entries[..i])
    {
      var e := entries[i];
      var yearKey := YearKeyOf(e.date);
      var monthKey := MonthKeyOf(e.date);
      // a missing group starts out empty; the entry is pushed onto it
      var yearGroup := if yearKey in groups then groups[yearKey] else [];
      groups := groups[yearKey := yearGroup + [e]];
      var monthGroup := if monthKey in groups then groups[monthKey] else [];
      groups := groups[monthKey := monthGroup + [e]];
      GroupedLast(entries, i);
    }
    assert entries[..|entries|] == entries;
  }

  /** One more entry pushes it onto its year group and then onto its month group. */
  lemma GroupedLast(entries: seq<TimeEntry>, i: nat)
    requires i < |entries|
    ensures var e := entries[i];
      Grouped(entries[..i + 1]) == Push(Push(Grouped(entries[..i]), YearKeyOf(e.date), e), MonthKeyOf(e.date), e)
  {
    assert entries[..i + 1][..i] == entries[..i];
  }

  /** Every group holds exactly the entries that belong under its key, in input order. */
  lemma {:induction false} GroupedSpec(entries: seq<TimeEntry>, key: string)
    ensures Lookup(Grouped(entries), key) == Filter(entries, InGroup(key))
  {
    if entries != [] {
      var init, e := entries[..|entries| - 1], entries[|entries| - 1];
      GroupedSpec(init, key);
      GroupedStep(entries, key);
      FilterStep(entries, InGroup(key));
    }
  }

  /** The last entry joins exactly the groups it belongs under: its year and its month
      group, which differ. */
  lemma GroupedStep(entries: seq<TimeEntry>, key: string)
    requires entries != []
    ensures var init, e := entries[..|entries| - 1], entries[|entries| - 1];
      Lookup(Grouped(entries), key) == Lookup(Grouped(init), key) + (if InGroup(key)(e) then [e] else [])
  {
    var e := entries[|entries| - 1];
    YearAndMonthKeysDiffer(e.date, e.date);
  }

  lemma FilterStep<T>(s: seq<T>, p: T -> bool)
    requires s != []
    ensures Filter(s, p) == Filter(s[..|s| - 1], p) + (if p(s[|s| - 1]) then [s[|s| - 1]] else [])
  {
    var init, last := s[..|s| - 1], s[|s| - 1];
    assert s == init + [last];
    FilterAppend(init, [last], p);
    assert Filter([last], p) == Filter([], p) + (if p(last) then [last] else []);
  }

  /** A key is present exactly when some entry belongs under it. */
  lemma GroupedKeys(entries: seq<TimeEntry>, key: string)
    ensures key in Grouped(entries) <==> exists e :: e in entries && InGroup(key)(e)
  {
    GroupedSpec(entries, key);
    GroupsNonEmpty(entries, key);
    var f := Filter(entries, InGroup(key));
    if exists e :: e in entries && InGroup(key)(e) {
      var e :| e in entries && InGroup(key)(e);
      assert e in f;
    }
    if f != [] {
      assert f[0] in f;
    }
  }

  /** The dictionary holds no empty group. */
  lemma {:induction false} GroupsNonEmpty(entries: seq<TimeEntry>, key: string)
    ensures key in Grouped(entries) ==> Grouped(entries)[key] != []
  {
    if entries != [] {
      GroupsNonEmpty(entries[..|entries| - 1], key);
    }
  }

  /** getEntryCount: the size of a group, 0 for an absent key. */
  function EntryCount(g: Groups, key: string): (n: nat)
    ensures key !in g ==> n == 0
  {
    |Lookup(g, key)|
  }

  /** The count shown for a key is the number of entries that belong under it. */
  lemma EntryCountSpec(entries: seq<TimeEntry>, key: string)
    ensures EntryCount(Grouped(entries), key) == |Filter(entries, InGroup(key))|
  {
    GroupedSpec(entries, key);
  }

  // ---------------------------------------------------------------------------------------
  // availableYears, availableMonths

  /** The years of the entries whose date reads as a date, in entry order. */
  function YearsOf(entries: seq<TimeEntry>): (r: seq<int>)
    ensures forall y :: y in r <==> exists e :: e in entries && YearMonth(e.date).Some? && YearMonth(e.date).value.0 == y
  {
    if entries == [] then []
    else
      var e := entries[|entries| - 1];
      assert forall x :: x in entries <==> x in entries[..|entries| - 1] || x == e;
      YearsOf(entries[..|entries| - 1]) + (if YearMonth(e.date).Some? then [YearMonth(e.date).value.0] else [])
  }

  /** The month keys of the entries, in entry order. */
  function MonthKeysOf(entries: seq<TimeEntry>): (r: seq<string>)
    ensures |r| == |entries| && forall i :: 0 <= i < |entries| ==> r[i] == MonthKeyOf(entries[i].date)
  {
    seq(|entries|, i requires 0 <= i < |entries| => MonthKeyOf(entries[i].date))
  }

  /** The Set of years the forEach loop fills, read back in insertion order. */
  method CollectYears(entries: seq<TimeEntry>) returns (years: seq<int>)
    ensures years == Unique(YearsOf(entries))
  {
    years := [];
    for i := 0 to |entries|
      invariant years == Unique(YearsOf(entries[..i]))
    {
      var ym := YearMonth(entries[i].date);
      YearsOfStep(entries, i);
      if ym.Some? {
        assert YearsOf(entries[..i + 1]) == YearsOf(entries[..i]) + [ym.value.0];
        UniqueAppend(YearsOf(entries[..i]), ym.value.0);
        if ym.value.0 !in years {
          years := years + [ym.value.0];
        }
      } else {
        assert YearsOf(entries[..i + 1]) == YearsOf(entries[..i]);
      }
    }
    assert entries[..|entries|] == entries;
  }

  /** The years of one more entry. */
  lemma YearsOfStep(entries: seq<TimeEntry>, i: nat)
    requires i < |entries|
    ensures var ym := YearMonth(entries[i].date);
      YearsOf(entries[..i + 1]) == YearsOf(entries[..i]) + (if ym.Some? then [ym.value.0] else [])
  {
    assert entries[..i + 1][..i] == entries[..i];
  }

  /** The Set of month keys the forEach loop fills, read back in insertion order. */
  method CollectMonths(entries: seq<TimeEntry>) returns (months: seq<string>)
    ensures months == Unique(MonthKeysOf(entries))
  {
    months := [];
    for i := 0 to |entries|
      invariant months == Unique(MonthKeysOf(entries[..i]))
    {
      var key := MonthKeyOf(entries[i].date);
      assert MonthKeysOf(entries[..i + 1]) == MonthKeysOf(entries[..i]) + [key];
      UniqueAppend(MonthKeysOf(entries[..i]), key);
      if key !in months {
        months := months + [key];
      }
    }
    assert entries[..|entries|] == entries;
  }

  /** The comparator `(a, b) => b - a`. */
  function Newer(): (int, int) -> bool {
    (a: int, b: int) => a >= b
  }

  lemma NewerOrders()
    ensures TotalPreorder(Newer())
  {
  }

  /** availableYears: the distinct years, newest first. */
  function AvailableYears(entries: seq<TimeEntry>): seq<int> {
    NewerOrders();
    SortBy(Unique(YearsOf(entries)), Newer())
  }

  /** Each year of an entry appears once, and the list is strictly descending. */
  lemma AvailableYearsSpec(entries: seq<TimeEntry>)
    ensures var ys := AvailableYears(entries);
      && (forall y :: y in ys <==> exists e :: e in entries && YearMonth(e.date).Some? && YearMonth(e.date).value.0 == y)
      && (forall i, j :: 0 <= i < j < |ys| ==> ys[i] > ys[j])
  {
    NewerOrders();
    var u := Unique(YearsOf(entries));
    var ys := SortBy(u, Newer());
    SortByMembers(u, Newer());
    NoDuplicatesPermutation(u, ys);
    assert forall i, j :: 0 <= i < j < |ys| ==> ys[i] >= ys[j] && ys[i] != ys[j];
  }

  function AscendingText(): (string, string) -> bool {
    (a: string, b: string) => LexLe(a, b)
  }

  lemma AscendingTextOrders()
    ensures TotalPreorder(AscendingText())
  {
    forall a: string, b: string ensures LexLe(a, b) || LexLe(b, a) {
      LexLeTotal(a, b);
    }
    forall a: string, b: string, c: string | LexLe(a, b) && LexLe(b, c) ensures LexLe(a, c) {
      LexLeTransitive(a, b, c);
    }
  }

  /** availableMonths: the distinct month keys, sorted as strings and then reversed. */
  function AvailableMonths(entries: seq<TimeEntry>): seq<string> {
    AscendingTextOrders();
    Reverse(SortBy(Unique(MonthKeysOf(entries)), AscendingText()))
  }

  /** Each month key of an entry appears once, and every key comes after the keys that are
      greater in string order. */
  lemma AvailableMonthsSpec(entries: seq<TimeEntry>)
    ensures var ms := AvailableMonths(entries);
      && (forall k :: k in ms <==> exists e :: e in entries && MonthKeyOf(e.date) == k)
      && (forall i, j :: 0 <= i < j < |ms| ==> LexLe(ms[j], ms[i]) && ms[i] != ms[j])
  {
    AscendingTextOrders();
    var u := Unique(MonthKeysOf(entries));
    var sorted := SortBy(u, AscendingText());
    SortByMembers(u, AscendingText());
    ReverseMembers(sorted);
    forall k ensures k in u <==> exists e :: e in entries && MonthKeyOf(e.date) == k {
      MonthKeysMembers(entries, k);
    }
    NoDuplicatesPermutation(u, sorted);
    ReverseOrder(sorted);
  }

  lemma MonthKeysMembers(entries: seq<TimeEntry>, k: string)
    ensures k in MonthKeysOf(entries) <==> exists e :: e in entries && MonthKeyOf(e.date) == k
  {
    var keys := MonthKeysOf(entries);
    if k in keys {
      var i :| 0 <= i < |keys| && keys[i] == k;
      assert entries[i] in entries;
    }
    if exists e :: e in entries && MonthKeyOf(e.date) == k {
      var e :| e in entries && MonthKeyOf(e.date) == k;
      var i :| 0 <= i < |entries| && entries[i] == e;
      assert keys[i] == k;
    }
  }

  lemma ReverseMembers<T>(s: seq<T>)
    ensures forall x :: x in Reverse(s) <==> x in s
  {
    var r := Reverse(s);
    forall x ensures x in r <==> x in s {
      if x in r {
        var i :| 0 <= i < |r| && r[i] == x;
        assert s[|s| - 1 - i] == x;
      }
      if x in s {
        var i :| 0 <= i < |s| && s[i] == x;
        assert r[|s| - 1 - i] == x;
      }
    }
  }

  /** Reversing a sorted list without duplicates gives a strictly descending one. */
  lemma ReverseOrder(sorted: seq<string>)
    requires SortedBy(sorted, AscendingText()) && NoDuplicates(sorted)
    ensures var ms := Reverse(sorted);
      forall i, j :: 0 <= i < j < |ms| ==> LexLe(ms[j], ms[i]) && ms[i] != ms[j]
  {
    var ms := Reverse(sorted);
    forall i, j | 0 <= i < j < |ms| ensures LexLe(ms[j], ms[i]) && ms[i] != ms[j] {
      var n := |sorted|;
      assert ms[i] == sorted[n - 1 - i] && ms[j] == sorted[n - 1 - j];
      assert AscendingText()(sorted[n - 1 - j], sorted[n - 1 - i]);
    }
  }

  // The string order of month keys is the calendar order while years have four digits.

  /** A decimal string read from its first digit: the leading digit's weight plus the rest. */
  lemma {:induction false} DigitsValueFront(s: string)
    requires s != [] && AllDigits(s)
    ensures DigitsValue(s) == DigitValue(s[0]) * Pow10(|s| - 1) + DigitsValue(s[1..])
  {
    var n := |s|;
    if n == 1 {
      assert s[..0] == [] && s[1..] == [];
    } else {
      var init, tail := s[..n - 1], s[1..];
      DigitsValueFront(init);
      assert init[1..] == tail[..n - 2];
      assert tail[n - 2] == s[n - 1];
      var d0, p, r, dl := DigitValue(s[0]), Pow10(n - 2), DigitsValue(init[1..]), DigitValue(s[n - 1]);
      assert DigitsValue(s) == DigitsValue(init) * 10 + dl;
      assert DigitsValue(tail) == r * 10 + dl;
      FrontArith(d0, p, r, dl);
    }
  }

  lemma FrontArith(d0: int, p: int, r: int, dl: int)
    ensures (d0 * p + r) * 10 + dl == d0 * (10 * p) + (r * 10 + dl)
  {
  }

  lemma {:induction false} DigitsValueBound(s: string)
    requires AllDigits(s)
    ensures DigitsValue(s) < Pow10(|s|)
  {
    if s != [] {
      DigitsValueBound(s[..|s| - 1]);
    }
  }

  /** For decimal strings of one length, string order is numeric order. */
  lemma {:induction false} LexLeDigits(a: string, b: string)
    requires AllDigits(a) && AllDigits(b) && |a| == |b|
    ensures LexLe(a, b) <==> DigitsValue(a) <= DigitsValue(b)
  {
    if a != [] {
      if a[0] == b[0] {
        DigitsValueFront(a);
        DigitsValueFront(b);
        LexLeDigits(a[1..], b[1..]);
      } else if a[0] < b[0] {
        LeadingDigitDecides(a, b);
      } else {
        LeadingDigitDecides(b, a);
      }
    }
  }

  /** A smaller leading digit makes a smaller number of the same length. */
  lemma LeadingDigitDecides(a: string, b: string)
    requires AllDigits(a) && AllDigits(b) && |a| == |b| && a != [] && a[0] < b[0]
    ensures DigitsValue(a) < DigitsValue(b)
  {
    DigitsValueFront(a);
    DigitsValueFront(b);
    DigitsValueBound(a[1..]);
    LeadingWeight(DigitValue(a[0]), DigitValue(b[0]), Pow10(|a| - 1), DigitsValue(a[1..]), DigitsValue(b[1..]));
  }

  lemma LeadingWeight(da: nat, db: nat, p: nat, ra: nat, rb: nat)
    requires da < db && ra < p
    ensures da * p + ra < db * p + rb
  {
    MulMonotone(da + 1, db, p);
    assert (da + 1) * p == da * p + p;
  }

  lemma MulMonotone(x: nat, y: nat, p: nat)
    requires x <= y
    ensures x * p <= y * p
  {
    assert y * p == x * p + (y - x) * p;
  }

  /** Comparing two strings with prefixes of one length compares the prefixes first. */
  lemma {:induction false} LexLeConcat(a: string, b: string, x: string, y: string)
    requires |a| == |b|
    ensures LexLe(a + x, b + y) <==> if a == b then LexLe(x, y) else LexLe(a, b)
  {
    if a != [] {
      assert (a + x)[0] == a[0] && (b + y)[0] == b[0];
      assert (a + x)[1..] == a[1..] + x && (b + y)[1..] == b[1..] + y;
      LexLeConcat(a[1..], b[1..], x, y);
      if a[0] == b[0] && a[1..] == b[1..] {
        assert a == [a[0]] + a[1..] && b == [b[0]] + b[1..];
      }
    } else {
      assert a + x == x && b + y == y;
    }
  }

  lemma YearTextLength(y: nat)
    requires 1000 <= y <= 9999
    ensures |NatToString(y)| == 4
  {
    var a, b, c := y / 10, y / 100, y / 1000;
    assert a / 10 == b && b / 10 == c && c < 10 && b >= 10 && a >= 10;
    assert |NatToString(c)| == 1;
    assert |NatToString(b)| == |NatToString(c)| + 1;
    assert |NatToString(a)| == |NatToString(b)| + 1;
    assert |NatToString(y)| == |NatToString(a)| + 1;
  }

  lemma MonthTextValue(m: nat)
    requires m <= 11
    ensures |Pad2(m)| == 2 && DigitsValue(Pad2(m)) == m
  {
    Pad2RoundTrip(m);
  }

  /** For years of four digits, one month key sorts before another exactly when its month
      comes first in the calendar, so the descending string order is newest first. */
  lemma MonthKeyChronological(y1: nat, m1: nat, y2: nat, m2: nat)
    requires 1000 <= y1 <= 9999 && 1000 <= y2 <= 9999 && m1 <= 11 && m2 <= 11
    ensures LexLe(MonthKey(y1, m1), MonthKey(y2, m2)) <==> y1 < y2 || (y1 == y2 && m1 <= m2)
  {
    var a, b := NatToString(y1), NatToString(y2);
    var x, y := "-" + Pad2(m1), "-" + Pad2(m2);
    YearTextLength(y1);
    YearTextLength(y2);
    MonthKeyParts(y1, m1);
    MonthKeyParts(y2, m2);
    LexLeConcat(a, b, x, y);
    if y1 == y2 {
      MonthTextOrder(m1, m2);
    } else {
      YearTextOrder(y1, y2);
    }
  }

  lemma MonthKeyParts(y: nat, m: nat)
    ensures MonthKey(y, m) == NatToString(y) + ("-" + Pad2(m))
  {
  }

  lemma MonthTextOrder(m1: nat, m2: nat)
    requires m1 <= 11 && m2 <= 11
    ensures LexLe("-" + Pad2(m1), "-" + Pad2(m2)) <==> m1 <= m2
  {
    MonthTextValue(m1);
    MonthTextValue(m2);
    var x, y := "-" + Pad2(m1), "-" + Pad2(m2);
    assert x[0] == y[0] && x[1..] == Pad2(m1) && y[1..] == Pad2(m2);
    LexLeDigits(Pad2(m1), Pad2(m2));
  }

  lemma YearTextOrder(y1: nat, y2: nat)
    requires 1000 <= y1 <= 9999 && 1000 <= y2 <= 9999 && y1 != y2
    ensures NatToString(y1) != NatToString(y2)
    ensures LexLe(NatToString(y1), NatToString(y2)) <==> y1 < y2
  {
    YearTextLength(y1);
    YearTextLength(y2);
    NatToStringValue(y1);
    NatToStringValue(y2);
    LexLeDigits(NatToString(y1), NatToString(y2));
  }

  /** A calendar month strictly before another. */
  predicate MonthBefore(a: (int, int), b: (int, int)) {
    a.0 < b.0 || (a.0 == b.0 && a.1 < b.1)
  }

  /** With four-digit years, availableMonths lists months newest first. */
  lemma AvailableMonthsNewestFirst(entries: seq<TimeEntry>, i: nat, j: nat, e1: TimeEntry, e2: TimeEntry)
    requires forall e :: e in entries ==> YearMonth(e.date).Some? && 1000 <= YearMonth(e.date).value.0 <= 9999
    requires i < j < |AvailableMonths(entries)|
    requires e1 in entries && MonthKeyOf(e1.date) == AvailableMonths(entries)[i]
    requires e2 in entries && MonthKeyOf(e2.date) == AvailableMonths(entries)[j]
    ensures MonthBefore(YearMonth(e2.date).value, YearMonth(e1.date).value)
  {
    var ms := AvailableMonths(entries);
    assert LexLe(ms[j], ms[i]) && ms[i] != ms[j] by {
      AvailableMonthsSpec(entries);
    }
    var a, b := YearMonth(e1.date).value, YearMonth(e2.date).value;
    assert ms[i] == MonthKey(a.0, a.1) && ms[j] == MonthKey(b.0, b.1);
    KeysOrderMonths(a.0, a.1, b.0, b.1);
  }

  /** Of two distinct month keys in descending string order, the later one is the earlier
      month. */
  lemma KeysOrderMonths(ya: nat, ma: nat, yb: nat, mb: nat)
    requires 1000 <= ya <= 9999 && 1000 <= yb <= 9999 && ma <= 11 && mb <= 11
    requires LexLe(MonthKey(yb, mb), MonthKey(ya, ma)) && MonthKey(ya, ma) != MonthKey(yb, mb)
    ensures MonthBefore((yb, mb), (ya, ma))
  {
    MonthKeyChronological(yb, mb, ya, ma);
  }

  // ---------------------------------------------------------------------------------------
  // getTotalRealSalaryForYear

  /** `realSalaries[monthKey] || 0`. */
  function SalaryOf(salaries: map<string, real>, key: string): real {
    if key in salaries then salaries[key] else 0.0
  }

  /** The reduce over the month keys, summing their salaries from the left. */
  function SalarySum(salaries: map<string, real>, keys: seq<string>): real {
    if keys == [] then 0.0 else SalarySum(salaries, keys[..|keys| - 1]) + SalaryOf(salaries, keys[|keys| - 1])
  }

  /** The year's months among the available ones. */
  function MonthsOfYear(months: seq<string>, year: int): seq<string> {
    Filter(months, (k: string) => StartsWith(k, IntToString(year)))
  }

  /** getTotalRealSalaryForYear: nothing without salaries; otherwise the sum over the year's
      months, shown only when it is positive. */
  function TotalRealSalaryForYear(salaries: Option<map<string, real>>, months: seq<string>, year: int): (r: Option<real>)
    ensures salaries.None? ==> r.None?
    ensures r.Some? ==> r.value > 0.0 && r.value == SalarySum(salaries.value, MonthsOfYear(months, year))
    ensures salaries.Some? && SalarySum(salaries.value, MonthsOfYear(months, year)) > 0.0 ==> r.Some?
  {
    match salaries
    case None => None
    case Some(m) =>
      var total := SalarySum(m, MonthsOfYear(months, year));
      if total > 0.0 then Some(total) else None
  }

  /** For four-digit years, the prefix test picks exactly the months of that year. */
  lemma YearPrefixSelects(year: nat, y: nat, m: nat)
    requires 1000 <= year <= 9999 && 1000 <= y <= 9999
    ensures StartsWith(MonthKey(y, m), IntToString(year)) <==> y == year
  {
    YearTextLength(year);
    YearTextLength(y);
    MonthKeyParts(y, m);
    assert MonthKey(y, m)[..4] == NatToString(y);
    if NatToString(y) == NatToString(year) {
      NatToStringInjective(y, year);
    }
  }

  /** With no negative salaries, the total is at least the salary of each of its months. */
  lemma {:induction false} SalarySumBound(salaries: map<string, real>, keys: seq<string>, k: string)
    requires forall x :: x in salaries ==> salaries[x] >= 0.0
    requires k in keys
    ensures SalarySum(salaries, keys) >= SalaryOf(salaries, k) >= 0.0
  {
    var init := keys[..|keys| - 1];
    assert SalarySum(salaries, init) >= 0.0 by { SalarySumNonNegative(salaries, init); }
    if k != keys[|keys| - 1] {
      assert keys == init + [keys[|keys| - 1]];
      assert k in init;
      SalarySumBound(salaries, init, k);
    }
  }

  lemma {:induction false} SalarySumNonNegative(salaries: map<string, real>, keys: seq<string>)
    requires forall x :: x in salaries ==> salaries[x] >= 0.0
    ensures SalarySum(salaries, keys) >= 0.0
  {
    if keys != [] {
      SalarySumNonNegative(salaries, keys[..|keys| - 1]);
    }
  }

  /** A year with a positive salary in one of its listed months shows a total at least that
      salary. */
  lemma YearTotalShown(salaries: map<string, real>, months: seq<string>, year: int, k: string)
    requires forall x :: x in salaries ==> salaries[x] >= 0.0
    requires k in months && StartsWith(k, IntToString(year)) && SalaryOf(salaries, k) > 0.0
    ensures var r := TotalRealSalaryForYear(Some(salaries), months, year);
      r.Some? && r.value >= SalaryOf(salaries, k)
  {
    SalarySumBound(salaries, MonthsOfYear(months, year), k);
  }

  // ---------------------------------------------------------------------------------------
  // handleYearClick

  /** The year whose months are unfolded after a click on `year`. */
  function YearClicked(expanded: Option<int>, year: int): (r: Option<int>)
    ensures r == Some(year) <==> expanded != Some(year)
    ensures r != Some(year) ==> r.None?
  {
    if expanded == Some(year) then None else Some(year)
  }

  /** Two clicks on the same year restore an expanded or collapsed year. */
  lemma ClickTwice(year: int)
    ensures YearClicked(YearClicked(None, year), year) == None
    ensures YearClicked(YearClicked(Some(year), year), year) == Some(year)
  {
  }

  // ---------------------------------------------------------------------------------------
  // The tab list

  /** A tab: its value, its entries, and its year (None for the overview). */
  datatype Tab = Tab(value: string, entries: seq<TimeEntry>, year: Option<int>)

  /** The key of today's month; `today` is a calendar date of the clock. */
  function CurrentMonthKey(today: Date): string
    requires ValidDate(today)
  {
    MonthKey(today.year, today.month - 1)
  }

  function YearTab(g: Groups, y: int): Tab {
    Tab("year-" + IntToString(y), Lookup(g, "year-" + IntToString(y)), Some(y))
  }

  function TabList(entries: seq<TimeEntry>, today: Date): (tabs: seq<Tab>)
    requires ValidDate(today)
  {
    var g := Grouped(entries);
    [Tab("overview", Lookup(g, CurrentMonthKey(today)), None)] + YearTabs(g, AvailableYears(entries))
  }

  /** One tab per year, in the order of `years`. */
  function YearTabs(g: Groups, years: seq<int>): (tabs: seq<Tab>)
    ensures |tabs| == |years| && forall i :: 0 <= i < |years| ==> tabs[i] == YearTab(g, years[i])
  {
    seq(|years|, i requires 0 <= i < |years| => YearTab(g, years[i]))
  }

  /** The year tabs of the grouped entries hold exactly each year's entries. */
  lemma YearTabsSpec(entries: seq<TimeEntry>, years: seq<int>)
    ensures var tabs := YearTabs(Grouped(entries), years);
      forall i :: 0 <= i < |years| ==>
        tabs[i].year == Some(years[i])
        && tabs[i].entries == Filter(entries, InGroup("year-" + IntToString(years[i])))
  {
    forall i | 0 <= i < |years| ensures Lookup(Grouped(entries), "year-" + IntToString(years[i]))
      == Filter(entries, InGroup("year-" + IntToString(years[i]))) {
      GroupedSpec(entries, "year-" + IntToString(years[i]));
    }
  }

  /** The overview tab comes first with this month's entries; then one tab per available
      year, in the same order, each holding exactly that year's entries. */
  lemma TabListSpec(entries: seq<TimeEntry>, today: Date)
    requires ValidDate(today)
    ensures var tabs := TabList(entries, today); var years := AvailableYears(entries);
      && |tabs| == |years| + 1
      && tabs[0].value == "overview" && tabs[0].year.None?
      && tabs[0].entries == Filter(entries, InGroup(CurrentMonthKey(today)))
      && forall i :: 0 <= i < |years| ==>
        tabs[i + 1].year == Some(years[i])
        && tabs[i + 1].entries == Filter(entries, InGroup("year-" + IntToString(years[i])))
  {
    GroupedSpec(entries, CurrentMonthKey(today));
    var years := AvailableYears(entries);
    var rest := YearTabs(Grouped(entries), years);
    YearTabsSpec(entries, years);
    assert TabList(entries, today)[1..] == rest;
  }
}

=== FILE: user_management.dfy ===
/** src/components/UserManagement.tsx: the administrators' user screen. The form check before
    creating a user, the guard against deleting one's own account, and which view is shown.
    Requests, React state setters and `confirm` are not modelled; their effect on the panel
    is. */
module UserManagementView {
  import opened Common

  /** The new-user form. */
  datatype Form = Form(username: string, email: string, password: string, confirmPassword: string)

  const EmptyForm: Form := Form("", "", "", "")

  const MissingFields: string := "Prosím vyplňte všechny povinné údaje"
  const PasswordsDiffer: string := "Hesla se neshodují"
  const PasswordTooShort: string := "Heslo musí mít alespoň 6 znaků"
  const MinPasswordLength: nat := 6

  /** What `handleCreateUser` does with the form: refuse with an error (no request), or send
      a registration with these values. */
  datatype Submission = Refused(error: string) | Send(username: string, email: string, password: string)

  /** The checks of `handleCreateUser`, in their order: blank fields, then mismatch, then
      length; a passing form is sent with username and email trimmed and the password as typed. */
  function CheckNewUser(f: Form): (r: Submission)
    ensures r.Send? <==> (Trim(f.username) != "" && Trim(f.email) != "" && Trim(f.password) != "" &&
                         f.password == f.confirmPassword && Utf16Length(f.password) >= MinPasswordLength)
    ensures r.Send? ==> r == Send(Trim(f.username), Trim(f.email), f.password)
    ensures r.Refused? ==> r.error in {MissingFields, PasswordsDiffer, PasswordTooShort}
  {
    if Trim(f.username) == "" || Trim(f.email) == "" || Trim(f.password) == "" then Refused(MissingFields)
    else if f.password != f.confirmPassword then Refused(PasswordsDiffer)
    else if Utf16Length(f.password) < MinPasswordLength then Refused(PasswordTooShort)
    else Send(Trim(f.username), Trim(f.email), f.password)
  }

  /** Each error names the first failing check: a blank field wins over a mismatch, and a
      mismatch over a short password. */
  lemma CheckOrder(f: Form)
    ensures Trim(f.username) == "" || Trim(f.email) == "" || Trim(f.password) == "" ==>
      CheckNewUser(f) == Refused(MissingFields)
    ensures Trim(f.username) != "" && Trim(f.email) != "" && Trim(f.password) != "" && f.password != f.confirmPassword ==>
      CheckNewUser(f) == Refused(PasswordsDiffer)
  {
  }

  /** A password of spaces only counts as blank, so the form is refused whatever else it holds. */
  lemma BlankPasswordRefused(username: string, email: string, password: string)
    requires forall i :: 0 <= i < |password| ==> IsSpace(password[i])
    ensures CheckNewUser(Form(username, email, password, password)) == Refused(MissingFields)
  {
    TrimEmptyIff(password);
  }

  /** Yet a password with any other character is sent as typed, surrounding spaces included. */
  lemma PasswordSentUntrimmed(username: string, email: string, password: string, k: nat)
    requires Trim(username) != "" && Trim(email) != "" && Utf16Length(password) >= MinPasswordLength
    requires k < |password| && !IsSpace(password[k])
    ensures CheckNewUser(Form(username, email, password, password)) == Send(Trim(username), Trim(email), password)
  {
    TrimEmptyIff(password);
  }

  /** The length is counted in UTF-16 code units: three characters beyond the Basic
      Multilingual Plane (three emoji, say) make a password long enough. */
  lemma AstralPasswordLongEnough(username: string, email: string, password: string)
    requires Trim(username) != "" && Trim(email) != ""
    requires |password| == 3 && forall i :: 0 <= i < 3 ==> password[i] as int > 0xFFFF
    ensures CheckNewUser(Form(username, email, password, password)).Send?
  {
    assert password[..2][..1] == password[..1];
    assert Utf16Length(password[..1]) == 2;
    assert Utf16Length(password) == 6;
    assert !IsSpace(password[0]);
    TrimEmptyIff(password);
  }

  /** The dialog's state: the form, whether it is open, and the error and success lines. */
  datatype Panel = Panel(form: Form, dialogOpen: bool, error: string, success: string)

  /** The panel after a successful registration: the form is reset to four empty strings, the
      dialog closes and the success line is set. */
  function AfterCreated(p: Panel): (r: Panel)
    ensures r.form == EmptyForm && !r.dialogOpen && r.error == p.error
  {
    Panel(EmptyForm, false, p.error, "Uživatel byl úspěšně vytvořen")
  }

  /** The panel after pressing 'create': a refused form only sets the error line. */
  function OnCreate(p: Panel): (r: Panel)
    ensures CheckNewUser(p.form).Refused? ==> r == p.(error := CheckNewUser(p.form).error)
    ensures CheckNewUser(p.form).Send? ==> r == p.(error := "")
  {
    match CheckNewUser(p.form)
    case Refused(e) => p.(error := e)
    case Send(_, _, _) => p.(error := "")
  }

  // ---------------------------------------------------------------------------------------
  // Own-account guard

  /** `userId === currentUser?.id` as written: the listed id is a string, the current user's
      id is whatever JSON value the login or verify reply carried (None without a user). */
  predicate IsSelfAsWritten(rowId: string, currentId: Option<Json>) {
    currentId == Some(Str(rowId))
  }

  /** The id as the list renders it: the server stringifies ids, so a numeric id is compared
      by its decimal text. */
  function IdText(v: Json): Option<string> {
    match v
    case Str(s) => Some(s)
    case Num(n) => Some(IntToString(n))
    case _ => None
  }

  /** The intended test: the row is the current user's whatever JSON type carried the id. */
  predicate IsSelf(rowId: string, currentId: Option<Json>) {
    currentId.Some? && IdText(currentId.value) == Some(rowId)
  }

  /** What pressing delete on a row leads to: the own-account error, or the confirmation. */
  datatype DeleteStep = OwnAccount | AskConfirmation

  function DeleteAsWritten(rowId: string, currentId: Option<Json>): DeleteStep {
    if IsSelfAsWritten(rowId, currentId) then OwnAccount else AskConfirmation
  }

  /** `handleDeleteUser` with the corrected test; and the delete button is shown on every
      other row. */
  function Delete(rowId: string, currentId: Option<Json>): (r: DeleteStep)
    ensures r == OwnAccount <==> IsSelf(rowId, currentId)
    ensures IsSelfAsWritten(rowId, currentId) ==> r == OwnAccount
  {
    if IsSelf(rowId, currentId) then OwnAccount else AskConfirmation
  }

  predicate ShowDeleteButtonAsWritten(rowId: string, currentId: Option<Json>) {
    !IsSelfAsWritten(rowId, currentId)
  }

  predicate ShowDeleteButton(rowId: string, currentId: Option<Json>) {
    !IsSelf(rowId, currentId)
  }

  /** The finding, as written: against the deployed functions the signed-in admin's id is a
      JSON number while the listed ids are strings, so the admin's own row shows a delete
      button and pressing it skips the own-account error. */
  lemma OwnRowNotRecognised(id: nat)
    ensures ShowDeleteButtonAsWritten(NatToString(id), Some(Num(id)))
    ensures DeleteAsWritten(NatToString(id), Some(Num(id))) == AskConfirmation
  {
  }

  /** The corrected test hides the button on the own row and refuses before confirmation,
      whichever JSON type carried the id. */
  lemma OwnRowRecognised(id: nat)
    ensures !ShowDeleteButton(NatToString(id), Some(Num(id))) && !ShowDeleteButton(NatToString(id), Some(Str(NatToString(id))))
    ensures Delete(NatToString(id), Some(Num(id))) == OwnAccount
    ensures Delete(NatToString(id), Some(Str(NatToString(id)))) == OwnAccount
  {
  }

  /** The corrected test leaves other users' rows deletable. */
  lemma OtherRowsDeletable(rowId: string, id: nat)
    requires rowId != NatToString(id)
    ensures ShowDeleteButton(rowId, Some(Num(id))) && Delete(rowId, Some(Num(id))) == AskConfirmation
  {
  }

  // ---------------------------------------------------------------------------------------
  // Access

  datatype View = AccessDenied | UserList

  /** Only an admin loads the list and sees it; anyone else gets 'Přístup odepřen'. */
  function Screen(role: Option<string>): (r: View)
    ensures r == UserList <==> role == Some("admin")
  {
    if role == Some("admin") then UserList else AccessDenied
  }

  /** The effect that loads the users runs exactly for an admin. */
  predicate LoadsUsers(role: Option<string>) {
    role == Some("admin")
  }

  lemma LoadOnlyWhenShown(role: Option<string>)
    ensures LoadsUsers(role) <==> Screen(role) == UserList
  {
  }
}

=== FILE: users.dfy ===
/** netlify/functions/users.js: the administrators' user list. Every request except a
    preflight must carry a bearer token of a user whose stored role is 'admin'; GET lists the
    users and DELETE removes one (the database cascades to that user's time entries). */
module UsersHandler {
  import opened Common
  import opened Crypto
  import opened Store
  import opened Gate
  import opened Sorting

  /** A call: HTTP method, headers, and the body parsed as a JSON object. None stands for a
      body that `JSON.parse` rejects or reads as null; a body that parses to a number, string, boolean or array has none of the fields read from it, and
      stands as `Some(map[])`. */
  datatype Request = Request(verb: string, headers: Headers, body: Option<map<string, Json>>)

  /** A listed user: id stringified, no password hash. */
  datatype Listed = Listed(id: string, username: string, email: string, role: string, createdAt: int)

  datatype Body =
    | Empty
    | Problem(error: string, message: string)
    | Failure(error: string)
    | Users(users: seq<Listed>)
    | Note(message: string)

  datatype Outcome = Outcome(reply: Reply<Body>, db: Db)

  const Unauthorized: Reply<Body> := Reply(401, Problem("Unauthorized", "Invalid or missing token"))
  const Forbidden: Reply<Body> := Reply(403, Problem("Forbidden", "Admin privileges required"))
  const ServerError: Reply<Body> := Reply(500, Failure("Internal server error"))

  /** The admin gate: the caller's claims when the token verifies, its user still exists and
      that user's stored role is 'admin'; otherwise the 401 or 403 reply. */
  function AdminGate(h: Headers, db: Db, k: Signer, now: int): (r: Result)
    ensures r.Pass? <==> match Authenticate(h, k, now)
      case None => false
      case Some(c) => FindUser(db.users, c.userId).Some? && FindUser(db.users, c.userId).value.role == "admin"
    ensures r.Pass? ==> Authenticate(h, k, now) == Some(r.caller)
    ensures r.Stop? ==> r.reply == Unauthorized || r.reply == Forbidden
    ensures r.Stop? && r.reply == Forbidden ==>
      (Authenticate(h, k, now).Some? && FindUser(db.users, Authenticate(h, k, now).value.userId).Some?)
    ensures Authenticate(h, k, now).None? ==> r == Stop(Unauthorized)
    ensures Authenticate(h, k, now).Some? && FindUser(db.users, Authenticate(h, k, now).value.userId).None? ==>
      r == Stop(Unauthorized)
    ensures (Authenticate(h, k, now).Some? && FindUser(db.users, Authenticate(h, k, now).value.userId).Some? &&
             FindUser(db.users, Authenticate(h, k, now).value.userId).value.role != "admin") ==>
      r == Stop(Forbidden)
  {
    match Authenticate(h, k, now)
    case None => Stop(Unauthorized)
    case Some(c) =>
      match FindUser(db.users, c.userId)
      case None => Stop(Unauthorized)
      case Some(u) => if u.role != "admin" then Stop(Forbidden) else Pass(c)
  }

  datatype Result = Pass(caller: Claims) | Stop(reply: Reply<Body>)

  function ListView(u: UserRow): Listed {
    Listed(IntToString(u.id), u.username, u.email, u.role, u.createdAt)
  }

  /** `ORDER BY created_at DESC`. */
  function NewestFirst(): (UserRow, UserRow) -> bool {
    (a: UserRow, b: UserRow) => a.createdAt >= b.createdAt
  }

  lemma NewestFirstOrders()
    ensures TotalPreorder(NewestFirst())
  {
  }

  /** GET: every user, newest first, as `Listed` views. */
  function ListUsers(users: seq<UserRow>): (r: seq<Listed>)
    ensures |r| == |users|
    ensures forall i, j :: 0 <= i < j < |r| ==> r[i].createdAt >= r[j].createdAt
    ensures forall u :: u in users ==> ListView(u) in r
    ensures forall x :: x in r ==> exists u :: u in users && x == ListView(u)
  {
    NewestFirstOrders();
    var sorted := SortBy(users, NewestFirst());
    SortByMembers(users, NewestFirst());
    var r := seq(|sorted|, i requires 0 <= i < |sorted| => ListView(sorted[i]));
    ListedViews(users, sorted, r);
    r
  }

  /** The views of the sorted rows keep the order and stand for exactly the stored users. */
  lemma ListedViews(users: seq<UserRow>, sorted: seq<UserRow>, r: seq<Listed>)
    requires SortedBy(sorted, NewestFirst()) && forall u :: u in sorted <==> u in users
    requires |r| == |sorted| && forall i :: 0 <= i < |sorted| ==> r[i] == ListView(sorted[i])
    ensures forall i, j :: 0 <= i < j < |r| ==> r[i].createdAt >= r[j].createdAt
    ensures forall u :: u in users ==> ListView(u) in r
    ensures forall x :: x in r ==> exists u :: u in users && x == ListView(u)
  {
    forall i, j | 0 <= i < j < |r| ensures r[i].createdAt >= r[j].createdAt {
      assert NewestFirst()(sorted[i], sorted[j]);
    }
    forall u | u in users ensures ListView(u) in r {
      var i :| 0 <= i < |sorted| && sorted[i] == u;
      assert r[i] == ListView(u);
    }
    forall x | x in r ensures exists u :: u in users && x == ListView(u) {
      var i :| 0 <= i < |r| && r[i] == x;
      assert sorted[i] in users;
    }
  }

  /** The self-delete test as the code writes it: `userId === currentUser.userId`, strict
      equality of the body value with the token's numeric id. */
  predicate IsOwnIdAsWritten(userId: Json, callerId: int) {
    userId == Num(callerId)
  }

  /** The self-delete test as intended: the body value names the caller's row, i.e. the
      database would read it as the caller's id. */
  predicate IsOwnId(userId: Json, callerId: int) {
    IdOf(userId) == IdValue(callerId)
  }

  /** DELETE after the gate, from the body's `userId` on; `isOwn` is the self-delete test. */
  function RemoveAccount(db: Db, callerId: int, body: Option<map<string, Json>>, own: bool): (o: Outcome)
    ensures o.reply.status != 200 ==> o.db == db
  {
    match body
    case None => Outcome(ServerError, db)
    case Some(b) =>
      var userId := Field(b, "userId");
      if !Truthy(userId) then Outcome(Reply(400, Failure("Missing userId parameter")), db)
      else if own then Outcome(Reply(400, Failure("Cannot delete your own account")), db)
      else match IdOf(userId)
        case BadParam => Outcome(ServerError, db)
        case NullParam => Outcome(Reply(404, Failure("User not found")), db)
        case IdValue(id) =>
          if FindUser(db.users, id).None? then Outcome(Reply(404, Failure("User not found")), db)
          else Outcome(Reply(200, Note("User deleted successfully")), DeleteUser(db, id))
  }

  /** DELETE as written (strict equality in the self-delete test). */
  function DeleteAsWritten(db: Db, caller: Claims, body: Option<map<string, Json>>): Outcome {
    var own := body.Some? && IsOwnIdAsWritten(Field(body.value, "userId"), caller.userId);
    RemoveAccount(db, caller.userId, body, own)
  }

  /** DELETE with the intended self-delete test; the handler below uses this one. */
  function Delete(db: Db, caller: Claims, body: Option<map<string, Json>>): (o: Outcome)
    ensures FindUser(db.users, caller.userId).Some? ==> FindUser(o.db.users, caller.userId).Some?
  {
    var own := body.Some? && IsOwnId(Field(body.value, "userId"), caller.userId);
    var o := RemoveAccount(db, caller.userId, body, own);
    assert o.db != db ==> exists id :: id != caller.userId && o.db == DeleteUser(db, id);
    o
  }

  /** `exports.handler`: preflight, then the admin gate, then the method; `intended` picks the
      self-delete test DELETE applies (false: the strict equality the code writes). */
  function Route(req: Request, db: Db, k: Signer, now: int, intended: bool): (o: Outcome)
    ensures o.reply.status in {200, 400, 401, 403, 404, 405, 500}
    ensures o.reply.status != 200 ==> o.db == db
  {
    if req.verb == "OPTIONS" then Outcome(Reply(200, Empty), db)
    else match AdminGate(req.headers, db, k, now)
      case Stop(reply) => Outcome(reply, db)
      case Pass(caller) =>
        if req.verb == "GET" then Outcome(Reply(200, Users(ListUsers(db.users))), db)
        else if req.verb == "DELETE" then
          (if intended then Delete(db, caller, req.body) else DeleteAsWritten(db, caller, req.body))
        else Outcome(Reply(405, Failure("Method not allowed")), db)
  }

  /** The handler as written: DELETE applies the strict-equality self-delete test. */
  function Handle(req: Request, db: Db, k: Signer, now: int): (o: Outcome)
    ensures o.reply.status in {200, 400, 401, 403, 404, 405, 500}
    ensures o.reply.status != 200 ==> o.db == db
  {
    Route(req, db, k, now, false)
  }

  /** The handler with the intended self-delete test: the account of the signed-in caller
      survives every request. */
  function HandleCorrected(req: Request, db: Db, k: Signer, now: int): (o: Outcome)
    ensures var c := Authenticate(req.headers, k, now);
      c.Some? && FindUser(db.users, c.value.userId).Some? ==> FindUser(o.db.users, c.value.userId).Some?
    ensures o.reply.status != 200 ==> o.db == db
  {
    Route(req, db, k, now, true)
  }

  /** The two handlers differ only on DELETE. */
  lemma HandlersAgreeBesideDelete(req: Request, db: Db, k: Signer, now: int)
    requires req.verb != "DELETE"
    ensures Handle(req, db, k, now) == HandleCorrected(req, db, k, now)
  {
  }

  // ---------------------------------------------------------------------------------------
  // Properties

  /** The gate comes before the method: without a usable token every method but OPTIONS
      gets 401, an existing non-admin gets 403, and only an admin reaches the 405. */
  lemma GateBeforeMethod(req: Request, db: Db, k: Signer, now: int)
    requires req.verb != "OPTIONS"
    ensures var o := Handle(req, db, k, now);
      match Authenticate(req.headers, k, now)
      case None => o == Outcome(Unauthorized, db)
      case Some(c) =>
        match FindUser(db.users, c.userId)
        case None => o == Outcome(Unauthorized, db)
        case Some(u) =>
          (u.role != "admin" ==> o == Outcome(Forbidden, db)) &&
          (u.role == "admin" && req.verb !in {"GET", "DELETE"} ==> o.reply.status == 405)
  {
  }

  /** A token sent without the case-sensitive 'Bearer ' prefix is refused. */
  lemma MalformedHeaderRefused(req: Request, db: Db, k: Signer, now: int)
    requires req.verb != "OPTIONS"
    requires HeaderValue(req.headers).None? || !StartsWith(HeaderValue(req.headers).value, BearerPrefix)
    ensures Handle(req, db, k, now) == Outcome(Unauthorized, db)
  {
  }

  /** DELETE without a truthy `userId` is refused with 400 and changes nothing. */
  lemma DeleteNeedsId(db: Db, caller: Claims, b: map<string, Json>)
    requires !Truthy(Field(b, "userId"))
    ensures Delete(db, caller, Some(b)) == Outcome(Reply(400, Failure("Missing userId parameter")), db)
  {
  }

  /** DELETE of an id no user has is a 404 with no change; otherwise exactly that user (and
      by cascade that user's entries) is removed and the database stays consistent. */
  lemma DeleteRemovesExactlyOne(db: Db, caller: Claims, b: map<string, Json>, id: int)
    requires Valid(db)
    requires Truthy(Field(b, "userId")) && IdOf(Field(b, "userId")) == IdValue(id) && id != caller.userId
    ensures var o := Delete(db, caller, Some(b));
      (FindUser(db.users, id).None? ==> o == Outcome(Reply(404, Failure("User not found")), db)) &&
      (FindUser(db.users, id).Some? ==>
        o.reply.status == 200 && o.db == DeleteUser(db, id) && Valid(o.db) &&
        FindUser(o.db.users, id).None? &&
        forall v :: v in o.db.users <==> v in db.users && v != FindUser(db.users, id).value)
  {
    if FindUser(db.users, id).Some? {
      DeleteUserValid(db, id);
    }
  }

  /** The finding, as written: a client that sends its own id as the string the GET listing
      returns passes the self-delete test, and the admin's own account is deleted. */
  lemma SelfDeleteSlipsThrough(db: Db, admin: UserRow)
    requires Valid(db) && admin in db.users && admin.id > 0 && IsInt4(admin.id)
    ensures var o := DeleteAsWritten(db, Claims(admin.id, admin.username, admin.role),
                                     Some(map["userId" := Str(NatToString(admin.id))]));
      o.reply.status == 200 && FindUser(o.db.users, admin.id).None?
  {
    var b := map["userId" := Str(NatToString(admin.id))];
    assert Field(b, "userId") == Str(NatToString(admin.id));
    assert !IsOwnIdAsWritten(Field(b, "userId"), admin.id);
    FindUserUnique(db, admin);
    RemoveNamedAccount(db, admin.id, b);
  }

  /** DELETE past the self-delete test, naming a stored user's id as text, removes that user. */
  lemma RemoveNamedAccount(db: Db, id: nat, b: map<string, Json>)
    requires IsInt4(id) && FindUser(db.users, id).Some? && Field(b, "userId") == Str(NatToString(id))
    ensures RemoveAccount(db, id, Some(b), false) == Outcome(Reply(200, Note("User deleted successfully")), DeleteUser(db, id))
    ensures FindUser(DeleteUser(db, id).users, id).None?
  {
    IdOfStringified(id);
  }

  /** The corrected test refuses the same request before any lookup or delete. */
  lemma SelfDeleteRefused(db: Db, caller: Claims)
    requires caller.userId > 0 && IsInt4(caller.userId)
    ensures Delete(db, caller, Some(map["userId" := Str(NatToString(caller.userId))])) ==
      Outcome(Reply(400, Failure("Cannot delete your own account")), db)
  {
    var b := map["userId" := Str(NatToString(caller.userId))];
    assert Field(b, "userId") == Str(NatToString(caller.userId));
    IdOfStringified(caller.userId);
  }
}
